=== FILE: README.md ===
# Second brain: a Dafny model of the capture, deduplication and command core

This project models the core of a Telegram "second brain". Messages sent to a bot are classified by an AI model into People, Projects, Ideas or Admin. The resulting items are stored in a DynamoDB table and deduplicated by embedding similarity. Operator commands such as `/merge`, `/delete`, `/open` and `/digest` act on that table. The model covers:

- the embedding matcher that decides between updating a similar item and creating a new one (`Similarity`, `Status`, `Matcher`);
- the task linker and its task store (`Linker`, `TaskStore`);
- the event log and the item key scheme (`Events`, `Items`, `ItemIds`);
- webhook gating and command routing (`Routing`), the process action (`ProcessAction`), and the two older webhook handlers (`LegacyProcessor`, `WebhookApp`) with their classification prompts and the part of `str.format` those use (`Prompts`);
- the operator actions (`MergeAction`, `DeleteAction`, `DuplicatesAuto`, `DebugCount`, `DebugBackfill`, `Listing`), the digests (`Digest`, `BasicDigest`, `Grouping`), and their reads of recent items (`Recent`);
- the configuration helpers (`Environments`), the `.env` exporter (`LoadEnv`) and the banned-import checker (`BannedImports`).

Shared building blocks:

- `Values`: a stored item or decoded JSON object is a `Record`, a `map<string, Value>`. `Value` covers strings, ints, floats, bools, null and lists of numbers (`Vec`). Nested objects and lists of other values are not represented. `Get`, `GetOr` and `Truthy` follow Python's `.get` and truth value, and keep "absent" apart from "stored as null".
- `Table`: the table is a `map<(PK, SK), Record>`. Every change is a sequence of `Put`, `Update` (an upsert, as DynamoDB's `update_item` is) and `Delete` writes, applied in order.
- A write whose item holds a float is refused, as boto3's serialiser refuses it (`Table.Storable`).
- `Table` also models a query: the partition's keys in ascending sort-key order. Code-point order of strings agrees with DynamoDB's UTF-8 byte order.
- The order of a scan is not known in advance. So a scan is a parameter: a sequence listing every stored key once.
- Text and number helpers live in `Text`, `Numbers` and `Order`. `Tally` holds the insertion-ordered counters that Python dicts give. `Http` holds responses, and `Wrappers` holds `Option` and `Result`.

Parameters stand in for everything outside the code:

- the clock, uuid and hash draws;
- the AI classifiers, summarizers and embedders, and the vector search;
- Telegram's answer to a send, and the environment.

Each handler returns its HTTP response, the table afterwards and the messages it sends to the chat, in order. An exception that the source lets escape is an `Err`, and one it catches becomes the response the source gives for it.

The two prompt texts are held as short pieces joined by `Prompts.Concat`. This lets the verifier check each piece for braces separately; joined, they are the source's text.

Both the task linker and the embedding matcher define `derive_status` with the same mapping (packages/lambdas/task_linker/linker.py:6-13 and packages/lambdas/src/lambdas/embedding_matcher.py:279-287). The model defines it once, as `Status.DeriveStatus`.

## Model

| member | source | states |
|---|---|---|
| Similarity.Cosine | packages/lambdas/src/lambdas/embedding_matcher.py:26-35 | Cosine similarity is 0.0 when either vector is empty or has zero norm, and the quotient otherwise. |
| Similarity.ZeroVectorsNeverSimilar | packages/lambdas/src/lambdas/embedding_matcher.py:26-41 | Two zero embeddings, as stored for nameless items, always score 0.0. |
| Similarity.EmbedText | packages/lambdas/src/lambdas/embedding_matcher.py:38-53 | The empty text embeds as 1536 zeros; otherwise a missing region raises, Bedrock's embedding is used when the region is set and Bedrock succeeds, else OpenAI's. |
| Status.DeriveStatus | packages/lambdas/src/lambdas/embedding_matcher.py:279-287 | The lower-cased action "start"/"started" gives in progress, "done"/"complete" gives completed, anything else gives open. |
| Status.DeriveStatusIgnoresCase | packages/lambdas/src/lambdas/embedding_matcher.py:287 | Two actions that agree once lower-cased derive the same status. |
| Matcher.MakeVectorId | packages/lambdas/src/lambdas/embedding_matcher.py:88-90 | The vector id is `pk#sk` with every '/' replaced by '_': same length, no '/', and exactly `pk#sk` when neither key holds '/'. |
| Matcher.IndexMetadata | packages/lambdas/src/lambdas/embedding_matcher.py:105-112 | The stored metadata holds pk, sk, category, name and status plus the caller's entries; the caller's entries win; pk, sk and status default to the key and "open"; a falsy name is stored as "". |
| Matcher.IndexVector | packages/lambdas/src/lambdas/embedding_matcher.py:93-115 | `index_vector` adds or replaces exactly one entry, under the item's vector id, holding the embedding; every other entry is unchanged. |
| Matcher.HitKey | packages/lambdas/src/lambdas/embedding_matcher.py:164-168 | A hit names a table key only when its pk and sk are both truthy. |
| Matcher.FindSimilarItem | packages/lambdas/src/lambdas/embedding_matcher.py:156-174 | Only the best hit counts: a match needs its score to reach the threshold (inclusive) and the item it names to exist; a malformed key raises; otherwise no match. |
| Matcher.FindSimilarReadsFirstHitOnly | packages/lambdas/src/lambdas/embedding_matcher.py:160 | Hit lists that agree on their first hit give the same result. |
| Matcher.UpdateChanges | packages/lambdas/src/lambdas/embedding_matcher.py:184-196 | `update_item` sets exactly status, next_action, notes, updated_at and original_text. |
| Matcher.UpdateItem | packages/lambdas/src/lambdas/embedding_matcher.py:177-197 | `update_item` is refused, with nothing changed, iff one of the five values is a float. Otherwise it touches only the item at the key: it sets the five attributes (status defaulting to "open"), keeps the item's other attributes and leaves every other item as it was. |
| Matcher.UpdateRefusesFloats | packages/lambdas/src/lambdas/embedding_matcher.py:189-195 | The update is refused exactly when the status (default "open"), next action, notes or original text it sets is a float. |
| Matcher.CreateItem | packages/lambdas/src/lambdas/embedding_matcher.py:200-235 | `create_item` succeeds iff the data has an original text, that text is not a list (it is hashed for the sort key), and the new item holds no float. It then puts the new item under CATEGORY#category with the timestamp/category/hash sort key and indexes its embedding. |
| Matcher.NewItemStorable | packages/lambdas/src/lambdas/embedding_matcher.py:207-222 | A new item can be written iff neither its category nor any attribute copied from the data is a float; the embedding is written as decimals and never blocks it. |
| Matcher.NewItemFacts | packages/lambdas/src/lambdas/embedding_matcher.py:208-220 | The new item carries its own key, its embedding, the data's status (default "open"), category, original text and creation time. |
| Matcher.NewEntryFacts | packages/lambdas/src/lambdas/embedding_matcher.py:224-233 | The new index entry names the item's key and its category. |
| Matcher.CreatePreservesInvariants | packages/lambdas/src/lambdas/embedding_matcher.py:200-235 | Creating keeps every item stored under its own PK/SK and every index entry filed under its category's partition. |
| Matcher.UpdateMatched | packages/lambdas/src/lambdas/embedding_matcher.py:262-273 | The update branch succeeds iff the matched item carries a stored PK/SK, the update can be written and the stored embedding can be read. It writes the matched item under its own key, leaves the index alone and reports "updated" with the item's sort key. The similarity is the cosine against the stored embedding, or 0.0 when that is empty. |
| Matcher.StoredEmbedding | packages/lambdas/src/lambdas/embedding_matcher.py:264 | An absent embedding reads as empty and a list reads as itself. A string is read character by character and succeeds iff every character is a digit. Any other value raises. |
| Matcher.SaveWithEmbeddingMatching | packages/lambdas/src/lambdas/embedding_matcher.py:238-276 | A save needs category and original text. It updates iff the named item's best hit matches a stored item, and creates otherwise. It writes exactly one key, changes no other item and reports that key's sort key. A creation reports similarity 0.0 in the category's partition; an update hits an existing item and adds only the five attributes. |
| Matcher.SaveToDynamoDbWithEmbedding | packages/lambdas/src/lambdas/embedding_matcher.py:290-302 | The status derived from the action word is both stored on the written item and echoed in the answer. |
| Matcher.SaveStatusStored | packages/lambdas/src/lambdas/embedding_matcher.py:191-212 | Whether it creates or updates, the written item carries the data's status. |
| Matcher.NamelessSkipsSearch | packages/lambdas/src/lambdas/embedding_matcher.py:252-254 | A nameless item's outcome does not depend on the embedder, the search or the threshold; it is always created with the zero embedding. |
| Matcher.UpdateOnlyAboveThreshold | packages/lambdas/src/lambdas/embedding_matcher.py:256-263 | An update only happens for a named item whose best search hit reaches the threshold and names a stored item, and the item updated is that one. |
| Matcher.UpdateWhenFirstHitMatches | packages/lambdas/src/lambdas/embedding_matcher.py:256-270 | Conversely, in a keyed table a named item whose best hit reaches the threshold and names a stored item updates that item, provided the update can be written and the stored embedding read. |
| Matcher.SaveStaysInCategory | packages/lambdas/src/lambdas/embedding_matcher.py:238-276 | With a search that honours its category filter, a save only writes into its own category's partition and keeps the table keyed and the index consistent. |
| TaskStore.MakeTaskKeys | packages/lambdas/task_linker/task_store.py:20-21 | The keys are "USER#" + user id and "TASK#" + task id; both ids can be read back from them. |
| TaskStore.MakeTaskKeysInjective | packages/lambdas/task_linker/task_store.py:20-21 | Distinct (user, task) pairs never share keys. |
| TaskStore.OpenTaskKeys | packages/lambdas/task_linker/task_store.py:24-31 | The query's sort keys are sorted, distinct, and are exactly the user's "TASK#" keys whose status is not "completed". |
| TaskStore.ListOpenTasks | packages/lambdas/task_linker/task_store.py:24-31 | `list_open_tasks` returns one stored, not-completed item per such key, in sort-key order. |
| TaskStore.ListOpenTasksExactly | packages/lambdas/task_linker/task_store.py:29 | A stored task of the user is listed iff its status is not "completed" (a task without a status is listed). |
| TaskStore.UpdateTaskStatus | packages/lambdas/task_linker/task_store.py:34-41 | `update_task_status` sets that task's status (creating the item when absent), keeps its other attributes and leaves every other item alone. |
| TaskStore.TaskItem | packages/lambdas/task_linker/task_store.py:46-56 | The new task item is stored under its own keys. |
| TaskStore.CreateTask | packages/lambdas/task_linker/task_store.py:44-57 | `create_task` returns the new id and adds exactly one item, under that id's keys; nothing else changes. |
| TaskStore.CreatedTaskListed | packages/lambdas/task_linker/task_store.py:29-57 | A new task shows up among its user's open tasks iff it was not created completed. |
| Linker.TaskScore | packages/lambdas/task_linker/linker.py:24-26 | A task without a truthy embedding is skipped. A truthy embedding that is not a vector raises, and so does a score that raises; otherwise the task gets that score. |
| Linker.TaskScores | packages/lambdas/task_linker/linker.py:23-26 | Scoring succeeds iff every task scores, and then gives each task's score in order. A failure carries the error of a task whose scoring raised. |
| Linker.Top | packages/lambdas/task_linker/linker.py:21-29 | The best score is at least 0.0 and no smaller than any score, and it is either 0.0 or one of the scores: the greatest positive score, else 0.0. |
| Linker.Pick | packages/lambdas/task_linker/linker.py:21-29 | The kept task is the first whose score equals the best score; there is none iff no score is positive. |
| Linker.SelectBest | packages/lambdas/task_linker/linker.py:21-29 | The loop ends with the task and score of `Pick` and `Top`: a best score of at least 0.0 and no smaller than any score; the best task is the first whose score equals it, and exists only when that score is positive. |
| Linker.EarlierScoreLower | packages/lambdas/task_linker/linker.py:27 | Every embedded task before the chosen one scores strictly less than it, because only a strictly greater score replaces the best. |
| Linker.Choose | packages/lambdas/task_linker/linker.py:21-37 | Given each open task's score, it fails iff the kept task scores above 0.85 and has no "taskId". On success the confidence is the best score (0.0 when no score is positive), and the result is a match iff some task is kept with a score above 0.85. The confidence bounds every embedded task's score; a match scores strictly above 0.85, is the first listed task with that score (every embedded task before it scores strictly less), and only its status is rewritten; otherwise the new task is written with the given id, and the confidence is at most 0.85. |
| Linker.LinkTask | packages/lambdas/task_linker/linker.py:16-37 | A failing embedder or a failing score is the result's error. Once both succeed, linking fails iff the kept task scores above 0.85 and has no "taskId"; on success the confidence is the best score, and the result is a match iff the kept task scores above 0.85. The confidence bounds every scored task. A match needs a score strictly above 0.85, is the first task reaching the best score, and updates exactly that task's status to the derived status; otherwise a task is created with the derived status and the message's embedding. |
| Linker.Handler | packages/lambdas/task_linker/linker.py:40-58 | 400 iff the message text is falsy. 200 iff linking succeeded, which needs the embedding and every score. An embedding or scoring failure gives 500 with its error. An action that is not a string gives 500 with `derive_status`'s AttributeError only after the embedding and every score succeeded. When the text and the action are strings and the embedding and every score succeed, the answer is 200 iff the kept task does not lack a "taskId", and it reports the best score as the confidence. On any failure the store is untouched, and a created task is stored under the user's keys. |
| Linker.CosineAsWritten | packages/lambdas/task_linker/similarity.py:4-8 | As written, the score of the float message embedding against a stored embedding, which comes back as decimals, always raises: `TypeError` iff both are non-empty, else `ZeroDivisionError`. |
| Linker.ScoresAsWrittenFail | packages/lambdas/task_linker/linker.py:23-26 | As written, a single open task with a truthy embedding makes scoring fail. |
| Linker.LinkTaskAsWritten | packages/lambdas/task_linker/linker.py:16-37 | As written, `link_task` fails for every user with an open task that has an embedding. |
| Linker.TaskCosine | packages/lambdas/task_linker/similarity.py:4-8 | The intended score raises iff either vector is empty or zero (the unguarded division), and otherwise equals `Similarity.Cosine`. |
| Linker.IntendedScoresSucceed | packages/lambdas/task_linker/linker.py:23-26 | With the intended score, a non-zero message embedding and non-zero stored embeddings, every open task is scored. |
| Events.NewMessageClassified | packages/lambdas/src/lambdas/events.py:60-62 | A classification event can be built iff its confidence lies in [0, 1]. |
| Events.NewMessageSimilar | packages/lambdas/src/lambdas/events.py:97-100 | A similarity event can be built iff its score and threshold both lie in [0, 1]. |
| Events.ReceivedKeysDistinct | packages/lambdas/src/lambdas/events.py:46-50 | Received messages sharing a key share source, receipt time and source id (when the receipt time holds no '#'). |
| Events.ClassifiedKeysCollide | packages/lambdas/src/lambdas/events.py:77-87 | Two classification events with the same classification time get the same key, whatever their source or message. |
| Events.WithOptional | packages/lambdas/src/lambdas/events.py:162-163 | An optional attribute is added iff it is set and non-empty; every other attribute is unchanged. |
| Events.BaseRecord | packages/lambdas/src/lambdas/events.py:145-150 | Every stored event carries exactly pk, sk, event_type and timestamp from its key and fields. |
| Events.ToRecord | packages/lambdas/src/lambdas/events.py:145-194 | The written item holds the base attributes, with the event's key, type and timestamp. |
| Events.OptionalFieldsWrittenWhenSet | packages/lambdas/src/lambdas/events.py:162-194 | chat_id, similar_event_sk, linked_item_pk and linked_item_sk are written iff set and non-empty. |
| Events.AppendEvent | packages/lambdas/src/lambdas/events.py:135-199 | `append_event` puts the event's item at its key and changes nothing else in the log. |
| Events.AppendIdempotent | packages/lambdas/src/lambdas/events.py:197 | Appending the same event twice is the same as appending it once. |
| Events.ClassifiedOverwrites | packages/lambdas/src/lambdas/events.py:82-87 | Of two classification events with equal classification times, the second silently replaces the first. |
| Events.RecordRoundTrip | packages/lambdas/src/lambdas/events.py:145-194 | The stored item holds the whole event: reading it back gives the event, with empty optional fields read as unset. |
| Events.ReadKind | packages/lambdas/src/lambdas/events.py:152-194 | Outside the base attributes, the item holds exactly the kind's own fields. |
| Events.ReceivedRoundTrip | packages/lambdas/src/lambdas/events.py:153-163 | The round trip for a received message. |
| Events.ClassifiedRoundTrip | packages/lambdas/src/lambdas/events.py:165-176 | The round trip for a classification event. |
| Events.SimilarRoundTrip | packages/lambdas/src/lambdas/events.py:178-194 | The round trip for a similarity event. |
| Events.SimilarCoreRead | packages/lambdas/src/lambdas/events.py:179-188 | The similarity core fields read back as the event's values. |
| Events.SimilarFieldsRead | packages/lambdas/src/lambdas/events.py:179-194 | The similarity fields, with the optional ones, read back as the event's values. |
| Items.ProfileHasNoHash | packages/lambdas/src/lambdas/domain/model/items.py:114-121 | The default sort key "PROFILE" parses as itself with no sequence number. |
| Items.CategoryName | packages/lambdas/src/lambdas/domain/model/items.py:170-347 | Each category's partition-key name is non-empty and holds no '#'. |
| Items.CategoryNameInjective | packages/lambdas/src/lambdas/domain/model/items.py:170-347 | Distinct categories have distinct partition-key names. |
| Items.BuildPk | packages/lambdas/src/lambdas/domain/model/items.py:58-69 | `build_pk` is the category, '#', then the item id. |
| Items.ParsePk | packages/lambdas/src/lambdas/domain/model/items.py:71-84 | `parse_pk` raises iff the key holds no '#'; otherwise it splits at the first '#' and building from the parts gives the key back. |
| Items.ParsePkRoundTrip | packages/lambdas/src/lambdas/domain/model/items.py:58-84 | A key built from a '#'-free category parses back to that category and item id. |
| Items.BuildSk | packages/lambdas/src/lambdas/domain/model/items.py:86-102 | `build_sk` is the type alone, or the type, '#' and the decimal sequence number. |
| Items.ParseSk | packages/lambdas/src/lambdas/domain/model/items.py:104-121 | `parse_sk` gives a number iff the key has a '#' and the text after the first '#' is an integer; the type is then the text before it; otherwise the whole key comes back with no number. |
| Items.ParseSkRoundTrip | packages/lambdas/src/lambdas/domain/model/items.py:86-121 | A sort key built from a '#'-free type parses back to that type and number. |
| Items.DefaultItem | packages/lambdas/src/lambdas/domain/model/items.py:24-50 | An item with the class defaults has a valid confidence and the PROFILE sort key. |
| Items.ItemId | packages/lambdas/src/lambdas/domain/model/items.py:166-167 | A non-empty given id is used; otherwise the first 8 characters of the drawn uuid. |
| Items.Create | packages/lambdas/src/lambdas/domain/model/items.py:137-180 | A factory succeeds iff the confidence lies in [0, 1], and builds the item under `category#id` with sort key PROFILE, the category's name, and exactly the given name, status, confidence, next action, notes, timestamps and original text. |
| Items.CreatedKeysDistinct | packages/lambdas/src/lambdas/domain/model/items.py:60-69 | Items of different categories or with different ids never share a partition key. |
| Routing.FirstSelecting | packages/lambdas/src/lambdas/processor.py:80-81 | The loop stops at the first entry whose prefix is absent or starts the text, and finds none iff no entry does. |
| Routing.Route | packages/lambdas/src/lambdas/processor.py:26-37 | The chosen command belongs to the first dispatch entry selecting the text. |
| Routing.DispatchTotal | packages/lambdas/src/lambdas/processor.py:36 | Every text selects some entry, because the last one has no prefix. |
| Routing.PlainTextIsProcessed | packages/lambdas/src/lambdas/processor.py:26-37 | A text goes to the process action iff it starts with none of the command prefixes. |
| Routing.DuplicatesAutoWins | packages/lambdas/src/lambdas/processor.py:32-33 | "/debug duplicates-auto" also starts with "/debug duplicates", yet goes to the duplicates-auto action, which is listed first. |
| Routing.Handle | packages/lambdas/src/lambdas/processor.py:40-96 | A wrong secret gives 403 when one is configured; an undecodable body gives 500; an empty text gives 200 "No text to process"; a text that is not a string gives 500; otherwise the routed action's response, or 500 when it fails. |
| Routing.HandleAsWritten | packages/lambdas/src/lambdas/processor.py:80-96 | As written, every authorized request with a non-empty text ends in 500. |
| Routing.DispatchFinding | packages/lambdas/src/lambdas/processor.py:80-85 | For a correctly signed "/open" request, the code as written answers 500 while the corrected handler returns the action's response. |
| ItemIds.IdOf | packages/lambdas/src/lambdas/actions/debug_duplicates_auto.py:43 | The id taken from a sort key is the text before its first '#', which the key starts with. |
| ItemIds.HasIdIffIdOf | packages/lambdas/src/lambdas/actions/delete.py:14 | For an id without '#', "the SK starts with id + '#'" holds iff the SK has a '#' and the text before the first one is the id. |
| DeleteAction.FirstWith | packages/lambdas/src/lambdas/actions/delete.py:13-17 | The scan stops at the first key carrying the id; none is found iff no key carries it. |
| DeleteAction.Handle | packages/lambdas/src/lambdas/actions/delete.py:4-20 | Always 200 "Delete command processed"; a command without exactly one argument only replies with the usage; otherwise it replies Deleted iff some stored item carries the id, removing exactly the first such item in scan order, and NotFound iff none does. |
| MergeAction.MergedNotes | packages/lambdas/src/lambdas/actions/merge.py:30-43 | The merged notes start with FROM's part when FROM has notes and end with INTO's part when INTO has notes, joined by a blank line when both do; with neither, INTO's notes are written back. |
| MergeAction.MergedStatus | packages/lambdas/src/lambdas/actions/merge.py:44 | The status is FROM's, else INTO's, else "open". |
| MergeAction.MergeEffect | packages/lambdas/src/lambdas/actions/merge.py:36-48 | Merging two distinct stored items removes FROM, sets only INTO's notes and status, and leaves every other item as it was. |
| MergeAction.LastPlaying | packages/lambdas/src/lambdas/actions/merge.py:15-20 | The last scanned key matching a role is found, or none iff no key matches. |
| MergeAction.LocateIsLast | packages/lambdas/src/lambdas/actions/merge.py:15-20 | The scan loop ends holding the last key matching FROM and the last key matching INTO but not FROM. |
| MergeAction.Handle | packages/lambdas/src/lambdas/actions/merge.py:4-51 | Always 200 "Merge command processed"; without exactly two arguments only the usage is sent; a missing FROM or INTO replies NotFound and changes nothing; otherwise the two found, distinct items are merged; the table changes only on a merge. |
| MergeAction.SameIdNeverMerges | packages/lambdas/src/lambdas/actions/merge.py:17-20 | `/merge X X` never merges: an item matching X is taken as FROM, so nothing is left to be INTO. |
| ProcessAction.AtLeast | packages/lambdas/src/lambdas/actions/process.py:17 | `confidence >= 60` compares numbers (and bools) and raises on anything else. |
| ProcessAction.Prefix | packages/lambdas/src/lambdas/actions/process.py:31 | `text[:50]` is the first min(50, length) characters. |
| ProcessAction.NameLine | packages/lambdas/src/lambdas/actions/process.py:25-26 | The name line is added iff the result's name is truthy. |
| ProcessAction.Handle | packages/lambdas/src/lambdas/actions/process.py:6-35 | A result is saved iff its confidence is at least 60; the reply is "updated" iff the save says so, otherwise "saved as", with the name line when named; below 60 nothing is saved and the reply quotes the first 50 characters; always 200. |
| LegacyProcessor.Unfence | lambda/processor.py:86-89 | A reply starting with the JSON fence loses its first 7 and last 3 characters and is stripped; any other reply is kept. |
| LegacyProcessor.UnfenceRoundTrip | lambda/processor.py:88-89 | Unfencing a fenced payload gives the stripped payload back. |
| LegacyProcessor.Trunc | lambda/processor.py:183 | `int()` of a float truncates toward zero: the result is within one of the input, on the zero side. |
| LegacyProcessor.Clamp | lambda/processor.py:187 | The clamped confidence lies in [0, 100], and one already in range is kept. |
| LegacyProcessor.NormalizeConfidence | lambda/processor.py:180-187 | An int is clamped; a float is truncated and clamped; a string is parsed, truncated and clamped, or 0 when it does not parse; null or a list gives 0; `True` stays `True`. |
| LegacyProcessor.NormalizeConfidenceIdempotent | lambda/processor.py:180-187 | Normalising a normalised confidence changes nothing. |
| LegacyProcessor.ProcessMessage | lambda/processor.py:166-189 | With each provider standing for its whole call, prompt formatting included: succeeds iff Anthropic answers, or OpenAI does with its key set; the result is the answer with the original text and the normalised confidence added and every other field kept. |
| LegacyProcessor.SaveToDynamoDb | lambda/processor.py:139-163 | Saves iff the category, original text and confidence are present, the original text is hashable (not a list) and the item holds no float. It then puts exactly one item under the new key; otherwise the table is unchanged. |
| LegacyProcessor.LegacyItemStorable | lambda/processor.py:145-158 | The saved item can be written iff no attribute it copies from the answer is a float. |
| LegacyProcessor.FloatNameNotSaved | lambda/processor.py:150-163 | An answer whose name is a float is not saved, and the table is unchanged. |
| LegacyProcessor.Handle | lambda/processor.py:192-253 | Wrong secret gives 403; empty text gives 200 with nothing sent. A truthy text that cannot be sliced (a number or bool) gives 500 at the log line. 500 iff classification fails, with nothing changed. Otherwise one reply goes to the chat: "low confidence" iff the confidence is below 60, "saved" iff the save succeeds. The table changes only on a save. |
| LegacyProcessor.SilentProvidersSaveNothing | lambda/processor.py:166-174 | With providers that never answer, nothing is saved or sent, and every authorised message with text gets 500. |
| LegacyProcessor.AsWrittenSavesNothing | lambda/processor.py:40-58 | As written, the prompt cannot be formatted, so the handler never saves or replies and answers 500 to every authorised message with text. |
| LegacyProcessor.VerifyWebhookSecret | lambda/processor.py:61-65 | The token is accepted iff a secret is configured and it equals the token. |
| WebhookApp.Unfence | processor/app.py:87-89 | A reply starting with the JSON fence loses its first 7 and last 3 characters, without stripping; any other reply is kept. |
| WebhookApp.UnfenceRoundTrip | processor/app.py:88-89 | Unfencing a fenced payload gives the payload back exactly. |
| WebhookApp.VerifyWebhook | processor/app.py:59-66 | Without a configured secret every request passes; with one, the request passes iff its HMAC-SHA256 digest matches. |
| WebhookApp.ClassifyWithAi | processor/app.py:68-122 | With each provider standing for its whole call, prompt formatting included: Claude's answer when it is enabled and succeeds, else OpenAI's when it is enabled and succeeds; none iff neither gives one. |
| WebhookApp.FailingProvidersNeverClassify | processor/app.py:68-122 | When both providers raise, there is no classification. |
| WebhookApp.AsWrittenNeverClassifies | processor/app.py:32-56 | As written, formatting the prompt raises in both providers, so there is never a classification. |
| WebhookApp.Compact | processor/app.py:144 | The compact timestamp holds no '-', ':' or '.'. |
| WebhookApp.RemoveKeeps | processor/app.py:144 | Removing a character only drops characters. |
| WebhookApp.StoreBrainItem | processor/app.py:138-169 | Stores iff the classification has a category and the item holds no float. It then puts exactly one new item under the category's partition; otherwise the table is unchanged. |
| WebhookApp.BrainItemStorable | processor/app.py:146-161 | The item can be written iff none of category, name, status, next action, notes and confidence is a float. |
| WebhookApp.FloatConfidenceNotStored | processor/app.py:155-169 | A confidence of 85.5 passes the gate but is not stored, and the table is unchanged. |
| WebhookApp.BrainItemShape | processor/app.py:146-159 | The stored item is created and updated at the same instant; its SK splits at the first '#' into the timestamp and its compact form; absent fields get "Untitled", "open" and "". |
| WebhookApp.MessageText | processor/app.py:194-202 | A message's stripped text, the voice placeholder for a voice message, nothing for any other message; a non-string text raises. |
| WebhookApp.LambdaHandler | processor/app.py:172-243 | A failed signature gives 403 and does nothing; 400 iff the body is not JSON; a body without a message gives 200 with nothing sent. "Empty message" iff the message's stripped text is empty, and "Unsupported" iff it has neither text nor voice. Any other text, or the voice placeholder, goes on to classification. Only a success changes the table, and then exactly one stored reply is sent; every status is 200, 400, 403 or 500. |
| WebhookApp.Incoming | processor/app.py:176-191 | A message is read only from a verified request whose body decodes to an update with a message whose chat has an id. |
| WebhookApp.LambdaHandlerStores | processor/app.py:204-231 | A message classified with enough confidence, a category and no float field is stored under its category, and the chat gets the stored reply. |
| WebhookApp.AsWrittenNeverStores | processor/app.py:204-210 | As written, the handler never stores an item and never succeeds. |
| WebhookApp.Classified | processor/app.py:204-236 | No classification sends the failure and gives 500. Low confidence iff the confidence compares below 60. Success iff it reaches 60, a category is present and the item can be written; then the item is stored and the stored reply sent. "Storage failed" iff the item cannot be written. Nothing else changes the table. |
| Prompts.FormatBraceFree | lambda/processor.py:81 | `str.format` copies text without braces unchanged. |
| Prompts.MessageField | lambda/processor.py:58 | The `{message}` field is replaced by the message. |
| Prompts.Doubled | processor/app.py:82 | A doubled brace gives one brace. |
| Prompts.AsWrittenFails | lambda/processor.py:48-58 | A template whose first field is a JSON object between single braces raises `KeyError` with the text before the object's first ':' as the field name. |
| Prompts.EscapedFormats | lambda/processor.py:48-58 | With the JSON braces doubled, formatting gives the intended prompt with the message in place. |
| Prompts.LegacyPromptFails | lambda/processor.py:40-58 | `CLASSIFICATION_PROMPT.format(message=m)` raises `KeyError('\n    "category"')` for every message. |
| Prompts.AppPromptFails | processor/app.py:32-56 | `AI_CLASSIFICATION_PROMPT.format(message=m)` raises the same `KeyError` for every message. |
| Prompts.LegacyPartsPlain | lambda/processor.py:40-58 | The legacy prompt's text around the JSON braces holds no other brace. |
| Prompts.AppPartsPlain | processor/app.py:32-56 | The same for the app prompt. |
| Prompts.LegacyPromptedSilent | lambda/processor.py:68-122 | A provider behind the legacy prompt as written never answers. |
| Prompts.AppPromptedRaises | processor/app.py:73-95 | A provider behind the app prompt as written always fails with that `KeyError`. |
| Prompts.EscapedPromptedIsCall | lambda/processor.py:68-122 | Behind an escaped template, a provider is exactly its call on the message. |
| Prompts.EscapedPromptedResultIsCall | processor/app.py:73-120 | The same for providers whose failures are exceptions. |
| DebugCount.Pairs | packages/lambdas/src/lambdas/actions/debug_count.py:19-20 | Each scanned item contributes its category (default "Unknown") and status (default "none"), in scan order. |
| DebugCount.Inner | packages/lambdas/src/lambdas/actions/debug_count.py:22-23 | A category's status tally has distinct statuses and is empty for a category never seen. |
| DebugCount.BumpIn | packages/lambdas/src/lambdas/actions/debug_count.py:22-26 | Counting one item adds one to its category's tally under its status, adds the category if new, and leaves every other category's tally alone. |
| DebugCount.CountItems | packages/lambdas/src/lambdas/actions/debug_count.py:12-28 | The nested counts hold, for every category and status, exactly the number of scanned items having both; each category's tally is the counting loop over that category's statuses, so its statuses appear in the order the scan first met them; the categories are exactly those seen; the total is the number of items; empty iff nothing was scanned. |
| DebugCount.BumpInStatuses | packages/lambdas/src/lambdas/actions/debug_count.py:18-26 | Counting one more item keeps every category's tally equal to the counting loop over that category's statuses. |
| DebugCount.BumpInCounts | packages/lambdas/src/lambdas/actions/debug_count.py:18-26 | One more counted item keeps the nested counts equal to the multiset of (category, status) pairs. |
| DebugCount.InnerEntry | packages/lambdas/src/lambdas/actions/debug_count.py:50 | The tally found for a category is the one stored with it. |
| DebugCount.SameEntriesSameInner | packages/lambdas/src/lambdas/actions/debug_count.py:50 | Two well-formed tables with the same entries give every category the same tally, whatever their order. |
| DebugCount.SortedKeepsCounts | packages/lambdas/src/lambdas/actions/debug_count.py:50-56 | Reordering the categories keeps every count and the grand total. |
| DebugCount.SortedGroups | packages/lambdas/src/lambdas/actions/debug_count.py:50 | Sorting raises only when some category is not a string; otherwise it keeps every count and orders the categories. |
| DebugCount.ReportOn | packages/lambdas/src/lambdas/actions/debug_count.py:43-58 | A list-valued category or status raises (it cannot be a dict key). Otherwise, when every category is a string, the report counts every item once under its category and status, with the grand total equal to the number of items and sorted categories. |
| DebugCount.Handle | packages/lambdas/src/lambdas/actions/debug_count.py:31-61 | No message gives 400; an empty scan sends the failure text. A list-valued category or status raises. Otherwise, when every category is a string, one report describing all scanned items is sent with 200: each category's block is the reference block computed from the items (header with the category's item count, then one line per status in first-seen order with its count, "none" shown as "no status"). |
| DebugCount.ReportBlocks | packages/lambdas/src/lambdas/actions/debug_count.py:48-58 | In a report describing the items, every category's block of lines equals the reference block computed from the items alone: the header with the number of items in that category, then one "   • label: count" line per distinct status in the order first met. |
| DebugBackfill.Puts | packages/lambdas/src/lambdas/actions/debug_backfill.py:26-30 | One put per read item, writing it back as read. |
| DebugBackfill.RePutIsNoop | packages/lambdas/src/lambdas/actions/debug_backfill.py:30 | Writing the read items back leaves the table unchanged. |
| DebugBackfill.Statuses | packages/lambdas/src/lambdas/actions/debug_backfill.py:27 | Each read item's status, "none" when it has none. |
| DebugBackfill.SortedTally | packages/lambdas/src/lambdas/actions/debug_backfill.py:26-42 | The sorted tally counts each status exactly as often as it occurs, lists exactly the statuses seen, in ascending order when there are several, and fails only when a status is not a string. |
| DebugBackfill.Report | packages/lambdas/src/lambdas/actions/debug_backfill.py:8-44 | The start message is sent first in every case, and is the only message when the report raises. A list-valued status raises. No read item gives "no items". Otherwise the completion message gives the number of read items and exactly one line per status read, with the number of items having it ("none" shown as "no status"); sorting statuses that are not all strings raises. |
| DebugBackfill.CompleteShowsStatuses | packages/lambdas/src/lambdas/actions/debug_backfill.py:36-43 | The completion lines after the three opening lines show each status read with its count, and nothing else. |
| DebugBackfill.Handle | packages/lambdas/src/lambdas/actions/debug_backfill.py:6-44 | The table is unchanged. The start message is always sent, also when the report then raises; the replies and the error are the report on the statuses of the items read since the start date. |
| DuplicatesAuto.IdIndex | packages/lambdas/src/lambdas/actions/debug_duplicates_auto.py:107-109 | Every read item's id is indexed, and each id maps to the last read item carrying it. |
| DuplicatesAuto.IdIndexSnoc | packages/lambdas/src/lambdas/actions/debug_duplicates_auto.py:108-109 | One more item keeps the index mapping each id to the last item carrying it. |
| DuplicatesAuto.IndexedAreRead | packages/lambdas/src/lambdas/actions/debug_duplicates_auto.py:107-109 | The index only holds items that were read. |
| DuplicatesAuto.Find | packages/lambdas/src/lambdas/actions/debug_duplicates_auto.py:117-118 | Looking up an id raises iff it is a list (unhashable), finds an item iff it is an indexed string, and then the indexed item. |
| DuplicatesAuto.Step | packages/lambdas/src/lambdas/actions/debug_duplicates_auto.py:111-152 | An action merges iff it is "merge" with both ids present and found; deletes iff it is "delete" with FROM found; counts as kept iff it is "keep"; only merges and deletes write, and a delete removes exactly the indexed FROM item. |
| DuplicatesAuto.ApplyWithin | packages/lambdas/src/lambdas/actions/debug_duplicates_auto.py:126-148 | Writes aimed only at given keys leave every other key as it was. |
| DuplicatesAuto.StepWithin | packages/lambdas/src/lambdas/actions/debug_duplicates_auto.py:116-149 | An action only writes items that were indexed. |
| DuplicatesAuto.Run | packages/lambdas/src/lambdas/actions/debug_duplicates_auto.py:103-152 | The kept count is the number of "keep" actions, the merged count the number of merges of two indexed items, and the deleted count the number of deletes of an indexed item; the three add up to at most the number of actions. It fails only on an action with a list id, and items never indexed are left as they were. |
| DuplicatesAuto.CountStep | packages/lambdas/src/lambdas/actions/debug_duplicates_auto.py:111-152 | Counting one action's outcome adds one to the counter of what it does: keep, merge of indexed items, or delete of an indexed item. |
| DuplicatesAuto.RaisedLater | packages/lambdas/src/lambdas/actions/debug_duplicates_auto.py:111-119 | A raising action in the rest of the list is a raising action of the list. |
| DuplicatesAuto.Handle | packages/lambdas/src/lambdas/actions/debug_duplicates_auto.py:15-163 | No chat id gives 400. Once there is a chat id the start message goes out first, also when something later raises. Fewer than two recent items sends the matching text and changes nothing. A read item whose truthy notes cannot be sliced raises while building the prompt, with nothing changed. Otherwise no API key, a failed call or no actions send the matching text and change nothing; the table changes only after an answer with actions, whose report carries its summary and the numbers of keeps, merges and deletes; items outside the recent read never change. |
| DuplicatesAuto.SelfMergeDeletes | packages/lambdas/src/lambdas/actions/debug_duplicates_auto.py:116-143 | An action merging an id into itself counts as merged and removes that item. |
| DuplicatesAuto.MergeIntoDeletedRecreates | packages/lambdas/src/lambdas/actions/debug_duplicates_auto.py:126-142 | Merging into an item already deleted recreates it holding only its key, the notes and the status. |
| Environments.Raw | packages/common/src/common/environments.py:20 | A set variable gives its value, an unset one the default. |
| Environments.GetEnv | packages/common/src/common/environments.py:18-27 | Raises iff the variable is required and neither set nor defaulted; otherwise gives the stripped value, or nothing when that is "" or "-". |
| Environments.GetEnvIdempotent | packages/common/src/common/environments.py:23-27 | A value given back is already stripped, non-empty and not "-". |
| Environments.FirstOutput | packages/common/src/common/environments.py:196-200 | Finds the first output with the wanted key, or none iff no output has it. |
| Environments.FirstOutputIsFirst | packages/common/src/common/environments.py:196-200 | The index found is exactly the one output that has the key while no earlier output does. |
| Environments.GetStackOutput | packages/common/src/common/environments.py:188-200 | No stack gives None. When the first stack has an output with the key, the result is the "OutputValue" of the first such output; a value other than None always comes from such an output; no such output gives None. |
| Environments.FindLambdaFunction | packages/common/src/common/environments.py:230-247 | When the loop reaches a Lambda function whose logical id starts with the prefix, the result is its physical id (default ""); when it reaches a Lambda function whose logical id is not a string, it raises; a found id always comes from the first such function; None iff no Lambda function matches and none raises. |
| Environments.ListStackResourcesAsWritten | packages/common/src/common/environments.py:213-227 | Listing the stack's resources always raises: the client getter takes no argument but is given the region. |
| Environments.FindLambdaFunctionAsWritten | packages/common/src/common/environments.py:230-247 | As written, the lookup always raises, whatever the stack holds. |
| Environments.FindLambdaFunctionFinding | packages/common/src/common/environments.py:219-220 | For a stack holding a matching DigestLambda function, the code as written raises while the intended lookup finds it. |
| Environments.GetTelegramBotToken | packages/common/src/common/environments.py:279-291 | Raises iff the token is unset or empty, and otherwise gives it unchanged. |
| Environments.GetVectorBucketName | packages/common/src/common/environments.py:134-144 | Raises iff the variable is unset (an empty value is returned), and otherwise gives it unchanged. |
| Recent.PartitionKeys | packages/lambdas/src/lambdas/actions/debug_backfill.py:17-24 | The query of one category yields exactly the keys of that partition at or after the start date, each once. |
| Recent.KeysSince | packages/lambdas/src/lambdas/actions/debug_backfill.py:16-26 | Querying distinct categories in turn yields exactly the keys of their partitions at or after the start date, each once. |
| Recent.Since | packages/lambdas/src/lambdas/actions/debug_duplicates_auto.py:29-44 | The items read are exactly the stored items of the four categories whose sort key is at or after the start date, each read once. |
| Recent.PkInjective | packages/lambdas/src/lambdas/actions/debug_duplicates_auto.py:38 | Distinct categories have distinct partition keys. |
| Tally.Bump | packages/lambdas/src/lambdas/actions/debug_backfill.py:28 | Counting a value adds one to its count and nothing to any other. |
| Tally.CountBy | packages/lambdas/src/lambdas/actions/debug_backfill.py:26-29 | Each value is counted exactly as often as it occurs, the keys are exactly the values seen, and the total is the number of values. |
| Tally.SortByKey | packages/lambdas/src/lambdas/actions/debug_backfill.py:39 | `sorted(d.items())` raises iff there are two or more entries and some key is not a string; otherwise the same entries in ascending key order. |
| Tally.StatusLabel | packages/lambdas/src/lambdas/actions/debug_backfill.py:40 | The status "none" is shown as "no status", any other as itself. |
| Tally.FirstSeen | packages/lambdas/src/lambdas/actions/debug_count.py:22-26 | The distinct values of a sequence, each once, in the order they first occur: the order in which a dict receives its keys. |
| Tally.BumpKeys | packages/lambdas/src/lambdas/actions/debug_count.py:24-26 | Counting a value already present keeps the entries' order; a new value is appended at the end. |
| Tally.CountByOrder | packages/lambdas/src/lambdas/actions/debug_count.py:18-26 | The counting loop lists the values in the order they first occur. |
| Tally.CountedLines | packages/lambdas/src/lambdas/actions/debug_count.py:54-56 | The report lines of a counted tally are one per distinct value in first-seen order, each with its number of occurrences. |
| Tally.TallyLines | packages/lambdas/src/lambdas/actions/debug_backfill.py:39-41 | A tally with the counts and values of a sequence shows a line for each value with its count, and only such lines. |
| Listing.OpenHeaders | packages/lambdas/src/lambdas/actions/open_items.py:18-19 | In the `/open` listing each category's block opens with a header naming the category and counting exactly its items. |
| Listing.ClosedHeaders | packages/lambdas/src/lambdas/actions/closed_items.py:18-19 | The same for the `/closed` listing. |
| Listing.OpenItemLines | packages/lambdas/src/lambdas/actions/open_items.py:20-27 | An open item's first line is marked 🔄 iff its status is "in-progress", else 📌; a second "   → action" line appears iff the next action is truthy and not "No action". |
| Listing.ClosedItemLines | packages/lambdas/src/lambdas/actions/closed_items.py:20-22 | A completed item gets exactly one "  ✓ name" line. |
| Listing.OpenLines | packages/lambdas/src/lambdas/actions/open_items.py:10-27 | The `/open` lines: the title, one header per category, one line per item and one more per item whose action is shown. |
| Listing.ClosedLines | packages/lambdas/src/lambdas/actions/closed_items.py:10-22 | The `/closed` lines: the title, one header per category and one line per item. |
| Listing.Open | packages/lambdas/src/lambdas/actions/open_items.py:6-32 | `/open` always answers 200 "Open command processed"; it sends "📝 No open items found." iff there are no items, else the listing joined by newlines. |
| Listing.Closed | packages/lambdas/src/lambdas/actions/closed_items.py:6-27 | `/closed` always answers 200 "Closed command processed"; it sends "📝 No completed items found." iff there are no items, else the listing. |
| Grouping.Group | packages/lambdas/src/lambdas/digest.py:263-268 | The categories dict: one group per category met (default "Unknown"), in first-appearance order, each holding exactly the items of its category in their order, and all items between them. |
| Grouping.GroupsCoverItems | packages/lambdas/src/lambdas/digest.py:264-268 | Every item lands in the group of its own category. |
| Grouping.GroupCount | packages/lambdas/src/lambdas/digest.py:274-281 | Grouping neither loses nor duplicates an item: the items satisfying any test number the same across the groups as in the input. |
| Grouping.BlocksLength | packages/lambdas/src/lambdas/digest.py:274-281 | Printing one header per group then each item's lines gives the header count plus the items' lines. |
| Grouping.BlockHeader | packages/lambdas/src/lambdas/digest.py:274-275 | Each group's block starts with that group's header line. |
| Digest.DaysBack | packages/lambdas/src/lambdas/digest.py:245 | The digest looks back 1 day iff the type is "daily", else 7. |
| Digest.AiSummary | packages/lambdas/src/lambdas/digest.py:254-258 | Anthropic's summary when its key is set, else OpenAI's when that key is set, else none. |
| Digest.ActionLines | packages/lambdas/src/lambdas/digest.py:277-281 | An item gets one bullet line iff its next action is truthy; the line starts with the indented bullet. |
| Digest.ActionLinesPer | packages/lambdas/src/lambdas/digest.py:277-281 | Every item renders to exactly one line when it has a next action and none otherwise. |
| Digest.Fallback | packages/lambdas/src/lambdas/digest.py:270-281 | The fallback summary has a title line, an "Open items: N" line, one line per category and one per item with a next action. |
| Digest.FallbackCategoryLines | packages/lambdas/src/lambdas/digest.py:274-275 | The line heading each category states the number of open items of exactly that category. |
| Digest.Summary | packages/lambdas/src/lambdas/digest.py:242-285 | No items gives the "No open items found in the last N days." text; otherwise a non-empty AI summary is used, else the fallback lines joined by newlines; the result is never empty. |
| Digest.CommandType | packages/lambdas/src/lambdas/actions/digest.py:8 | `/digest` asks for "daily" iff the lower-cased text contains "daily", else "weekly". |
| Digest.Command | packages/lambdas/src/lambdas/actions/digest.py:6-14 | The command always answers 200 "TYPE digest command processed" and sends the summary of that type; the failure text is never sent. |
| Digest.ScheduledType | packages/lambdas/src/lambdas/digest.py:293-299 | A scheduled run is weekly iff some triggering resource contains "Weekly", daily otherwise. |
| Digest.Handler | packages/lambdas/src/lambdas/digest.py:288-315 | The "Failed to generate digest" branch is unreachable; 200 "Digest sent successfully" iff the chat id is set and sending succeeds, else 500 "Failed to send digest"; the summary is sent iff the chat id is set. |
| BasicDigest.Render | digest/app.py:187-218 | Every piece the basic digest appends ends with a newline. |
| BasicDigest.OpenBulletOf | digest/app.py:192-199 | An open item's bullet carries its category and name, and carries the next action iff that is truthy. |
| BasicDigest.Overflow | digest/app.py:201-202 | The "... and N more" line appears iff there are more items than the limit, and N is the excess. |
| BasicDigest.OpenSection | digest/app.py:189-203 | The open-items section is empty iff there are no open items. |
| BasicDigest.RecentSection | digest/app.py:205-215 | The recent-additions section is empty iff there are no recent items. |
| BasicDigest.Parts | digest/app.py:187 | The digest always opens with its banner. |
| BasicDigest.OpenSectionAccounts | digest/app.py:189-203 | Bullets plus the "more" count account for every open item; at most 5 bullets, the i-th for the i-th item. |
| BasicDigest.RecentSectionAccounts | digest/app.py:205-215 | Bullets plus the "more" count account for every recent item; at most 3 bullets, the i-th for the i-th item. |
| BasicDigest.QuietIff | digest/app.py:217-218 | The "No recent activity" line is present iff both lists are empty. |
| BasicDigest.Basic | digest/app.py:185-220 | `create_basic_digest` starts with the banner and ends with a newline, so it is never empty. |
| BasicDigest.RunType | digest/app.py:241-242 | The run is daily iff the event source contains "Daily", else weekly. |
| BasicDigest.RecentDays | digest/app.py:243 | Recent items are looked for over 1 day iff the run is daily, else 7. |
| BasicDigest.DigestText | digest/app.py:133-182 | Claude's answer when its key is set and the call succeeds, else OpenAI's likewise, else the basic digest; an empty text can only come from an AI answer that is empty. |
| BasicDigest.Handler | digest/app.py:230-287 | No AI key: 500 "Configuration error"; no items: 200 "No digest needed". 500 "Digest generation failed" iff there are keys and items but the text is empty. With keys, items and a non-empty text, the header and text are sent, and the answer is 200 "TYPE digest sent" iff Telegram accepts it. |
| BasicDigest.PartsAccount | digest/app.py:185-218 | Together the two sections account for every open and recent item. |
| BasicDigest.BasicNeverFails | digest/app.py:262-287 | Without an AI answer, the header and the basic digest are sent; the message starts with the header and the banner, and the digest accounts for every item. |
| BannedImports.PythonSuffix | packages/scripts/src/scripts/check_banned_imports.py:24-25 | A path has the suffix ".py" exactly when its last component is longer than three characters and ends in ".py"; pathlib gives no suffix to a name whose only dot leads or ends it. |
| BannedImports.DeterminePackage | packages/scripts/src/scripts/check_banned_imports.py:50-57 | The package is "common" iff the path contains "/common/", else "lambdas" iff it contains "/lambdas/", else none. |
| BannedImports.LineViolationsMembers | packages/scripts/src/scripts/check_banned_imports.py:41-45 | A stripped line reports a violation iff some banned module is imported by it ("import m" prefix or "from m " prefix) and is flagged for the package; the violation carries the line number and the message "'m' not allowed in pkg". |
| BannedImports.ScanMembers | packages/scripts/src/scripts/check_banned_imports.py:36-45 | The scan over the lines reports exactly the violations some line reports, each numbered from the first line on. |
| BannedImports.Check | packages/scripts/src/scripts/check_banned_imports.py:22-34 | A file that is not a ".py" file, lies under an excluded prefix, cannot be read or belongs to no package yields no violations. |
| BannedImports.NothingFlaggedAsWritten | packages/scripts/src/scripts/check_banned_imports.py:41-45 | As written (a package is flagged when it is NOT in the module's list), no line of a common or lambdas file is ever flagged. |
| BannedImports.AsWrittenNeverReports | packages/scripts/src/scripts/check_banned_imports.py:22-47 | As written, `check_file` returns no violation for any path and any content. |
| BannedImports.CheckFileAsWritten | packages/scripts/src/scripts/check_banned_imports.py:22-47 | `check_file` as written: the result is always empty. |
| BannedImports.CheckFile | packages/scripts/src/scripts/check_banned_imports.py:22-47 | `check_file` with the table read as its documentation states: a file outside the scanned set or without a package gives no violations. |
| BannedImports.LineOfMembers | packages/scripts/src/scripts/check_banned_imports.py:37-45 | After stripping, a comment line reports nothing; any other line reports a violation iff it imports a module banned in the file's package. |
| BannedImports.CheckLines | packages/scripts/src/scripts/check_banned_imports.py:36-45 | A scanned file in a package reports a violation iff one of its stripped lines, numbered from 1, reports it. |
| BannedImports.CheckReports | packages/scripts/src/scripts/check_banned_imports.py:22-47 | For any table: a scanned file in a package reports v iff some line i (not a comment) imports some module j banned there, and v is (i + 1, "'j' not allowed in pkg"). |
| BannedImports.CheckFileReports | packages/scripts/src/scripts/check_banned_imports.py:15-17 | The same for the table as it stands (`click` banned in common and lambdas). |
| BannedImports.ClickInCommon | packages/scripts/src/scripts/check_banned_imports.py:41-45 | The input "import click" in packages/common/x.py: as written nothing is reported; as intended, line 1 reports "'click' not allowed in common". |
| BannedImports.Total | packages/scripts/src/scripts/check_banned_imports.py:64-67 | The number of violations collected is zero iff every file's check is empty. |
| BannedImports.Main | packages/scripts/src/scripts/check_banned_imports.py:60-78 | `main` (intended reading) returns 1 iff the total is positive, else 0; the total is zero iff no file reports anything. |
| BannedImports.MainAsWritten | packages/scripts/src/scripts/check_banned_imports.py:60-78 | `main` as written returns 0 with no violations, whatever the files. |
| LoadEnv.ParseLine | packages/scripts/src/scripts/load_env.py:22-26 | A line yields an assignment iff, stripped, it is non-empty, not a comment and holds '='; the key then holds no '=' and both key and value are stripped. |
| LoadEnv.ExportsOf | packages/scripts/src/scripts/load_env.py:21-27 | At most one export line per line of the file. |
| LoadEnv.Main | packages/scripts/src/scripts/load_env.py:14-27 | A missing file prints "Error: PATH not found" to stderr and exits 1; an existing one exits 0 with nothing on stderr and at most one line per file line. |
| LoadEnv.ParseLineRoundTrip | packages/scripts/src/scripts/load_env.py:22-26 | A clean assignment written as `KEY=VALUE` parses back to itself. |
| LoadEnv.LoadRoundTrip | packages/scripts/src/scripts/load_env.py:21-27 | A file written from clean assignments, one per line, exports exactly those assignments, in order. |

## Left out

- Embedding providers (Bedrock, OpenAI, the task linker's embedder) are parameters. Only the rule that the empty text embeds as 1536 zeros is modelled, because everything else is a network call.
- Cosine similarity's floating-point arithmetic is a parameter. Only its zero guards are modelled, because float rounding cannot be stated over Dafny's exact reals.
- The S3 Vectors index is a map from vector id to entry. Its similarity search is a parameter returning an ordered hit list, because ranking happens inside the service.
- The AI classifiers and summarizers are parameters giving back the decoded answer or a failure, because they are remote models. The local step before each call of the two webhook handlers, formatting the prompt, is modelled (`Prompts`); what the prompt then makes the model answer is not.
- The HMAC-SHA256 comparison in processor/app.py:64-66 is a boolean parameter, because it is a cryptographic library call.
- Telegram sends are recorded as the messages a handler emits. Their outcome is a parameter only where the source reads it (the scheduled digests), because the HTTP call is I/O.
- Logging, `print` output and the module-level clients are not modelled, because they do not affect results.
- The `@cache`/`lru_cache` decorators and races between concurrent Lambda invocations are not modelled, because each invocation is modelled as one sequential run.
- Clock readings, uuid draws and Python's `hash` are parameters, and timestamps are opaque strings. This is because they are nondeterministic. The start dates derived from the clock are given directly.
- DynamoDB pagination is not modelled. A query or scan reads every matching item, whereas the source reads only the first page of at most 1 MB. This is because page size depends on item sizes.
- Replies that format floats (`:.0%`) are structured reply values rather than strings. `Values.Show` renders as Python does only the integral floats of magnitude below 10^16; from 10^16 on Python switches to exponent form (`1e+16`). This is because Python's float-to-text conversion is out of scope.
- Linker.Handler: a truthy `message_text` that is not a string is answered 500 before any embedding. The source hands it to `embed_text`; what the provider does with a non-string is not modelled.
- Matcher.EmbedName: a truthy name that is not a string gives a `TypeError`. The source hands it to `embed_text`; what the provider does with a non-string is not modelled.
- Grouping.Group: an unhashable category (a list) makes the source raise; the model groups it like any other value, because classifier answers never carry one. Categories that Python's dict treats as one key (`1`, `1.0` and `True`) form separate groups in the model; this needs a numeric or boolean category, which no writer in the source stores. Listing.Open, Listing.Closed and Digest.Fallback inherit this gap.
- Tally.CountBy: values that Python's dict treats as one key (`1`, `1.0` and `True`) are counted separately; this needs a numeric or boolean status or category, which no writer in the source stores.
- BasicDigest.Handler: digest/app.py does not parse as written. There is a stray `except` at line 225, and the `try` at 274-287 has no handler. It is modelled as the evidently intended code.
- BasicDigest.Handler also does not model the configuration-error notification that `validate_ai_tokens` sends (digest/app.py:48-64), nor the error notification at 289-301. Its result is the response and the digest message only.
- Digest.Handler: exceptions escaping to digest.py:317-322 (500 "Internal server error") are not modelled, because they come only from the table and network clients.
- BannedImports.Main: `main` walks the files under `Path(__file__).parent.parent`, i.e. packages/scripts/src, so in practice it never sees the common or lambdas packages. The files and their contents are a parameter instead, and the report printing is left out.
- LoadEnv.Main: the env file's path, derived with `parents[3]`, and its existence are parameters, because they depend on the filesystem.
- The AI analysis of `/debug duplicates` (actions/debug_duplicates.py) is left out, because it only forwards a prompt and prints the answer.
- Pydantic's field validation of `Item` is modelled only for the confidence range, because no other constrained field affects behaviour here.
- Routing.Handle: the dispatched actions are a parameter `run`, because the source's dispatch list holds modules rather than callables (see Findings).
- Matcher.CreateItem, Matcher.UpdateItem, LegacyProcessor.SaveToDynamoDb and WebhookApp.StoreBrainItem: a list-valued attribute counts as storable. The embedding is written as decimals and is fine; a list of floats taken from a classifier's answer would be refused by boto3, which the model does not state.
- Matcher.UpdateMatched: when the stored embedding cannot be read (`float(e)` at embedding_matcher.py:264 raises), the update made at line 263 has already been written. The model returns the error without the store, so it does not state that this write persists.
- Matcher.StoredEmbedding: a string of non-ASCII decimal digits, which Python's `float` also reads, is treated as unreadable.
- LegacyProcessor.ProcessMessage and WebhookApp.ClassifyWithAi: these are the intended definitions. The source's templates make the formatting inside each call raise; that composition is LegacyProcessor.HandleAsWritten and WebhookApp.ClassifyWithAiAsWritten (see Findings).
- Tally.SortByKey: Python's `sorted` also orders keys that are all numbers or bools; the model reports `Err` whenever two or more keys include one that is not a string. Keys that Python treats as one (`1`, `1.0` and `True`) are kept apart. Both need a numeric status or category, which no writer in the source stores.
- DebugCount.SortedGroups, DebugCount.ReportOn and DebugCount.Handle inherit both gaps of Tally.SortByKey for numeric categories.
- DebugBackfill.SortedTally, DebugBackfill.Report and DebugBackfill.Handle inherit both gaps of Tally.SortByKey for numeric statuses.
- Digest.Handler: the event's resources are taken as a list of strings. A resource that is not a string (where `"Weekly" in resource` raises or tests membership) is not modelled, because scheduled events carry rule ARNs.
- Text.Lower and Text.Title handle ASCII letters only. For the lower-case ASCII keywords the model compares against this is exact: the only characters Python lowers to ASCII are U+212A and U+0130. Other letters are kept as they are.
- Numbers.ParseInt accepts ASCII digits only; Python's `int` also accepts other Unicode decimal digits.

## Findings

| source | as written | input that shows it | evidently intended | confidence | as-written member | corrected member |
|---|---|---|---|---|---|---|
| packages/lambdas/src/lambdas/processor.py:80-85 | The dispatch list holds the action modules, and the handler calls the selected module, which raises `TypeError`; the `try` turns this into a 500. | Any correctly signed request with text "/open" (chat id 42) | Call the selected module's `handle` and return its response | high (not executed) | Routing.HandleAsWritten, Routing.DispatchFinding | Routing.Handle |
| packages/scripts/src/scripts/check_banned_imports.py:41-45 | `BANNED` lists the packages where a module is banned (the docstring says click belongs only in scripts), but a package is flagged when it is NOT in that list. Since `determine_package` only yields "common" or "lambdas", nothing is ever reported. | packages/common/x.py containing "import click" | Flag the import when the package is in the banned-in list | high (not executed) | BannedImports.CheckFileAsWritten, BannedImports.ClickInCommon | BannedImports.CheckFile, BannedImports.CheckFileReports |
| packages/common/src/common/environments.py:219-220 | `list_stack_resources` passes the region to `get_cfn_client`, which takes no argument, so `find_lambda_function` always raises `TypeError`. | A stack holding a Lambda function with logical id "DigestLambdaXYZ", prefix "DigestLambda" | List the stack's resources and return the matching function's physical id | high (not executed) | Environments.FindLambdaFunctionAsWritten, Environments.FindLambdaFunctionFinding | Environments.FindLambdaFunction |
| lambda/processor.py:48-56 | The prompt shows the JSON answer between single braces. `CLASSIFICATION_PROMPT.format(message=...)` (lines 81 and 109) reads `\n    "category"` as a field name and raises `KeyError` inside each provider's `try`, so both return `None` and the handler answers 500. | Any authorised update with text "call Bob" | Double the JSON braces, so that the message is the only field and the providers are called | high (not executed) | LegacyProcessor.HandleAsWritten, LegacyProcessor.AsWrittenSavesNothing | LegacyProcessor.Handle, Prompts.EscapedPromptedIsCall, Prompts.LegacyPartsPlain |
| processor/app.py:46-53 | The same single-brace JSON block makes `AI_CLASSIFICATION_PROMPT.format(message=...)` (lines 82 and 106) raise `KeyError` in both attempts. `classify_with_ai` returns `None`, the chat gets "couldn't classify" and the answer is 500 "Classification failed". | A verified update whose message text is "call Bob" | Double the JSON braces | high (not executed) | WebhookApp.ClassifyWithAiAsWritten, WebhookApp.AsWrittenNeverClassifies, WebhookApp.AsWrittenNeverStores | WebhookApp.LambdaHandler, WebhookApp.LambdaHandlerStores, Prompts.EscapedPromptedResultIsCall, Prompts.AppPartsPlain |
| packages/lambdas/task_linker/similarity.py:4-8 | Stored embeddings are written and read back as `Decimal` (task_store.py:15-17). `a * b` of the float message embedding and a `Decimal` raises `TypeError`, so `link_task` raises and the handler answers 500 for every user with an open task that has an embedding. | User "u1" with one open task whose embedding is [0.5], message "call Bob" | Read the stored embedding as floats and score it | high (not executed) | Linker.CosineAsWritten, Linker.LinkTaskAsWritten | Linker.TaskCosine, Linker.IntendedScoresSucceed |

=== FILE: banned_imports.dfy ===
/** The banned-import check of the scripts package
    (packages/scripts/src/scripts/check_banned_imports.py): `click` belongs
    in the scripts package only, so an import of it in the common or lambdas
    package is a violation. The table of banned modules is read as its
    documentation states: each module with the packages it is banned in. The
    files the check walks, and their contents, are parameters. */
module BannedImports {
  import opened Wrappers
  import Text

  /** Each banned module with the packages it may not be imported in. */
  const Banned: seq<(string, seq<string>)> := [("click", ["common", "lambdas"])]

  /** Path prefixes the check skips. */
  const Excluded: seq<string> := ["packages/scripts/"]

  /** A reported import: its 1-based line number and what is wrong. */
  datatype Violation = Violation(line: nat, message: string)

  /** `path.name`: what follows the last '/'. */
  function Name(path: string): (name: string)
    ensures '/' !in name
    ensures |name| <= |path| && name == path[|path| - |name|..]
    decreases |path|
  {
    if |path| == 0 || path[|path| - 1] == '/' then []
    else
      var init := Name(path[..|path| - 1]);
      assert path[..|path| - 1][|path| - 1 - |init|..] == path[|path| - 1 - |init|..|path| - 1];
      init + [path[|path| - 1]]
  }

  lemma {:induction false} NameAfterSlash(dir: string, file: string)
    requires '/' !in file
    ensures Name(dir + "/" + file) == file
    decreases |file|
  {
    var path := dir + "/" + file;
    if |file| > 0 {
      var init := file[..|file| - 1];
      assert path[..|path| - 1] == dir + "/" + init;
      assert path[|path| - 1] == file[|file| - 1] != '/';
      NameAfterSlash(dir, init);
      assert Name(path) == Name(path[..|path| - 1]) + [path[|path| - 1]];
      assert file == init + [file[|file| - 1]];
    } else {
      assert path[|path| - 1] == '/';
    }
  }

  /** Index of the last '.' of `name`. */
  function LastDot(name: string): (r: Option<nat>)
    ensures r.Some? ==> r.value < |name| && name[r.value] == '.' && '.' !in name[r.value + 1..]
    ensures r.None? <==> '.' !in name
    decreases |name|
  {
    if |name| == 0 then None
    else if name[|name| - 1] == '.' then Some(|name| - 1)
    else
      var r := LastDot(name[..|name| - 1]);
      assert name == name[..|name| - 1] + [name[|name| - 1]];
      if r.Some? then
        assert name[r.value + 1..] == name[..|name| - 1][r.value + 1..] + [name[|name| - 1]];
        r
      else r
  }

  /** `path.suffix`: the name's last '.' and what follows, unless that '.'
      starts or ends the name. */
  function Suffix(path: string): string {
    NameSuffix(Name(path))
  }

  /** The suffix of a file name. */
  function NameSuffix(name: string): string {
    match LastDot(name)
    case Some(i) => if 0 < i < |name| - 1 then name[i..] else ""
    case None => ""
  }

  /** A Python source file: a name ending in ".py" with something before it. */
  lemma PythonSuffix(path: string)
    ensures Suffix(path) == ".py" <==> var name := Name(path); |name| > 3 && name[|name| - 3..] == ".py"
  {
    PythonName(Name(path));
  }

  lemma PythonName(name: string)
    ensures NameSuffix(name) == ".py" <==> |name| > 3 && name[|name| - 3..] == ".py"
  {
    if |name| > 3 && name[|name| - 3..] == ".py" {
      DotPyLast(name);
    }
    if NameSuffix(name) == ".py" {
      var i := LastDot(name).value;
      assert |name[i..]| == 3;
    }
  }

  lemma DotPyLast(name: string)
    requires |name| > 3 && name[|name| - 3..] == ".py"
    ensures LastDot(name) == Some(|name| - 3)
  {
    assert name[|name| - 3] == '.';
    assert name[|name| - 2] == 'p' && name[|name| - 1] == 'y';
  }

  /** `determine_package`: the first of "/common/" and "/lambdas/" the path
      contains names its package. */
  function DeterminePackage(path: string): (r: Option<string>)
    ensures r == Some("common") <==> Text.Contains(path, "/common/")
    ensures r == Some("lambdas") <==> !Text.Contains(path, "/common/") && Text.Contains(path, "/lambdas/")
    ensures r.None? <==> !Text.Contains(path, "/common/") && !Text.Contains(path, "/lambdas/")
  {
    if Text.Contains(path, "/common/") then Some("common")
    else if Text.Contains(path, "/lambdas/") then Some("lambdas")
    else None
  }

  /** A stripped line importing the module `name`. */
  predicate Imports(line: string, name: string) {
    Text.StartsWith(line, "import " + name) || Text.StartsWith(line, "from " + name + " ")
  }

  function Message(name: string, pkg: string): string {
    "'" + name + "' not allowed in " + pkg
  }

  /** Whether an import of a module listed with `pkgs` is reported in `pkg`:
      as written, when `pkg` is NOT listed; as intended, when it is. */
  predicate Flags(asWritten: bool, pkg: string, pkgs: seq<string>) {
    if asWritten then pkg !in pkgs else pkg in pkgs
  }

  /** The violations one stripped line `line`, numbered `n`, gives for the
      banned modules in `banned`. */
  function LineViolations(line: string, n: nat, pkg: string, banned: seq<(string, seq<string>)>, asWritten: bool)
    : (vs: seq<Violation>)
    ensures |vs| <= |banned|
  {
    if |banned| == 0 then []
    else
      (if Imports(line, banned[0].0) && Flags(asWritten, pkg, banned[0].1)
       then [Violation(n, Message(banned[0].0, pkg))] else [])
      + LineViolations(line, n, pkg, banned[1..], asWritten)
  }

  /** A line's violations are exactly the banned modules it imports where
      they are flagged. */
  lemma {:induction false} LineViolationsMembers(line: string, n: nat, pkg: string,
                                                 banned: seq<(string, seq<string>)>, asWritten: bool, v: Violation)
    ensures v in LineViolations(line, n, pkg, banned, asWritten) <==>
      exists j :: 0 <= j < |banned| && Imports(line, banned[j].0) && Flags(asWritten, pkg, banned[j].1)
                  && v == Violation(n, Message(banned[j].0, pkg))
    decreases |banned|
  {
    if |banned| > 0 {
      LineViolationsMembers(line, n, pkg, banned[1..], asWritten, v);
      if v in LineViolations(line, n, pkg, banned[1..], asWritten) {
        var j :| 0 <= j < |banned[1..]| && Imports(line, banned[1..][j].0) && Flags(asWritten, pkg, banned[1..][j].1)
                 && v == Violation(n, Message(banned[1..][j].0, pkg));
        assert banned[j + 1] == banned[1..][j];
      }
      if exists j :: 0 <= j < |banned| && Imports(line, banned[j].0) && Flags(asWritten, pkg, banned[j].1)
                     && v == Violation(n, Message(banned[j].0, pkg)) {
        var j :| 0 <= j < |banned| && Imports(line, banned[j].0) && Flags(asWritten, pkg, banned[j].1)
                 && v == Violation(n, Message(banned[j].0, pkg));
        if j > 0 {
          assert banned[1..][j - 1] == banned[j];
        }
      }
    }
  }

  /** The violations of one stripped line of the file, numbered `n`: a
      comment gives none. */
  function LineOf(line: string, n: nat, pkg: string, banned: seq<(string, seq<string>)>, asWritten: bool): seq<Violation> {
    if Text.StartsWith(line, "#") then [] else LineViolations(line, n, pkg, banned, asWritten)
  }

  /** Every line stripped. */
  function StripAll(lines: seq<string>): (r: seq<string>)
    ensures |r| == |lines| && forall i :: 0 <= i < |lines| ==> r[i] == Text.Strip(lines[i])
  {
    seq(|lines|, i requires 0 <= i < |lines| => Text.Strip(lines[i]))
  }

  /** The loop over the stripped lines of the file from line number
      `first` on. */
  function Scan(lines: seq<string>, first: nat, pkg: string, banned: seq<(string, seq<string>)>, asWritten: bool): seq<Violation> {
    if |lines| == 0 then []
    else LineOf(lines[0], first, pkg, banned, asWritten) + Scan(lines[1..], first + 1, pkg, banned, asWritten)
  }

  /** Line `i` of `lines`, numbered from `first`, reports `v`. */
  predicate ReportsAt(lines: seq<string>, first: nat, pkg: string, banned: seq<(string, seq<string>)>, asWritten: bool,
                      i: int, v: Violation)
  {
    0 <= i < |lines| && v in LineOf(lines[i], first + i, pkg, banned, asWritten)
  }

  /** A violation is reported iff some line reports it. */
  lemma {:induction false} ScanMembers(lines: seq<string>, first: nat, pkg: string, banned: seq<(string, seq<string>)>, asWritten: bool, v: Violation)
    ensures v in Scan(lines, first, pkg, banned, asWritten) <==>
      exists i :: ReportsAt(lines, first, pkg, banned, asWritten, i, v)
    decreases |lines|
  {
    if |lines| > 0 {
      var rest := lines[1..];
      var head := LineOf(lines[0], first, pkg, banned, asWritten);
      var tail := Scan(rest, first + 1, pkg, banned, asWritten);
      assert Scan(lines, first, pkg, banned, asWritten) == head + tail;
      ScanMembers(rest, first + 1, pkg, banned, asWritten, v);
      if v in head {
        assert ReportsAt(lines, first, pkg, banned, asWritten, 0, v);
      }
      if v in tail {
        var i :| ReportsAt(rest, first + 1, pkg, banned, asWritten, i, v);
        ReportsShift(lines, rest, first, first + 1, pkg, banned, asWritten, i, v);
      }
      if exists i :: ReportsAt(lines, first, pkg, banned, asWritten, i, v) {
        var i :| ReportsAt(lines, first, pkg, banned, asWritten, i, v);
        if i > 0 {
          ReportsUnshift(lines, rest, first, first + 1, pkg, banned, asWritten, i, v);
        }
      }
    }
  }

  /** A line of the rest is the next line of the whole. */
  lemma ReportsShift(lines: seq<string>, rest: seq<string>, first: nat, next: nat, pkg: string,
                     banned: seq<(string, seq<string>)>, asWritten: bool, i: int, v: Violation)
    requires |lines| > 0 && rest == lines[1..] && next == first + 1
    requires ReportsAt(rest, next, pkg, banned, asWritten, i, v)
    ensures ReportsAt(lines, first, pkg, banned, asWritten, i + 1, v)
  {
    assert lines[i + 1] == rest[i];
  }

  /** A line after the first is a line of the rest. */
  lemma ReportsUnshift(lines: seq<string>, rest: seq<string>, first: nat, next: nat, pkg: string,
                       banned: seq<(string, seq<string>)>, asWritten: bool, i: int, v: Violation)
    requires |lines| > 0 && rest == lines[1..] && next == first + 1
    requires i > 0 && ReportsAt(lines, first, pkg, banned, asWritten, i, v)
    ensures ReportsAt(rest, next, pkg, banned, asWritten, i - 1, v)
  {
    assert rest[i - 1] == lines[i];
  }

  /** As written, a scan in either package reports nothing. */
  lemma {:induction false} ScanEmptyAsWritten(lines: seq<string>, first: nat, pkg: string)
    requires pkg == "common" || pkg == "lambdas"
    ensures Scan(lines, first, pkg, Banned, true) == []
    decreases |lines|
  {
    if |lines| > 0 {
      ScanEmptyAsWritten(lines[1..], first + 1, pkg);
      NothingFlaggedAsWritten(pkg);
    }
  }

  /** Whether the file is looked into at all: a Python file outside the
      excluded prefixes, and readable. */
  predicate Scanned(path: string, content: Option<string>) {
    && Suffix(path) == ".py"
    && (forall k :: 0 <= k < |Excluded| ==> !Text.StartsWith(path, Excluded[k]))
    && content.Some?
  }

  /** `check_file` against the table `banned`, read as written or as
      intended. */
  function Check(path: string, content: Option<string>, banned: seq<(string, seq<string>)>, asWritten: bool)
    : (vs: seq<Violation>)
    ensures !Scanned(path, content) || DeterminePackage(path).None? ==> vs == []
  {
    if !Scanned(path, content) then []
    else match DeterminePackage(path)
      case None => []
      case Some(pkg) => Scan(StripAll(Text.SplitLines(content.value)), 1, pkg, banned, asWritten)
  }

  /** `check_file` as written: `content` is the file's text, `None` when it
      cannot be read. It reports nothing, whatever the files hold: every
      package it can determine is listed for `click`, so `not in` fails. */
  function CheckFileAsWritten(path: string, content: Option<string>): (vs: seq<Violation>)
    ensures vs == []
  {
    AsWrittenNeverReports(path, content);
    Check(path, content, Banned, true)
  }

  lemma AsWrittenNeverReports(path: string, content: Option<string>)
    ensures Check(path, content, Banned, true) == []
  {
    if Scanned(path, content) && DeterminePackage(path).Some? {
      var pkg := DeterminePackage(path).value;
      ScanEmptyAsWritten(StripAll(Text.SplitLines(content.value)), 1, pkg);
    }
  }

  lemma AsWrittenNeverReportsAll(files: seq<(string, Option<string>)>)
    ensures forall k :: 0 <= k < |files| ==> Check(files[k].0, files[k].1, Banned, true) == []
  {
    forall k | 0 <= k < |files| ensures Check(files[k].0, files[k].1, Banned, true) == [] {
      AsWrittenNeverReports(files[k].0, files[k].1);
    }
  }

  /** As written, no line is flagged in either package. */
  lemma NothingFlaggedAsWritten(pkg: string)
    requires pkg == "common" || pkg == "lambdas"
    ensures forall line, n :: LineOf(line, n, pkg, Banned, true) == []
  {
    forall line, n ensures LineOf(line, n, pkg, Banned, true) == [] {
      assert Banned[1..] == [];
      assert LineViolations(line, n, pkg, Banned, true) == [] + LineViolations(line, n, pkg, [], true);
    }
  }

  /** `check_file` with the table read as intended. */
  function CheckFile(path: string, content: Option<string>): (vs: seq<Violation>)
    ensures !Scanned(path, content) || DeterminePackage(path).None? ==> vs == []
  {
    Check(path, content, Banned, false)
  }

  /** Line `i` of `lines`, stripped, is not a comment and imports the banned
      module `j` of `banned` in package `pkg`. */
  predicate Offends(lines: seq<string>, banned: seq<(string, seq<string>)>, i: int, j: int, pkg: string) {
    && 0 <= i < |lines| && 0 <= j < |banned|
    && var line := Text.Strip(lines[i]);
       !Text.StartsWith(line, "#") && Imports(line, banned[j].0) && pkg in banned[j].1
  }

  /** The intended check reports a violation iff some stripped line does. */
  lemma CheckLines(path: string, content: string, banned: seq<(string, seq<string>)>, v: Violation)
    requires Scanned(path, Some(content)) && DeterminePackage(path).Some?
    ensures v in Check(path, Some(content), banned, false) <==>
      exists i :: ReportsAt(StripAll(Text.SplitLines(content)), 1, DeterminePackage(path).value, banned, false, i, v)
  {
    var pkg := DeterminePackage(path).value;
    var stripped := StripAll(Text.SplitLines(content));
    CheckIsScan(path, content, banned, false);
    ScanMembers(stripped, 1, pkg, banned, false, v);
  }

  lemma CheckIsScan(path: string, content: string, banned: seq<(string, seq<string>)>, asWritten: bool)
    requires Scanned(path, Some(content)) && DeterminePackage(path).Some?
    ensures Check(path, Some(content), banned, asWritten)
         == Scan(StripAll(Text.SplitLines(content)), 1, DeterminePackage(path).value, banned, asWritten)
  {
  }

  /** A stripped line reports a violation iff it is not a comment and
      imports a module banned in the package. */
  lemma LineOfMembers(line: string, n: nat, pkg: string, banned: seq<(string, seq<string>)>, v: Violation)
    ensures v in LineOf(line, n, pkg, banned, false) <==>
      exists j :: 0 <= j < |banned| && !Text.StartsWith(line, "#") && Imports(line, banned[j].0) && pkg in banned[j].1
                  && v == Violation(n, Message(banned[j].0, pkg))
  {
    LineViolationsMembers(line, n, pkg, banned, false, v);
  }

  /** The intended check reports a violation iff the file is scanned, lies
      in a package, and the violation names a line that is not a comment and
      imports a module banned in that package. */
  lemma CheckReports(path: string, content: string, banned: seq<(string, seq<string>)>, v: Violation)
    requires Scanned(path, Some(content)) && DeterminePackage(path).Some?
    ensures var lines := Text.SplitLines(content);
            var pkg := DeterminePackage(path).value;
      v in Check(path, Some(content), banned, false) <==>
        exists i, j :: Offends(lines, banned, i, j, pkg) && v == Violation(i + 1, Message(banned[j].0, pkg))
  {
    var lines := Text.SplitLines(content);
    var pkg := DeterminePackage(path).value;
    var stripped := StripAll(lines);
    CheckLines(path, content, banned, v);
    if v in Check(path, Some(content), banned, false) {
      var i :| ReportsAt(stripped, 1, pkg, banned, false, i, v);
      ReportsAtOffends(lines, pkg, banned, i, v);
    }
    if exists i, j :: Offends(lines, banned, i, j, pkg) && v == Violation(i + 1, Message(banned[j].0, pkg)) {
      var i, j :| Offends(lines, banned, i, j, pkg) && v == Violation(i + 1, Message(banned[j].0, pkg));
      ReportsAtOffends(lines, pkg, banned, i, v);
      assert ReportsAt(stripped, 1, pkg, banned, false, i, v);
    }
  }

  /** Line `i` reports `v` iff it offends against some banned module that
      `v` names. */
  lemma ReportsAtOffends(lines: seq<string>, pkg: string, banned: seq<(string, seq<string>)>, i: int, v: Violation)
    ensures ReportsAt(StripAll(lines), 1, pkg, banned, false, i, v) <==>
      exists j :: Offends(lines, banned, i, j, pkg) && v == Violation(i + 1, Message(banned[j].0, pkg))
  {
    if 0 <= i < |lines| {
      LineOfMembers(StripAll(lines)[i], i + 1, pkg, banned, v);
    }
  }

  /** `CheckReports` for the table as it stands. */
  lemma CheckFileReports(path: string, content: string, v: Violation)
    requires Scanned(path, Some(content)) && DeterminePackage(path).Some?
    ensures var lines := Text.SplitLines(content);
            var pkg := DeterminePackage(path).value;
      v in CheckFile(path, Some(content)) <==>
        exists i, j :: Offends(lines, Banned, i, j, pkg) && v == Violation(i + 1, Message(Banned[j].0, pkg))
  {
    CheckReports(path, content, Banned, v);
  }

  const Example := "packages/common/x.py"

  lemma ExamplePackage()
    ensures DeterminePackage(Example) == Some("common")
  {
    assert Text.StartsWith(Example[8..], "/common/");
    Text.ContainsAt(Example, "/common/", 8);
  }

  lemma ExampleSuffix()
    ensures Suffix(Example) == ".py"
  {
    assert Example == "packages/common" + "/" + "x.py";
    NameAfterSlash("packages/common", "x.py");
    PythonSuffix(Example);
  }

  lemma ExampleScanned()
    ensures Scanned(Example, Some("import click\n"))
    ensures DeterminePackage(Example) == Some("common")
  {
    ExamplePackage();
    ExampleSuffix();
    ExampleNotExcluded();
  }

  lemma ExampleNotExcluded()
    ensures forall k :: 0 <= k < |Excluded| ==> !Text.StartsWith(Example, Excluded[k])
  {
    assert Example[9] != Excluded[0][9];
  }

  lemma ExampleLines()
    ensures Text.SplitLines("import click\n") == ["import click"]
    ensures Text.Strip("import click") == "import click"
  {
    ExampleSplit();
    ExampleStrip();
  }

  lemma ExampleSplit()
    ensures Text.SplitLines("import click\n") == ["import click"]
  {
    var line := "import click";
    assert Text.NoLineBreak(line) by {
      forall j | 0 <= j < |line| ensures !Text.IsLineBreak(line[j]) {
        assert ' ' <= line[j];
      }
    }
    Text.SplitLinesCons(line, "");
    assert "import click\n" == line + "\n" + "";
  }

  lemma ExampleStrip()
    ensures Text.Strip("import click") == "import click"
  {
    var line := "import click";
    assert !Text.IsSpace(line[0]) && !Text.IsSpace(line[|line| - 1]);
    Text.StripNoop(line);
  }

  /** The input that shows the difference: `import click` in a module of
      the common package. */
  lemma ClickInCommon()
    ensures CheckFileAsWritten(Example, Some("import click\n")) == []
    ensures CheckFile(Example, Some("import click\n")) == [Violation(1, Message("click", "common"))]
  {
    ExampleScanned();
    ExampleStripped();
    CheckIsScan(Example, "import click\n", Banned, false);
    ClickScan();
  }

  lemma ExampleStripped()
    ensures StripAll(Text.SplitLines("import click\n")) == ["import click"]
  {
    ExampleLines();
  }

  lemma ClickScan()
    ensures Scan(["import click"], 1, "common", Banned, false) == [Violation(1, Message("click", "common"))]
  {
    var lines := ["import click"];
    ClickLine();
    assert lines[1..] == [];
    assert Scan(lines, 1, "common", Banned, false) == LineOf(lines[0], 1, "common", Banned, false) + Scan([], 2, "common", Banned, false);
  }

  lemma ClickLine()
    ensures LineOf("import click", 1, "common", Banned, false) == [Violation(1, Message("click", "common"))]
  {
    ClickNotComment();
    ClickFlagged();
  }

  lemma ClickNotComment()
    ensures LineOf("import click", 1, "common", Banned, false) == LineViolations("import click", 1, "common", Banned, false)
  {
    var line := "import click";
    assert !Text.StartsWith(line, "#") by { assert line[0] != '#'; }
  }

  lemma ClickFlagged()
    ensures LineViolations("import click", 1, "common", Banned, false) == [Violation(1, Message("click", "common"))]
  {
    var line := "import click";
    assert Imports(line, Banned[0].0) by {
      assert line[..|"import " + "click"|] == "import " + "click";
    }
    assert Flags(false, "common", Banned[0].1);
    assert Banned[1..] == [];
    assert LineViolations(line, 1, "common", Banned[1..], false) == [];
  }

  /** How many violations the files have together. */
  function Total(files: seq<(string, Option<string>)>, banned: seq<(string, seq<string>)>, asWritten: bool): (n: nat)
    ensures n == 0 <==> forall k :: 0 <= k < |files| ==> Check(files[k].0, files[k].1, banned, asWritten) == []
  {
    if |files| == 0 then 0
    else
      var rest := Total(files[1..], banned, asWritten);
      var here := Check(files[0].0, files[0].1, banned, asWritten);
      AllCleanCons(files, banned, asWritten);
      |here| + rest
  }

  lemma AllCleanCons(files: seq<(string, Option<string>)>, banned: seq<(string, seq<string>)>, asWritten: bool)
    requires |files| > 0
    ensures (forall k :: 0 <= k < |files| ==> Check(files[k].0, files[k].1, banned, asWritten) == [])
        <==> Check(files[0].0, files[0].1, banned, asWritten) == []
             && forall k :: 0 <= k < |files| - 1 ==> Check(files[1..][k].0, files[1..][k].1, banned, asWritten) == []
  {
    var rest := files[1..];
    assert forall k :: 0 <= k < |rest| ==> rest[k] == files[k + 1];
    if Check(files[0].0, files[0].1, banned, asWritten) == []
       && forall k :: 0 <= k < |rest| ==> Check(rest[k].0, rest[k].1, banned, asWritten) == []
    {
      forall k | 0 <= k < |files| ensures Check(files[k].0, files[k].1, banned, asWritten) == [] {
        if k > 0 { assert files[k] == rest[k - 1]; }
      }
    }
  }

  /** `main`: the exit status over the files walked, each a path and its
      contents, and the number of violations; 1 iff some file has one. */
  function Main(files: seq<(string, Option<string>)>): (r: (int, nat))
    ensures r.0 == 1 <==> r.1 > 0
    ensures r.0 == 0 || r.0 == 1
    ensures r.1 == 0 <==> forall k :: 0 <= k < |files| ==> CheckFile(files[k].0, files[k].1) == []
  {
    var count := Total(files, Banned, false);
    (if count > 0 then 1 else 0, count)
  }

  /** `main` as written always exits 0. */
  function MainAsWritten(files: seq<(string, Option<string>)>): (r: (int, nat))
    ensures r == (0, 0)
  {
    AsWrittenNeverReportsAll(files);
    var count := Total(files, Banned, true);
    (if count > 0 then 1 else 0, count)
  }
}

=== FILE: basic_digest.dfy ===
/** The stand-alone digest Lambda (digest/app.py): the basic digest it falls
    back to without AI, and how its handler picks the digest type and the
    response. The digest is modelled as the sequence of its parts, each
    rendering to the text the source appends; a statement such as "the
    overflow line appears iff there are more than five items" holds of the
    parts but not of the text, since an item's name may contain anything.
    The queries, the clock and the summarizers' answers are parameters. */
module BasicDigest {
  import opened Wrappers
  import opened Values
  import opened Http
  import Numbers
  import Text

  const OpenLimit := 5
  const RecentLimit := 3

  const Banner := "🧠 *Second Brain Digest*\n\n"
  const QuietText := "No recent activity or open items. Keep capturing your thoughts!\n"

  const ConfigError := Response(500, "Configuration error")
  const NotNeeded := Response(200, "No digest needed")
  const GenerationFailed := Response(500, "Digest generation failed")
  const NotSent := Response(500, "Failed to send digest")

  /** One piece of the basic digest. */
  datatype Part =
    | Heading
    | OpenCount(count: nat)
    | OpenBullet(category: Value, name: Value, action: Option<Value>)
    | RecentCount(count: nat)
    | RecentBullet(category: Value, name: Value)
    | More(count: nat)
    | Blank
    | Quiet

  /** The text each part appends to the digest. */
  function Render(p: Part): (s: string)
    ensures |s| > 0 && s[|s| - 1] == '\n'
  {
    match p
    case Heading => Banner
    case OpenCount(n) => "📋 *" + Numbers.IntToString(n) + " Open Items*\n"
    case OpenBullet(c, n, a) =>
      "• [" + Show(c) + "] " + Show(n) + (if a.Some? then " - " + Show(a.value) else "") + "\n"
    case RecentCount(n) => "🆕 *" + Numbers.IntToString(n) + " Recent Additions*\n"
    case RecentBullet(c, n) => "• [" + Show(c) + "] " + Show(n) + "\n"
    case More(n) => "... and " + Numbers.IntToString(n) + " more\n"
    case Blank => "\n"
    case Quiet => QuietText
  }

  /** The digest text: every part's text in order. */
  function RenderAll(ps: seq<Part>): string {
    if |ps| == 0 then "" else Render(ps[0]) + RenderAll(ps[1..])
  }

  /** The bullet for an open item: its category, its name and, when truthy,
      its next action. */
  function OpenBulletOf(item: Record): (p: Part)
    ensures p.OpenBullet?
    ensures p.action.Some? <==> Truthy(GetOr(item, "next_action", Str("")))
  {
    var action := GetOr(item, "next_action", Str(""));
    OpenBullet(GetOr(item, "category", Str("Unknown")), GetOr(item, "name", Str("Untitled")),
               if Truthy(action) then Some(action) else None)
  }

  function RecentBulletOf(item: Record): (p: Part)
    ensures p.RecentBullet?
  {
    RecentBullet(GetOr(item, "category", Str("Unknown")), GetOr(item, "name", Str("Untitled")))
  }

  function Min(a: nat, b: nat): nat {
    if a <= b then a else b
  }

  /** The overflow line when more than `limit` items were found. */
  function Overflow(n: nat, limit: nat): (ps: seq<Part>)
    ensures |ps| <= 1
    ensures |ps| == 1 <==> n > limit
    ensures |ps| == 1 ==> ps[0] == More(n - limit)
  {
    if n > limit then [More(n - limit)] else []
  }

  /** The open section: the count, the first five items, the overflow
      line, a blank line; nothing when there are no open items. */
  function OpenSection(items: seq<Record>): (ps: seq<Part>)
    ensures |items| == 0 <==> ps == []
  {
    if |items| == 0 then []
    else
      [OpenCount(|items|)]
      + seq(Min(OpenLimit, |items|), i requires 0 <= i < Min(OpenLimit, |items|) => OpenBulletOf(items[i]))
      + Overflow(|items|, OpenLimit)
      + [Blank]
  }

  /** The recent section: the count, the first three items, the overflow
      line; nothing when there are no recent items. */
  function RecentSection(items: seq<Record>): (ps: seq<Part>)
    ensures |items| == 0 <==> ps == []
  {
    if |items| == 0 then []
    else
      [RecentCount(|items|)]
      + seq(Min(RecentLimit, |items|), i requires 0 <= i < Min(RecentLimit, |items|) => RecentBulletOf(items[i]))
      + Overflow(|items|, RecentLimit)
  }

  /** `create_basic_digest` as parts. */
  function Parts(open: seq<Record>, recent: seq<Record>): (ps: seq<Part>)
    ensures |ps| > 0 && ps[0] == Heading
  {
    [Heading] + OpenSection(open) + RecentSection(recent)
    + (if |open| == 0 && |recent| == 0 then [Quiet] else [])
  }

  /** The number of item bullets among `ps`. */
  function Bullets(ps: seq<Part>): nat {
    if |ps| == 0 then 0 else (if ps[0].OpenBullet? || ps[0].RecentBullet? then 1 else 0) + Bullets(ps[1..])
  }

  /** The overflow counts among `ps`, added up. */
  function MoreCount(ps: seq<Part>): nat {
    if |ps| == 0 then 0 else (if ps[0].More? then ps[0].count else 0) + MoreCount(ps[1..])
  }

  lemma {:induction false} BulletsAppend(a: seq<Part>, b: seq<Part>)
    ensures Bullets(a + b) == Bullets(a) + Bullets(b)
    ensures MoreCount(a + b) == MoreCount(a) + MoreCount(b)
    decreases |a|
  {
    if |a| > 0 {
      assert (a + b)[1..] == a[1..] + b;
      BulletsAppend(a[1..], b);
    } else {
      assert a + b == b;
    }
  }

  lemma {:induction false} AllBullets(ps: seq<Part>)
    requires forall i :: 0 <= i < |ps| ==> ps[i].OpenBullet? || ps[i].RecentBullet?
    ensures Bullets(ps) == |ps| && MoreCount(ps) == 0
    decreases |ps|
  {
    if |ps| > 0 {
      AllBullets(ps[1..]);
    }
  }

  /** The open section accounts for every open item exactly once: the items
      it lists plus those its overflow line counts are all of them, and it
      lists the first of them in order. */
  lemma OpenSectionAccounts(items: seq<Record>)
    ensures Bullets(OpenSection(items)) + MoreCount(OpenSection(items)) == |items|
    ensures Bullets(OpenSection(items)) == Min(OpenLimit, |items|)
    ensures forall i :: 0 <= i < Min(OpenLimit, |items|) ==> OpenSection(items)[1 + i] == OpenBulletOf(items[i])
  {
    if |items| > 0 {
      var bullets := seq(Min(OpenLimit, |items|), i requires 0 <= i < Min(OpenLimit, |items|) => OpenBulletOf(items[i]));
      var more := Overflow(|items|, OpenLimit);
      assert OpenSection(items) == [OpenCount(|items|)] + bullets + more + [Blank];
      AllBullets(bullets);
      BulletsAppend([OpenCount(|items|)], bullets);
      BulletsAppend([OpenCount(|items|)] + bullets, more);
      BulletsAppend([OpenCount(|items|)] + bullets + more, [Blank]);
      assert Bullets(more) == 0 && MoreCount(more) == (if |items| > OpenLimit then |items| - OpenLimit else 0);
    }
  }

  /** The same for the recent section, which lists the first three. */
  lemma RecentSectionAccounts(items: seq<Record>)
    ensures Bullets(RecentSection(items)) + MoreCount(RecentSection(items)) == |items|
    ensures Bullets(RecentSection(items)) == Min(RecentLimit, |items|)
    ensures forall i :: 0 <= i < Min(RecentLimit, |items|) ==> RecentSection(items)[1 + i] == RecentBulletOf(items[i])
  {
    if |items| > 0 {
      var bullets := seq(Min(RecentLimit, |items|), i requires 0 <= i < Min(RecentLimit, |items|) => RecentBulletOf(items[i]));
      var more := Overflow(|items|, RecentLimit);
      assert RecentSection(items) == [RecentCount(|items|)] + bullets + more;
      AllBullets(bullets);
      BulletsAppend([RecentCount(|items|)], bullets);
      BulletsAppend([RecentCount(|items|)] + bullets, more);
      assert Bullets(more) == 0 && MoreCount(more) == (if |items| > RecentLimit then |items| - RecentLimit else 0);
    }
  }

  /** The quiet line appears iff there are neither open nor recent items. */
  lemma QuietIff(open: seq<Record>, recent: seq<Record>)
    ensures Quiet in Parts(open, recent) <==> |open| == 0 && |recent| == 0
  {
    var ps := Parts(open, recent);
    if |open| > 0 || |recent| > 0 {
      assert ps == [Heading] + OpenSection(open) + RecentSection(recent);
      assert forall i :: 0 <= i < |OpenSection(open)| ==> OpenSection(open)[i] != Quiet;
      assert forall i :: 0 <= i < |RecentSection(recent)| ==> RecentSection(recent)[i] != Quiet;
    }
  }

  /** `create_basic_digest`: the text always starts with the banner and ends
      with a line break. */
  function Basic(open: seq<Record>, recent: seq<Record>): (text: string)
    ensures Text.StartsWith(text, Banner)
    ensures text[|text| - 1] == '\n'
  {
    var ps := Parts(open, recent);
    RenderAllShape(ps);
    RenderAll(ps)
  }

  lemma {:induction false} RenderAllShape(ps: seq<Part>)
    requires |ps| > 0
    ensures |Render(ps[0])| <= |RenderAll(ps)|
    ensures RenderAll(ps)[..|Render(ps[0])|] == Render(ps[0])
    ensures RenderAll(ps)[|RenderAll(ps)| - 1] == '\n'
    decreases |ps|
  {
    var head := Render(ps[0]);
    var rest := RenderAll(ps[1..]);
    assert RenderAll(ps) == head + rest;
    if |ps| > 1 {
      RenderAllShape(ps[1..]);
      assert (head + rest)[|head + rest| - 1] == rest[|rest| - 1];
    } else {
      assert rest == "";
    }
    assert (head + rest)[..|head|] == head;
  }

  /** The type of a run: daily when the triggering source mentions it. */
  function RunType(source: string): (t: string)
    ensures t == "daily" <==> Text.Contains(source, "Daily")
    ensures t == "daily" || t == "weekly"
  {
    if Text.Contains(source, "Daily") then "daily" else "weekly"
  }

  /** How many days of recent additions the digest covers. */
  function RecentDays(digestType: string): (days: nat)
    ensures days == 1 <==> digestType == "daily"
    ensures days == 1 || days == 7
  {
    if digestType == "daily" then 1 else 7
  }

  /** The AI attempts: each API key (empty when unset) and the text its call
      gives back, `None` when the client library is missing or the call
      raised. */
  datatype Summarizers = Summarizers(
    anthropicKey: string, anthropic: Option<string>,
    openaiKey: string, openai: Option<string>)

  /** `generate_digest_with_ai`: Claude's text, else OpenAI's, else the
      basic digest. An AI answer is taken even when it is empty. */
  function DigestText(open: seq<Record>, recent: seq<Record>, ai: Summarizers): (text: string)
    ensures ai.anthropicKey != "" && ai.anthropic.Some? ==> text == ai.anthropic.value
    ensures !(ai.anthropicKey != "" && ai.anthropic.Some?) && ai.openaiKey != "" && ai.openai.Some? ==> text == ai.openai.value
    ensures text == "" ==>
      (ai.anthropicKey != "" && ai.anthropic == Some("")) || (ai.openaiKey != "" && ai.openai == Some(""))
  {
    if ai.anthropicKey != "" && ai.anthropic.Some? then ai.anthropic.value
    else if ai.openaiKey != "" && ai.openai.Some? then ai.openai.value
    else Basic(open, recent)
  }

  /** The line put in front of the digest text; `today` is the date. */
  function Header(digestType: string, today: string): string {
    "📅 " + Text.Title(digestType) + " Digest - " + today + "\n\n"
  }

  /** `lambda_handler`. `open` and `recent` are what the queries return for
      the chosen type; `sent` is whether Telegram accepts the message. The
      message sent, if any, comes back with the response. */
  function Handler(source: string, open: seq<Record>, recent: seq<Record>, ai: Summarizers,
                   today: string, chatId: string, sent: bool): (r: (Response, Option<Sent>))
    ensures ai.anthropicKey == "" && ai.openaiKey == "" ==> r == (ConfigError, None)
    ensures (ai.anthropicKey != "" || ai.openaiKey != "") && |open| == 0 && |recent| == 0 ==> r == (NotNeeded, None)
    ensures r.0 == GenerationFailed <==>
      (ai.anthropicKey != "" || ai.openaiKey != "") && (|open| > 0 || |recent| > 0) && DigestText(open, recent, ai) == ""
    ensures (ai.anthropicKey != "" || ai.openaiKey != "") && (|open| > 0 || |recent| > 0) && DigestText(open, recent, ai) != "" ==>
      r.1 == Some(Sent(chatId, Header(RunType(source), today) + DigestText(open, recent, ai)))
    ensures r.1.Some? ==>
      r.1.value == Sent(chatId, Header(RunType(source), today) + DigestText(open, recent, ai))
      && DigestText(open, recent, ai) != ""
    ensures r.0.statusCode == 200 && r.1.Some? <==> r.1.Some? && sent
    ensures r.0 == Response(200, Text.Title(RunType(source)) + " digest sent") <==> r.1.Some? && sent
  {
    if ai.anthropicKey == "" && ai.openaiKey == "" then (ConfigError, None)
    else
      var digestType := RunType(source);
      if |open| == 0 && |recent| == 0 then (NotNeeded, None)
      else
        var text := DigestText(open, recent, ai);
        if text == "" then (GenerationFailed, None)
        else
          var message := Sent(chatId, Header(digestType, today) + text);
          if sent then (Response(200, Text.Title(digestType) + " digest sent"), Some(message))
          else (NotSent, Some(message))
  }

  /** Both sections together account for every item found. */
  lemma PartsAccount(open: seq<Record>, recent: seq<Record>)
    ensures Bullets(Parts(open, recent)) + MoreCount(Parts(open, recent)) == |open| + |recent|
  {
    OpenSectionAccounts(open);
    RecentSectionAccounts(recent);
    var tail: seq<Part> := if |open| == 0 && |recent| == 0 then [Quiet] else [];
    BulletsAppend([Heading], OpenSection(open));
    BulletsAppend([Heading] + OpenSection(open), RecentSection(recent));
    BulletsAppend([Heading] + OpenSection(open) + RecentSection(recent), tail);
  }

  /** Without an AI answer the digest cannot fail to generate: the message
      sent is the header followed by the basic digest, which opens with the
      banner and accounts for every open and recent item. */
  lemma BasicNeverFails(source: string, open: seq<Record>, recent: seq<Record>, ai: Summarizers,
                        today: string, chatId: string, sent: bool)
    requires ai.anthropicKey != "" || ai.openaiKey != ""
    requires ai.anthropic.None? && ai.openai.None?
    requires |open| > 0 || |recent| > 0
    ensures var r := Handler(source, open, recent, ai, today, chatId, sent);
      && r.1 == Some(Sent(chatId, Header(RunType(source), today) + RenderAll(Parts(open, recent))))
      && Text.StartsWith(r.1.value.text, Header(RunType(source), today) + Banner)
      && Bullets(Parts(open, recent)) + MoreCount(Parts(open, recent)) == |open| + |recent|
  {
    var header := Header(RunType(source), today);
    var text := Basic(open, recent);
    assert text[..|Banner|] == Banner;
    assert (header + text)[..|header + Banner|] == header + Banner;
    PartsAccount(open, recent);
  }
}

=== FILE: debug_backfill.dfy ===
/** `/debug backfill` (actions/debug_backfill.py): re-put every recent item
    of the four categories unchanged, so that secondary indexes pick them
    up, and report how many there were per status. */
module DebugBackfill {
  import opened Wrappers
  import opened Values
  import opened Table
  import opened Http
  import Recent
  import Tally
  import Order
  import Numbers
  import Text

  const Processed := Response(200, "Backfill command processed")

  /** The messages sent to the chat. */
  datatype Reply =
    | Started
    | NoItems
    | Complete(total: nat, byStatus: Tally.Counts)

  /** One `put_item` per read item, of the item as read. */
  function Puts(t: Table, keys: seq<Key>): (ws: seq<Write>)
    requires forall k :: k in keys ==> k in t
    ensures |ws| == |keys|
  {
    seq(|keys|, i requires 0 <= i < |keys| => Put(keys[i], t[keys[i]]))
  }

  /** Putting back what is stored changes nothing. */
  lemma {:induction false} RePutIsNoop(t: Table, keys: seq<Key>)
    requires forall k :: k in keys ==> k in t
    ensures ApplyAll(t, Puts(t, keys)) == t
    decreases |keys|
  {
    if |keys| > 0 {
      var ws := Puts(t, keys);
      assert Apply(t, ws[0]) == t;
      assert ws[1..] == Puts(t, keys[1..]);
      RePutIsNoop(t, keys[1..]);
    }
  }

  /** `item.get("status", "none")` of each read item. */
  function Statuses(t: Table, keys: seq<Key>): (ss: seq<Value>)
    requires forall k :: k in keys ==> k in t
    ensures |ss| == |keys|
    ensures forall i :: 0 <= i < |keys| ==> ss[i] == GetOr(t[keys[i]], "status", Str("none"))
  {
    seq(|keys|, i requires 0 <= i < |keys| => GetOr(t[keys[i]], "status", Str("none")))
  }

  /** The per-status tally, sorted for the report; `Err` when sorting raises. */
  function SortedTally(statuses: seq<Value>): (r: Result<Tally.Counts>)
    ensures r.Err? ==> exists s :: s in statuses && !s.Str?
    ensures r.Ok? ==>
      && Tally.Total(r.value) == |statuses|
      && (forall s :: Tally.Lookup(r.value, s) == multiset(statuses)[s])
      && (forall s :: Tally.HasKey(r.value, s) <==> s in statuses)
      && Tally.DistinctKeys(r.value)
      && (|r.value| > 1 ==> Tally.KeysAscending(r.value))
  {
    var tally := Tally.CountBy(statuses);
    match Tally.SortByKey(tally)
    case Err(e) => Err(e)
    case Ok(sorted) =>
      Tally.SameEntriesSameCounts(sorted, tally);
      Tally.SumBySameEntries(sorted, tally, Tally.AsCount);
      Ok(sorted)
  }

  /** The lines of the completion message. */
  function CompleteLines(total: nat, byStatus: Tally.Counts): seq<string> {
    ["✅ *Backfill Complete*",
     "\nBackfilled " + Numbers.IntToString(total) + " items from last week.",
     "\n📊 By status:"]
    + Tally.StatusLines(byStatus)
  }

  /** The text sent for a reply. */
  function Message(reply: Reply): string {
    match reply
    case Started => "🔄 Backfilling GSI for items from last week..."
    case NoItems => "📝 No items found from last week."
    case Complete(total, byStatus) => Text.Join(CompleteLines(total, byStatus), "\n")
  }

  /** Some read item's status is a list, which cannot be a dict key. */
  predicate ListStatus(statuses: seq<Value>) {
    exists s :: s in statuses && s.Vec?
  }

  /** The replies sent for the statuses of the read items, and the error
      raised after them, if any. The start message goes out first in every
      case. Then: nothing found, or the count and one line per distinct
      status in sorted order with its number of items ("none" shown as
      "no status"). A status that is a list cannot be counted, and statuses
      that are not all strings cannot be sorted: both raise. */
  function Report(statuses: seq<Value>): (r: (seq<Reply>, Option<string>))
    ensures |r.0| > 0 && r.0[0] == Started
    ensures |statuses| == 0 ==> r == ([Started, NoItems], None)
    ensures ListStatus(statuses) ==> r == ([Started], Some(Unhashable))
    ensures r.1.Some? <==> ListStatus(statuses) || (SortedTally(statuses).Err? && |statuses| > 0)
    ensures r.1.Some? ==> r.0 == [Started]
    ensures |statuses| > 0 && r.1.None? ==> r.0 == [Started, Complete(|statuses|, SortedTally(statuses).value)]
    ensures |statuses| > 0 && r.1.None? ==>
      var lines := CompleteLines(r.0[1].total, r.0[1].byStatus);
      && lines[1] == "\nBackfilled " + Numbers.IntToString(|statuses|) + " items from last week."
      && (forall s :: s in statuses ==> Tally.StatusLine(s, multiset(statuses)[s]) in lines[3..])
      && (forall l :: l in lines[3..] ==> exists s :: s in statuses && l == Tally.StatusLine(s, multiset(statuses)[s]))
  {
    if ListStatus(statuses) then ([Started], Some(Unhashable))
    else if |statuses| == 0 then ([Started, NoItems], None)
    else
      match SortedTally(statuses)
      case Err(e) => ([Started], Some(e))
      case Ok(sorted) =>
        CompleteShowsStatuses(statuses, sorted);
        ([Started, Complete(|statuses|, sorted)], None)
  }

  /** The completion lines show each status read with its count, and only
      those. */
  lemma CompleteShowsStatuses(statuses: seq<Value>, sorted: Tally.Counts)
    requires Tally.DistinctKeys(sorted)
    requires forall s :: Tally.Lookup(sorted, s) == multiset(statuses)[s]
    requires forall s :: Tally.HasKey(sorted, s) <==> s in statuses
    ensures var lines := CompleteLines(|statuses|, sorted);
      && (forall s :: s in statuses ==> Tally.StatusLine(s, multiset(statuses)[s]) in lines[3..])
      && (forall l :: l in lines[3..] ==> exists s :: s in statuses && l == Tally.StatusLine(s, multiset(statuses)[s]))
  {
    var sl := Tally.StatusLines(sorted);
    CompleteTail(|statuses|, sorted);
    Tally.TallyLines(statuses, sorted);
    forall l | l in sl ensures exists s :: s in statuses && l == Tally.StatusLine(s, multiset(statuses)[s]) {
      var i :| 0 <= i < |sl| && sl[i] == l;
      var s := sorted[i].0;
      assert s in statuses && l == Tally.StatusLine(s, multiset(statuses)[s]);
    }
  }

  /** After its three opening lines, the completion message lists the
      status lines. */
  lemma CompleteTail(total: nat, byStatus: Tally.Counts)
    ensures CompleteLines(total, byStatus)[3..] == Tally.StatusLines(byStatus)
  {
  }

  /** `handle`, reading the recent items with `SK >= startDate`. The table
      is the same afterwards; the replies report the read items' statuses,
      and the start message is sent even when the report then raises. */
  function Handle(t: Table, startDate: string): (r: (Result<Response>, seq<Reply>, Table))
    ensures r.2 == t
    ensures |r.1| > 0 && r.1[0] == Started
    ensures var keys := Recent.Since(t, startDate);
      var report := Report(Statuses(t, keys));
      && r.1 == report.0
      && (r.0.Ok? <==> report.1.None?)
      && (r.0.Ok? ==> r.0.value == Processed)
      && (r.0.Err? ==> r.0.error == report.1.value)
  {
    var keys := Recent.Since(t, startDate);
    RePutIsNoop(t, keys);
    var t' := ApplyAll(t, Puts(t, keys));
    var (replies, error) := Report(Statuses(t, keys));
    match error
    case Some(e) => (Err(e), replies, t')
    case None => (Ok(Processed), replies, t')
  }
}

=== FILE: debug_count.dfy ===
/** `/debug count` (actions/debug_count.py): count the scanned items by
    category, then by status, and report the totals. */
module DebugCount {
  import opened Wrappers
  import opened Values
  import opened Http
  import opened Tally
  import Order
  import opened Grouping
  import Numbers
  import Text

  const Processed := Response(200, "Debug count command processed")
  const NoMessage := Response(400, "No message data")

  /** `counts`: per category (first-seen order) the tally of its statuses. */
  type CategoryCounts = seq<(Value, Counts)>

  predicate WellFormed(g: CategoryCounts) {
    DistinctKeys(g) && forall i :: 0 <= i < |g| ==> DistinctKeys(g[i].1)
  }

  /** `item.get("status", "none")`. */
  function StatusOf(item: Record): Value {
    GetOr(item, "status", Str("none"))
  }

  /** The (category, status) pair each item is counted under. */
  function Pairs(items: seq<Record>): (ps: seq<(Value, Value)>)
    ensures |ps| == |items|
    ensures forall i :: 0 <= i < |items| ==> ps[i] == (CategoryOf(items[i]), StatusOf(items[i]))
  {
    seq(|items|, i requires 0 <= i < |items| => (CategoryOf(items[i]), StatusOf(items[i])))
  }

  /** The statuses of the items in `category`, in scan order. */
  function StatusesIn(items: seq<Record>, category: Value): seq<Value>
    decreases |items|
  {
    if |items| == 0 then []
    else
      var last := items[|items| - 1];
      StatusesIn(items[..|items| - 1], category) + (if CategoryOf(last) == category then [StatusOf(last)] else [])
  }

  /** Each category's tally in `g` is the counting loop over the statuses
      of that category's items. */
  ghost predicate TalliedBy(g: CategoryCounts, items: seq<Record>) {
    forall c :: Inner(g, c) == CountBy(StatusesIn(items, c))
  }

  /** `counts.get(cat, {})`. */
  function Inner(g: CategoryCounts, category: Value): (c: Counts)
    ensures WellFormed(g) ==> DistinctKeys(c)
    ensures !HasKey(g, category) ==> c == []
  {
    if |g| == 0 then []
    else if g[0].0 == category then g[0].1
    else
      HasKeyTail(g);
      Inner(g[1..], category)
  }

  /** The sum over all categories of their status counts. */
  function GrandTotal(g: CategoryCounts): nat {
    SumBy(g, Total)
  }

  /** One step of the loop: count `status` under `category`. */
  function BumpIn(g: CategoryCounts, category: Value, status: Value): (r: CategoryCounts)
    requires WellFormed(g)
    ensures WellFormed(r)
    ensures GrandTotal(r) == GrandTotal(g) + 1
    ensures Inner(r, category) == Bump(Inner(g, category), status)
    ensures forall c :: c != category ==> Inner(r, c) == Inner(g, c)
    ensures forall c :: HasKey(r, c) <==> HasKey(g, c) || c == category
  {
    if |g| == 0 then
      var r := [(category, Bump([], status))];
      HasKeyTail(r);
      assert r[1..] == [];
      assert GrandTotal(r) == Total(r[0].1) + GrandTotal(r[1..]);
      r
    else
      DistinctTail(g);
      HasKeyTail(g);
      if g[0].0 == category then
        var r := [(category, Bump(g[0].1, status))] + g[1..];
        assert r[1..] == g[1..];
        HasKeyTail(r);
        DistinctCons(r[0], g[1..]);
        r
      else
        var rest := BumpIn(g[1..], category, status);
        var r := [g[0]] + rest;
        assert r[1..] == rest;
        HasKeyTail(r);
        DistinctCons(g[0], rest);
        r
  }

  /** `count_items`: the loop over the scanned items, in order. Every item
      is counted exactly once, under its own category and status. */
  function CountItems(items: seq<Record>): (g: CategoryCounts)
    ensures WellFormed(g)
    ensures GrandTotal(g) == |items|
    ensures forall c, s :: Lookup(Inner(g, c), s) == multiset(Pairs(items))[(c, s)]
    ensures forall c :: HasKey(g, c) <==> Mentions(items, c)
    ensures |g| == 0 <==> |items| == 0
    ensures TalliedBy(g, items)
    decreases |items|
  {
    if |items| == 0 then []
    else
      var init := items[..|items| - 1];
      var last := items[|items| - 1];
      assert items == init + [last];
      var g := CountItems(init);
      PairsSnoc(items);
      BumpInCounts(g, CategoryOf(last), StatusOf(last), Pairs(init));
      BumpInStatuses(g, items);
      forall c ensures Mentions(items, c) <==> Mentions(init, c) || CategoryOf(last) == c {
        MentionsSnoc(init, last, c);
      }
      BumpIn(g, CategoryOf(last), StatusOf(last))
  }

  /** The pairs of a scan are those of all but its last item, then the
      last item's pair. */
  lemma PairsSnoc(items: seq<Record>)
    requires |items| > 0
    ensures var last := items[|items| - 1];
      Pairs(items) == Pairs(items[..|items| - 1]) + [(CategoryOf(last), StatusOf(last))]
  {
  }

  /** Counting one more pair adds exactly that pair's occurrence. */
  lemma BumpInCounts(g: CategoryCounts, category: Value, status: Value, ps: seq<(Value, Value)>)
    requires WellFormed(g)
    requires forall c, s :: Lookup(Inner(g, c), s) == multiset(ps)[(c, s)]
    ensures forall c, s :: Lookup(Inner(BumpIn(g, category, status), c), s) == multiset(ps + [(category, status)])[(c, s)]
  {
    var r := BumpIn(g, category, status);
    assert multiset(ps + [(category, status)]) == multiset(ps) + multiset{(category, status)};
    forall c, s ensures Lookup(Inner(r, c), s) == multiset(ps + [(category, status)])[(c, s)] {
      if c == category {
        assert Inner(r, c) == Bump(Inner(g, c), status);
      } else {
        assert Inner(r, c) == Inner(g, c);
      }
    }
  }

  /** Counting the last item keeps each category's tally equal to the
      counting loop over that category's statuses. */
  lemma BumpInStatuses(g: CategoryCounts, items: seq<Record>)
    requires |items| > 0 && WellFormed(g)
    requires TalliedBy(g, items[..|items| - 1])
    ensures var last := items[|items| - 1];
      TalliedBy(BumpIn(g, CategoryOf(last), StatusOf(last)), items)
  {
    forall c ensures Inner(BumpIn(g, CategoryOf(items[|items| - 1]), StatusOf(items[|items| - 1])), c)
                     == CountBy(StatusesIn(items, c)) {
      BumpInStatusesAt(g, items, c);
    }
  }

  /** The step of `BumpInStatuses` for one category. */
  lemma BumpInStatusesAt(g: CategoryCounts, items: seq<Record>, c: Value)
    requires |items| > 0 && WellFormed(g)
    requires Inner(g, c) == CountBy(StatusesIn(items[..|items| - 1], c))
    ensures var last := items[|items| - 1];
      Inner(BumpIn(g, CategoryOf(last), StatusOf(last)), c) == CountBy(StatusesIn(items, c))
  {
    var init := items[..|items| - 1];
    var last := items[|items| - 1];
    var before := StatusesIn(init, c);
    if c == CategoryOf(last) {
      assert StatusesIn(items, c) == before + [StatusOf(last)];
      CountBySnoc(before, StatusOf(last));
    } else {
      assert StatusesIn(items, c) == before + [];
      assert before + [] == before;
    }
  }

  /** In a well-formed tally, the inner tally found for an entry's category
      is that entry's. */
  lemma {:induction false} InnerEntry(g: CategoryCounts, e: (Value, Counts))
    requires WellFormed(g) && e in g
    ensures Inner(g, e.0) == e.1
  {
    DistinctTail(g);
    if g[0] != e {
      assert g[0].0 != e.0;
      assert e in g[1..];
      InnerEntry(g[1..], e);
    }
  }

  /** Sorting the categories keeps every category's inner tally. */
  lemma SameEntriesSameInner(a: CategoryCounts, b: CategoryCounts)
    requires WellFormed(a) && WellFormed(b)
    requires forall x :: x in a <==> x in b
    ensures forall c :: Inner(a, c) == Inner(b, c)
  {
    SameEntriesSameKeys(a, b);
    forall c ensures Inner(a, c) == Inner(b, c) {
      if HasKey(a, c) {
        var i :| 0 <= i < |a| && a[i].0 == c;
        assert a[i] in b;
        InnerEntry(a, a[i]);
        InnerEntry(b, a[i]);
      }
    }
  }

  /** The sorted tally keeps the grand total and every count. */
  lemma SortedKeepsCounts(counts: CategoryCounts, sorted: CategoryCounts)
    requires WellFormed(counts) && DistinctKeys(sorted)
    requires forall x :: x in sorted <==> x in counts
    ensures WellFormed(sorted)
    ensures GrandTotal(sorted) == GrandTotal(counts)
    ensures forall c :: Inner(sorted, c) == Inner(counts, c)
  {
    assert WellFormed(sorted) by {
      forall i | 0 <= i < |sorted| ensures DistinctKeys(sorted[i].1) {
        assert sorted[i] in counts;
      }
    }
    SumBySameEntries(sorted, counts, Total);
    SameEntriesSameInner(sorted, counts);
  }

  /** Several categories are all strings, in ascending order. */
  predicate CategoriesSorted(g: CategoryCounts) {
    |g| > 1 ==> KeysAscending(g)
  }

  /** `sorted(counts.items())`: the categories in order, each keeping its
      inner tally. */
  function SortedGroups(counts: CategoryCounts): (r: Result<CategoryCounts>)
    requires WellFormed(counts)
    ensures r.Err? ==> exists i :: 0 <= i < |counts| && !counts[i].0.Str?
    ensures r.Ok? ==>
      && WellFormed(r.value)
      && GrandTotal(r.value) == GrandTotal(counts)
      && (forall c :: Inner(r.value, c) == Inner(counts, c))
      && CategoriesSorted(r.value)
  {
    var r := SortByKey(counts);
    if r.Ok? then
      SortedKeepsCounts(counts, r.value);
      assert |r.value| > 1 ==> |counts| > 1 by {
        if |counts| <= 1 { assert r.value == counts; }
      }
      r
    else r
  }

  /** The messages sent to the chat. */
  datatype Reply =
    | Failed
    | Report(byCategory: CategoryCounts, grandTotal: nat)

  /** What a report on `items` says: every item counted once under its
      category and status, categories sorted when there are several, and
      each category's statuses in the order the scan first met them. */
  ghost predicate Describes(report: Reply, items: seq<Record>) {
    && report.Report?
    && report.grandTotal == |items|
    && report.grandTotal == GrandTotal(report.byCategory)
    && WellFormed(report.byCategory)
    && (forall c, s :: Lookup(Inner(report.byCategory, c), s) == multiset(Pairs(items))[(c, s)])
    && TalliedBy(report.byCategory, items)
    && CategoriesSorted(report.byCategory)
  }

  const Title := "🔢 *Item Counts*"
  const FailedText := "❌ Failed to count items or table is empty."

  /** The line opening a category's block. */
  function Header(category: Value, total: nat): string {
    "\n📂 *" + Show(category) + "* (total: " + Numbers.IntToString(total) + ")"
  }

  /** A category's block: its header with its total, then its status lines
      in the tally's order. */
  function Block(e: (Value, Counts)): seq<string> {
    [Header(e.0, Total(e.1))] + StatusLines(e.1)
  }

  /** The blocks of the categories, in the report's order. */
  function Blocks(g: CategoryCounts): seq<string> {
    if |g| == 0 then [] else Block(g[0]) + Blocks(g[1..])
  }

  /** The lines of the text sent for a reply. */
  function Lines(reply: Reply): seq<string> {
    match reply
    case Failed => [FailedText]
    case Report(g, n) => [Title] + Blocks(g) + ["\n🏁 Grand total: " + Numbers.IntToString(n)]
  }

  /** The text sent for a reply: its lines joined by newlines. */
  function Message(reply: Reply): string {
    Text.Join(Lines(reply), "\n")
  }

  /** Reference block for `category`, computed from the items alone: the
      header with the number of items in the category, then one line per
      distinct status of those items, in the order first met, with the
      number of items in the category having it ("none" shown as
      "no status"). */
  function ItemBlock(items: seq<Record>, category: Value): seq<string> {
    var ss := StatusesIn(items, category);
    [Header(category, |ss|)] + FirstSeenLines(ss)
  }

  /** Every block of a report describing `items` is the reference block of
      its category. */
  lemma ReportBlocks(report: Reply, items: seq<Record>)
    requires Describes(report, items)
    ensures forall j :: 0 <= j < |report.byCategory| ==>
      Block(report.byCategory[j]) == ItemBlock(items, report.byCategory[j].0)
  {
    var g := report.byCategory;
    forall j | 0 <= j < |g| ensures Block(g[j]) == ItemBlock(items, g[j].0) {
      var c := g[j].0;
      InnerEntry(g, g[j]);
      assert g[j].1 == CountBy(StatusesIn(items, c));
      CountedLines(StatusesIn(items, c));
    }
  }

  /** Some item's category or status is a list, which the counting loop
      cannot use as a dict key. */
  predicate UnhashableKey(items: seq<Record>) {
    exists i :: 0 <= i < |items| && (CategoryOf(items[i]).Vec? || StatusOf(items[i]).Vec?)
  }

  /** The report on a non-empty scan, or the error counting or sorting
      raises: a list key cannot be hashed, and categories that are not all
      strings cannot be sorted. */
  function ReportOn(items: seq<Record>): (r: Result<Reply>)
    requires |items| > 0
    ensures UnhashableKey(items) ==> r == Err(Unhashable)
    ensures r.Err? && !UnhashableKey(items) ==> exists i :: 0 <= i < |items| && !CategoryOf(items[i]).Str?
    ensures !UnhashableKey(items) && (forall i :: 0 <= i < |items| ==> CategoryOf(items[i]).Str?) ==> r.Ok?
    ensures r.Ok? ==> Describes(r.value, items)
  {
    if UnhashableKey(items) then Err(Unhashable)
    else
      var counts := CountItems(items);
      match SortedGroups(counts)
      case Err(e) =>
        UnsortableCategory(items, counts);
        Err(e)
      case Ok(sorted) =>
        SortedDescribes(items, counts, sorted);
        Ok(Report(sorted, GrandTotal(sorted)))
  }

  /** A category that is not a string comes from some item. */
  lemma UnsortableCategory(items: seq<Record>, counts: CategoryCounts)
    requires forall c :: HasKey(counts, c) <==> Mentions(items, c)
    requires exists i :: 0 <= i < |counts| && !counts[i].0.Str?
    ensures exists i :: 0 <= i < |items| && !CategoryOf(items[i]).Str?
  {
    var i :| 0 <= i < |counts| && !counts[i].0.Str?;
    assert HasKey(counts, counts[i].0);
  }

  /** Sorted counts that keep every category's tally describe the items
      those counts were taken from. */
  lemma SortedDescribes(items: seq<Record>, counts: CategoryCounts, sorted: CategoryCounts)
    requires WellFormed(sorted)
    requires GrandTotal(sorted) == GrandTotal(counts) == |items|
    requires forall c, s :: Lookup(Inner(counts, c), s) == multiset(Pairs(items))[(c, s)]
    requires forall c :: Inner(sorted, c) == Inner(counts, c)
    requires TalliedBy(counts, items)
    requires CategoriesSorted(sorted)
    ensures Describes(Report(sorted, GrandTotal(sorted)), items)
  {
    forall c, s ensures Lookup(Inner(sorted, c), s) == multiset(Pairs(items))[(c, s)] {
      assert Inner(sorted, c) == Inner(counts, c);
    }
  }

  /** `handle`. `message` is whether the event carries a message; `items`
      is the full scan. Counting raises on a list key, sorting on a
      category that is not a string. */
  function Handle(message: bool, items: seq<Record>): (r: Result<(Response, seq<Reply>)>)
    ensures !message ==> r == Ok((NoMessage, []))
    ensures message && |items| == 0 ==> r == Ok((Processed, [Failed]))
    ensures message && UnhashableKey(items) ==> r == Err(Unhashable)
    ensures r.Err? && !UnhashableKey(items) ==> exists i :: 0 <= i < |items| && !CategoryOf(items[i]).Str?
    ensures message && !UnhashableKey(items) && (forall i :: 0 <= i < |items| ==> CategoryOf(items[i]).Str?) ==> r.Ok?
    ensures message && r.Ok? && |items| > 0 ==>
      r.value.0 == Processed && |r.value.1| == 1 && Describes(r.value.1[0], items)
    ensures message && r.Ok? && |items| > 0 ==>
      var g := r.value.1[0].byCategory;
      forall j :: 0 <= j < |g| ==> Block(g[j]) == ItemBlock(items, g[j].0)
  {
    if !message then Ok((NoMessage, []))
    else if |items| == 0 then Ok((Processed, [Failed]))
    else
      match ReportOn(items)
      case Err(e) => Err(e)
      case Ok(report) =>
        ReportBlocks(report, items);
        Ok((Processed, [report]))
  }
}

=== FILE: delete_action.dfy ===
/** The `/delete ID` command (actions/delete.py): delete the first scanned
    item whose SK starts with the id and '#', and nothing else. */
module DeleteAction {
  import opened Wrappers
  import opened Values
  import opened Table
  import opened Http
  import opened ItemIds
  import Text

  const Processed := Response(200, "Delete command processed")

  /** The reply sent to the chat. */
  datatype Reply = Usage | Deleted(id: string) | NotFound(id: string)

  /** The scan loop with its early return: the index of the first key
      carrying `id`. */
  function FirstWith(order: seq<Key>, id: string): (r: Option<nat>)
    ensures r.Some? ==> r.value < |order| && HasId(order[r.value], id)
    ensures r.Some? ==> forall j :: 0 <= j < r.value ==> !HasId(order[j], id)
    ensures r.None? <==> forall j :: 0 <= j < |order| ==> !HasId(order[j], id)
  {
    if |order| == 0 then None
    else if HasId(order[0], id) then Some(0)
    else
      match FirstWith(order[1..], id)
      case None => None
      case Some(i) => Some(i + 1)
  }

  /** `handle`. `order` is the order of the full scan. An item is deleted
      exactly when the command is well formed and some stored item carries
      the id; then it is the first such item in scan order, and only it. */
  function Handle(text: string, t: Table, order: seq<Key>): (r: (Response, Reply, Table))
    requires IsScanOrder(order, t)
    ensures r.0 == Processed
    ensures |Text.SplitWhitespace(text)| != 2 ==> r.1 == Usage && r.2 == t
    ensures |Text.SplitWhitespace(text)| == 2 ==>
      var id := Text.SplitWhitespace(text)[1];
      && (r.1 == Deleted(id) <==> exists k :: k in t && HasId(k, id))
      && (r.1 == NotFound(id) <==> forall k :: k in t ==> !HasId(k, id))
    ensures r.1.Deleted? ==>
      var i := FirstWith(order, r.1.id).value;
      && order[i] in t
      && r.2 == t - {order[i]}
      && |r.2| == |t| - 1
    ensures !r.1.Deleted? ==> r.2 == t
  {
    var parts := Text.SplitWhitespace(text);
    if |parts| != 2 then (Processed, Usage, t)
    else
      var id := parts[1];
      match FirstWith(order, id)
      case None =>
        assert forall k :: k in t ==> !HasId(k, id) by {
          forall k | k in t ensures !HasId(k, id) {
            var j :| 0 <= j < |order| && order[j] == k;
          }
        }
        (Processed, NotFound(id), t)
      case Some(i) =>
        assert order[i] in t && HasId(order[i], id);
        (Processed, Deleted(id), t - {order[i]})
  }
}

=== FILE: digest.dfy ===
/** The scheduled digest of the lambdas package
    (packages/lambdas/src/lambdas/digest.py) and the `/digest` command that
    produces it on demand (actions/digest.py). The open items queried for the
    digest, the summarizers' answers, the chat id and the outcome of sending
    to Telegram are parameters. */
module Digest {
  import opened Wrappers
  import opened Values
  import opened Http
  import opened Grouping
  import Numbers
  import Text

  // The marks as the file stores them: the UTF-8 bytes of the emoji 📝, 📊,
  // 📂 and of the bullet • were saved read back as Mac Roman characters, so
  // these (not the emoji) are what the digest sends.
  const NoteMark := "\U{F8FF}\U{FC}\U{EC}\U{F9}"
  const ChartMark := "\U{F8FF}\U{FC}\U{EC}\U{E4}"
  const FolderMark := "\U{F8FF}\U{FC}\U{EC}\U{C7}"
  const BulletMark := "\U{201A}\U{C4}\U{A2}"

  const FailedReply := "❌ Failed to generate digest"
  const NoSummary := Response(500, "Failed to generate digest")
  const SentOk := Response(200, "Digest sent successfully")
  const NotSent := Response(500, "Failed to send digest")

  /** How far back the digest looks, in days. */
  function DaysBack(digestType: string): (days: nat)
    ensures days == 1 <==> digestType == "daily"
    ensures days == 1 || days == 7
  {
    if digestType == "daily" then 1 else 7
  }

  /** The summarizers as configured: each API key (empty when unset) and
      the summary its call gives back, `None` when the call raised. */
  datatype Summarizers = Summarizers(
    anthropicKey: string, anthropic: Option<string>,
    openaiKey: string, openai: Option<string>)

  /** The AI summary: Anthropic's when its key is set, else OpenAI's when
      that key is set, else none. */
  function AiSummary(ai: Summarizers): (s: Option<string>)
    ensures ai.anthropicKey != "" ==> s == ai.anthropic
    ensures ai.anthropicKey == "" && ai.openaiKey != "" ==> s == ai.openai
    ensures ai.anthropicKey == "" && ai.openaiKey == "" ==> s == None
  {
    if ai.anthropicKey != "" then ai.anthropic
    else if ai.openaiKey != "" then ai.openai
    else None
  }

  /** Python's truth value of an optional string. */
  predicate Present(s: Option<string>) {
    s.Some? && s.value != ""
  }

  /** An item the fallback lists: one with a truthy next action. */
  predicate HasNextAction(item: Record) {
    Truthy(Get(item, "next_action"))
  }

  /** The fallback's line for an item: its name and next action, listed
      only when the next action is truthy. */
  function ActionLines(item: Record): (lines: seq<string>)
    ensures |lines| == (if HasNextAction(item) then 1 else 0)
    ensures |lines| == 1 ==> Text.StartsWith(lines[0], "  " + BulletMark + " ")
  {
    if HasNextAction(item) then
      var line := "  " + BulletMark + " " + Show(GetOr(item, "name", Str("No name")))
        + ": " + Show(Get(item, "next_action"));
      assert line[..6] == "  " + BulletMark + " ";
      [line]
    else []
  }

  /** The fallback's line heading a category. */
  function CategoryLine(g: (Value, seq<Record>)): string {
    "\n" + FolderMark + " " + Show(g.0) + ": " + Numbers.IntToString(|g.1|) + " items"
  }

  /** The first line of the fallback summary. */
  function Title(digestType: string): string {
    ChartMark + " " + Text.Title(digestType) + " Digest (" + Numbers.IntToString(DaysBack(digestType)) + " days)"
  }

  lemma ActionLinesPer()
    ensures LinesPer(ActionLines, false, HasNextAction)
  {
    forall x ensures |ActionLines(x)| == (if HasNextAction(x) then 1 else 0) {
      var l := ActionLines(x);
    }
  }

  /** The summary built without AI: a title, the number of open items, then
      per category (in order of first appearance) a line counting its items
      followed by one line per item that has a next action. */
  function Fallback(digestType: string, items: seq<Record>): (lines: seq<string>)
    ensures |lines| == 2 + |Group(items)| + CountWhere(items, HasNextAction)
    ensures lines[0] == Title(digestType)
    ensures lines[1] == "Open items: " + Numbers.IntToString(|items|)
  {
    var gs := Group(items);
    ActionLinesPer();
    BlocksLength(gs, CategoryLine, ActionLines, false, HasNextAction);
    GroupCount(items, HasNextAction);
    [Title(digestType), "Open items: " + Numbers.IntToString(|items|)] + Blocks(gs, CategoryLine, ActionLines)
  }

  /** The line the i-th category gets: the number of open items of exactly
      that category. */
  lemma FallbackCategoryLines(digestType: string, items: seq<Record>, i: nat)
    requires i < |Group(items)|
    ensures var gs := Group(items);
      && 2 + BlockStart(gs, ActionLines, i) < |Fallback(digestType, items)|
      && Fallback(digestType, items)[2 + BlockStart(gs, ActionLines, i)]
         == "\n" + FolderMark + " " + Show(gs[i].0) + ": "
            + Numbers.IntToString(|Filter(items, gs[i].0)|) + " items"
  {
    var gs := Group(items);
    assert Filtered(items, gs);
    BlockHeader(gs, CategoryLine, ActionLines, i);
    assert Fallback(digestType, items)
        == [Title(digestType), "Open items: " + Numbers.IntToString(|items|)] + Blocks(gs, CategoryLine, ActionLines);
  }

  /** `generate_digest_summary(digest_type)` over the open items queried for
      it. Never empty: the callers' failure branches cannot be taken. */
  function Summary(digestType: string, items: seq<Record>, ai: Summarizers): (s: string)
    ensures |items| == 0 ==>
      s == NoteMark + " No open items found in the last " + Numbers.IntToString(DaysBack(digestType)) + " days."
    ensures |items| > 0 && Present(AiSummary(ai)) ==> s == AiSummary(ai).value
    ensures |items| > 0 && !Present(AiSummary(ai)) ==> s == Text.Join(Fallback(digestType, items), "\n")
    ensures s != ""
  {
    if |items| == 0 then
      NoteMark + " No open items found in the last " + Numbers.IntToString(DaysBack(digestType)) + " days."
    else
      var ai := AiSummary(ai);
      if Present(ai) then ai.value
      else
        var lines := Fallback(digestType, items);
        Text.JoinStartsWith(lines, "\n");
        assert |lines[0]| > 0;
        Text.Join(lines, "\n")
  }

  /** The type `/digest` asks for: daily when the text mentions it. */
  function CommandType(text: string): (t: string)
    ensures t == "daily" <==> Text.Contains(Text.Lower(text), "daily")
    ensures t == "daily" || t == "weekly"
  {
    if Text.Contains(Text.Lower(text), "daily") then "daily" else "weekly"
  }

  /** `actions.digest.handle`: the summary is sent to the chat and the type
      is acknowledged. `items` are the open items queried for the chosen type.
      The failure reply, meant for a falsy summary, is never sent. */
  function Command(text: string, items: seq<Record>, ai: Summarizers): (r: (Response, string))
    ensures r.0 == Response(200, CommandType(text) + " digest command processed")
    ensures r.1 == Summary(CommandType(text), items, ai)
  {
    var digestType := CommandType(text);
    var summary := Summary(digestType, items, ai);
    (Response(200, digestType + " digest command processed"), if summary != "" then summary else FailedReply)
  }

  /** The type of a scheduled run: weekly when a triggering resource names
      the weekly rule, daily otherwise (and when the event has no resources). */
  function ScheduledType(resources: Option<seq<string>>): (t: string)
    ensures t == "weekly" <==> resources.Some? && exists i :: 0 <= i < |resources.value| && Text.Contains(resources.value[i], "Weekly")
    ensures t == "daily" || t == "weekly"
  {
    if resources.Some? && exists i :: 0 <= i < |resources.value| && Text.Contains(resources.value[i], "Weekly") then "weekly"
    else "daily"
  }

  /** `handler` for a scheduled event. `chatId` is the configured chat (empty
      when unset); `sent` is whether sending the summary there succeeds. The
      message sent, if any, comes back with the response. */
  function Handler(resources: Option<seq<string>>, items: seq<Record>, ai: Summarizers, chatId: string, sent: bool)
    : (r: (Response, Option<Sent>))
    ensures r.0 != NoSummary
    ensures r.0 == SentOk <==> chatId != "" && sent
    ensures r.0 == NotSent <==> !(chatId != "" && sent)
    ensures r.1.Some? <==> chatId != ""
    ensures r.1.Some? ==> r.1.value == Sent(chatId, Summary(ScheduledType(resources), items, ai))
  {
    var summary := Summary(ScheduledType(resources), items, ai);
    if summary == "" then (NoSummary, None)
    else
      var message := if chatId != "" then Some(Sent(chatId, summary)) else None;
      if chatId != "" && sent then (SentOk, message) else (NotSent, message)
  }
}

=== FILE: duplicates_auto.dfy ===
/** `/debug duplicates-auto` (actions/debug_duplicates_auto.py): read the
    recent items of the four categories, ask the classifier for merge /
    delete / keep actions naming items by id, and carry them out against the
    table. Merges use the notes/status merge of `/merge`; the items merged
    and deleted are those read at the start, not as earlier actions left
    them. */
module DuplicatesAuto {
  import opened Wrappers
  import opened Values
  import opened Table
  import opened Http
  import ItemIds
  import MergeAction
  import Recent

  const Processed := Response(200, "Duplicates-auto command processed")
  const NoChatId := Response(400, "No chat ID")

  /** The classifier's side of the exchange: no API key configured, a call
      or parse that raised, or a parsed JSON object with its "actions" (an
      absent list read as empty) and its "summary", if any. */
  datatype Answer =
    | NoKey
    | CallFailed(error: string)
    | Answered(actions: seq<Record>, summary: Option<Value>)

  /** The messages sent to the chat. */
  datatype Reply =
    | Started
    | AiFailed(error: string)
    | NotEnough
    | NothingNeeded
    | Complete(summary: string, merged: nat, deleted: nat, kept: nat)

  /** `keys[i]` is the last read key whose id is `id`. */
  predicate LastWithId(keys: seq<Key>, i: int, id: string) {
    && 0 <= i < |keys|
    && ItemIds.IdOf(keys[i].1) == id
    && forall j :: i < j < |keys| ==> ItemIds.IdOf(keys[j].1) != id
  }

  /** `id_to_item`: every read item under its id; where two share an id the
      later one is kept. */
  function IdIndex(keys: seq<Key>): (ids: map<string, Key>)
    ensures forall k :: k in keys ==> ItemIds.IdOf(k.1) in ids
    ensures forall id :: id in ids ==> exists i :: LastWithId(keys, i, id) && keys[i] == ids[id]
    decreases |keys|
  {
    assert |keys| > 0 ==> keys == keys[..|keys| - 1] + [keys[|keys| - 1]];
    if |keys| == 0 then map[]
    else
      var init := keys[..|keys| - 1];
      var last := keys[|keys| - 1];
      var prev := IdIndex(init);
      IdIndexSnoc(init, last, prev);
      prev[ItemIds.IdOf(last.1) := last]
  }

  /** One more read key: it becomes the item of its id, and every other id
      keeps its item. */
  lemma IdIndexSnoc(init: seq<Key>, last: Key, prev: map<string, Key>)
    requires forall k :: k in init ==> ItemIds.IdOf(k.1) in prev
    requires forall id :: id in prev ==> exists i :: LastWithId(init, i, id) && init[i] == prev[id]
    ensures var keys := init + [last];
      var ids := prev[ItemIds.IdOf(last.1) := last];
      && (forall k :: k in keys ==> ItemIds.IdOf(k.1) in ids)
      && (forall id :: id in ids ==> exists i :: LastWithId(keys, i, id) && keys[i] == ids[id])
  {
    var keys := init + [last];
    var ids := prev[ItemIds.IdOf(last.1) := last];
    forall id | id in ids ensures exists i :: LastWithId(keys, i, id) && keys[i] == ids[id] {
      if id == ItemIds.IdOf(last.1) {
        assert LastWithId(keys, |keys| - 1, id);
      } else {
        var i :| LastWithId(init, i, id) && init[i] == prev[id];
        assert forall j :: 0 <= j < |init| ==> keys[j] == init[j];
        assert LastWithId(keys, i, id);
      }
    }
    assert forall k :: k in keys ==> k in init || k == last;
  }

  /** Every item the index names is one of the read items. */
  lemma IndexedAreRead(keys: seq<Key>)
    ensures forall id :: id in IdIndex(keys) ==> IdIndex(keys)[id] in keys
  {
    forall id | id in IdIndex(keys) ensures IdIndex(keys)[id] in keys {
      var i :| LastWithId(keys, i, id) && keys[i] == IdIndex(keys)[id];
    }
  }

  /** `id_to_item.get(v)`: a list cannot be hashed and raises; otherwise
      only a string naming an indexed id finds an item. */
  function Find(ids: map<string, Key>, v: Value): (r: Result<Option<Key>>)
    ensures r.Err? <==> v.Vec?
    ensures r.Ok? && r.value.Some? <==> v.Str? && v.s in ids
    ensures r.Ok? && r.value.Some? ==> r.value.value == ids[v.s]
  {
    match v
    case Vec(_) => Err(Unhashable)
    case Str(s) => Ok(if s in ids then Some(ids[s]) else None)
    case _ => Ok(None)
  }

  /** What one action amounts to. */
  datatype Outcome = Merged | Deleted | Kept | Skipped

  /** The action record `{"action": kind, "from_id": f, "into_id": i}` as read. */
  function Kind(action: Record): Value { Get(action, "action") }
  function FromId(action: Record): Value { Get(action, "from_id") }
  function IntoId(action: Record): Value { Get(action, "into_id") }

  /** The writes one action issues and what it counts as. Items are read
      from `snap`, the table as it was when the items were queried. */
  function Step(ids: map<string, Key>, snap: Table, action: Record): (r: Result<(seq<Write>, Outcome)>)
    requires forall id :: id in ids ==> ids[id] in snap
    ensures r.Err? ==> FromId(action).Vec? || IntoId(action).Vec?
    ensures r.Ok? && r.value.1 != Merged && r.value.1 != Deleted ==> r.value.0 == []
    ensures r.Ok? && r.value.1 == Kept <==> Kind(action) == Str("keep")
    ensures r.Ok? && r.value.1 == Merged <==>
      && Kind(action) == Str("merge")
      && FromId(action).Str? && FromId(action).s != "" && FromId(action).s in ids
      && IntoId(action).Str? && IntoId(action).s != "" && IntoId(action).s in ids
    ensures r.Ok? && r.value.1 == Merged ==>
      var fromKey := ids[FromId(action).s];
      var intoKey := ids[IntoId(action).s];
      r.value.0 == MergeAction.MergeWrites(FromId(action).s, fromKey, snap[fromKey], intoKey, snap[intoKey])
    ensures r.Ok? && r.value.1 == Deleted <==>
      Kind(action) == Str("delete") && FromId(action).Str? && FromId(action).s != "" && FromId(action).s in ids
    ensures r.Ok? && r.value.1 == Deleted ==> r.value.0 == [Delete(ids[FromId(action).s])]
  {
    var kind := Kind(action);
    var f := FromId(action);
    var i := IntoId(action);
    if kind == Str("merge") && Truthy(f) && Truthy(i) then
      match Find(ids, f)
      case Err(e) => Err(e)
      case Ok(fromKey) =>
        match Find(ids, i)
        case Err(e) => Err(e)
        case Ok(intoKey) =>
          if fromKey.Some? && intoKey.Some? then
            Ok((MergeAction.MergeWrites(f.s, fromKey.value, snap[fromKey.value], intoKey.value, snap[intoKey.value]), Merged))
          else Ok(([], Skipped))
    else if kind == Str("delete") && Truthy(f) then
      match Find(ids, f)
      case Err(e) => Err(e)
      case Ok(fromKey) =>
        if fromKey.Some? then Ok(([Delete(fromKey.value)], Deleted)) else Ok(([], Skipped))
    else if kind == Str("keep") then Ok(([], Kept))
    else Ok(([], Skipped))
  }

  /** The three counters of the loop. */
  datatype Tallies = Tallies(merged: nat, deleted: nat, kept: nat)

  function Count(t: Tallies, o: Outcome): Tallies {
    match o
    case Merged => t.(merged := t.merged + 1)
    case Deleted => t.(deleted := t.deleted + 1)
    case Kept => t.(kept := t.kept + 1)
    case Skipped => t
  }

  /** The number of actions whose kind is "keep". */
  function Keeps(actions: seq<Record>): nat {
    if |actions| == 0 then 0
    else (if Kind(actions[0]) == Str("keep") then 1 else 0) + Keeps(actions[1..])
  }

  /** The action merges two indexed items: kind "merge" and both ids
      non-empty strings the index knows. */
  predicate MergesAt(ids: map<string, Key>, action: Record) {
    && Kind(action) == Str("merge")
    && FromId(action).Str? && FromId(action).s != "" && FromId(action).s in ids
    && IntoId(action).Str? && IntoId(action).s != "" && IntoId(action).s in ids
  }

  /** The action deletes an indexed item: kind "delete" and a non-empty
      string id the index knows. */
  predicate DeletesAt(ids: map<string, Key>, action: Record) {
    Kind(action) == Str("delete") && FromId(action).Str? && FromId(action).s != "" && FromId(action).s in ids
  }

  /** The number of actions that merge indexed items. */
  function Merges(ids: map<string, Key>, actions: seq<Record>): nat {
    if |actions| == 0 then 0
    else (if MergesAt(ids, actions[0]) then 1 else 0) + Merges(ids, actions[1..])
  }

  /** The number of actions that delete an indexed item. */
  function Deletes(ids: map<string, Key>, actions: seq<Record>): nat {
    if |actions| == 0 then 0
    else (if DeletesAt(ids, actions[0]) then 1 else 0) + Deletes(ids, actions[1..])
  }

  /** A write that only touches keys in `targets`. */
  predicate Within(ws: seq<Write>, targets: set<Key>) {
    forall i :: 0 <= i < |ws| ==> ws[i].key in targets
  }

  /** `t'` holds every key outside `targets` exactly as `t` does. */
  ghost predicate SameOutside(t: Table, t': Table, targets: set<Key>) {
    forall k :: k !in targets ==> (k in t' <==> k in t) && (k in t ==> t'[k] == t[k])
  }

  lemma SameOutsideTrans(t1: Table, t2: Table, t3: Table, targets: set<Key>)
    requires SameOutside(t1, t2, targets) && SameOutside(t2, t3, targets)
    ensures SameOutside(t1, t3, targets)
  {
  }

  /** Writes confined to `targets` leave every other key as it was. */
  lemma {:induction false} ApplyWithin(t: Table, ws: seq<Write>, targets: set<Key>)
    requires Within(ws, targets)
    ensures SameOutside(t, ApplyAll(t, ws), targets)
    decreases |ws|
  {
    if |ws| > 0 {
      ApplyWithin(Apply(t, ws[0]), ws[1..], targets);
      SameOutsideTrans(t, Apply(t, ws[0]), ApplyAll(t, ws), targets);
    }
  }

  /** The loop over the actions, with the table it leaves. An action whose
      id is a list raises; the writes of the actions before it stand. */
  function Run(ids: map<string, Key>, snap: Table, t: Table, actions: seq<Record>): (r: (Result<Tallies>, Table))
    requires forall id :: id in ids ==> ids[id] in snap
    ensures r.0.Ok? ==> r.0.value.merged + r.0.value.deleted + r.0.value.kept <= |actions|
    ensures r.0.Ok? ==> r.0.value.kept == Keeps(actions)
    ensures r.0.Ok? ==> r.0.value.merged == Merges(ids, actions)
    ensures r.0.Ok? ==> r.0.value.deleted == Deletes(ids, actions)
    ensures r.0.Err? ==> ListId(actions)
    ensures SameOutside(t, r.1, ids.Values)
    decreases |actions|
  {
    if |actions| == 0 then (Ok(Tallies(0, 0, 0)), t)
    else
      var s := Step(ids, snap, actions[0]);
      if s.Err? then
        assert ListIdAt(actions, 0);
        (Err(s.error), t)
      else
        var step := s.value;
        StepWithin(ids, snap, actions[0]);
        ApplyWithin(t, step.0, ids.Values);
        var rest := Run(ids, snap, ApplyAll(t, step.0), actions[1..]);
        SameOutsideTrans(t, ApplyAll(t, step.0), rest.1, ids.Values);
        if rest.0.Err? then
          RaisedLater(actions);
          rest
        else
          CountStep(ids, snap, actions[0], rest.0.value);
          (Ok(Count(rest.0.value, step.1)), rest.1)
  }

  /** Counting the first action's outcome adds one to the counter of what
      the action does to the indexed items. */
  lemma CountStep(ids: map<string, Key>, snap: Table, action: Record, rest: Tallies)
    requires forall id :: id in ids ==> ids[id] in snap
    requires Step(ids, snap, action).Ok?
    ensures var n := Count(rest, Step(ids, snap, action).value.1);
      && n.kept == (if Kind(action) == Str("keep") then 1 else 0) + rest.kept
      && n.merged == (if MergesAt(ids, action) then 1 else 0) + rest.merged
      && n.deleted == (if DeletesAt(ids, action) then 1 else 0) + rest.deleted
  {
  }

  /** Every write of an action targets an indexed item. */
  lemma StepWithin(ids: map<string, Key>, snap: Table, action: Record)
    requires forall id :: id in ids ==> ids[id] in snap
    ensures Step(ids, snap, action).Ok? ==> Within(Step(ids, snap, action).value.0, ids.Values)
  {
    var r := Step(ids, snap, action);
    if r.Ok? && r.value.1 == Merged {
      var fromKey := ids[FromId(action).s];
      var intoKey := ids[IntoId(action).s];
      assert r.value.0 == MergeAction.MergeWrites(FromId(action).s, fromKey, snap[fromKey], intoKey, snap[intoKey]);
    }
  }

  /** The action at `i` names an item by a list, which cannot be looked up. */
  predicate ListIdAt(actions: seq<Record>, i: int) {
    0 <= i < |actions| && (FromId(actions[i]).Vec? || IntoId(actions[i]).Vec?)
  }

  /** Some action names an item by a list. */
  ghost predicate ListId(actions: seq<Record>) {
    exists i :: ListIdAt(actions, i)
  }

  /** An action that raises after the first is one of the actions. */
  lemma RaisedLater(actions: seq<Record>)
    requires |actions| > 0
    ensures ListId(actions[1..]) ==> ListId(actions)
  {
    if ListId(actions[1..]) {
      var i :| ListIdAt(actions[1..], i);
      assert ListIdAt(actions, i + 1);
    }
  }

  /** `result.get('summary', 'Done')` as the report shows it. */
  function SummaryText(summary: Option<Value>): string {
    match summary
    case None => "Done"
    case Some(v) => Show(v)
  }

  /** Some read item has truthy notes that are not a string or a list: the
      summary line for the prompt slices them (`notes[:100]`) and raises. */
  predicate UnsliceableNotes(t: Table, keys: seq<Key>)
    requires forall k :: k in keys ==> k in t
  {
    exists i :: 0 <= i < |keys| && Truthy(Get(t[keys[i]], "notes")) && !Sliceable(Get(t[keys[i]], "notes"))
  }

  /** `handle`, reading the recent items with `SK >= startDate`. Only the
      items read can change: every other key is as it was. The start
      message is sent before anything can raise. Building the prompt raises,
      before any key is looked at, when some read item's notes cannot be
      sliced. The report counts the merges and deletes of indexed items and
      the keeps among the actions. */
  function Handle(chatId: Option<string>, t: Table, startDate: string, answer: Answer)
    : (r: (Result<Response>, seq<Reply>, Table))
    ensures chatId.None? || chatId == Some("") ==> r == (Ok(NoChatId), [], t)
    ensures chatId.Some? && chatId != Some("") ==> |r.1| > 0 && r.1[0] == Started
    ensures chatId.Some? && chatId != Some("") && |Recent.Since(t, startDate)| < 2 ==>
      r == (Ok(Processed), [Started, NotEnough], t)
    ensures chatId.Some? && chatId != Some("") && |Recent.Since(t, startDate)| >= 2
            && UnsliceableNotes(t, Recent.Since(t, startDate)) ==>
      r == (Err(NotSubscriptable), [Started], t)
    ensures chatId.Some? && chatId != Some("") && |Recent.Since(t, startDate)| >= 2
            && !UnsliceableNotes(t, Recent.Since(t, startDate)) ==>
      && (answer.NoKey? ==> r == (Ok(Processed), [Started, NothingNeeded], t))
      && (answer.CallFailed? ==> r == (Ok(Processed), [Started, AiFailed(answer.error), NothingNeeded], t))
      && (answer.Answered? && |answer.actions| == 0 ==> r == (Ok(Processed), [Started, NothingNeeded], t))
    ensures r.0.Err? ==> r.1 == [Started]
    ensures r.0.Ok? && r.2 != t ==> answer.Answered? && |r.1| == 2 && r.1[1].Complete?
    ensures r.0.Ok? && |r.1| == 2 && r.1[1].Complete? ==>
      var ids := IdIndex(Recent.Since(t, startDate));
      && answer.Answered?
      && r.1[1].summary == SummaryText(answer.summary)
      && r.1[1].kept == Keeps(answer.actions)
      && r.1[1].merged == Merges(ids, answer.actions)
      && r.1[1].deleted == Deletes(ids, answer.actions)
      && r.1[1].merged + r.1[1].deleted + r.1[1].kept <= |answer.actions|
    ensures forall k :: k !in Recent.Since(t, startDate) ==>
      (k in r.2 <==> k in t) && (k in t ==> r.2[k] == t[k])
  {
    if chatId.None? || chatId == Some("") then (Ok(NoChatId), [], t)
    else
      var keys := Recent.Since(t, startDate);
      if |keys| < 2 then (Ok(Processed), [Started, NotEnough], t)
      else if UnsliceableNotes(t, keys) then (Err(NotSubscriptable), [Started], t)
      else
        match answer
        case NoKey => (Ok(Processed), [Started, NothingNeeded], t)
        case CallFailed(e) => (Ok(Processed), [Started, AiFailed(e), NothingNeeded], t)
        case Answered(actions, summary) =>
          if |actions| == 0 then (Ok(Processed), [Started, NothingNeeded], t)
          else
            var ids := IdIndex(keys);
            IndexedAreRead(keys);
            var (res, t') := Run(ids, t, t, actions);
            assert forall k :: k !in keys ==> k !in ids.Values;
            match res
            case Err(e) => (Err(e), [Started], t')
            case Ok(n) => (Ok(Processed), [Started, Complete(SummaryText(summary), n.merged, n.deleted, n.kept)], t')
  }

  /** The action record that merges `fromId` into `intoId`. */
  function MergeOrder(fromId: string, intoId: string): Record {
    map["action" := Str("merge"), "from_id" := Str(fromId), "into_id" := Str(intoId)]
  }

  /** Unlike `/merge X X`, which never merges, an action merging an id into
      itself deletes that item: the update and the delete hit the same key. */
  lemma SelfMergeDeletes(ids: map<string, Key>, snap: Table, t: Table, id: string)
    requires forall x :: x in ids ==> ids[x] in snap
    requires id in ids && id != ""
    ensures var r := Step(ids, snap, MergeOrder(id, id));
      && r.Ok? && r.value.1 == Merged
      && ApplyAll(t, r.value.0) == t - {ids[id]}
  {
    var a := MergeOrder(id, id);
    assert Kind(a) == Str("merge") && FromId(a) == Str(id) && IntoId(a) == Str(id);
    var ws := Step(ids, snap, a).value.0;
    var k := ids[id];
    assert ws == MergeAction.MergeWrites(id, k, snap[k], k, snap[k]);
    assert ws[0].Update? && ws[0].key == k && ws[1] == Delete(k) && |ws| == 2;
    var t1 := Apply(t, ws[0]);
    assert ApplyAll(t, ws) == ApplyAll(t1, ws[1..]);
    assert ws[1..][1..] == [];
    assert ApplyAll(t1, ws[1..]) == ApplyAll(Apply(t1, ws[1]), []) == t1 - {k};
    assert t1 - {k} == t - {k};
  }

  /** A merge into an item an earlier action already deleted brings it back:
      the update is an upsert, so the item reappears holding only its key,
      the merged notes and the status. */
  lemma MergeIntoDeletedRecreates(ids: map<string, Key>, snap: Table, t: Table, fromId: string, intoId: string)
    requires forall x :: x in ids ==> ids[x] in snap
    requires fromId in ids && intoId in ids && fromId != "" && intoId != ""
    requires ids[fromId] != ids[intoId]
    requires ids[intoId] !in t
    ensures var r := Step(ids, snap, MergeOrder(fromId, intoId));
      && r.Ok? && r.value.1 == Merged
      && ids[intoId] in ApplyAll(t, r.value.0)
      && ApplyAll(t, r.value.0)[ids[intoId]].Keys == {"PK", "SK", "notes", "status"}
  {
    var a := MergeOrder(fromId, intoId);
    assert Kind(a) == Str("merge") && FromId(a) == Str(fromId) && IntoId(a) == Str(intoId);
    var ws := Step(ids, snap, a).value.0;
    var into := ids[intoId];
    assert ws == MergeAction.MergeWrites(fromId, ids[fromId], snap[ids[fromId]], into, snap[into]);
    assert ws[0].Update? && ws[0].key == into && ws[0].changes.Keys == {"notes", "status"};
    assert ws[1] == Delete(ids[fromId]) && |ws| == 2;
    var t1 := Apply(t, ws[0]);
    assert t1[into] == KeyAttrs(into) + ws[0].changes;
    assert ApplyAll(t, ws) == ApplyAll(t1, ws[1..]);
    assert ws[1..][1..] == [];
    assert ApplyAll(t1, ws[1..]) == ApplyAll(Apply(t1, ws[1]), []) == t1 - {ids[fromId]};
  }
}

=== FILE: environments.dfy ===
/** Configuration lookups (common/environments.py): environment variables,
    CloudFormation stack outputs and stack resources. The process
    environment and the CloudFormation responses are parameters. */
module Environments {
  import opened Wrappers
  import opened Values
  import Text

  /** The process environment. */
  type Env = map<string, string>

  /** `os.getenv(key, default)`. */
  function Raw(env: Env, key: string, default: Option<string>): (v: Option<string>)
    ensures key in env ==> v == Some(env[key])
    ensures key !in env ==> v == default
  {
    if key in env then Some(env[key]) else default
  }

  /** `get_env(key, required, default)`: the variable (or the default),
      stripped; a stripped value of "" or "-" counts as unset. A required
      variable that is unset with no default is a `ValueError`. */
  function GetEnv(env: Env, key: string, required: bool, default: Option<string>): (r: Result<Option<string>>)
    ensures r.Err? <==> required && Raw(env, key, default).None?
    ensures r.Ok? && r.value.Some? ==>
      && Raw(env, key, default).Some?
      && r.value.value == Text.Strip(Raw(env, key, default).value)
      && r.value.value != "" && r.value.value != "-"
    ensures r.Ok? && r.value.None? <==>
      || (!required && Raw(env, key, default).None?)
      || (Raw(env, key, default).Some? && Text.Strip(Raw(env, key, default).value) in {"", "-"})
  {
    var value := Raw(env, key, default);
    if required && value.None? then Err("ValueError: " + key + " environment variable not set")
    else if value.None? then Ok(None)
    else
      var stripped := Text.Strip(value.value);
      if stripped == "" || stripped == "-" then Ok(None) else Ok(Some(stripped))
  }

  /** The normalisation is idempotent: storing what `get_env` returned and
      reading it again gives the same answer. */
  lemma GetEnvIdempotent(env: Env, key: string, required: bool, default: Option<string>)
    requires GetEnv(env, key, required, default).Ok?
    requires GetEnv(env, key, required, default).value.Some?
    ensures var v := GetEnv(env, key, required, default).value.value;
      GetEnv(env[key := v], key, required, default) == Ok(Some(v))
  {
    var v := GetEnv(env, key, required, default).value.value;
    assert v == Text.Strip(Raw(env, key, default).value);
    Text.StripNoop(v);
    assert Raw(env[key := v], key, default) == Some(v);
  }

  /** One entry of `describe_stacks`: its "Outputs" list (empty when absent). */
  datatype StackDescription = StackDescription(outputs: seq<Record>)

  /** Index of the first output whose "OutputKey" is `outputKey`. */
  function FirstOutput(outputs: seq<Record>, outputKey: string): (r: Option<nat>)
    ensures r.Some? ==> r.value < |outputs| && Get(outputs[r.value], "OutputKey") == Str(outputKey)
    ensures r.Some? ==> forall i :: 0 <= i < r.value ==> Get(outputs[i], "OutputKey") != Str(outputKey)
    ensures r.None? <==> forall i :: 0 <= i < |outputs| ==> Get(outputs[i], "OutputKey") != Str(outputKey)
  {
    if |outputs| == 0 then None
    else if Get(outputs[0], "OutputKey") == Str(outputKey) then Some(0)
    else
      match FirstOutput(outputs[1..], outputKey)
      case None => None
      case Some(i) => Some(i + 1)
  }

  /** Output `i` is the first of `outputs` with that "OutputKey". */
  predicate FirstWithKey(outputs: seq<Record>, outputKey: string, i: int) {
    && 0 <= i < |outputs|
    && Get(outputs[i], "OutputKey") == Str(outputKey)
    && forall j :: 0 <= j < i ==> Get(outputs[j], "OutputKey") != Str(outputKey)
  }

  /** `FirstOutput` finds exactly the first output with the key. */
  lemma FirstOutputIsFirst(outputs: seq<Record>, outputKey: string)
    ensures forall i :: FirstWithKey(outputs, outputKey, i) <==> FirstOutput(outputs, outputKey) == Some(i)
  {
    forall i | FirstWithKey(outputs, outputKey, i)
      ensures FirstOutput(outputs, outputKey) == Some(i)
    {
      var f := FirstOutput(outputs, outputKey);
      assert f.Some?;
      assert !(f.value < i) && !(i < f.value);
    }
  }

  /** `get_stack_output`: `None` (as `Null`) without stacks; otherwise the
      "OutputValue" of the first stack's first output with that key, or `None`. */
  function GetStackOutput(stacks: seq<StackDescription>, outputKey: string): (v: Value)
    ensures |stacks| == 0 ==> v == Null
    ensures v != Null ==>
      (exists i ::
         && 0 <= i < |stacks[0].outputs|
         && Get(stacks[0].outputs[i], "OutputKey") == Str(outputKey)
         && Get(stacks[0].outputs[i], "OutputValue") == v)
    ensures (|stacks| > 0 && forall i :: 0 <= i < |stacks[0].outputs| ==>
               Get(stacks[0].outputs[i], "OutputKey") != Str(outputKey))
            ==> v == Null
    ensures forall i :: |stacks| > 0 && FirstWithKey(stacks[0].outputs, outputKey, i) ==>
      v == Get(stacks[0].outputs[i], "OutputValue")
  {
    if |stacks| == 0 then Null
    else
      FirstOutputIsFirst(stacks[0].outputs, outputKey);
      match FirstOutput(stacks[0].outputs, outputKey)
      case None => Null
      case Some(i) => Get(stacks[0].outputs[i], "OutputValue")
  }

  const LambdaFunctionType := "AWS::Lambda::Function"

  /** The resource `find_lambda_function` looks for. */
  predicate IsLambdaWithPrefix(resource: Record, prefix: string) {
    && GetOr(resource, "ResourceType", Str("")) == Str(LambdaFunctionType)
    && GetOr(resource, "LogicalResourceId", Str("")).Str?
    && Text.StartsWith(GetOr(resource, "LogicalResourceId", Str("")).s, prefix)
  }

  /** A Lambda resource whose logical id is not a string: `startswith` raises. */
  predicate Raises(resource: Record) {
    && GetOr(resource, "ResourceType", Str("")) == Str(LambdaFunctionType)
    && !GetOr(resource, "LogicalResourceId", Str("")).Str?
  }

  /** The loop of `find_lambda_function` moves past this resource: it is no
      Lambda function, or one whose logical id is a string without the prefix. */
  predicate Passes(resource: Record, prefix: string) {
    !Raises(resource) && !IsLambdaWithPrefix(resource, prefix)
  }

  /** The loop of `find_lambda_function` moves past every resource before `i`. */
  predicate PassesBefore(resources: seq<Record>, prefix: string, i: int)
    requires 0 <= i <= |resources|
  {
    forall j :: 0 <= j < i ==> Passes(resources[j], prefix)
  }

  /** `find_lambda_function` over the stack's resources in listing order: the
      "PhysicalResourceId" (default "") of the first Lambda function whose
      logical id starts with the prefix. A Lambda resource whose logical id is
      not a string makes `startswith` raise. */
  function FindLambdaFunction(resources: seq<Record>, prefix: string): (r: Result<Option<Value>>)
    ensures r.Ok? && r.value.Some? ==> FoundFirst(resources, prefix, r.value.value)
    ensures r == Ok(None) <==> PassesBefore(resources, prefix, |resources|)
    ensures forall i :: 0 <= i < |resources| && IsLambdaWithPrefix(resources[i], prefix) && PassesBefore(resources, prefix, i) ==>
      r == Ok(Some(GetOr(resources[i], "PhysicalResourceId", Str(""))))
    ensures forall i :: 0 <= i < |resources| && Raises(resources[i]) && PassesBefore(resources, prefix, i) ==>
      r.Err?
  {
    if |resources| == 0 then Ok(None)
    else
      var resource := resources[0];
      var logicalId := GetOr(resource, "LogicalResourceId", Str(""));
      if GetOr(resource, "ResourceType", Str("")) != Str(LambdaFunctionType) then
        PassesShift(resources, prefix);
        var rest := FindLambdaFunction(resources[1..], prefix);
        if rest.Ok? && rest.value.Some? then FoundFirstShift(resources, prefix, rest.value.value); rest else rest
      else if !logicalId.Str? then Err("AttributeError: logical id has no startswith")
      else if Text.StartsWith(logicalId.s, prefix) then Ok(Some(GetOr(resource, "PhysicalResourceId", Str(""))))
      else
        PassesShift(resources, prefix);
        var rest := FindLambdaFunction(resources[1..], prefix);
        if rest.Ok? && rest.value.Some? then FoundFirstShift(resources, prefix, rest.value.value); rest else rest
  }

  /** The first match found among the rest is the first match overall when
      the first resource does not match. */
  predicate FoundFirst(resources: seq<Record>, prefix: string, found: Value) {
    exists i ::
      && 0 <= i < |resources| && IsLambdaWithPrefix(resources[i], prefix)
      && found == GetOr(resources[i], "PhysicalResourceId", Str(""))
      && forall j :: 0 <= j < i ==> !IsLambdaWithPrefix(resources[j], prefix)
  }

  lemma FoundFirstShift(resources: seq<Record>, prefix: string, found: Value)
    requires |resources| > 0 && !IsLambdaWithPrefix(resources[0], prefix)
    requires FoundFirst(resources[1..], prefix, found)
    ensures FoundFirst(resources, prefix, found)
  {
    var i :| && 0 <= i < |resources[1..]| && IsLambdaWithPrefix(resources[1..][i], prefix)
             && found == GetOr(resources[1..][i], "PhysicalResourceId", Str(""))
             && forall j :: 0 <= j < i ==> !IsLambdaWithPrefix(resources[1..][j], prefix);
    assert forall j :: 1 <= j < i + 1 ==> resources[j] == resources[1..][j - 1];
    assert IsLambdaWithPrefix(resources[i + 1], prefix);
  }

  /** Once the loop moves past the first resource, moving past the ones
      before `i` is moving past those of the rest before `i - 1`. */
  lemma PassesShift(resources: seq<Record>, prefix: string)
    requires |resources| > 0 && Passes(resources[0], prefix)
    ensures forall i :: 1 <= i <= |resources| ==>
      (PassesBefore(resources, prefix, i) <==> PassesBefore(resources[1..], prefix, i - 1))
    ensures forall i :: 1 <= i < |resources| ==> resources[1..][i - 1] == resources[i]
  {
    forall i | 1 <= i <= |resources|
      ensures PassesBefore(resources, prefix, i) <==> PassesBefore(resources[1..], prefix, i - 1)
    {
      assert forall j :: 1 <= j < i ==> resources[1..][j - 1] == resources[j];
    }
  }

  /** `list_stack_resources` as written: it passes the region to
      `get_cfn_client`, which takes no arguments, so the first step of the
      generator raises `TypeError` before any resource is listed. */
  function ListStackResourcesAsWritten(stackName: string, region: string): (r: Result<seq<Record>>)
    ensures r.Err?
  {
    Err("TypeError: get_cfn_client() takes 0 positional arguments but 1 was given")
  }

  /** `find_lambda_function` as written: whatever the stack holds, the lookup raises. */
  function FindLambdaFunctionAsWritten(prefix: string, region: string): (r: Result<Option<Value>>)
    ensures r.Err?
  {
    match ListStackResourcesAsWritten("SecondBrainStack", region)
    case Err(e) => Err(e)
    case Ok(resources) => FindLambdaFunction(resources, prefix)
  }

  /** The stack holds a Lambda named "DigestLambdaXYZ", yet the lookup as
      written fails; the corrected lookup over the same listing finds it. */
  lemma FindLambdaFunctionFinding()
    ensures FindLambdaFunctionAsWritten("DigestLambda", "us-east-1").Err?
    ensures var digest := map["LogicalResourceId" := Str("DigestLambdaXYZ"),
                              "ResourceType" := Str(LambdaFunctionType),
                              "PhysicalResourceId" := Str("second-brain-digest")];
      FindLambdaFunction([digest], "DigestLambda") == Ok(Some(Str("second-brain-digest")))
  {
    var digest := map["LogicalResourceId" := Str("DigestLambdaXYZ"),
                      "ResourceType" := Str(LambdaFunctionType),
                      "PhysicalResourceId" := Str("second-brain-digest")];
    assert Text.StartsWith("DigestLambdaXYZ", "DigestLambda");
  }

  /** `get_telegram_bot_token`: an unset or empty token is a `ValueError`. */
  function GetTelegramBotToken(env: Env): (r: Result<string>)
    ensures r.Err? <==> "TELEGRAM_BOT_TOKEN" !in env || env["TELEGRAM_BOT_TOKEN"] == ""
    ensures r.Ok? ==> r.value == env["TELEGRAM_BOT_TOKEN"] && r.value != ""
  {
    if "TELEGRAM_BOT_TOKEN" !in env || env["TELEGRAM_BOT_TOKEN"] == "" then
      Err("ValueError: TELEGRAM_BOT_TOKEN environment variable not set")
    else Ok(env["TELEGRAM_BOT_TOKEN"])
  }

  /** `get_vector_bucket_name`: only an unset name is an error; the value is
      returned as it is, even when empty. */
  function GetVectorBucketName(env: Env): (r: Result<string>)
    ensures r.Err? <==> "VECTOR_BUCKET_NAME" !in env
    ensures r.Ok? ==> r.value == env["VECTOR_BUCKET_NAME"]
  {
    if "VECTOR_BUCKET_NAME" !in env then
      Err("ValueError: VECTOR_BUCKET_NAME environment variable not set")
    else Ok(env["VECTOR_BUCKET_NAME"])
  }
}

=== FILE: events.dfy ===
/** The event log (lambdas/events.py): three event kinds, the keys each is
    stored under, their projection into a stored record, and the append that
    writes it. The log is a table of its own, keyed by lower-case "pk"/"sk";
    DynamoDB's typed attribute values ("S", "N", "BOOL") appear as `Str`,
    `Real` and `Bool`. */
module Events {
  import opened Wrappers
  import opened Values
  import Text

  const EventPrefix := "EVENT#"
  /** The partition of classification and similarity events, whatever their source. */
  const TelegramPk := "EVENT#telegram"

  datatype Event =
    | MessageReceived(
        eventType: string, timestamp: string,
        rawText: string, source: string, sourceId: string, chatId: Option<string>, receivedAt: string)
    | MessageClassified(
        eventType: string, timestamp: string,
        classification: string, confidenceScore: real, classifiedBy: string, classifiedAt: string,
        itemPk: string, itemSk: string, sourceEventSk: string)
    | MessageSimilar(
        eventType: string, timestamp: string,
        similarEventSk: Option<string>, similarityScore: real, thresholdUsed: real,
        searchModel: string, searchedAt: string, linkCreated: bool,
        linkedItemPk: Option<string>, linkedItemSk: Option<string>, sourceEventSk: string)

  predicate InUnit(x: real) {
    0.0 <= x <= 1.0
  }

  /** The field constraints the models declare: every score lies in [0, 1]. */
  predicate Valid(e: Event) {
    match e
    case MessageReceived(_, _, _, _, _, _, _) => true
    case MessageClassified(_, _, _, c, _, _, _, _, _) => InUnit(c)
    case MessageSimilar(_, _, _, s, th, _, _, _, _, _, _) => InUnit(s) && InUnit(th)
  }

  /** Constructing a `MessageClassified` validates its confidence. */
  function NewMessageClassified(
    eventType: string, timestamp: string, classification: string, confidenceScore: real,
    classifiedBy: string, classifiedAt: string, itemPk: string, itemSk: string, sourceEventSk: string
  ): (r: Result<Event>)
    ensures r.Ok? <==> InUnit(confidenceScore)
    ensures r.Ok? ==> Valid(r.value) && r.value.MessageClassified? && r.value.confidenceScore == confidenceScore
  {
    if InUnit(confidenceScore) then
      Ok(MessageClassified(eventType, timestamp, classification, confidenceScore, classifiedBy, classifiedAt,
                           itemPk, itemSk, sourceEventSk))
    else Err("ValidationError: confidence_score must lie in [0, 1]")
  }

  /** Constructing a `MessageSimilar` validates its score and threshold. */
  function NewMessageSimilar(
    eventType: string, timestamp: string, similarEventSk: Option<string>, similarityScore: real,
    thresholdUsed: real, searchModel: string, searchedAt: string, linkCreated: bool,
    linkedItemPk: Option<string>, linkedItemSk: Option<string>, sourceEventSk: string
  ): (r: Result<Event>)
    ensures r.Ok? <==> InUnit(similarityScore) && InUnit(thresholdUsed)
    ensures r.Ok? ==> (Valid(r.value) && r.value.MessageSimilar?
      && r.value.similarityScore == similarityScore && r.value.thresholdUsed == thresholdUsed)
  {
    if InUnit(similarityScore) && InUnit(thresholdUsed) then
      Ok(MessageSimilar(eventType, timestamp, similarEventSk, similarityScore, thresholdUsed, searchModel,
                        searchedAt, linkCreated, linkedItemPk, linkedItemSk, sourceEventSk))
    else Err("ValidationError: similarity_score and threshold_used must lie in [0, 1]")
  }

  /** `get_pk`. */
  function Pk(e: Event): string {
    match e
    case MessageReceived(_, _, _, source, _, _, _) => EventPrefix + source
    case MessageClassified(_, _, _, _, _, _, _, _, _) => TelegramPk
    case MessageSimilar(_, _, _, _, _, _, _, _, _, _, _) => TelegramPk
  }

  /** `get_sk`: classification and similarity events always use sequence number 1. */
  function Sk(e: Event): string {
    match e
    case MessageReceived(_, _, _, _, sourceId, _, receivedAt) => receivedAt + "#" + sourceId
    case MessageClassified(_, _, _, _, _, classifiedAt, _, _, _) => classifiedAt + "#CLASSIFIED#1"
    case MessageSimilar(_, _, _, _, _, _, searchedAt, _, _, _, _) => searchedAt + "#SIMILAR#1"
  }

  /** Messages received from different sources, or with a different receipt
      time or source id, are stored under different keys, provided the
      receipt time has no '#'. */
  lemma ReceivedKeysDistinct(a: Event, b: Event)
    requires a.MessageReceived? && b.MessageReceived?
    requires '#' !in a.receivedAt && '#' !in b.receivedAt
    requires (Pk(a), Sk(a)) == (Pk(b), Sk(b))
    ensures a.source == b.source && a.receivedAt == b.receivedAt && a.sourceId == b.sourceId
  {
    assert a.source == Pk(a)[|EventPrefix|..];
    assert b.source == Pk(b)[|EventPrefix|..];
    Text.SplitFirstOf(a.receivedAt, a.sourceId, '#');
    Text.SplitFirstOf(b.receivedAt, b.sourceId, '#');
  }

  /** Two classification events with the same classification time share a
      key, whatever else differs. */
  lemma ClassifiedKeysCollide(a: Event, b: Event)
    requires a.MessageClassified? && b.MessageClassified? && a.classifiedAt == b.classifiedAt
    ensures Pk(a) == Pk(b) && Sk(a) == Sk(b)
  {
  }

  /** Python truthiness of an optional string field. */
  predicate Present(o: Option<string>) {
    o.Some? && o.value != ""
  }

  /** The attributes every stored event carries. */
  const BaseAttributes: set<string> := {"pk", "sk", "event_type", "timestamp"}

  /** Adds an optional string attribute only when it is set and non-empty. */
  function WithOptional(r: Record, name: string, o: Option<string>): (r': Record)
    ensures name in r' <==> name in r || Present(o)
    ensures Present(o) ==> r'[name] == Str(o.value)
    ensures forall a :: a != name ==> (a in r' <==> a in r)
    ensures forall a :: a in r && a != name ==> r'[a] == r[a]
  {
    if Present(o) then r[name := Str(o.value)] else r
  }

  function ReceivedFields(e: Event): Record
    requires e.MessageReceived?
  {
    var r := map["raw_text" := Str(e.rawText)]["source" := Str(e.source)]["source_id" := Str(e.sourceId)]
                 ["received_at" := Str(e.receivedAt)];
    WithOptional(r, "chat_id", e.chatId)
  }

  function ClassifiedFields(e: Event): Record
    requires e.MessageClassified?
  {
    map["classification" := Str(e.classification)]["confidence_score" := Real(e.confidenceScore)]
        ["classified_by" := Str(e.classifiedBy)]["classified_at" := Str(e.classifiedAt)]
        ["item_pk" := Str(e.itemPk)]["item_sk" := Str(e.itemSk)]["source_event_sk" := Str(e.sourceEventSk)]
  }

  /** The similarity fields every `MessageSimilar` writes. */
  function SimilarCore(e: Event): Record
    requires e.MessageSimilar?
  {
    map["similarity_score" := Real(e.similarityScore), "threshold_used" := Real(e.thresholdUsed),
        "search_model" := Str(e.searchModel), "searched_at" := Str(e.searchedAt),
        "link_created" := Bool(e.linkCreated), "source_event_sk" := Str(e.sourceEventSk)]
  }

  function SimilarFields(e: Event): Record
    requires e.MessageSimilar?
  {
    WithOptional(WithOptional(WithOptional(SimilarCore(e), "similar_event_sk", e.similarEventSk),
                              "linked_item_pk", e.linkedItemPk),
                 "linked_item_sk", e.linkedItemSk)
  }

  function BaseRecord(e: Event): (r: Record)
    ensures r.Keys == BaseAttributes
    ensures r["pk"] == Str(Pk(e)) && r["sk"] == Str(Sk(e))
    ensures r["event_type"] == Str(e.eventType) && r["timestamp"] == Str(e.timestamp)
  {
    map["pk" := Str(Pk(e)), "sk" := Str(Sk(e)), "event_type" := Str(e.eventType), "timestamp" := Str(e.timestamp)]
  }

  /** The attributes of the event's own kind. */
  function KindFields(e: Event): Record {
    match e
    case MessageReceived(_, _, _, _, _, _, _) => ReceivedFields(e)
    case MessageClassified(_, _, _, _, _, _, _, _, _) => ClassifiedFields(e)
    case MessageSimilar(_, _, _, _, _, _, _, _, _, _, _) => SimilarFields(e)
  }

  /** The item `append_event` writes: key and base attributes and the kind's
      own fields, each optional field only when it is set and non-empty. No
      kind writes a base attribute, so the order of the merge is immaterial. */
  function ToRecord(e: Event): (r: Record)
    ensures BaseAttributes <= r.Keys
    ensures r["pk"] == Str(Pk(e)) && r["sk"] == Str(Sk(e))
    ensures r["event_type"] == Str(e.eventType) && r["timestamp"] == Str(e.timestamp)
  {
    KindFields(e) + BaseRecord(e)
  }

  /** Optional fields are written exactly when they are set and non-empty. */
  lemma OptionalFieldsWrittenWhenSet(e: Event)
    ensures var r := ToRecord(e);
      && ("chat_id" in r <==> e.MessageReceived? && Present(e.chatId))
      && ("similar_event_sk" in r <==> e.MessageSimilar? && Present(e.similarEventSk))
      && ("linked_item_pk" in r <==> e.MessageSimilar? && Present(e.linkedItemPk))
      && ("linked_item_sk" in r <==> e.MessageSimilar? && Present(e.linkedItemSk))
  {
    NotBase(e, "chat_id");
    NotBase(e, "similar_event_sk");
    NotBase(e, "linked_item_pk");
    NotBase(e, "linked_item_sk");
    match e
    case MessageReceived(_, _, _, _, _, _, _) =>
      assert KindFields(e) == ReceivedFields(e);
      ReceivedOptional(e);
    case MessageClassified(_, _, _, _, _, _, _, _, _) =>
      assert KindFields(e) == ClassifiedFields(e);
      ClassifiedOptional(e);
    case MessageSimilar(_, _, _, _, _, _, _, _, _, _, _) =>
      assert KindFields(e) == SimilarFields(e);
      SimilarOptional(e);
  }

  lemma NotBase(e: Event, name: string)
    requires name != "pk" && name != "sk" && name != "event_type" && name != "timestamp"
    ensures name in ToRecord(e) <==> name in KindFields(e)
  {
    assert name !in BaseRecord(e).Keys;
  }

  lemma ReceivedOptional(e: Event)
    requires e.MessageReceived?
    ensures var k := ReceivedFields(e);
      && ("chat_id" in k <==> Present(e.chatId))
      && "similar_event_sk" !in k && "linked_item_pk" !in k && "linked_item_sk" !in k
  {
  }

  lemma ClassifiedOptional(e: Event)
    requires e.MessageClassified?
    ensures var k := ClassifiedFields(e);
      && "chat_id" !in k && "similar_event_sk" !in k && "linked_item_pk" !in k && "linked_item_sk" !in k
  {
  }

  lemma SimilarOptional(e: Event)
    requires e.MessageSimilar?
    ensures var k := SimilarFields(e);
      && "chat_id" !in k
      && ("similar_event_sk" in k <==> Present(e.similarEventSk))
      && ("linked_item_pk" in k <==> Present(e.linkedItemPk))
      && ("linked_item_sk" in k <==> Present(e.linkedItemSk))
  {
    var c := SimilarCore(e);
    assert "chat_id" !in c && "similar_event_sk" !in c && "linked_item_pk" !in c && "linked_item_sk" !in c;
  }

  /** The event log: records by (pk, sk). */
  type Log = map<(string, string), Record>

  /** `append_event`: a put at the event's key. */
  function AppendEvent(log: Log, e: Event): (log': Log)
    ensures (Pk(e), Sk(e)) in log' && log'[(Pk(e), Sk(e))] == ToRecord(e)
    ensures log'.Keys == log.Keys + {(Pk(e), Sk(e))}
    ensures forall k :: k in log && k != (Pk(e), Sk(e)) ==> log'[k] == log[k]
  {
    log[(Pk(e), Sk(e)) := ToRecord(e)]
  }

  /** Appending the same event again changes nothing. */
  lemma AppendIdempotent(log: Log, e: Event)
    ensures AppendEvent(AppendEvent(log, e), e) == AppendEvent(log, e)
  {
  }

  /** Of two classification events with equal classification times, only the
      later append survives in the log. */
  lemma ClassifiedOverwrites(log: Log, a: Event, b: Event)
    requires a.MessageClassified? && b.MessageClassified? && a.classifiedAt == b.classifiedAt
    ensures AppendEvent(AppendEvent(log, a), b) == AppendEvent(log, b)
  {
    ClassifiedKeysCollide(a, b);
  }

  /** A string field read back from a record: absent means `None`. */
  function ReadStr(r: Record, name: string): Option<string> {
    if name in r && r[name].Str? then Some(r[name].s) else None
  }

  function ReadReal(r: Record, name: string): Option<real> {
    if name in r && r[name].Real? then Some(r[name].r) else None
  }

  /** Reads an event back from its record; the kind is told by the fields
      only that kind writes. */
  function FromRecord(r: Record): (e: Option<Event>)
  {
    var eventType := ReadStr(r, "event_type");
    var timestamp := ReadStr(r, "timestamp");
    if eventType.None? || timestamp.None? then None
    else if "raw_text" in r then DecodeReceived(r, eventType.value, timestamp.value)
    else if "classification" in r then DecodeClassified(r, eventType.value, timestamp.value)
    else if "similarity_score" in r then DecodeSimilar(r, eventType.value, timestamp.value)
    else None
  }

  function DecodeReceived(r: Record, eventType: string, timestamp: string): Option<Event> {
    var rawText := ReadStr(r, "raw_text");
    var source := ReadStr(r, "source");
    var sourceId := ReadStr(r, "source_id");
    var receivedAt := ReadStr(r, "received_at");
    if rawText.None? || source.None? || sourceId.None? || receivedAt.None? then None
    else Some(MessageReceived(eventType, timestamp, rawText.value, source.value, sourceId.value,
                              ReadStr(r, "chat_id"), receivedAt.value))
  }

  function DecodeClassified(r: Record, eventType: string, timestamp: string): Option<Event> {
    var classification := ReadStr(r, "classification");
    var confidence := ReadReal(r, "confidence_score");
    var classifiedBy := ReadStr(r, "classified_by");
    var classifiedAt := ReadStr(r, "classified_at");
    var itemPk := ReadStr(r, "item_pk");
    var itemSk := ReadStr(r, "item_sk");
    var sourceEventSk := ReadStr(r, "source_event_sk");
    if classification.None? || confidence.None? || classifiedBy.None? || classifiedAt.None?
       || itemPk.None? || itemSk.None? || sourceEventSk.None? then None
    else Some(MessageClassified(eventType, timestamp, classification.value, confidence.value,
                                classifiedBy.value, classifiedAt.value, itemPk.value, itemSk.value,
                                sourceEventSk.value))
  }

  function ReadBool(r: Record, name: string): Option<bool> {
    if name in r && r[name].Bool? then Some(r[name].b) else None
  }

  function DecodeSimilar(r: Record, eventType: string, timestamp: string): Option<Event> {
    var score := ReadReal(r, "similarity_score");
    var threshold := ReadReal(r, "threshold_used");
    var searchModel := ReadStr(r, "search_model");
    var searchedAt := ReadStr(r, "searched_at");
    var linkCreated := ReadBool(r, "link_created");
    var sourceEventSk := ReadStr(r, "source_event_sk");
    if score.None? || threshold.None? || searchModel.None? || searchedAt.None? || linkCreated.None?
       || sourceEventSk.None? then None
    else Some(MessageSimilar(eventType, timestamp, ReadStr(r, "similar_event_sk"),
                             score.value, threshold.value, searchModel.value, searchedAt.value,
                             linkCreated.value, ReadStr(r, "linked_item_pk"),
                             ReadStr(r, "linked_item_sk"), sourceEventSk.value))
  }

  /** An optional field set to the empty string is written as absent, so it
      reads back as `None`; normalising it first makes the round trip exact. */
  function NormalOptional(o: Option<string>): Option<string> {
    if Present(o) then o else None
  }

  function Normalize(e: Event): Event {
    match e
    case MessageReceived(_, _, _, _, _, chatId, _) => e.(chatId := NormalOptional(chatId))
    case MessageClassified(_, _, _, _, _, _, _, _, _) => e
    case MessageSimilar(_, _, similar, _, _, _, _, _, linkedPk, linkedSk, _) =>
      e.(similarEventSk := NormalOptional(similar), linkedItemPk := NormalOptional(linkedPk),
         linkedItemSk := NormalOptional(linkedSk))
  }

  /** The stored record holds the whole event, up to empty optional fields. */
  lemma RecordRoundTrip(e: Event)
    ensures FromRecord(ToRecord(e)) == Some(Normalize(e))
  {
    match e
    case MessageReceived(_, _, _, _, _, _, _) => ReceivedRoundTrip(e);
    case MessageClassified(_, _, _, _, _, _, _, _, _) => ClassifiedRoundTrip(e);
    case MessageSimilar(_, _, _, _, _, _, _, _, _, _, _) => SimilarRoundTrip(e);
  }

  /** Outside the base attributes the stored record is the kind's own fields. */
  lemma ReadKind(e: Event, name: string)
    requires name !in BaseAttributes
    ensures name in ToRecord(e) <==> name in KindFields(e)
    ensures ReadStr(ToRecord(e), name) == ReadStr(KindFields(e), name)
    ensures ReadReal(ToRecord(e), name) == ReadReal(KindFields(e), name)
    ensures ReadBool(ToRecord(e), name) == ReadBool(KindFields(e), name)
  {
  }

  /** The field names of each kind are none of the base attributes. */
  lemma ReceivedNames()
    ensures "raw_text" !in BaseAttributes && "source" !in BaseAttributes && "source_id" !in BaseAttributes
    ensures "received_at" !in BaseAttributes && "chat_id" !in BaseAttributes
  {
  }

  lemma ClassifiedNames()
    ensures "classification" !in BaseAttributes && "confidence_score" !in BaseAttributes
    ensures "classified_by" !in BaseAttributes && "classified_at" !in BaseAttributes
  {
  }

  lemma ItemNames()
    ensures "item_pk" !in BaseAttributes && "item_sk" !in BaseAttributes && "source_event_sk" !in BaseAttributes
  {
  }

  lemma SimilarNames()
    ensures "similarity_score" !in BaseAttributes && "threshold_used" !in BaseAttributes
    ensures "search_model" !in BaseAttributes && "searched_at" !in BaseAttributes
  {
  }

  lemma OptionalNames()
    ensures "link_created" !in BaseAttributes && "similar_event_sk" !in BaseAttributes
    ensures "linked_item_pk" !in BaseAttributes && "linked_item_sk" !in BaseAttributes
  {
  }

  lemma ReceivedRoundTrip(e: Event)
    requires e.MessageReceived?
    ensures FromRecord(ToRecord(e)) == Some(Normalize(e))
  {
    var f := ReceivedFields(e);
    ReceivedNames();
    ReadKind(e, "raw_text");
    ReadKind(e, "source");
    ReadKind(e, "source_id");
    ReadKind(e, "received_at");
    ReadKind(e, "chat_id");
    assert ReadStr(f, "raw_text") == Some(e.rawText);
    assert ReadStr(f, "source") == Some(e.source);
    assert ReadStr(f, "source_id") == Some(e.sourceId);
    assert ReadStr(f, "received_at") == Some(e.receivedAt);
    assert ReadStr(f, "chat_id") == NormalOptional(e.chatId);
  }

  lemma ClassifiedRoundTrip(e: Event)
    requires e.MessageClassified?
    ensures FromRecord(ToRecord(e)) == Some(Normalize(e))
  {
    var f := ClassifiedFields(e);
    ReceivedNames();
    ClassifiedNames();
    ItemNames();
    ReadKind(e, "raw_text");
    ReadKind(e, "classification");
    ReadKind(e, "confidence_score");
    ReadKind(e, "classified_by");
    ReadKind(e, "classified_at");
    ReadKind(e, "item_pk");
    ReadKind(e, "item_sk");
    ReadKind(e, "source_event_sk");
    ClassifiedFieldsRead(e);
    ClassifiedItemRead(e);
  }

  lemma ClassifiedFieldsRead(e: Event)
    requires e.MessageClassified?
    ensures var f := ClassifiedFields(e);
      && "raw_text" !in f
      && ReadStr(f, "classification") == Some(e.classification)
      && ReadReal(f, "confidence_score") == Some(e.confidenceScore)
      && ReadStr(f, "classified_by") == Some(e.classifiedBy)
      && ReadStr(f, "classified_at") == Some(e.classifiedAt)
  {
  }

  lemma ClassifiedItemRead(e: Event)
    requires e.MessageClassified?
    ensures var f := ClassifiedFields(e);
      && ReadStr(f, "item_pk") == Some(e.itemPk)
      && ReadStr(f, "item_sk") == Some(e.itemSk)
      && ReadStr(f, "source_event_sk") == Some(e.sourceEventSk)
  {
  }

  lemma SimilarRoundTrip(e: Event)
    requires e.MessageSimilar?
    ensures FromRecord(ToRecord(e)) == Some(Normalize(e))
  {
    var r := ToRecord(e);
    SimilarFieldsRead(e);
    ReceivedNames();
    ClassifiedNames();
    ItemNames();
    SimilarNames();
    OptionalNames();
    ReadSimilar(e, "raw_text");
    ReadSimilar(e, "classification");
    ReadSimilar(e, "similarity_score");
    ReadSimilar(e, "threshold_used");
    ReadSimilar(e, "search_model");
    ReadSimilar(e, "searched_at");
    ReadSimilar(e, "link_created");
    ReadSimilar(e, "source_event_sk");
    ReadSimilar(e, "similar_event_sk");
    ReadSimilar(e, "linked_item_pk");
    ReadSimilar(e, "linked_item_sk");
    FromSimilarRecord(r, e);
    DecodeSimilarRead(r, e);
  }

  lemma ReadSimilar(e: Event, name: string)
    requires e.MessageSimilar? && name !in BaseAttributes
    ensures var r := ToRecord(e); var f := SimilarFields(e);
      && (name in r <==> name in f)
      && ReadStr(r, name) == ReadStr(f, name) && ReadReal(r, name) == ReadReal(f, name)
      && ReadBool(r, name) == ReadBool(f, name)
  {
    assert KindFields(e) == SimilarFields(e);
    ReadKind(e, name);
  }

  lemma FromSimilarRecord(r: Record, e: Event)
    requires ReadStr(r, "event_type") == Some(e.eventType) && ReadStr(r, "timestamp") == Some(e.timestamp)
    requires "raw_text" !in r && "classification" !in r && "similarity_score" in r
    ensures FromRecord(r) == DecodeSimilar(r, e.eventType, e.timestamp)
  {
  }

  lemma DecodeSimilarRead(r: Record, e: Event)
    requires e.MessageSimilar?
    requires ReadReal(r, "similarity_score") == Some(e.similarityScore)
    requires ReadReal(r, "threshold_used") == Some(e.thresholdUsed)
    requires ReadStr(r, "search_model") == Some(e.searchModel)
    requires ReadStr(r, "searched_at") == Some(e.searchedAt)
    requires ReadBool(r, "link_created") == Some(e.linkCreated)
    requires ReadStr(r, "source_event_sk") == Some(e.sourceEventSk)
    requires ReadStr(r, "similar_event_sk") == NormalOptional(e.similarEventSk)
    requires ReadStr(r, "linked_item_pk") == NormalOptional(e.linkedItemPk)
    requires ReadStr(r, "linked_item_sk") == NormalOptional(e.linkedItemSk)
    ensures DecodeSimilar(r, e.eventType, e.timestamp) == Some(Normalize(e))
  {
  }

  lemma SimilarCoreRead(e: Event)
    requires e.MessageSimilar?
    ensures var c := SimilarCore(e);
      && "raw_text" !in c && "classification" !in c
      && "similar_event_sk" !in c && "linked_item_pk" !in c && "linked_item_sk" !in c
      && ReadReal(c, "similarity_score") == Some(e.similarityScore)
      && ReadReal(c, "threshold_used") == Some(e.thresholdUsed)
      && ReadStr(c, "search_model") == Some(e.searchModel)
      && ReadStr(c, "searched_at") == Some(e.searchedAt)
      && ReadBool(c, "link_created") == Some(e.linkCreated)
      && ReadStr(c, "source_event_sk") == Some(e.sourceEventSk)
  {
  }

  /** Adding an optional field leaves every other field's reading alone. */
  lemma WithOptionalOthers(r: Record, name: string, o: Option<string>, a: string)
    requires a != name
    ensures var r' := WithOptional(r, name, o);
      && (a in r' <==> a in r)
      && ReadStr(r', a) == ReadStr(r, a) && ReadReal(r', a) == ReadReal(r, a) && ReadBool(r', a) == ReadBool(r, a)
  {
  }

  /** An optional field added to a record without it reads back normalised. */
  lemma WithOptionalSelf(r: Record, name: string, o: Option<string>)
    requires name !in r
    ensures ReadStr(WithOptional(r, name, o), name) == NormalOptional(o)
  {
  }

  /** Every field of the core reads back through the three optional fields. */
  lemma ThroughOptionals(e: Event, a: string)
    requires e.MessageSimilar?
    requires a != "similar_event_sk" && a != "linked_item_pk" && a != "linked_item_sk"
    ensures var c := SimilarCore(e); var f := SimilarFields(e);
      && (a in f <==> a in c)
      && ReadStr(f, a) == ReadStr(c, a) && ReadReal(f, a) == ReadReal(c, a) && ReadBool(f, a) == ReadBool(c, a)
  {
    var f1 := WithOptional(SimilarCore(e), "similar_event_sk", e.similarEventSk);
    var f2 := WithOptional(f1, "linked_item_pk", e.linkedItemPk);
    WithOptionalOthers(SimilarCore(e), "similar_event_sk", e.similarEventSk, a);
    WithOptionalOthers(f1, "linked_item_pk", e.linkedItemPk, a);
    WithOptionalOthers(f2, "linked_item_sk", e.linkedItemSk, a);
  }

  lemma SimilarFieldsRead(e: Event)
    requires e.MessageSimilar?
    ensures var f := SimilarFields(e);
      && "raw_text" !in f && "classification" !in f
      && ReadReal(f, "similarity_score") == Some(e.similarityScore)
      && ReadReal(f, "threshold_used") == Some(e.thresholdUsed)
      && ReadStr(f, "search_model") == Some(e.searchModel)
      && ReadStr(f, "searched_at") == Some(e.searchedAt)
      && ReadBool(f, "link_created") == Some(e.linkCreated)
      && ReadStr(f, "source_event_sk") == Some(e.sourceEventSk)
      && ReadStr(f, "similar_event_sk") == NormalOptional(e.similarEventSk)
      && ReadStr(f, "linked_item_pk") == NormalOptional(e.linkedItemPk)
      && ReadStr(f, "linked_item_sk") == NormalOptional(e.linkedItemSk)
  {
    SimilarCoreRead(e);
    var c := SimilarCore(e);
    var f1 := WithOptional(c, "similar_event_sk", e.similarEventSk);
    var f2 := WithOptional(f1, "linked_item_pk", e.linkedItemPk);
    ThroughOptionals(e, "raw_text");
    ThroughOptionals(e, "classification");
    ThroughOptionals(e, "similarity_score");
    ThroughOptionals(e, "threshold_used");
    ThroughOptionals(e, "search_model");
    ThroughOptionals(e, "searched_at");
    ThroughOptionals(e, "link_created");
    ThroughOptionals(e, "source_event_sk");
    WithOptionalSelf(c, "similar_event_sk", e.similarEventSk);
    WithOptionalOthers(f1, "linked_item_pk", e.linkedItemPk, "similar_event_sk");
    WithOptionalOthers(f2, "linked_item_sk", e.linkedItemSk, "similar_event_sk");
    WithOptionalOthers(c, "similar_event_sk", e.similarEventSk, "linked_item_pk");
    WithOptionalSelf(f1, "linked_item_pk", e.linkedItemPk);
    WithOptionalOthers(f2, "linked_item_sk", e.linkedItemSk, "linked_item_pk");
    WithOptionalOthers(c, "similar_event_sk", e.similarEventSk, "linked_item_sk");
    WithOptionalOthers(f1, "linked_item_pk", e.linkedItemPk, "linked_item_sk");
    WithOptionalSelf(f2, "linked_item_sk", e.linkedItemSk);
  }
}

=== FILE: grouping.dfy ===
/** Grouping items by category into a dict of lists, as the listings and
    the fallback digest do: a category's list is created when its first item
    is met, so the groups come in first-appearance order. */
module Grouping {
  import opened Wrappers
  import opened Values

  /** `item.get("category", "Unknown")`. */
  function CategoryOf(item: Record): Value {
    GetOr(item, "category", Str("Unknown"))
  }

  /** Some item falls under `category`. */
  predicate Mentions(items: seq<Record>, category: Value) {
    exists i :: 0 <= i < |items| && CategoryOf(items[i]) == category
  }

  /** The items of `category`, in order: the reference the groups are
      measured against. */
  function Filter(items: seq<Record>, category: Value): (r: seq<Record>)
    ensures |r| <= |items|
    ensures |r| > 0 <==> Mentions(items, category)
  {
    if |items| == 0 then []
    else
      var rest := Filter(items[1..], category);
      assert Mentions(items, category) <==> CategoryOf(items[0]) == category || Mentions(items[1..], category) by {
        if Mentions(items[1..], category) {
          var i :| 0 <= i < |items[1..]| && CategoryOf(items[1..][i]) == category;
          assert items[i + 1] == items[1..][i];
        }
        if Mentions(items, category) && CategoryOf(items[0]) != category {
          var i :| 0 <= i < |items| && CategoryOf(items[i]) == category;
          assert items[1..][i - 1] == items[i];
        }
      }
      (if CategoryOf(items[0]) == category then [items[0]] else []) + rest
  }

  /** Index of the first item of `category`. */
  function FirstIndex(items: seq<Record>, category: Value): (i: nat)
    requires Mentions(items, category)
    ensures i < |items| && CategoryOf(items[i]) == category
    ensures forall j :: 0 <= j < i ==> CategoryOf(items[j]) != category
  {
    if CategoryOf(items[0]) == category then 0
    else
      var k :| 0 <= k < |items| && CategoryOf(items[k]) == category;
      assert items[1..][k - 1] == items[k];
      1 + FirstIndex(items[1..], category)
  }

  lemma {:induction false} FilterSnoc(init: seq<Record>, last: Record, category: Value)
    ensures Filter(init + [last], category) ==
      Filter(init, category) + (if CategoryOf(last) == category then [last] else [])
    decreases |init|
  {
    if |init| > 0 {
      assert (init + [last])[1..] == init[1..] + [last];
      FilterSnoc(init[1..], last, category);
    }
  }

  lemma MentionsSnoc(init: seq<Record>, last: Record, category: Value)
    ensures Mentions(init + [last], category) <==> Mentions(init, category) || CategoryOf(last) == category
  {
    var items := init + [last];
    if Mentions(items, category) {
      var i :| 0 <= i < |items| && CategoryOf(items[i]) == category;
      if i < |init| { assert init[i] == items[i]; }
    }
    if Mentions(init, category) {
      var i :| 0 <= i < |init| && CategoryOf(init[i]) == category;
      assert items[i] == init[i];
    }
    assert items[|init|] == last;
  }

  lemma FirstIndexSnoc(init: seq<Record>, last: Record, category: Value)
    requires Mentions(init + [last], category)
    ensures Mentions(init, category) ==> FirstIndex(init + [last], category) == FirstIndex(init, category)
    ensures !Mentions(init, category) ==> FirstIndex(init + [last], category) == |init|
  {
    var items := init + [last];
    var i := FirstIndex(items, category);
    if Mentions(init, category) {
      var j := FirstIndex(init, category);
      assert items[j] == init[j];
      assert i <= j;
      assert init[i] == items[i];
    } else {
      assert forall j :: 0 <= j < |init| ==> items[j] == init[j];
    }
  }

  /** `{cat: [items…]}` as an association list in insertion order. */
  type Groups = seq<(Value, seq<Record>)>

  /** The number of items in all groups together. */
  function Size(gs: Groups): nat {
    if |gs| == 0 then 0 else |gs[0].1| + Size(gs[1..])
  }

  lemma {:induction false} SizeAppend(gs: Groups, g: (Value, seq<Record>))
    ensures Size(gs + [g]) == Size(gs) + |g.1|
    decreases |gs|
  {
    if |gs| > 0 {
      assert (gs + [g])[1..] == gs[1..] + [g];
      SizeAppend(gs[1..], g);
    }
  }

  lemma {:induction false} SizeUpdate(gs: Groups, i: nat, g: (Value, seq<Record>))
    requires i < |gs|
    ensures Size(gs[i := g]) + |gs[i].1| == Size(gs) + |g.1|
    decreases |gs|
  {
    if i > 0 {
      assert gs[i := g][1..] == gs[1..][i - 1 := g];
      SizeUpdate(gs[1..], i - 1, g);
    }
  }

  /** Index of the group of `category`, if there is one. */
  function GroupIndex(gs: Groups, category: Value): (r: Option<nat>)
    ensures r.Some? ==> r.value < |gs| && gs[r.value].0 == category
    ensures r.None? ==> forall i :: 0 <= i < |gs| ==> gs[i].0 != category
  {
    if |gs| == 0 then None
    else if gs[0].0 == category then Some(0)
    else
      match GroupIndex(gs[1..], category)
      case None => None
      case Some(i) => Some(i + 1)
  }

  /** No category has two groups. */
  ghost predicate DistinctCategories(gs: Groups) {
    forall i, j :: 0 <= i < j < |gs| ==> gs[i].0 != gs[j].0
  }

  /** Each group holds exactly the items of its category, in order. */
  ghost predicate Filtered(items: seq<Record>, gs: Groups) {
    forall i :: 0 <= i < |gs| ==> Mentions(items, gs[i].0) && gs[i].1 == Filter(items, gs[i].0)
  }

  /** Every category met has a group. */
  ghost predicate Covers(items: seq<Record>, gs: Groups) {
    forall c :: Mentions(items, c) ==> GroupIndex(gs, c).Some?
  }

  /** The groups come in the order their categories first appear. */
  ghost predicate FirstAppearanceOrder(items: seq<Record>, gs: Groups) {
    forall i, j :: 0 <= i < j < |gs| && Mentions(items, gs[i].0) && Mentions(items, gs[j].0) ==>
      FirstIndex(items, gs[i].0) < FirstIndex(items, gs[j].0)
  }

  /** `gs` groups `items`: one group per category met, in first-appearance
      order, each holding exactly the items of its category, in order, and
      all the items between them. */
  ghost predicate Grouped(items: seq<Record>, gs: Groups) {
    && DistinctCategories(gs)
    && Filtered(items, gs)
    && Covers(items, gs)
    && FirstAppearanceOrder(items, gs)
    && Size(gs) == |items|
  }

  /** The grouping loop, one item at a time. */
  function Group(items: seq<Record>): (gs: Groups)
    ensures Grouped(items, gs)
    decreases |items|
  {
    if |items| == 0 then []
    else
      var init := items[..|items| - 1];
      var last := items[|items| - 1];
      assert items == init + [last];
      var gs := Group(init);
      match GroupIndex(gs, CategoryOf(last))
      case Some(k) =>
        AddToGroup(init, gs, last, k);
        gs[k := (CategoryOf(last), gs[k].1 + [last])]
      case None =>
        AddGroup(init, gs, last);
        gs + [(CategoryOf(last), [last])]
  }

  /** Filing `last` into the existing group of its category. */
  lemma AddToGroup(init: seq<Record>, gs: Groups, last: Record, k: nat)
    requires Grouped(init, gs)
    requires GroupIndex(gs, CategoryOf(last)) == Some(k)
    ensures Grouped(init + [last], gs[k := (CategoryOf(last), gs[k].1 + [last])])
  {
    var c := CategoryOf(last);
    var r := gs[k := (c, gs[k].1 + [last])];
    UpdatedGroups(gs, k, last);
    ExtendFiltered(init, gs, last, r);
    ExtendCovers(init, gs, last, r);
    ExtendOrder(init, gs, last, r);
    SizeUpdate(gs, k, r[k]);
  }

  /** Appending `last` to the group of its category changes that group
      only, and leaves the categories distinct. */
  lemma UpdatedGroups(gs: Groups, k: nat, last: Record)
    requires DistinctCategories(gs) && k < |gs| && gs[k].0 == CategoryOf(last)
    ensures var r := gs[k := (CategoryOf(last), gs[k].1 + [last])];
      && |r| == |gs|
      && (forall i :: 0 <= i < |r| ==> r[i].0 == gs[i].0)
      && (forall i :: 0 <= i < |r| ==> r[i].1 == gs[i].1 + (if gs[i].0 == CategoryOf(last) then [last] else []))
      && (exists i :: 0 <= i < |gs| && gs[i].0 == CategoryOf(last))
      && DistinctCategories(r)
  {
    var r := gs[k := (CategoryOf(last), gs[k].1 + [last])];
    assert forall i :: 0 <= i < |r| ==> r[i].0 == gs[i].0;
  }

  /** Opening a new, last group for `last`. */
  lemma AddGroup(init: seq<Record>, gs: Groups, last: Record)
    requires Grouped(init, gs)
    requires GroupIndex(gs, CategoryOf(last)).None?
    ensures Grouped(init + [last], gs + [(CategoryOf(last), [last])])
  {
    var c := CategoryOf(last);
    var r := gs + [(c, [last])];
    assert r[|gs|].0 == c;
    NewGroupFiltered(init, gs, last);
    ExtendCovers(init, gs, last, r);
    NewGroupOrder(init, gs, last);
    SizeAppend(gs, (c, [last]));
  }

  /** Filing `last` into its group keeps the groups exact. */
  lemma ExtendFiltered(init: seq<Record>, gs: Groups, last: Record, r: Groups)
    requires Filtered(init, gs)
    requires |r| == |gs| && forall i :: 0 <= i < |r| ==> r[i].0 == gs[i].0
    requires forall i :: 0 <= i < |r| ==> r[i].1 == gs[i].1 + (if gs[i].0 == CategoryOf(last) then [last] else [])
    requires exists i :: 0 <= i < |gs| && gs[i].0 == CategoryOf(last)
    ensures Filtered(init + [last], r)
  {
    forall i | 0 <= i < |r| ensures Mentions(init + [last], r[i].0) && r[i].1 == Filter(init + [last], r[i].0) {
      MentionsSnoc(init, last, r[i].0);
      FilterSnoc(init, last, r[i].0);
    }
  }

  /** A new last group for `last` keeps the groups exact. */
  lemma NewGroupFiltered(init: seq<Record>, gs: Groups, last: Record)
    requires Filtered(init, gs) && Covers(init, gs)
    requires GroupIndex(gs, CategoryOf(last)).None?
    ensures Filtered(init + [last], gs + [(CategoryOf(last), [last])])
  {
    var r := gs + [(CategoryOf(last), [last])];
    assert !Mentions(init, CategoryOf(last));
    forall i | 0 <= i < |r| ensures Mentions(init + [last], r[i].0) && r[i].1 == Filter(init + [last], r[i].0) {
      MentionsSnoc(init, last, r[i].0);
      FilterSnoc(init, last, r[i].0);
      if i < |gs| { assert r[i] == gs[i]; }
    }
  }

  /** Every category of `init + [last]` keeps or gets a group. */
  lemma ExtendCovers(init: seq<Record>, gs: Groups, last: Record, r: Groups)
    requires Covers(init, gs)
    requires |gs| <= |r| && forall i :: 0 <= i < |gs| ==> r[i].0 == gs[i].0
    requires exists i :: 0 <= i < |r| && r[i].0 == CategoryOf(last)
    ensures Covers(init + [last], r)
  {
    forall d | Mentions(init + [last], d) ensures GroupIndex(r, d).Some? {
      MentionsSnoc(init, last, d);
      var j :| 0 <= j < |r| && r[j].0 == d by {
        if d != CategoryOf(last) {
          var g := GroupIndex(gs, d).value;
          assert r[g].0 == d;
        }
      }
      assert r[j].0 == d;
    }
  }

  /** Filing `last` into its group keeps the order. */
  lemma ExtendOrder(init: seq<Record>, gs: Groups, last: Record, r: Groups)
    requires FirstAppearanceOrder(init, gs) && Filtered(init, gs)
    requires |r| == |gs| && forall i :: 0 <= i < |r| ==> r[i].0 == gs[i].0
    ensures FirstAppearanceOrder(init + [last], r)
  {
    forall i, j | 0 <= i < j < |r| && Mentions(init + [last], r[i].0) && Mentions(init + [last], r[j].0)
      ensures FirstIndex(init + [last], r[i].0) < FirstIndex(init + [last], r[j].0)
    {
      FirstIndexSnoc(init, last, r[i].0);
      FirstIndexSnoc(init, last, r[j].0);
    }
  }

  /** A new last group comes after all others: its category first appears last. */
  lemma NewGroupOrder(init: seq<Record>, gs: Groups, last: Record)
    requires FirstAppearanceOrder(init, gs) && Filtered(init, gs) && Covers(init, gs)
    requires GroupIndex(gs, CategoryOf(last)).None?
    ensures FirstAppearanceOrder(init + [last], gs + [(CategoryOf(last), [last])])
  {
    var r := gs + [(CategoryOf(last), [last])];
    var items := init + [last];
    forall i, j | 0 <= i < j < |r| && Mentions(items, r[i].0) && Mentions(items, r[j].0)
      ensures FirstIndex(items, r[i].0) < FirstIndex(items, r[j].0)
    {
      assert r[i] == gs[i];
      if j < |gs| {
        assert r[j] == gs[j];
        OldPairOrder(init, gs, last, i, j);
      } else {
        assert r[j].0 == CategoryOf(last);
        NewLastOrder(init, gs, last, i);
      }
    }
  }

  /** Two old groups keep their order when an item is appended. */
  lemma OldPairOrder(init: seq<Record>, gs: Groups, last: Record, i: nat, j: nat)
    requires FirstAppearanceOrder(init, gs) && Filtered(init, gs)
    requires i < j < |gs|
    requires Mentions(init + [last], gs[i].0) && Mentions(init + [last], gs[j].0)
    ensures FirstIndex(init + [last], gs[i].0) < FirstIndex(init + [last], gs[j].0)
  {
    assert Mentions(init, gs[i].0) && Mentions(init, gs[j].0);
    MentionsSnoc(init, last, gs[i].0);
    MentionsSnoc(init, last, gs[j].0);
    FirstIndexSnoc(init, last, gs[i].0);
    FirstIndexSnoc(init, last, gs[j].0);
  }

  /** An old group comes before the category that first appears in `last`. */
  lemma NewLastOrder(init: seq<Record>, gs: Groups, last: Record, i: nat)
    requires Filtered(init, gs) && Covers(init, gs)
    requires GroupIndex(gs, CategoryOf(last)).None?
    requires i < |gs|
    requires Mentions(init + [last], gs[i].0) && Mentions(init + [last], CategoryOf(last))
    ensures FirstIndex(init + [last], gs[i].0) < FirstIndex(init + [last], CategoryOf(last))
  {
    assert !Mentions(init, CategoryOf(last));
    assert Mentions(init, gs[i].0);
    MentionsSnoc(init, last, gs[i].0);
    MentionsSnoc(init, last, CategoryOf(last));
    FirstIndexSnoc(init, last, gs[i].0);
    FirstIndexSnoc(init, last, CategoryOf(last));
  }

  /** Every item is in the group of its category. */
  lemma GroupsCoverItems(items: seq<Record>, x: Record)
    requires x in items
    ensures var gs := Group(items);
      GroupIndex(gs, CategoryOf(x)).Some? && x in gs[GroupIndex(gs, CategoryOf(x)).value].1
  {
    var i :| 0 <= i < |items| && items[i] == x;
    assert Mentions(items, CategoryOf(x));
    FilterHas(items, x);
  }

  lemma {:induction false} FilterHas(items: seq<Record>, x: Record)
    requires x in items
    ensures x in Filter(items, CategoryOf(x))
    decreases |items|
  {
    if items[0] != x {
      assert x in items[1..];
      FilterHas(items[1..], x);
    }
  }

  /** How many of `items` satisfy `p`. */
  function CountWhere(items: seq<Record>, p: Record -> bool): (n: nat)
    ensures n <= |items|
  {
    if |items| == 0 then 0 else (if p(items[0]) then 1 else 0) + CountWhere(items[1..], p)
  }

  lemma {:induction false} CountWhereSnoc(init: seq<Record>, last: Record, p: Record -> bool)
    ensures CountWhere(init + [last], p) == CountWhere(init, p) + (if p(last) then 1 else 0)
    decreases |init|
  {
    if |init| > 0 {
      assert (init + [last])[1..] == init[1..] + [last];
      CountWhereSnoc(init[1..], last, p);
    }
  }

  /** How many items of all groups together satisfy `p`. */
  function CountIn(gs: Groups, p: Record -> bool): nat {
    if |gs| == 0 then 0 else CountWhere(gs[0].1, p) + CountIn(gs[1..], p)
  }

  lemma {:induction false} CountInAppend(gs: Groups, g: (Value, seq<Record>), p: Record -> bool)
    ensures CountIn(gs + [g], p) == CountIn(gs, p) + CountWhere(g.1, p)
    decreases |gs|
  {
    if |gs| > 0 {
      assert (gs + [g])[1..] == gs[1..] + [g];
      CountInAppend(gs[1..], g, p);
    }
  }

  lemma {:induction false} CountInUpdate(gs: Groups, i: nat, g: (Value, seq<Record>), p: Record -> bool)
    requires i < |gs|
    ensures CountIn(gs[i := g], p) + CountWhere(gs[i].1, p) == CountIn(gs, p) + CountWhere(g.1, p)
    decreases |gs|
  {
    if i > 0 {
      assert gs[i := g][1..] == gs[1..][i - 1 := g];
      CountInUpdate(gs[1..], i - 1, g, p);
    }
  }

  /** One more item either joins its category's group or opens a new last one. */
  lemma GroupSnoc(init: seq<Record>, last: Record)
    ensures var gs := Group(init);
      Group(init + [last]) == match GroupIndex(gs, CategoryOf(last))
        case Some(k) => gs[k := (CategoryOf(last), gs[k].1 + [last])]
        case None => gs + [(CategoryOf(last), [last])]
  {
    var items := init + [last];
    assert items[..|items| - 1] == init;
  }

  /** Grouping neither loses nor duplicates an item satisfying `p`. */
  lemma {:induction false} GroupCount(items: seq<Record>, p: Record -> bool)
    ensures CountIn(Group(items), p) == CountWhere(items, p)
    decreases |items|
  {
    if |items| > 0 {
      var init := items[..|items| - 1];
      var last := items[|items| - 1];
      assert items == init + [last];
      GroupCount(init, p);
      CountWhereSnoc(init, last, p);
      GroupSnocCount(init, last, p);
    }
  }

  /** Grouping one more item adds it to the count exactly when it satisfies `p`. */
  lemma GroupSnocCount(init: seq<Record>, last: Record, p: Record -> bool)
    ensures CountIn(Group(init + [last]), p) == CountIn(Group(init), p) + (if p(last) then 1 else 0)
  {
    GroupSnoc(init, last);
    var gs := Group(init);
    match GroupIndex(gs, CategoryOf(last))
    case Some(k) =>
      var g := (CategoryOf(last), gs[k].1 + [last]);
      CountInUpdate(gs, k, g, p);
      CountWhereSnoc(gs[k].1, last, p);
    case None =>
      var g := (CategoryOf(last), [last]);
      CountInAppend(gs, g, p);
      assert CountWhere([last], p) == (if p(last) then 1 else 0) + CountWhere([], p);
  }

  /** The lines of all `items`, one item after the other. */
  function Concat(items: seq<Record>, f: Record -> seq<string>): seq<string> {
    if |items| == 0 then [] else f(items[0]) + Concat(items[1..], f)
  }

  /** `f` renders every item in one line when `one` holds (none otherwise),
      plus one more when `p` holds of it. */
  ghost predicate LinesPer(f: Record -> seq<string>, one: bool, p: Record -> bool) {
    forall x :: |f(x)| == (if one then 1 else 0) + (if p(x) then 1 else 0)
  }

  lemma {:induction false} ConcatLength(items: seq<Record>, f: Record -> seq<string>, one: bool, p: Record -> bool)
    requires LinesPer(f, one, p)
    ensures |Concat(items, f)| == (if one then |items| else 0) + CountWhere(items, p)
    decreases |items|
  {
    if |items| > 0 {
      ConcatLength(items[1..], f, one, p);
      assert |f(items[0])| == (if one then 1 else 0) + (if p(items[0]) then 1 else 0);
    }
  }

  /** Each group's header line followed by its items' lines. */
  function Blocks(gs: Groups, header: ((Value, seq<Record>)) -> string, f: Record -> seq<string>): seq<string> {
    if |gs| == 0 then [] else [header(gs[0])] + Concat(gs[0].1, f) + Blocks(gs[1..], header, f)
  }

  lemma {:induction false} BlocksLength(gs: Groups, header: ((Value, seq<Record>)) -> string, f: Record -> seq<string>,
                                        one: bool, p: Record -> bool)
    requires LinesPer(f, one, p)
    ensures |Blocks(gs, header, f)| == |gs| + (if one then Size(gs) else 0) + CountIn(gs, p)
    decreases |gs|
  {
    if |gs| > 0 {
      BlocksLength(gs[1..], header, f, one, p);
      ConcatLength(gs[0].1, f, one, p);
    }
  }

  /** Where the block of group `i` starts among the lines of all blocks. */
  function BlockStart(gs: Groups, f: Record -> seq<string>, i: nat): nat
    requires i < |gs|
  {
    if i == 0 then 0 else 1 + |Concat(gs[0].1, f)| + BlockStart(gs[1..], f, i - 1)
  }

  /** Each block opens with its group's header. */
  lemma {:induction false} BlockHeader(gs: Groups, header: ((Value, seq<Record>)) -> string, f: Record -> seq<string>, i: nat)
    requires i < |gs|
    ensures BlockStart(gs, f, i) < |Blocks(gs, header, f)|
    ensures Blocks(gs, header, f)[BlockStart(gs, f, i)] == header(gs[i])
    decreases i
  {
    if i > 0 {
      BlockHeader(gs[1..], header, f, i - 1);
      var head := [header(gs[0])] + Concat(gs[0].1, f);
      assert Blocks(gs, header, f) == head + Blocks(gs[1..], header, f);
      assert Blocks(gs, header, f)[|head| + BlockStart(gs[1..], f, i - 1)]
          == Blocks(gs[1..], header, f)[BlockStart(gs[1..], f, i - 1)];
    }
  }
}

=== FILE: http.dfy ===
/** What the Lambda handlers hand back and send out: an HTTP-style response
    and the Telegram messages they send on the way. */
module Http {
  /** `{"statusCode": ..., "body": ...}`. */
  datatype Response = Response(statusCode: int, body: string)

  /** One `send_telegram_message(chat_id, text)` call. */
  datatype Sent = Sent(chatId: string, text: string)
}

=== FILE: item_ids.dfy ===
/** How the operator commands name a stored item: by the text before the
    first '#' of its SK (the creation timestamp of matcher-made items). */
module ItemIds {
  import opened Table
  import Text

  /** The command-side test: the SK starts with the id followed by '#'. */
  predicate HasId(k: Key, id: string) {
    Text.StartsWith(k.1, id + "#")
  }

  /** The auto-deduplication side: `item["SK"].split("#")[0]`. */
  function IdOf(sk: string): (id: string)
    ensures '#' !in id && Text.StartsWith(sk, id)
  {
    Text.BeforeFirst(sk, '#')
  }

  /** For an id without '#', the two ways of naming an item agree: the SK
      starts with the id and '#' exactly when it contains a '#' and the text
      before the first one is the id. */
  lemma HasIdIffIdOf(k: Key, id: string)
    requires '#' !in id
    ensures HasId(k, id) <==> '#' in k.1 && IdOf(k.1) == id
  {
    var sk := k.1;
    if HasId(k, id) {
      assert sk[..|id|] == id && sk[|id|] == '#';
      assert sk == id + "#" + sk[|id| + 1..];
      Text.SplitFirstOf(id, sk[|id| + 1..], '#');
    }
    if '#' in sk && IdOf(sk) == id {
      var n := |id|;
      assert n < |sk|;
      assert Text.SplitFirst(sk, '#').Some?;
      var parts := Text.SplitFirst(sk, '#').value;
      assert sk == parts.0 + "#" + parts.1;
      assert (id + "#") == sk[..n + 1];
    }
  }
}

=== FILE: items.dfy ===
/** The domain items (domain/model/items.py): partition keys
    "{category}#{item id}", sort keys "TYPE" or "TYPE#{sequence}", and the
    per-category factories. */
module Items {
  import opened Wrappers
  import Text
  import Numbers

  const Profile := "PROFILE"

  lemma ProfileHasNoHash()
    ensures ParseSk(Profile) == (Profile, None)
  {
    assert forall i :: 0 <= i < |Profile| ==> Profile[i] != '#';
  }

  /** The four item categories; each has its own model class. */
  datatype Category = People | Projects | Ideas | Admin

  /** The lower-case category name a factory puts in the partition key. */
  function CategoryName(c: Category): (name: string)
    ensures '#' !in name && |name| > 0
  {
    match c
    case People => "people"
    case Projects => "projects"
    case Ideas => "ideas"
    case Admin => "admin"
  }

  /** Distinct categories have distinct names. */
  lemma CategoryNameInjective(a: Category, b: Category)
    requires CategoryName(a) == CategoryName(b)
    ensures a == b
  {
  }

  datatype Item = Item(
    pk: string, sk: string, name: Option<string>, status: string,
    nextAction: Option<string>, notes: Option<string>, confidence: real,
    createdAt: string, updatedAt: Option<string>, originalText: Option<string>,
    category: string)

  /** The range the model declares for `confidence`. */
  predicate ValidConfidence(x: real) {
    0.0 <= x <= 1.0
  }

  /** `build_pk`. */
  function BuildPk(category: string, itemId: string): (pk: string)
    ensures |pk| == |category| + 1 + |itemId|
    ensures Text.StartsWith(pk, category) && pk[|category|] == '#' && pk[|category| + 1..] == itemId
  {
    category + "#" + itemId
  }

  /** `parse_pk`: the text before the first '#' and the rest; a key without
      '#' is a `ValueError`. */
  function ParsePk(pk: string): (r: Result<(string, string)>)
    ensures r.Err? <==> '#' !in pk
    ensures r.Ok? ==> '#' !in r.value.0 && BuildPk(r.value.0, r.value.1) == pk
  {
    match Text.SplitFirst(pk, '#')
    case None => Err("ValueError: Invalid PK format")
    case Some((category, itemId)) => Ok((category, itemId))
  }

  /** A partition key parses back to its category and item id whenever the
      category has no '#'; the item id may hold any number of them. */
  lemma ParsePkRoundTrip(category: string, itemId: string)
    requires '#' !in category
    ensures ParsePk(BuildPk(category, itemId)) == Ok((category, itemId))
  {
    Text.SplitFirstOf(category, itemId, '#');
  }

  /** `build_sk`: the type alone, or the type and the sequence number. */
  function BuildSk(skType: string, sequence: Option<int>): (sk: string)
    ensures sequence.None? ==> sk == skType
    ensures sequence.Some? ==> sk == skType + "#" + Numbers.IntToString(sequence.value)
  {
    match sequence
    case None => skType
    case Some(n) => skType + "#" + Numbers.IntToString(n)
  }

  /** `parse_sk`: a key with a '#' whose remainder after the first '#' is an
      integer (as `int()` reads it) splits into type and number; every other
      key is its own type with no number. */
  function ParseSk(sk: string): (r: (string, Option<int>))
    ensures '#' !in sk ==> r == (sk, None)
    ensures r.1.None? ==> r.0 == sk
    ensures r.1.Some? <==> (exists before, after :: sk == before + "#" + after && '#' !in before
                              && Numbers.ParseInt(after).Some?)
    ensures r.1.Some? ==> '#' !in r.0 && Text.StartsWith(sk, r.0 + "#")
  {
    match Text.SplitFirst(sk, '#')
    case None => (sk, None)
    case Some((before, after)) =>
      match Numbers.ParseInt(after)
      case None =>
        assert forall b, a :: sk == b + "#" + a && '#' !in b ==> b == before && a == after by {
          forall b, a | sk == b + "#" + a && '#' !in b ensures b == before && a == after {
            Text.SplitFirstOf(b, a, '#');
          }
        }
        (sk, None)
      case Some(n) =>
        assert (before + "#")[..] == sk[..|before| + 1];
        (before, Some(n))
  }

  /** A sort key built from a '#'-free type parses back to that type and number. */
  lemma ParseSkRoundTrip(skType: string, sequence: Option<int>)
    requires '#' !in skType
    ensures ParseSk(BuildSk(skType, sequence)) == (skType, sequence)
  {
    if sequence.Some? {
      Text.SplitFirstOf(skType, Numbers.IntToString(sequence.value), '#');
      Numbers.ParseIntRoundTrip(sequence.value);
    }
  }

  /** An item with the class defaults: sort key "PROFILE", status "open",
      confidence 0.0 and every optional field unset. */
  function DefaultItem(pk: string, createdAt: string, category: Category): (item: Item)
    ensures ValidConfidence(item.confidence)
    ensures ParseSk(item.sk) == (Profile, None)
  {
    ProfileHasNoHash();
    Item(pk, Profile, None, "open", None, None, 0.0, createdAt, None, None, CategoryName(category))
  }

  /** The id a factory uses: the given one when it is a non-empty string,
      else the first eight characters of the text of a fresh uuid4. */
  function ItemId(itemId: Option<string>, uuidText: string): (id: string)
    ensures itemId.Some? && itemId.value != "" ==> id == itemId.value
    ensures (itemId.None? || itemId.value == "") && |uuidText| >= 8 ==> |id| == 8 && Text.StartsWith(uuidText, id)
  {
    if itemId.Some? && itemId.value != "" then itemId.value
    else if |uuidText| <= 8 then uuidText
    else uuidText[..8]
  }

  /** `People.create`, `Projects.create`, `Ideas.create`, `Admin.create`:
      the item validates its confidence like the model does. */
  function Create(
    category: Category, name: string, itemId: Option<string>, uuidText: string,
    status: string, nextAction: Option<string>, notes: Option<string>, confidence: real,
    createdAt: string, updatedAt: Option<string>, originalText: Option<string>
  ): (r: Result<Item>)
    ensures r.Ok? <==> ValidConfidence(confidence)
    ensures r.Ok? ==>
      && ParsePk(r.value.pk) == Ok((CategoryName(category), ItemId(itemId, uuidText)))
      && ParseSk(r.value.sk) == (Profile, None)
      && r.value.category == CategoryName(category)
      && r.value.name == Some(name) && r.value.status == status && r.value.confidence == confidence
    ensures r.Ok? ==>
      && r.value.nextAction == nextAction && r.value.notes == notes
      && r.value.createdAt == createdAt && r.value.updatedAt == updatedAt
      && r.value.originalText == originalText
  {
    var id := ItemId(itemId, uuidText);
    if !ValidConfidence(confidence) then Err("ValidationError: confidence must lie in [0, 1]")
    else
      ParsePkRoundTrip(CategoryName(category), id);
      ProfileHasNoHash();
      Ok(Item(BuildPk(CategoryName(category), id), Profile, Some(name), status, nextAction, notes,
              confidence, createdAt, updatedAt, originalText, CategoryName(category)))
  }

  /** Items of different categories, or with different ids, never share a partition key. */
  lemma CreatedKeysDistinct(
    c1: Category, id1: string, c2: Category, id2: string)
    requires BuildPk(CategoryName(c1), id1) == BuildPk(CategoryName(c2), id2)
    ensures c1 == c2 && id1 == id2
  {
    ParsePkRoundTrip(CategoryName(c1), id1);
    ParsePkRoundTrip(CategoryName(c2), id2);
    CategoryNameInjective(c1, c2);
  }
}

=== FILE: legacy_processor.dfy ===
/** The first webhook handler (lambda/processor.py): the same secret check
    as the current entry point, classification by Anthropic with an OpenAI
    fallback, confidence normalisation, and a save gated at 60%. The AI
    providers, the clock and Python's `hash` are parameters. */
module LegacyProcessor {
  import opened Wrappers
  import opened Values
  import opened Table
  import opened Http
  import Text
  import Numbers
  import Matcher
  import Routing
  import ProcessAction
  import Prompts

  const SaveThreshold := 60

  /** The fence a model may wrap its JSON answer in. */
  const JsonFence := "```json"

  /** The fence handling of `classify_with_anthropic`/`classify_with_openai`
      on the stripped answer: drop the first 7 and the last 3 characters of a
      fenced answer, then strip again. */
  function Unfence(content: string): (r: string)
    ensures !Text.StartsWith(content, JsonFence) ==> r == content
    ensures Text.StartsWith(content, JsonFence) ==> r == Text.Strip(Text.DropEnds(content, 7, 3))
  {
    if Text.StartsWith(content, JsonFence) then Text.Strip(Text.DropEnds(content, 7, 3)) else content
  }

  /** A payload fenced as "```json" + payload + "```" comes back out, up to
      surrounding white space. */
  lemma UnfenceRoundTrip(payload: string)
    ensures Unfence(JsonFence + payload + "```") == Text.Strip(payload)
  {
    var s := JsonFence + payload + "```";
    assert s[..|JsonFence|] == JsonFence;
    assert s[7..|s| - 3] == payload;
  }

  /** Python's `int(x)` for a finite float: truncation toward zero. */
  function Trunc(x: real): (i: int)
    ensures x >= 0.0 ==> i == x.Floor
    ensures x < 0.0 ==> i == -((-x).Floor)
    ensures (i as real) <= x < (i as real) + 1.0 || (i as real) - 1.0 < x <= (i as real)
  {
    if x >= 0.0 then x.Floor else -((-x).Floor)
  }

  /** `min(100, max(0, c))`. */
  function Clamp(c: int): (r: int)
    ensures 0 <= r <= 100
    ensures 0 <= c <= 100 ==> r == c
  {
    if c < 0 then 0 else if c > 100 then 100 else c
  }

  /** Confidence as `process_message` normalises it: an int (a bool is one)
      is kept, anything else goes through `int(float(c))`, a failure there
      gives 0, and the result is clamped to [0, 100]. `parseFloat` is
      Python's `float` on a string (`None` when it raises or is not finite).
      Python's `max(0, False)` is `0` and `min(100, max(0, True))` is `True`. */
  function NormalizeConfidence(c: Value, parseFloat: string -> Option<real>): (r: Value)
    ensures r.Int? ==> 0 <= r.i <= 100
    ensures r.Int? || r == Bool(true)
    ensures c.Int? ==> r == Int(Clamp(c.i))
    ensures c.Real? ==> r == Int(Clamp(Trunc(c.r)))
    ensures c.Null? || c.Vec? ==> r == Int(0)
  {
    match c
    case Int(i) => Int(Clamp(i))
    case Bool(b) => if b then Bool(true) else Int(0)
    case Real(x) => Int(Clamp(Trunc(x)))
    case Str(s) => if parseFloat(s).Some? then Int(Clamp(Trunc(parseFloat(s).value))) else Int(0)
    case Null => Int(0)
    case Vec(_) => Int(0)
  }

  /** Normalising twice is normalising once. */
  lemma NormalizeConfidenceIdempotent(c: Value, parseFloat: string -> Option<real>)
    ensures NormalizeConfidence(NormalizeConfidence(c, parseFloat), parseFloat) == NormalizeConfidence(c, parseFloat)
  {
  }

  /** Python truthiness of a decoded JSON object: `None` and `{}` are false. */
  predicate Answered(result: Option<Record>) {
    result.Some? && |result.value| > 0
  }

  /** `process_message`: Anthropic first; OpenAI only when Anthropic gave
      nothing and an OpenAI key is set; no answer at all raises. The answer
      gets the original text and a normalised confidence. */
  function ProcessMessage(
    message: Value,
    anthropic: string -> Option<Record>, openai: string -> Option<Record>,
    openaiKey: Option<string>, parseFloat: string -> Option<real>
  ): (r: Result<Record>)
    ensures r.Ok? <==> Answered(anthropic(Show(message)))
                       || (openaiKey.Some? && openaiKey.value != "" && Answered(openai(Show(message))))
    ensures r.Ok? ==>
      var source := if Answered(anthropic(Show(message))) then anthropic(Show(message)).value
                    else openai(Show(message)).value;
      && r.value.Keys == source.Keys + {"original_text", "confidence"}
      && r.value["original_text"] == message
      && r.value["confidence"] == NormalizeConfidence(GetOr(source, "confidence", Int(0)), parseFloat)
      && (forall a :: a in source && a != "original_text" && a != "confidence" ==> r.value[a] == source[a])
  {
    var first := anthropic(Show(message));
    var result := if !Answered(first) && openaiKey.Some? && openaiKey.value != "" then openai(Show(message)) else first;
    if !Answered(result) then Err("Both AI classification attempts failed")
    else
      var withText := result.value["original_text" := message];
      var confidence := NormalizeConfidence(GetOr(withText, "confidence", Int(0)), parseFloat);
      Ok(withText["confidence" := confidence])
  }

  /** The item `save_to_dynamodb` puts: keyed like the matcher's new items. */
  function LegacyItem(d: Record, now: string, hashOf: Value -> int): Record
    requires "category" in d && "original_text" in d && "confidence" in d
  {
    map[
      "PK" := Str(Matcher.CategoryPk(d["category"])),
      "SK" := Str(Matcher.NewSk(d["category"], d, now, hashOf)),
      "created_at" := Str(now),
      "status" := GetOr(d, "status", Str("open")),
      "name" := Get(d, "name"),
      "next_action" := Get(d, "next_action"),
      "notes" := Get(d, "notes"),
      "original_text" := d["original_text"],
      "confidence" := d["confidence"],
      "category" := d["category"]
    ]
  }

  /** The attributes of the saved item that come from the answer. */
  const AnswerFields := {"status", "name", "next_action", "notes", "original_text", "confidence", "category"}

  /** `save_to_dynamodb`: a missing category, original text or confidence,
      an unhashable original text (a list: Python's `hash` raises) and an
      item `put_item` cannot serialise (a float) are all caught and reported
      as `False`, with nothing written. */
  function SaveToDynamoDb(t: Table, d: Record, now: string, hashOf: Value -> int): (r: (bool, Table))
    ensures r.0 <==> "category" in d && "original_text" in d && "confidence" in d
                     && !d["original_text"].Vec? && Storable(LegacyItem(d, now, hashOf))
    ensures !r.0 ==> r.1 == t
    ensures r.0 ==>
      var k := (Matcher.CategoryPk(d["category"]), Matcher.NewSk(d["category"], d, now, hashOf));
      r.1 == t[k := LegacyItem(d, now, hashOf)]
  {
    if "category" in d && "original_text" in d && "confidence" in d && !d["original_text"].Vec? then
      var item := LegacyItem(d, now, hashOf);
      if Storable(item) then
        var k := (Matcher.CategoryPk(d["category"]), Matcher.NewSk(d["category"], d, now, hashOf));
        (true, t[k := item])
      else (false, t)
    else (false, t)
  }

  /** The saved item is storable exactly when no attribute it copies from the
      answer is a float. */
  lemma LegacyItemStorable(d: Record, now: string, hashOf: Value -> int)
    requires "category" in d && "original_text" in d && "confidence" in d
    ensures Storable(LegacyItem(d, now, hashOf)) <==> forall a :: a in AnswerFields && a in d ==> !d[a].Real?
  {
    var item := LegacyItem(d, now, hashOf);
    if forall a :: a in AnswerFields && a in d ==> !d[a].Real? {
      forall a | a in item ensures !item[a].Real? {
        if a in AnswerFields && a in d {
          assert !d[a].Real?;
        }
      }
    } else {
      var a :| a in AnswerFields && a in d && d[a].Real?;
      assert item[a] == d[a];
    }
  }

  /** An answer that names its item with a float is not saved. */
  lemma FloatNameNotSaved(t: Table, d: Record, now: string, hashOf: Value -> int)
    requires "category" in d && "original_text" in d && "confidence" in d
    requires "name" in d && d["name"].Real?
    ensures SaveToDynamoDb(t, d, now, hashOf) == (false, t)
  {
    LegacyItemStorable(d, now, hashOf);
  }

  /** A normalised confidence reaches the save threshold (`True` counts as 1). */
  predicate ConfidentEnough(c: Value) {
    c.Int? && c.i >= SaveThreshold
  }

  /** The reply sent to the chat. */
  datatype Reply =
    | SavedReply(category: Value, confidence: Value, name: Option<Value>)
    | SaveFailed
    | LowConfidenceReply(confidence: Value)


  /** `handler`. `expected` is the configured secret; the reply is recorded
      whether or not Telegram accepts it, as the source ignores that. */
  function Handle(
    expected: Option<string>, req: Routing.Request, t: Table,
    anthropic: string -> Option<Record>, openai: string -> Option<Record>,
    openaiKey: Option<string>, parseFloat: string -> Option<real>,
    now: string, hashOf: Value -> int
  ): (r: (Response, Table, seq<(string, Reply)>))
    ensures !Routing.Authorized(expected, req.headers) ==> r == (Routing.Forbidden, t, [])
    ensures r.0.statusCode != 200 ==> r.1 == t && r.2 == []
    ensures (Routing.Authorized(expected, req.headers) && req.body.Ok?
             && !Truthy(Routing.MessageText(req.body.value)))
            ==> r == (Routing.NoText, t, [])
    ensures (Routing.Authorized(expected, req.headers) && req.body.Ok?
             && Truthy(Routing.MessageText(req.body.value)) && !Sliceable(Routing.MessageText(req.body.value)))
            ==> r == (Routing.InternalError, t, [])
    ensures (Routing.Authorized(expected, req.headers) && req.body.Ok?
             && Truthy(Routing.MessageText(req.body.value)) && Sliceable(Routing.MessageText(req.body.value)))
            ==> var pm := ProcessMessage(Routing.MessageText(req.body.value), anthropic, openai, openaiKey, parseFloat);
                && (r.0 == Routing.InternalError <==> pm.Err?)
                && (pm.Ok? ==> r.0 == ProcessAction.Processed && |r.2| == 1
                                && r.2[0].0 == Routing.ChatId(req.body.value))
                && (pm.Ok? ==> (r.2[0].1.LowConfidenceReply? <==> !ConfidentEnough(pm.value["confidence"])))
                && (pm.Ok? && ConfidentEnough(pm.value["confidence"]) ==>
                      var saved := SaveToDynamoDb(t, pm.value, now, hashOf);
                      r.1 == saved.1 && (r.2[0].1.SavedReply? <==> saved.0))
                && (pm.Ok? && r.2[0].1.SavedReply? ==>
                      r.2[0].1 == SavedReply(pm.value["category"], pm.value["confidence"],
                                             ProcessAction.NameLine(pm.value)))
    ensures r.1 != t ==> r.0 == ProcessAction.Processed && |r.2| == 1 && r.2[0].1.SavedReply?
  {
    if !Routing.Authorized(expected, req.headers) then (Routing.Forbidden, t, [])
    else if req.body.Err? then (Routing.InternalError, t, [])
    else
      var text := Routing.MessageText(req.body.value);
      var chatId := Routing.ChatId(req.body.value);
      if !Truthy(text) then (Routing.NoText, t, [])
      else if !Sliceable(text) then (Routing.InternalError, t, [])
      else
        match ProcessMessage(text, anthropic, openai, openaiKey, parseFloat)
        case Err(_) => (Routing.InternalError, t, [])
        case Ok(result) =>
          var confidence := result["confidence"];
          if ConfidentEnough(confidence) then
            var saved := SaveToDynamoDb(t, result, now, hashOf);
            if saved.0 then
              (ProcessAction.Processed, saved.1,
               [(chatId, SavedReply(result["category"], confidence, ProcessAction.NameLine(result)))])
            else (ProcessAction.Processed, t, [(chatId, SaveFailed)])
          else (ProcessAction.Processed, t, [(chatId, LowConfidenceReply(confidence))])
  }

  /** With providers that never answer, the handler saves nothing, replies
      nothing, and ends every authorised message with text in a 500. */
  lemma SilentProvidersSaveNothing(
    expected: Option<string>, req: Routing.Request, t: Table,
    anthropic: string -> Option<Record>, openai: string -> Option<Record>,
    openaiKey: Option<string>, parseFloat: string -> Option<real>,
    now: string, hashOf: Value -> int
  )
    requires forall s :: anthropic(s).None? && openai(s).None?
    ensures var r := Handle(expected, req, t, anthropic, openai, openaiKey, parseFloat, now, hashOf);
      && r.1 == t && r.2 == []
      && ((Routing.Authorized(expected, req.headers) && req.body.Ok?
           && Truthy(Routing.MessageText(req.body.value))) ==> r.0 == Routing.InternalError)
  {
    if req.body.Ok? {
      var text := Routing.MessageText(req.body.value);
      assert !Answered(anthropic(Show(text))) && !Answered(openai(Show(text)));
    }
  }

  /** The providers as written: each formats `CLASSIFICATION_PROMPT` before
      its call. */
  function ProviderAsWritten(call: string -> Option<Record>): string -> Option<Record> {
    Prompts.Prompted(call, Prompts.LegacyTemplate)
  }

  /** `handler` as written. `Handle` is the handler with the prompt's JSON
      braces doubled, where the providers see the message. */
  function HandleAsWritten(
    expected: Option<string>, req: Routing.Request, t: Table,
    anthropic: string -> Option<Record>, openai: string -> Option<Record>,
    openaiKey: Option<string>, parseFloat: string -> Option<real>,
    now: string, hashOf: Value -> int
  ): (Response, Table, seq<(string, Reply)>)
  {
    Handle(expected, req, t, ProviderAsWritten(anthropic), ProviderAsWritten(openai), openaiKey, parseFloat, now, hashOf)
  }

  /** As written, formatting the prompt raises for every message
      (`Prompts.LegacyPromptFails`), so the handler never saves or replies,
      and every authorised message with text ends in a 500. */
  lemma AsWrittenSavesNothing(
    expected: Option<string>, req: Routing.Request, t: Table,
    anthropic: string -> Option<Record>, openai: string -> Option<Record>,
    openaiKey: Option<string>, parseFloat: string -> Option<real>,
    now: string, hashOf: Value -> int
  )
    ensures var r := HandleAsWritten(expected, req, t, anthropic, openai, openaiKey, parseFloat, now, hashOf);
      && r.1 == t && r.2 == []
      && ((Routing.Authorized(expected, req.headers) && req.body.Ok?
           && Truthy(Routing.MessageText(req.body.value))) ==> r.0 == Routing.InternalError)
  {
    var a := ProviderAsWritten(anthropic);
    var o := ProviderAsWritten(openai);
    forall s ensures a(s).None? && o(s).None? {
      Prompts.LegacyPromptedSilent(anthropic, s);
      Prompts.LegacyPromptedSilent(openai, s);
    }
    SilentProvidersSaveNothing(expected, req, t, a, o, openaiKey, parseFloat, now, hashOf);
  }

  /** `verify_webhook_secret`: the token must equal the configured secret; with
      no configured secret nothing matches. */
  function VerifyWebhookSecret(secretToken: string, configured: Option<string>): (ok: bool)
    ensures ok <==> configured == Some(secretToken)
  {
    configured.Some? && configured.value == secretToken
  }
}

=== FILE: linker.dfy ===
/** The task linker (task_linker/linker.py): a message either updates the
    status of the user's best-matching open task or becomes a new task. The
    embedding provider and the similarity score are parameters; the score
    is `cosine_similarity` as the linker calls it, exceptions included. */
module Linker {
  import opened Wrappers
  import opened Values
  import opened Table
  import Status
  import TaskStore
  import Similarity

  /** A task matches only when its score is strictly above this. */
  const MatchThreshold: real := 0.85

  datatype LinkResult =
    | MatchedTask(taskId: Value, confidence: real)
    | CreatedTask(newTaskId: string, confidence: real)

  /** The score of one open task: `None` for a task without a truthy
      embedding (skipped), an error when the embedding is not a list of
      numbers or the score raises. */
  function TaskScore(task: Record, msg: seq<real>, score: (seq<real>, seq<real>) -> Result<real>): (r: Result<Option<real>>)
    ensures r == Ok(None) <==> !Truthy(Get(task, "embedding"))
    ensures r.Err? <==> Truthy(Get(task, "embedding"))
                        && (!Get(task, "embedding").Vec? || score(msg, Get(task, "embedding").xs).Err?)
    ensures r.Ok? && r.value.Some? ==>
      Get(task, "embedding").Vec? && score(msg, Get(task, "embedding").xs) == Ok(r.value.value)
  {
    var e := Get(task, "embedding");
    if !Truthy(e) then Ok(None)
    else if !e.Vec? then Err("TypeError: embedding is not a list of numbers")
    else
      var s :- score(msg, e.xs);
      Ok(Some(s))
  }

  /** The score of every listed task in order; the first task whose scoring
      raises ends the loop with that error. */
  function TaskScores(tasks: seq<Record>, msg: seq<real>, score: (seq<real>, seq<real>) -> Result<real>)
    : (r: Result<seq<Option<real>>>)
    ensures r.Ok? <==> forall i :: 0 <= i < |tasks| ==> TaskScore(tasks[i], msg, score).Ok?
    ensures r.Ok? ==> |r.value| == |tasks|
    ensures r.Ok? ==> forall i :: 0 <= i < |tasks| ==> Ok(r.value[i]) == TaskScore(tasks[i], msg, score)
    ensures r.Err? ==> exists i :: 0 <= i < |tasks| && TaskScore(tasks[i], msg, score) == Err(r.error)
                                   && forall j :: 0 <= j < i ==> TaskScore(tasks[j], msg, score).Ok?
  {
    if |tasks| == 0 then Ok([])
    else
      var first := TaskScore(tasks[0], msg, score);
      var rest := TaskScores(tasks[1..], msg, score);
      assert forall i :: 1 <= i < |tasks| ==> tasks[i] == tasks[1..][i - 1];
      if first.Err? then Err(first.error)
      else if rest.Err? then
        var k :| 0 <= k < |tasks[1..]| && TaskScore(tasks[1..][k], msg, score) == Err(rest.error)
                 && forall j :: 0 <= j < k ==> TaskScore(tasks[1..][j], msg, score).Ok?;
        assert TaskScore(tasks[k + 1], msg, score) == Err(rest.error);
        Err(rest.error)
      else
        Ok([first.value] + rest.value)
  }

  /** The best score the scan of `link_task` reaches: the greatest
      score, or 0.0 when no score is positive. */
  function Top(scores: seq<Option<real>>): (m: real)
    ensures m >= 0.0
    ensures forall i :: 0 <= i < |scores| && scores[i].Some? ==> scores[i].value <= m
    ensures m == 0.0 || exists i :: 0 <= i < |scores| && scores[i] == Some(m)
  {
    if |scores| == 0 then 0.0
    else
      var init := scores[..|scores| - 1];
      var m := Top(init);
      assert forall i :: 0 <= i < |init| ==> init[i] == scores[i];
      var last := scores[|scores| - 1];
      if last.Some? && last.value > m then last.value else m
  }

  /** The task the scan of `link_task` keeps: the first one reaching the
      best score, and none when no score is positive. */
  function Pick(scores: seq<Option<real>>): (b: Option<nat>)
    ensures b.None? <==> Top(scores) == 0.0
    ensures b.Some? ==> b.value < |scores| && scores[b.value] == Some(Top(scores))
    ensures b.Some? ==> forall i :: 0 <= i < b.value && scores[i].Some? ==> scores[i].value < Top(scores)
  {
    if |scores| == 0 then None
    else
      var init := scores[..|scores| - 1];
      assert forall i :: 0 <= i < |init| ==> init[i] == scores[i];
      var last := scores[|scores| - 1];
      if last.Some? && last.value > Top(init) then Some(|scores| - 1) else Pick(init)
  }

  /** The scan of `link_task`: the first task with the strictly greatest
      positive score, and that score (0.0 when no score is positive). */
  method SelectBest(scores: seq<Option<real>>) returns (best: Option<nat>, bestScore: real)
    ensures best == Pick(scores) && bestScore == Top(scores)
    ensures bestScore >= 0.0
    ensures forall i :: 0 <= i < |scores| && scores[i].Some? ==> scores[i].value <= bestScore
    ensures best.Some? ==> best.value < |scores| && scores[best.value] == Some(bestScore) && bestScore > 0.0
    ensures best.Some? ==> forall i :: 0 <= i < best.value && scores[i].Some? ==> scores[i].value < bestScore
    ensures best.None? ==> bestScore == 0.0
  {
    best := None;
    bestScore := 0.0;
    var i := 0;
    while i < |scores|
      invariant 0 <= i <= |scores|
      invariant best == Pick(scores[..i]) && bestScore == Top(scores[..i])
    {
      assert scores[..i + 1][..i] == scores[..i];
      if scores[i].Some? && scores[i].value > bestScore {
        best := Some(i);
        bestScore := scores[i].value;
      }
      i := i + 1;
    }
    assert scores[..|scores|] == scores;
  }

  /** The scan keeps a task above the threshold that has no "taskId": the
      one case in which `link_task` raises once every task is scored. */
  predicate MissingTaskId(tasks: seq<Record>, scores: seq<Option<real>>) {
    && Pick(scores).Some? && Pick(scores).value < |tasks|
    && Top(scores) > MatchThreshold
    && "taskId" !in tasks[Pick(scores).value]
  }

  /** Task `i` is embedded, scores `best`, and every embedded task before
      it scores strictly less: the scan's strict `>` keeps the first of
      equally scored tasks. */
  predicate FirstBest(tasks: seq<Record>, msg: seq<real>, score: (seq<real>, seq<real>) -> Result<real>, i: int, best: real) {
    && 0 <= i < |tasks|
    && Get(tasks[i], "embedding").Vec?
    && score(msg, Get(tasks[i], "embedding").xs) == Ok(best)
    && forall j :: 0 <= j < i && Get(tasks[j], "embedding").Vec? && Truthy(Get(tasks[j], "embedding")) ==>
         score(msg, Get(tasks[j], "embedding").xs).Ok? && score(msg, Get(tasks[j], "embedding").xs).value < best
  }

  /** `link_task`. The task id of a new task is the parameter `newTaskId`
      (the source draws a uuid4), `now` its creation time. */
  method LinkTask(
    t: Table, userId: string, messageText: string, action: string,
    embed: string -> Result<seq<real>>, score: (seq<real>, seq<real>) -> Result<real>,
    newTaskId: string, now: string
  ) returns (r: Result<(LinkResult, Table)>)
    ensures embed(messageText).Err? ==> r == Err(embed(messageText).error)
    ensures embed(messageText).Ok? ==>
      var scores := TaskScores(TaskStore.ListOpenTasks(t, userId), embed(messageText).value, score);
      (scores.Err? ==> r == Err(scores.error)) && (r.Ok? ==> scores.Ok?)
    ensures embed(messageText).Ok? ==>
      var tasks := TaskStore.ListOpenTasks(t, userId);
      var scores := TaskScores(tasks, embed(messageText).value, score);
      scores.Ok? ==>
        && (r.Err? <==> MissingTaskId(tasks, scores.value))
        && (r.Ok? ==> r.value.0.confidence == Top(scores.value))
        && (r.Ok? ==> (r.value.0.MatchedTask? <==> Pick(scores.value).Some? && Top(scores.value) > MatchThreshold))
    ensures r.Ok? ==>
      var msg := embed(messageText).value;
      var tasks := TaskStore.ListOpenTasks(t, userId);
      && r.value.0.confidence >= 0.0
      && forall i :: 0 <= i < |tasks| && Get(tasks[i], "embedding").Vec? && Truthy(Get(tasks[i], "embedding")) ==>
           score(msg, Get(tasks[i], "embedding").xs).Ok?
           && score(msg, Get(tasks[i], "embedding").xs).value <= r.value.0.confidence
    ensures r.Ok? && r.value.0.MatchedTask? ==>
      var msg := embed(messageText).value;
      var tasks := TaskStore.ListOpenTasks(t, userId);
      && r.value.0.confidence > MatchThreshold
      && (exists i :: FirstBest(tasks, msg, score, i, r.value.0.confidence) && Get(tasks[i], "taskId") == r.value.0.taskId)
      && r.value.1 == TaskStore.UpdateTaskStatus(t, userId, Show(r.value.0.taskId), Status.DeriveStatus(action))
    ensures r.Ok? && r.value.0.CreatedTask? ==>
      && r.value.0.confidence <= MatchThreshold
      && r.value.0.newTaskId == newTaskId
      && r.value.1 == TaskStore.CreateTask(t, userId, messageText, Status.DeriveStatus(action), embed(messageText).value, newTaskId, now).0
  {
    var msg := embed(messageText);
    if msg.Err? {
      return Err(msg.error);
    }
    var tasks := TaskStore.ListOpenTasks(t, userId);
    var scores := TaskScores(tasks, msg.value, score);
    if scores.Err? {
      return Err(scores.error);
    }
    r := Choose(t, userId, messageText, Status.DeriveStatus(action), msg.value, tasks, scores.value, score, newTaskId, now);
  }

  /** The rest of `link_task` once every open task is scored: update the
      best task if it scores above the threshold, else create a new one. */
  method Choose(
    t: Table, userId: string, messageText: string, status: string,
    msg: seq<real>, tasks: seq<Record>, scores: seq<Option<real>>, score: (seq<real>, seq<real>) -> Result<real>,
    newTaskId: string, now: string
  ) returns (r: Result<(LinkResult, Table)>)
    requires |scores| == |tasks|
    requires forall i :: 0 <= i < |tasks| ==> Ok(scores[i]) == TaskScore(tasks[i], msg, score)
    ensures r.Err? <==> MissingTaskId(tasks, scores)
    ensures r.Ok? ==> r.value.0.confidence == Top(scores)
    ensures r.Ok? ==> (r.value.0.MatchedTask? <==> Pick(scores).Some? && Top(scores) > MatchThreshold)
    ensures r.Ok? ==>
      && r.value.0.confidence >= 0.0
      && forall i :: 0 <= i < |tasks| && Get(tasks[i], "embedding").Vec? && Truthy(Get(tasks[i], "embedding")) ==>
           score(msg, Get(tasks[i], "embedding").xs).Ok?
           && score(msg, Get(tasks[i], "embedding").xs).value <= r.value.0.confidence
    ensures r.Ok? && r.value.0.MatchedTask? ==>
      && r.value.0.confidence > MatchThreshold
      && (exists i :: FirstBest(tasks, msg, score, i, r.value.0.confidence) && Get(tasks[i], "taskId") == r.value.0.taskId)
      && r.value.1 == TaskStore.UpdateTaskStatus(t, userId, Show(r.value.0.taskId), status)
    ensures r.Ok? && r.value.0.CreatedTask? ==>
      && r.value.0.confidence <= MatchThreshold
      && r.value.0.newTaskId == newTaskId
      && r.value.1 == TaskStore.CreateTask(t, userId, messageText, status, msg, newTaskId, now).0
  {
    var best, bestScore := SelectBest(scores);
    ScoresBounded(tasks, msg, score, scores, bestScore);
    if best.Some? && bestScore > MatchThreshold {
      var task := tasks[best.value];
      if "taskId" !in task {
        return Err("KeyError: taskId");
      }
      BestScored(tasks, msg, score, scores, best.value, bestScore);
      EarlierScoreLower(tasks, msg, score, scores, best.value, bestScore);
      assert FirstBest(tasks, msg, score, best.value, bestScore);
      var t' := TaskStore.UpdateTaskStatus(t, userId, Show(task["taskId"]), status);
      return Ok((MatchedTask(task["taskId"], bestScore), t'));
    } else {
      var created := TaskStore.CreateTask(t, userId, messageText, status, msg, newTaskId, now);
      return Ok((CreatedTask(created.1, bestScore), created.0));
    }
  }

  /** Every embedded task scores at most the best score. */
  lemma ScoresBounded(tasks: seq<Record>, msg: seq<real>, score: (seq<real>, seq<real>) -> Result<real>,
                      scores: seq<Option<real>>, bestScore: real)
    requires |scores| == |tasks|
    requires forall i :: 0 <= i < |tasks| ==> Ok(scores[i]) == TaskScore(tasks[i], msg, score)
    requires forall i :: 0 <= i < |scores| && scores[i].Some? ==> scores[i].value <= bestScore
    ensures forall i :: 0 <= i < |tasks| && Get(tasks[i], "embedding").Vec? && Truthy(Get(tasks[i], "embedding")) ==>
      score(msg, Get(tasks[i], "embedding").xs).Ok? && score(msg, Get(tasks[i], "embedding").xs).value <= bestScore
  {
    forall i | 0 <= i < |tasks| && Get(tasks[i], "embedding").Vec? && Truthy(Get(tasks[i], "embedding"))
      ensures score(msg, Get(tasks[i], "embedding").xs).Ok? && score(msg, Get(tasks[i], "embedding").xs).value <= bestScore
    {
      assert Ok(scores[i]) == TaskScore(tasks[i], msg, score);
    }
  }

  /** Every embedded task before the one the scan picks scores strictly
      less than it. */
  lemma EarlierScoreLower(tasks: seq<Record>, msg: seq<real>, score: (seq<real>, seq<real>) -> Result<real>,
                          scores: seq<Option<real>>, b: nat, bestScore: real)
    requires |scores| == |tasks| && b < |tasks|
    requires forall i :: 0 <= i < |tasks| ==> Ok(scores[i]) == TaskScore(tasks[i], msg, score)
    requires forall i :: 0 <= i < b && scores[i].Some? ==> scores[i].value < bestScore
    ensures forall j :: 0 <= j < b && Get(tasks[j], "embedding").Vec? && Truthy(Get(tasks[j], "embedding")) ==>
      score(msg, Get(tasks[j], "embedding").xs).Ok? && score(msg, Get(tasks[j], "embedding").xs).value < bestScore
  {
    forall j | 0 <= j < b && Get(tasks[j], "embedding").Vec? && Truthy(Get(tasks[j], "embedding"))
      ensures score(msg, Get(tasks[j], "embedding").xs).Ok? && score(msg, Get(tasks[j], "embedding").xs).value < bestScore
    {
      assert Ok(scores[j]) == TaskScore(tasks[j], msg, score);
    }
  }

  /** The task the scan picks is embedded and scores the best score. */
  lemma BestScored(tasks: seq<Record>, msg: seq<real>, score: (seq<real>, seq<real>) -> Result<real>,
                   scores: seq<Option<real>>, b: nat, bestScore: real)
    requires |scores| == |tasks| && b < |tasks|
    requires forall i :: 0 <= i < |tasks| ==> Ok(scores[i]) == TaskScore(tasks[i], msg, score)
    requires scores[b] == Some(bestScore)
    ensures Get(tasks[b], "embedding").Vec? && score(msg, Get(tasks[b], "embedding").xs) == Ok(bestScore)
  {
    assert Ok(scores[b]) == TaskScore(tasks[b], msg, score);
  }

  const TypeErrorMessage := "TypeError: unsupported operand type(s) for *: 'float' and 'decimal.Decimal'"
  const ZeroDivisionMessage := "ZeroDivisionError: float division by zero"

  /** `cosine_similarity` as written, called with the message's float
      embedding and a stored embedding, which the table hands back as
      `Decimal`s. The first product of a float and a `Decimal` raises
      `TypeError`; with no pair to multiply, one norm is 0.0 and the
      division raises `ZeroDivisionError`. */
  function CosineAsWritten(msg: seq<real>, stored: seq<real>): (r: Result<real>)
    ensures r.Err?
    ensures r.error == TypeErrorMessage <==> |msg| > 0 && |stored| > 0
  {
    if |msg| > 0 && |stored| > 0 then Err(TypeErrorMessage) else Err(ZeroDivisionMessage)
  }

  /** As written, every open task with an embedding makes scoring raise, so
      `link_task` fails (`LinkTask`'s contract) and the handler answers 500. */
  lemma ScoresAsWrittenFail(tasks: seq<Record>, msg: seq<real>, i: nat)
    requires i < |tasks| && Truthy(Get(tasks[i], "embedding"))
    ensures TaskScores(tasks, msg, CosineAsWritten).Err?
  {
    assert TaskScore(tasks[i], msg, CosineAsWritten).Err?;
  }

  /** `link_task` with the score as written. */
  method LinkTaskAsWritten(
    t: Table, userId: string, messageText: string, action: string,
    embed: string -> Result<seq<real>>, newTaskId: string, now: string
  ) returns (r: Result<(LinkResult, Table)>)
    ensures var tasks := TaskStore.ListOpenTasks(t, userId);
      (exists i :: 0 <= i < |tasks| && Truthy(Get(tasks[i], "embedding"))) ==> r.Err?
  {
    r := LinkTask(t, userId, messageText, action, embed, CosineAsWritten, newTaskId, now);
    var tasks := TaskStore.ListOpenTasks(t, userId);
    if exists i :: 0 <= i < |tasks| && Truthy(Get(tasks[i], "embedding")) {
      var i :| 0 <= i < |tasks| && Truthy(Get(tasks[i], "embedding"));
      if embed(messageText).Ok? {
        ScoresAsWrittenFail(tasks, embed(messageText).value, i);
      }
    }
  }

  /** The evidently intended score: both embeddings read as floats (the
      signature says `list[float]`). A zero norm still raises
      `ZeroDivisionError`, as the source's division does; otherwise the
      quotient is `ratio`, the same quotient as `Similarity.Cosine`. */
  function TaskCosine(msg: seq<real>, stored: seq<real>, ratio: (seq<real>, seq<real>) -> real): (r: Result<real>)
    ensures r.Err? <==> |msg| == 0 || |stored| == 0 || Similarity.IsZero(msg) || Similarity.IsZero(stored)
    ensures r.Ok? ==> r.value == Similarity.Cosine(msg, stored, ratio)
  {
    if |msg| == 0 || |stored| == 0 || Similarity.IsZero(msg) || Similarity.IsZero(stored) then Err(ZeroDivisionMessage)
    else Ok(ratio(msg, stored))
  }

  /** With the intended score, every open task is scored as long as the
      message's embedding and every truthy stored embedding are non-zero
      vectors. */
  lemma IntendedScoresSucceed(
    tasks: seq<Record>, msg: seq<real>, ratio: (seq<real>, seq<real>) -> real
  )
    requires |msg| > 0 && !Similarity.IsZero(msg)
    requires forall i :: 0 <= i < |tasks| && Truthy(Get(tasks[i], "embedding")) ==>
      Get(tasks[i], "embedding").Vec? && !Similarity.IsZero(Get(tasks[i], "embedding").xs)
    ensures TaskScores(tasks, msg, (a, b) => TaskCosine(a, b, ratio)).Ok?
  {
    forall i | 0 <= i < |tasks| ensures TaskScore(tasks[i], msg, (a, b) => TaskCosine(a, b, ratio)).Ok? {
      IntendedTaskScores(tasks[i], msg, ratio);
    }
  }

  /** One task of `IntendedScoresSucceed`. */
  lemma IntendedTaskScores(task: Record, msg: seq<real>, ratio: (seq<real>, seq<real>) -> real)
    requires |msg| > 0 && !Similarity.IsZero(msg)
    requires Truthy(Get(task, "embedding")) ==>
      Get(task, "embedding").Vec? && !Similarity.IsZero(Get(task, "embedding").xs)
    ensures TaskScore(task, msg, (a, b) => TaskCosine(a, b, ratio)).Ok?
  {
    var e := Get(task, "embedding");
    if Truthy(e) {
      assert e.Vec? && |e.xs| > 0;
      assert TaskCosine(msg, e.xs, ratio).Ok?;
    }
  }

  /** `derive_status` calls `action.lower()`, which a value that is not a
      string lacks. */
  function NoLower(action: Value): string {
    "AttributeError: '" + TypeName(action) + "' object has no attribute 'lower'"
  }

  /** The answer to a truthy message text that is not a string. The source
      hands such a text to the embedding provider; what the provider makes
      of it is not modelled, and the handler fails here instead. */
  const TextNotString := "TypeError: message_text is not a string"

  datatype Body = Linked(result: LinkResult) | Failure(error: string)

  datatype Response = Response(statusCode: int, body: Body)

  /** `handler`: the event's `user_id`, `message_text` and `action` default
      to "default_user", "" and "open"; an empty message is a 400, a failure
      while linking a 500, and the store is then left as it was. An action
      that is not a string fails only at `derive_status`, after the message
      is embedded and every open task scored, so an earlier failure wins. */
  method Handler(
    event: Record, t: Table,
    embed: string -> Result<seq<real>>, score: (seq<real>, seq<real>) -> Result<real>,
    newTaskId: string, now: string
  ) returns (resp: Response, t': Table)
    ensures resp.statusCode == 400 <==> !Truthy(GetOr(event, "message_text", Str("")))
    ensures resp.statusCode in {200, 400, 500}
    ensures resp.statusCode == 200 <==> resp.body.Linked?
    ensures resp.statusCode != 200 ==> t' == t
    ensures resp.statusCode == 200 ==>
      && GetOr(event, "message_text", Str("")).Str?
      && GetOr(event, "action", Str("open")).Str?
      && (resp.body.result.CreatedTask? ==> resp.body.result.newTaskId == newTaskId)
      && (resp.body.result.CreatedTask? ==>
            TaskStore.MakeTaskKeys(Show(GetOr(event, "user_id", Str("default_user"))), newTaskId) in t')
    ensures resp.statusCode == 200 ==>
      var text := GetOr(event, "message_text", Str("")).s;
      var tasks := TaskStore.ListOpenTasks(t, Show(GetOr(event, "user_id", Str("default_user"))));
      embed(text).Ok? && TaskScores(tasks, embed(text).value, score).Ok?
    ensures var text := GetOr(event, "message_text", Str(""));
      var tasks := TaskStore.ListOpenTasks(t, Show(GetOr(event, "user_id", Str("default_user"))));
      Truthy(text) && text.Str? && embed(text.s).Ok? && TaskScores(tasks, embed(text.s).value, score).Err? ==>
      resp == Response(500, Failure(TaskScores(tasks, embed(text.s).value, score).error)) && t' == t
    ensures var text := GetOr(event, "message_text", Str(""));
      Truthy(text) && text.Str? && embed(text.s).Err? ==> resp == Response(500, Failure(embed(text.s).error)) && t' == t
    ensures var text := GetOr(event, "message_text", Str(""));
      var action := GetOr(event, "action", Str("open"));
      var tasks := TaskStore.ListOpenTasks(t, Show(GetOr(event, "user_id", Str("default_user"))));
      Truthy(text) && text.Str? && !action.Str? && embed(text.s).Ok? && TaskScores(tasks, embed(text.s).value, score).Ok? ==>
      resp == Response(500, Failure(NoLower(action))) && t' == t
    ensures var text := GetOr(event, "message_text", Str(""));
      var action := GetOr(event, "action", Str("open"));
      var tasks := TaskStore.ListOpenTasks(t, Show(GetOr(event, "user_id", Str("default_user"))));
      Truthy(text) && text.Str? && action.Str? && embed(text.s).Ok? && TaskScores(tasks, embed(text.s).value, score).Ok? ==>
      var scores := TaskScores(tasks, embed(text.s).value, score).value;
      && (resp.statusCode == 200 <==> !MissingTaskId(tasks, scores))
      && (resp.statusCode == 200 ==> resp.body.result.confidence == Top(scores))
  {
    var userId := GetOr(event, "user_id", Str("default_user"));
    var text := GetOr(event, "message_text", Str(""));
    var action := GetOr(event, "action", Str("open"));
    if !Truthy(text) {
      return Response(400, Failure("message_text is required")), t;
    }
    if !text.Str? {
      return Response(500, Failure(TextNotString)), t;
    }
    if !action.Str? {
      var msg := embed(text.s);
      if msg.Err? {
        return Response(500, Failure(msg.error)), t;
      }
      var scores := TaskScores(TaskStore.ListOpenTasks(t, Show(userId)), msg.value, score);
      if scores.Err? {
        return Response(500, Failure(scores.error)), t;
      }
      return Response(500, Failure(NoLower(action))), t;
    }
    var r := LinkTask(t, Show(userId), text.s, action.s, embed, score, newTaskId, now);
    if r.Err? {
      return Response(500, Failure(r.error)), t;
    }
    return Response(200, Linked(r.value.0)), r.value.1;
  }
}

=== FILE: listing.dfy ===
/** `/open` and `/closed` (actions/open_items.py, actions/closed_items.py):
    the queried items grouped by category, a header per group with its
    size, and the item lines under it. The queries themselves are not
    modelled: the items are a parameter. */
module Listing {
  import opened Values
  import opened Http
  import opened Grouping
  import Numbers
  import Text

  const OpenProcessed := Response(200, "Open command processed")
  const ClosedProcessed := Response(200, "Closed command processed")
  const OpenTitle := "📋 *Open Items*"
  const ClosedTitle := "✅ *Recently Completed*"
  const NoOpen := "📝 No open items found."
  const NoClosed := "📝 No completed items found."

  /** The line heading a group: its category and how many items it has. */
  function Header(g: (Value, seq<Record>)): string {
    "\n📂 *" + Show(g.0) + "* (" + Numbers.IntToString(|g.1|) + ")"
  }

  /** The header line the i-th group should get: its category and the
      number of items of that category. */
  function ExpectedHeader(items: seq<Record>, category: Value): string {
    "\n📂 *" + Show(category) + "* (" + Numbers.IntToString(|Filter(items, category)|) + ")"
  }

  /** In the `/open` listing the i-th group's block opens with its header,
      which counts exactly the items of its category. */
  lemma OpenHeaders(items: seq<Record>, i: nat)
    requires i < |Group(items)|
    ensures var gs := Group(items);
      && 1 + BlockStart(gs, OpenItemLines, i) < |OpenLines(items)|
      && OpenLines(items)[1 + BlockStart(gs, OpenItemLines, i)] == ExpectedHeader(items, gs[i].0)
  {
    var gs := Group(items);
    assert Filtered(items, gs);
    BlockHeader(gs, Header, OpenItemLines, i);
    assert OpenLines(items) == [OpenTitle] + Blocks(gs, Header, OpenItemLines);
  }

  /** The same for the `/closed` listing. */
  lemma ClosedHeaders(items: seq<Record>, i: nat)
    requires i < |Group(items)|
    ensures var gs := Group(items);
      && 1 + BlockStart(gs, ClosedItemLines, i) < |ClosedLines(items)|
      && ClosedLines(items)[1 + BlockStart(gs, ClosedItemLines, i)] == ExpectedHeader(items, gs[i].0)
  {
    var gs := Group(items);
    assert Filtered(items, gs);
    BlockHeader(gs, Header, ClosedItemLines, i);
    assert ClosedLines(items) == [ClosedTitle] + Blocks(gs, Header, ClosedItemLines);
  }

  /** An open item's "next action" worth showing: truthy and not "No action". */
  predicate ShowsAction(item: Record) {
    var action := GetOr(item, "next_action", Str("No action"));
    Truthy(action) && action != Str("No action")
  }

  /** An open item: its name behind 🔄 when in progress and 📌 otherwise,
      then its next action when there is one to show. */
  function OpenItemLines(item: Record): (lines: seq<string>)
    ensures 1 <= |lines| <= 2
    ensures Text.StartsWith(lines[0], "🔄 ") <==> GetOr(item, "status", Str("open")) == Str("in-progress")
    ensures Text.StartsWith(lines[0], "🔄 ") || Text.StartsWith(lines[0], "📌 ")
    ensures |lines| == 2 <==> ShowsAction(item)
    ensures |lines| == 2 ==> Text.StartsWith(lines[1], "   → ")
  {
    var name := GetOr(item, "name", Str("No name"));
    var action := GetOr(item, "next_action", Str("No action"));
    var status := GetOr(item, "status", Str("open"));
    var mark := if status == Str("in-progress") then "🔄 " else "📌 ";
    var first := mark + Show(name);
    assert first[..2] == mark;
    assert "🔄 " != "📌 " by { assert "🔄 "[0] != "📌 "[0]; }
    [first] + (if ShowsAction(item) then ["   → " + Show(action)] else [])
  }

  /** A completed item: a tick and its name. */
  function ClosedItemLines(item: Record): (lines: seq<string>)
    ensures |lines| == 1 && Text.StartsWith(lines[0], "  ✓ ")
  {
    var line := "  ✓ " + Show(GetOr(item, "name", Str("No name")));
    assert line[..4] == "  ✓ ";
    [line]
  }

  /** The second-line condition of a completed item, for the shared
      line-count lemmas of Grouping, which count one line per item plus one
      per item meeting a condition: in `/closed` (closed_items.py:20-22) an
      item has only its "  ✓ name" line, so the condition never holds. */
  predicate NoSecondLine(item: Record) {
    false
  }

  lemma {:induction false} NoneHasSecondLine(items: seq<Record>)
    ensures CountWhere(items, NoSecondLine) == 0
    decreases |items|
  {
    if |items| > 0 {
      NoneHasSecondLine(items[1..]);
    }
  }

  lemma LineCounts()
    ensures LinesPer(OpenItemLines, true, ShowsAction)
    ensures LinesPer(ClosedItemLines, true, NoSecondLine)
  {
    forall x ensures |OpenItemLines(x)| == 1 + (if ShowsAction(x) then 1 else 0) && |ClosedItemLines(x)| == 1 {
      var o := OpenItemLines(x);
      var c := ClosedItemLines(x);
    }
  }

  /** The `/open` message for a non-empty list: the title, then per group a
      header and one or two lines per item. */
  function OpenLines(items: seq<Record>): (lines: seq<string>)
    ensures |lines| == 1 + |Group(items)| + |items| + CountWhere(items, ShowsAction)
    ensures lines[0] == OpenTitle
  {
    var gs := Group(items);
    LineCounts();
    BlocksLength(gs, Header, OpenItemLines, true, ShowsAction);
    GroupCount(items, ShowsAction);
    assert Size(gs) == |items|;
    [OpenTitle] + Blocks(gs, Header, OpenItemLines)
  }

  /** The `/closed` message for a non-empty list: the title, then per group a
      header and exactly one line per item. */
  function ClosedLines(items: seq<Record>): (lines: seq<string>)
    ensures |lines| == 1 + |Group(items)| + |items|
    ensures lines[0] == ClosedTitle
  {
    var gs := Group(items);
    LineCounts();
    BlocksLength(gs, Header, ClosedItemLines, true, NoSecondLine);
    GroupCount(items, NoSecondLine);
    NoneHasSecondLine(items);
    assert Size(gs) == |items|;
    [ClosedTitle] + Blocks(gs, Header, ClosedItemLines)
  }

  /** `open_items.handle` on the open items queried. */
  function Open(items: seq<Record>): (r: (Response, string))
    ensures r.0 == OpenProcessed
    ensures |items| == 0 <==> r.1 == NoOpen
    ensures |items| > 0 ==> r.1 == Text.Join(OpenLines(items), "\n")
  {
    if |items| == 0 then (OpenProcessed, NoOpen)
    else
      var text := Text.Join(OpenLines(items), "\n");
      Text.JoinStartsWith(OpenLines(items), "\n");
      assert text[..|OpenTitle|] == OpenTitle;
      assert NoOpen[0] != OpenTitle[0];
      (OpenProcessed, text)
  }

  /** `closed_items.handle` on the completed items queried. */
  function Closed(items: seq<Record>): (r: (Response, string))
    ensures r.0 == ClosedProcessed
    ensures |items| == 0 <==> r.1 == NoClosed
    ensures |items| > 0 ==> r.1 == Text.Join(ClosedLines(items), "\n")
  {
    if |items| == 0 then (ClosedProcessed, NoClosed)
    else
      var text := Text.Join(ClosedLines(items), "\n");
      Text.JoinStartsWith(ClosedLines(items), "\n");
      assert text[..|ClosedTitle|] == ClosedTitle;
      assert NoClosed[0] != ClosedTitle[0];
      (ClosedProcessed, text)
  }
}

=== FILE: load_env.dfy ===
/** The `load_env` script (packages/scripts/src/scripts/load_env.py): turn
    the assignments of `common/src/env.local` into shell `export` lines.
    Whether the file exists and what it holds are parameters. */
module LoadEnv {
  import opened Wrappers
  import Text

  /** One `KEY=VALUE` line of the file. */
  datatype Assignment = Assignment(key: string, value: string)

  /** Neither starts nor ends with white space. */
  predicate Trimmed(s: string) {
    |s| == 0 || (!Text.IsSpace(s[0]) && !Text.IsSpace(s[|s| - 1]))
  }

  /** What a line of the file contributes: stripped, it must be non-blank,
      not a comment and hold an '='; the key is what precedes the first '='
      and the value what follows it, both stripped. */
  function ParseLine(line: string): (r: Option<Assignment>)
    ensures r.Some? <==>
      var s := Text.Strip(line); s != "" && !Text.StartsWith(s, "#") && '=' in s
    ensures r.Some? ==> '=' !in r.value.key && Trimmed(r.value.key) && Trimmed(r.value.value)
  {
    var s := Text.Strip(line);
    if s != "" && !Text.StartsWith(s, "#") then
      match Text.SplitFirst(s, '=')
      case None => None
      case Some((key, value)) =>
        KeyValueClean(key, value);
        Some(Assignment(Text.Strip(key), Text.Strip(value)))
    else None
  }

  /** The key and value read from a line are stripped, and the key keeps
      holding no '='. */
  lemma KeyValueClean(key: string, value: string)
    requires '=' !in key
    ensures '=' !in Text.Strip(key) && Trimmed(Text.Strip(key)) && Trimmed(Text.Strip(value))
  {
    StripKeeps(key);
  }

  /** `strip` only removes characters. */
  lemma StripKeeps(s: string)
    ensures forall c :: c in Text.Strip(s) ==> c in s
  {
    var l := Text.StripLeft(s);
    var r := Text.StripRight(l);
    assert r == s[|s| - |l|..|s| - |l| + |r|];
  }

  /** The shell line printed for an assignment. */
  function Export(a: Assignment): string {
    "export " + a.key + "=\"" + a.value + "\""
  }

  /** The export lines for the file's lines, in order. */
  function ExportsOf(lines: seq<string>): (out: seq<string>)
    ensures |out| <= |lines|
  {
    if |lines| == 0 then []
    else
      (match ParseLine(lines[0]) case Some(a) => [Export(a)] case None => [])
      + ExportsOf(lines[1..])
  }

  /** What a run prints and how it exits. */
  datatype Run = Run(stdout: seq<string>, stderr: seq<string>, exitCode: int)

  /** `main`: `contents` is the text of the file at `path`, `None` when it
      does not exist. */
  function Main(path: string, contents: Option<string>): (r: Run)
    ensures contents.None? ==> r == Run([], ["Error: " + path + " not found"], 1)
    ensures contents.Some? ==> r.exitCode == 0 && r.stderr == []
    ensures contents.Some? ==> |r.stdout| <= |Text.SplitLines(contents.value)|
  {
    match contents
    case None => Run([], ["Error: " + path + " not found"], 1)
    case Some(text) => Run(ExportsOf(Text.SplitLines(text)), [], 0)
  }

  /** An assignment the file can hold so that it is read back as written:
      key and value stripped and on one line, no '=' in the key, and a key
      that does not make the line a comment. */
  predicate Clean(a: Assignment) {
    && Trimmed(a.key) && Trimmed(a.value)
    && '=' !in a.key && !Text.StartsWith(a.key, "#")
    && Text.NoLineBreak(a.key) && Text.NoLineBreak(a.value)
  }

  /** The line that sets `a`. */
  function Line(a: Assignment): string {
    a.key + "=" + a.value
  }

  /** A file holding `assignments`, one line each. */
  function File(assignments: seq<Assignment>): string {
    if |assignments| == 0 then "" else Line(assignments[0]) + "\n" + File(assignments[1..])
  }

  /** A clean assignment's line parses back to it. */
  lemma ParseLineRoundTrip(a: Assignment)
    requires Clean(a)
    ensures ParseLine(Line(a)) == Some(a)
  {
    var s := Line(a);
    assert s[|a.key|] == '=';
    assert Trimmed(s) by {
      if |a.key| > 0 { assert s[0] == a.key[0]; }
      if |a.value| > 0 { assert s[|s| - 1] == a.value[|a.value| - 1]; }
    }
    assert Text.Strip(s) == s by { Text.StripNoop(s); }
    assert !Text.StartsWith(s, "#") by {
      if |a.key| > 0 { assert s[0] == a.key[0]; assert !Text.StartsWith(a.key, "#"); }
    }
    Text.SplitFirstOf(a.key, a.value, '=');
    assert a.key + "=" + a.value == a.key + ['='] + a.value;
    StripTrimmed(a.key);
    StripTrimmed(a.value);
  }

  lemma StripTrimmed(s: string)
    requires Trimmed(s)
    ensures Text.Strip(s) == s
  {
    if |s| > 0 { Text.StripNoop(s); }
  }

  lemma LineNoBreak(a: Assignment)
    requires Text.NoLineBreak(a.key) && Text.NoLineBreak(a.value)
    ensures Text.NoLineBreak(Line(a))
  {
    var s := Line(a);
    forall j | 0 <= j < |s| ensures !Text.IsLineBreak(s[j]) {
      if j < |a.key| {
        assert s[j] == a.key[j];
      } else if j > |a.key| {
        assert s[j] == a.value[j - |a.key| - 1];
      }
    }
  }

  /** The export line of each assignment, in order. */
  function Exports(assignments: seq<Assignment>): (out: seq<string>)
    ensures |out| == |assignments|
  {
    seq(|assignments|, i requires 0 <= i < |assignments| => Export(assignments[i]))
  }

  /** Loading a file written from clean assignments exports exactly them,
      in order. */
  lemma {:induction false} LoadRoundTrip(assignments: seq<Assignment>)
    requires forall i :: 0 <= i < |assignments| ==> Clean(assignments[i])
    ensures ExportsOf(Text.SplitLines(File(assignments))) == Exports(assignments)
    decreases |assignments|
  {
    if |assignments| > 0 {
      var a := assignments[0];
      var rest := assignments[1..];
      LoadRoundTrip(rest);
      LineNoBreak(a);
      Text.SplitLinesCons(Line(a), File(rest));
      ParseLineRoundTrip(a);
      var lines := Text.SplitLines(File(assignments));
      assert lines == [Line(a)] + Text.SplitLines(File(rest));
      assert lines[1..] == Text.SplitLines(File(rest));
      assert ExportsOf(lines) == [Export(a)] + ExportsOf(lines[1..]);
      ExportsCons(assignments);
    }
  }

  lemma ExportsCons(assignments: seq<Assignment>)
    requires |assignments| > 0
    ensures Exports(assignments) == [Export(assignments[0])] + Exports(assignments[1..])
  {
    var e := Exports(assignments);
    var f := [Export(assignments[0])] + Exports(assignments[1..]);
    assert |e| == |f|;
    forall i | 0 <= i < |e| ensures e[i] == f[i] {
      if i > 0 { assert f[i] == Exports(assignments[1..])[i - 1]; }
    }
  }
}

=== FILE: matcher.dfy ===
/** The embedding dedup matcher (lambdas/embedding_matcher.py): a classified
    message either updates the most similar stored item of its category or
    creates a new item, which is also indexed in the vector index.

    The item table and the vector index are values (`Store`); the clock, the
    process's string hash, the embedding provider, the vector search and the
    floating-point cosine quotient are parameters. */
module Matcher {
  import opened Wrappers
  import opened Values
  import opened Table
  import Text
  import Numbers
  import Similarity
  import Status

  const DefaultThreshold: real := 0.85

  /** The sort key ends in the original text's hash modulo this many buckets. */
  const SkBuckets: nat := 10000

  /** The attributes `update_item` sets on a matched item. */
  const UpdatedAttributes: set<string> := {"status", "next_action", "notes", "updated_at", "original_text"}

  /** One search hit: its "score" and "metadata" entries, each possibly absent. */
  datatype Hit = Hit(score: Option<real>, metadata: Option<Record>)

  datatype VectorEntry = VectorEntry(vector: seq<real>, metadata: Record)

  /** The vector index, by vector id. A put with an existing id replaces the entry. */
  type Index = map<string, VectorEntry>

  datatype Store = Store(table: Table, index: Index)

  datatype SaveAction = Created | Updated

  /** The dict the source returns; `status` is only filled in by the
      status-setting wrapper. */
  datatype Saved = Saved(action: SaveAction, sk: string, similarity: real, category: Value, status: Option<string>)

  /** A save's answer together with the key of the item it wrote and the new store. */
  datatype Outcome = Outcome(saved: Saved, key: Key, store: Store)

  /** The partition of every item of a category. */
  function CategoryPk(category: Value): string {
    "CATEGORY#" + Show(category)
  }

  /** `_make_vector_id`: the table key joined by '#', with every '/' replaced by '_'. */
  function MakeVectorId(pk: string, sk: string): (id: string)
    ensures |id| == |pk| + 1 + |sk|
    ensures '/' !in id
    ensures '/' !in pk && '/' !in sk ==> id == pk + "#" + sk
  {
    var joined := pk + "#" + sk;
    var id := Text.ReplaceChar(joined, '/', '_');
    assert forall i :: 0 <= i < |id| ==> id[i] != '/';
    id
  }

  /** The metadata `index_vector` stores: pk, sk, category, name and status
      defaults, each overridden by the caller's `metadata`. */
  function IndexMetadata(pk: string, sk: string, metadata: Record): (md: Record)
    ensures md.Keys == {"pk", "sk", "category", "name", "status"} + metadata.Keys
    ensures forall a :: a in metadata ==> md[a] == metadata[a]
    ensures "pk" !in metadata ==> md["pk"] == Str(pk)
    ensures "sk" !in metadata ==> md["sk"] == Str(sk)
    ensures "status" !in metadata ==> md["status"] == Str(Status.Open)
    ensures !Truthy(md["name"]) ==> md["name"] == Str("") || "name" in metadata
  {
    var name := GetOr(metadata, "name", Str(""));
    map[
      "pk" := Str(pk),
      "sk" := Str(sk),
      "category" := GetOr(metadata, "category", Str("")),
      "name" := if Truthy(name) then name else Str(""),
      "status" := GetOr(metadata, "status", Str(Status.Open))
    ] + metadata
  }

  /** `index_vector`: one entry, under the item's vector id. */
  function IndexVector(index: Index, pk: string, sk: string, embedding: seq<real>, metadata: Record): (index': Index)
    ensures index'.Keys == index.Keys + {MakeVectorId(pk, sk)}
    ensures index'[MakeVectorId(pk, sk)].vector == embedding
    ensures forall id :: id in index && id != MakeVectorId(pk, sk) ==> index'[id] == index[id]
  {
    index[MakeVectorId(pk, sk) := VectorEntry(embedding, IndexMetadata(pk, sk, metadata))]
  }

  /** The score of a hit, 0.0 when the hit carries none. */
  function Score(h: Hit): real {
    h.score.GetOr(0.0)
  }

  /** The table key a hit's metadata names, when "pk" and "sk" are non-empty strings. */
  function HitKey(h: Hit): (k: Option<Key>)
    ensures k.Some? ==> k.value.0 != "" && k.value.1 != ""
  {
    var md := h.metadata.GetOr(map[]);
    var pk := Get(md, "pk");
    var sk := Get(md, "sk");
    if pk.Str? && pk.s != "" && sk.Str? && sk.s != "" then Some((pk.s, sk.s)) else None
  }

  /** "pk" and "sk" are both set but one is not a string: the table lookup rejects the key. */
  predicate HitKeyMalformed(h: Hit) {
    var md := h.metadata.GetOr(map[]);
    Truthy(Get(md, "pk")) && Truthy(Get(md, "sk")) && HitKey(h).None?
  }

  /** `find_similar_item` on the hits of the category-filtered search: only
      the first (best) hit is considered; it matches when its score reaches
      the threshold (inclusive) and the item its metadata points to is still
      in the table. */
  function FindSimilarItem(hits: seq<Hit>, threshold: real, t: Table): (r: Result<Option<Record>>)
    ensures r.Err? <==> |hits| > 0 && Score(hits[0]) >= threshold && HitKeyMalformed(hits[0])
    ensures r.Ok? && r.value.Some? ==>
      && |hits| > 0
      && Score(hits[0]) >= threshold
      && HitKey(hits[0]).Some?
      && HitKey(hits[0]).value in t
      && r.value.value == t[HitKey(hits[0]).value]
    ensures (|hits| > 0 && Score(hits[0]) >= threshold && HitKey(hits[0]).Some?
             && HitKey(hits[0]).value in t && t[HitKey(hits[0]).value] != map[]) ==>
      r == Ok(Some(t[HitKey(hits[0]).value]))
  {
    if |hits| == 0 then Ok(None)
    else
      var best := hits[0];
      if Score(best) >= threshold then
        if HitKeyMalformed(best) then Err("ValidationException: key attribute is not a string")
        else
          match HitKey(best)
          case Some(k) => if k in t && t[k] != map[] then Ok(Some(t[k])) else Ok(None)
          case None => Ok(None)
      else Ok(None)
  }

  /** Only the best hit decides the match: the rest of the hit list is never read. */
  lemma FindSimilarReadsFirstHitOnly(hits: seq<Hit>, others: seq<Hit>, threshold: real, t: Table)
    requires |hits| > 0 && |others| > 0 && hits[0] == others[0]
    ensures FindSimilarItem(hits, threshold, t) == FindSimilarItem(others, threshold, t)
  {
  }

  /** The attribute values `update_item` sets. */
  function UpdateChanges(d: Record, originalText: Value, now: string): (changes: Record)
    ensures changes.Keys == UpdatedAttributes
  {
    map[
      "status" := GetOr(d, "status", Str(Status.Open)),
      "next_action" := Get(d, "next_action"),
      "notes" := Get(d, "notes"),
      "updated_at" := Str(now),
      "original_text" := originalText
    ]
  }

  /** `update_item`: sets exactly the five attributes on the item at `k`;
      every other attribute of it, and every other item, is unchanged. The
      write is refused, and nothing changes, when one of the five values is a
      float. */
  function UpdateItem(t: Table, k: Key, d: Record, originalText: Value, now: string): (r: Result<Table>)
    ensures r.Ok? <==> Storable(UpdateChanges(d, originalText, now))
    ensures r.Ok? ==> r.value.Keys == t.Keys + {k}
    ensures r.Ok? ==> forall other :: other in t && other != k ==> r.value[other] == t[other]
    ensures r.Ok? && k in t ==> r.value[k].Keys == t[k].Keys + UpdatedAttributes
    ensures r.Ok? && k in t ==> forall a :: a in t[k] && a !in UpdatedAttributes ==> r.value[k][a] == t[k][a]
    ensures r.Ok? ==> Get(r.value[k], "status") == GetOr(d, "status", Str(Status.Open))
    ensures r.Ok? ==> Get(r.value[k], "next_action") == Get(d, "next_action") && Get(r.value[k], "notes") == Get(d, "notes")
    ensures r.Ok? ==> Get(r.value[k], "updated_at") == Str(now) && Get(r.value[k], "original_text") == originalText
    ensures r.Ok? && Keyed(t) ==> Keyed(r.value)
  {
    var changes := UpdateChanges(d, originalText, now);
    if !Storable(changes) then Err(FloatError)
    else
      var t' := Apply(t, Update(k, changes));
      if Keyed(t) then
        UpdateKeepsKeyed(t, k, changes);
        Ok(t')
      else Ok(t')
  }

  /** An update that sets no key attribute keeps every item's own key. */
  lemma UpdateKeepsKeyed(t: Table, k: Key, changes: Record)
    requires Keyed(t) && "PK" !in changes && "SK" !in changes
    ensures Keyed(Apply(t, Update(k, changes)))
  {
    var t' := Apply(t, Update(k, changes));
    forall other | other in t' ensures KeyOf(t'[other]) == Some(other) {
      if other == k {
        var base := if k in t then t[k] else KeyAttrs(k);
        assert KeyOf(base) == Some(k);
        assert t'[k] == base + changes;
      }
    }
  }

  /** The update is refused exactly when the status, next action, notes or
      original text it would set is a float. */
  lemma UpdateRefusesFloats(d: Record, originalText: Value, now: string)
    ensures Storable(UpdateChanges(d, originalText, now)) <==>
      && !GetOr(d, "status", Str(Status.Open)).Real?
      && !Get(d, "next_action").Real? && !Get(d, "notes").Real?
      && !originalText.Real?
  {
    var changes := UpdateChanges(d, originalText, now);
    assert changes["status"] == GetOr(d, "status", Str(Status.Open));
    assert changes["next_action"] == Get(d, "next_action") && changes["notes"] == Get(d, "notes");
    assert changes["original_text"] == originalText && changes["updated_at"] == Str(now);
  }

  /** The item `create_item` writes. */
  function NewItem(pk: string, sk: string, category: Value, d: Record, embedding: seq<real>, now: string): Record
    requires "original_text" in d
  {
    map[
      "PK" := Str(pk),
      "SK" := Str(sk),
      "created_at" := Str(now),
      "status" := GetOr(d, "status", Str(Status.Open)),
      "name" := Get(d, "name"),
      "next_action" := Get(d, "next_action"),
      "notes" := Get(d, "notes"),
      "original_text" := d["original_text"],
      "confidence" := GetOr(d, "confidence", Int(0)),
      "category" := category,
      "embedding" := Vec(embedding)
    ]
  }

  /** The sort key of a new item: creation time, category and hash bucket of the original text. */
  function NewSk(category: Value, d: Record, now: string, hashOf: Value -> int): string {
    now + "#" + Show(category) + "#" + Numbers.IntToString(hashOf(GetOr(d, "original_text", Str(""))) % SkBuckets)
  }

  /** The index metadata `create_item` passes along. */
  function NewMetadata(category: Value, d: Record): Record {
    var name := Get(d, "name");
    map[
      "category" := category,
      "name" := if Truthy(name) then name else Str(""),
      "status" := GetOr(d, "status", Str(Status.Open))
    ]
  }

  /** Every index entry names its item's key, and the partition it names is
      the one of the category it is filed under. */
  predicate IndexConsistent(index: Index) {
    forall id :: id in index ==> EntryConsistent(index[id].metadata)
  }

  predicate EntryConsistent(md: Record) {
    && "category" in md && "pk" in md && "sk" in md && md["sk"].Str?
    && md["pk"] == Str(CategoryPk(md["category"]))
  }

  /** `create_item`: puts a new item under the category's partition and
      indexes its embedding under the item's vector id. It fails, with
      nothing written, when the original text is a list (Python's `hash`
      raises), when the item data has no original text, or when the new item
      holds a float. */
  function CreateItem(store: Store, category: Value, d: Record, embedding: seq<real>, now: string, hashOf: Value -> int)
    : (r: Result<Outcome>)
    ensures r.Ok? <==> && "original_text" in d && !d["original_text"].Vec?
                       && Storable(NewItem(CategoryPk(category), NewSk(category, d, now, hashOf), category, d, embedding, now))
    ensures r.Ok? ==>
      && r.value.key == (CategoryPk(category), NewSk(category, d, now, hashOf))
      && r.value.saved == Saved(Created, r.value.key.1, 0.0, category, None)
      && r.value.store.table == store.table[r.value.key := NewItem(r.value.key.0, r.value.key.1, category, d, embedding, now)]
      && r.value.store.index == IndexVector(store.index, r.value.key.0, r.value.key.1, embedding, NewMetadata(category, d))
  {
    if "original_text" in d && d["original_text"].Vec? then Err(Unhashable)
    else if "original_text" !in d then Err("KeyError: original_text")
    else
      var pk := CategoryPk(category);
      var sk := NewSk(category, d, now, hashOf);
      var item := NewItem(pk, sk, category, d, embedding, now);
      if !Storable(item) then Err(FloatError)
      else
        var table' := store.table[(pk, sk) := item];
        var index' := IndexVector(store.index, pk, sk, embedding, NewMetadata(category, d));
        Ok(Outcome(Saved(Created, sk, 0.0, category, None), (pk, sk), Store(table', index')))
  }

  /** The attributes of a new item copied from the item data. */
  const CopiedAttributes: set<string> := {"status", "name", "next_action", "notes", "original_text", "confidence"}

  /** A new item can be written exactly when neither its category nor any
      attribute it copies from the item data is a float; the embedding is
      written as a list of decimals and never stands in the way. */
  lemma NewItemStorable(pk: string, sk: string, category: Value, d: Record, embedding: seq<real>, now: string)
    requires "original_text" in d
    ensures Storable(NewItem(pk, sk, category, d, embedding, now)) <==>
      !category.Real? && forall a :: a in CopiedAttributes && a in d ==> !d[a].Real?
  {
    var item := NewItem(pk, sk, category, d, embedding, now);
    if !category.Real? && forall a :: a in CopiedAttributes && a in d ==> !d[a].Real? {
      forall a | a in item ensures !item[a].Real? {
        if a in CopiedAttributes && a in d {
          assert !d[a].Real?;
        }
      }
    } else if category.Real? {
      assert item["category"] == category;
    } else {
      var a :| a in CopiedAttributes && a in d && d[a].Real?;
      assert item[a] == d[a];
    }
  }

  /** The new item carries its own key, the embedding it was created with,
      the item data's status (default open) and its category. */
  lemma NewItemFacts(pk: string, sk: string, category: Value, d: Record, embedding: seq<real>, now: string)
    requires "original_text" in d
    ensures var item := NewItem(pk, sk, category, d, embedding, now);
      && KeyOf(item) == Some((pk, sk))
      && Get(item, "embedding") == Vec(embedding)
      && Get(item, "status") == GetOr(d, "status", Str(Status.Open))
      && Get(item, "category") == category
      && Get(item, "original_text") == d["original_text"]
      && Get(item, "created_at") == Str(now)
  {
  }

  /** The index entry of a new item points back at the item and is filed
      under the item's category. */
  lemma NewEntryFacts(category: Value, sk: string, d: Record)
    ensures var md := IndexMetadata(CategoryPk(category), sk, NewMetadata(category, d));
      && Get(md, "pk") == Str(CategoryPk(category))
      && Get(md, "sk") == Str(sk)
      && Get(md, "category") == category
      && EntryConsistent(md)
  {
  }

  /** Creating an item keeps every stored item keyed by its own PK/SK and
      every index entry consistent with its category. */
  lemma CreatePreservesInvariants(store: Store, category: Value, d: Record, embedding: seq<real>, now: string, hashOf: Value -> int)
    requires Keyed(store.table) && IndexConsistent(store.index)
    ensures var r := CreateItem(store, category, d, embedding, now, hashOf);
      r.Ok? ==> Keyed(r.value.store.table) && IndexConsistent(r.value.store.index)
  {
    var r := CreateItem(store, category, d, embedding, now, hashOf);
    if r.Ok? {
      NewItemFacts(r.value.key.0, r.value.key.1, category, d, embedding, now);
      NewEntryFacts(category, r.value.key.1, d);
    }
  }

  /** The embedding stored on a matched item, read back element by element
      with `float`; absent means none. A list reads as itself; a string is
      iterated character by character, which only succeeds when every
      character is a digit; anything else is not iterable. */
  function StoredEmbedding(item: Record): (r: Result<seq<real>>)
    ensures "embedding" !in item ==> r == Ok([])
    ensures "embedding" in item && item["embedding"].Vec? ==> r == Ok(item["embedding"].xs)
    ensures r.Ok? ==> "embedding" !in item || item["embedding"].Vec? || item["embedding"].Str?
    ensures "embedding" in item && item["embedding"].Str? ==>
      (r.Ok? <==> Numbers.AllDigits(item["embedding"].s))
    ensures "embedding" in item && item["embedding"].Str? && r.Ok? ==>
      |r.value| == |item["embedding"].s| && forall i :: 0 <= i < |r.value| ==> 0.0 <= r.value[i] <= 9.0
  {
    match GetOr(item, "embedding", Vec([]))
    case Vec(xs) => Ok(xs)
    case Str(s) =>
      if Numbers.AllDigits(s)
      then Ok(seq(|s|, i requires 0 <= i < |s| => (s[i] as int - '0' as int) as real))
      else Err("ValueError: could not convert string to float")
    case _ => Err("TypeError: embedding is not iterable")
  }

  /** `embed_text` applied to the item's name, which must be a string. */
  function EmbedName(name: Value, embed: string -> Result<seq<real>>): Result<seq<real>> {
    if name.Str? then embed(name.s) else Err("TypeError: name is not a string")
  }

  /** The update branch: the matched item is updated under its own key, and
      the reported similarity is recomputed against the embedding stored on
      it (0.0 when it has none), not taken from the search score. */
  function UpdateMatched(store: Store, item: Record, d: Record, embedding: seq<real>, now: string,
                         ratio: (seq<real>, seq<real>) -> real): (r: Result<Outcome>)
    requires "category" in d && "original_text" in d
    ensures r.Ok? <==>
      && KeyOf(item).Some? && KeyOf(item).value in store.table
      && Storable(UpdateChanges(d, d["original_text"], now))
      && StoredEmbedding(item).Ok?
    ensures r.Ok? ==>
      && KeyOf(item) == Some(r.value.key)
      && r.value.saved.action == Updated
      && r.value.saved.sk == r.value.key.1
      && r.value.saved.category == d["category"]
      && r.value.saved.status.None?
      && UpdateItem(store.table, r.value.key, d, d["original_text"], now) == Ok(r.value.store.table)
      && r.value.store.index == store.index
    ensures r.Ok? && StoredEmbedding(item) == Ok([]) ==> r.value.saved.similarity == 0.0
    ensures forall s :: r.Ok? && StoredEmbedding(item) == Ok(s) && |s| > 0 ==>
      r.value.saved.similarity == Similarity.Cosine(embedding, s, ratio)
  {
    match KeyOf(item)
    case None => Err("KeyError: PK")
    case Some(k) =>
      var table' :- UpdateItem(store.table, k, d, d["original_text"], now);
      var stored :- StoredEmbedding(item);
      var similarity := if |stored| > 0 then Similarity.Cosine(embedding, stored, ratio) else 0.0;
      if k in store.table then
        Ok(Outcome(Saved(Updated, k.1, similarity, d["category"], None), k, Store(table', store.index)))
      else
        // A matched item is a stored one, so in a keyed table its own key is present.
        Err("KeyError: matched item is not stored under its own key")
  }

  /** The named branch: embed the name, search the category, then update the
      best match or create. */
  function SaveNamed(
    d: Record, threshold: real, store: Store, now: string, hashOf: Value -> int,
    embed: string -> Result<seq<real>>,
    search: (Value, seq<real>) -> Result<seq<Hit>>,
    ratio: (seq<real>, seq<real>) -> real
  ): (r: Result<Outcome>)
    requires "category" in d && "original_text" in d
  {
    var embedding :- EmbedName(Get(d, "name"), embed);
    var hits :- search(d["category"], embedding);
    var similar :- FindSimilarItem(hits, threshold, store.table);
    if similar.None? then CreateItem(store, d["category"], d, embedding, now, hashOf)
    else UpdateMatched(store, similar.value, d, embedding, now, ratio)
  }

  /** The search for a named item's name finds a stored item to update: the
      best hit reaches the threshold and names a non-empty stored item. */
  predicate MatchFound(
    d: Record, threshold: real, t: Table,
    embed: string -> Result<seq<real>>,
    search: (Value, seq<real>) -> Result<seq<Hit>>
  ) {
    && "category" in d
    && Get(d, "name").Str? && Get(d, "name").s != ""
    && embed(Get(d, "name").s).Ok?
    && search(d["category"], embed(Get(d, "name").s).value).Ok?
    && var found := FindSimilarItem(search(d["category"], embed(Get(d, "name").s).value).value, threshold, t);
    && found.Ok? && found.value.Some?
  }

  /** `save_with_embedding_matching`. A nameless item is created with the
      zero embedding and no search; a named one is embedded, searched for
      within its category, and either updates the best match or is created. */
  function SaveWithEmbeddingMatching(
    d: Record, threshold: real, store: Store, now: string, hashOf: Value -> int,
    embed: string -> Result<seq<real>>,
    search: (Value, seq<real>) -> Result<seq<Hit>>,
    ratio: (seq<real>, seq<real>) -> real
  ): (r: Result<Outcome>)
    ensures r.Ok? ==> "category" in d && "original_text" in d && r.value.saved.category == d["category"]
    ensures r.Ok? ==> r.value.saved.sk == r.value.key.1 && r.value.key in r.value.store.table
    ensures r.Ok? ==> r.value.saved.status.None?
    ensures r.Ok? ==> (r.value.saved.action == Updated <==> MatchFound(d, threshold, store.table, embed, search))
    ensures r.Ok? ==> forall k :: k in store.table && k != r.value.key ==>
      k in r.value.store.table && r.value.store.table[k] == store.table[k]
    ensures r.Ok? && r.value.saved.action == Created ==>
      r.value.saved.similarity == 0.0 && r.value.key.0 == CategoryPk(d["category"])
    ensures r.Ok? && r.value.saved.action == Updated ==>
      && r.value.key in store.table
      && r.value.store.index == store.index
      && r.value.store.table[r.value.key].Keys == store.table[r.value.key].Keys + UpdatedAttributes
  {
    if "category" !in d then Err("KeyError: category")
    else if "original_text" !in d then Err("KeyError: original_text")
    else if !Truthy(Get(d, "name")) then
      CreateItem(store, d["category"], d, Similarity.Zeros(Similarity.Dimension), now, hashOf)
    else
      SaveNamed(d, threshold, store, now, hashOf, embed, search, ratio)
  }

  /** `save_to_dynamodb_with_embedding`: the status is derived from the action
      word, written into the item data, and echoed in the answer. */
  function SaveToDynamoDbWithEmbedding(
    d: Record, action: string, threshold: real, store: Store, now: string, hashOf: Value -> int,
    embed: string -> Result<seq<real>>,
    search: (Value, seq<real>) -> Result<seq<Hit>>,
    ratio: (seq<real>, seq<real>) -> real
  ): (r: Result<Outcome>)
    ensures r.Ok? ==> r.value.saved.status == Some(Status.DeriveStatus(action))
    ensures r.Ok? ==> (r.value.key in r.value.store.table
      && Get(r.value.store.table[r.value.key], "status") == Str(Status.DeriveStatus(action)))
  {
    var status := Status.DeriveStatus(action);
    var o :- SaveWithEmbeddingMatching(d["status" := Str(status)], threshold, store, now, hashOf, embed, search, ratio);
    SaveStatusStored(d["status" := Str(status)], threshold, store, now, hashOf, embed, search, ratio);
    Ok(o.(saved := o.saved.(status := Some(status))))
  }

  /** Whichever way the save goes, the written item carries the status of the item data. */
  lemma SaveStatusStored(
    d: Record, threshold: real, store: Store, now: string, hashOf: Value -> int,
    embed: string -> Result<seq<real>>,
    search: (Value, seq<real>) -> Result<seq<Hit>>,
    ratio: (seq<real>, seq<real>) -> real
  )
    requires "status" in d
    ensures var r := SaveWithEmbeddingMatching(d, threshold, store, now, hashOf, embed, search, ratio);
      r.Ok? ==> Get(r.value.store.table[r.value.key], "status") == d["status"]
  {
    var r := SaveWithEmbeddingMatching(d, threshold, store, now, hashOf, embed, search, ratio);
    if r.Ok? {
      var t' := r.value.store.table;
      if r.value.saved.action == Created {
        NewItemFacts(r.value.key.0, r.value.key.1, d["category"], d, r.value.store.index[MakeVectorId(r.value.key.0, r.value.key.1)].vector, now);
      }
    }
  }

  /** A nameless item never reaches the embedding provider or the search:
      the outcome is the same whatever they would answer, and the item is
      created with the zero embedding. */
  lemma NamelessSkipsSearch(
    d: Record, threshold: real, threshold2: real, store: Store, now: string, hashOf: Value -> int,
    embed: string -> Result<seq<real>>, embed2: string -> Result<seq<real>>,
    search: (Value, seq<real>) -> Result<seq<Hit>>, search2: (Value, seq<real>) -> Result<seq<Hit>>,
    ratio: (seq<real>, seq<real>) -> real, ratio2: (seq<real>, seq<real>) -> real
  )
    requires !Truthy(Get(d, "name"))
    ensures SaveWithEmbeddingMatching(d, threshold, store, now, hashOf, embed, search, ratio)
         == SaveWithEmbeddingMatching(d, threshold2, store, now, hashOf, embed2, search2, ratio2)
    ensures var r := SaveWithEmbeddingMatching(d, threshold, store, now, hashOf, embed, search, ratio);
      r.Ok? ==> (r.value.saved.action == Created
                 && Get(r.value.store.table[r.value.key], "embedding") == Vec(Similarity.Zeros(Similarity.Dimension)))
  {
    var r := SaveWithEmbeddingMatching(d, threshold, store, now, hashOf, embed, search, ratio);
    if r.Ok? {
      NewItemFacts(r.value.key.0, r.value.key.1, d["category"], d, Similarity.Zeros(Similarity.Dimension), now);
    }
  }

  /** An update happens only when the best hit of the search for the item's
      name reaches the threshold, and it updates the item that hit names,
      under the key that item carries. */
  lemma UpdateOnlyAboveThreshold(
    d: Record, threshold: real, store: Store, now: string, hashOf: Value -> int,
    embed: string -> Result<seq<real>>,
    search: (Value, seq<real>) -> Result<seq<Hit>>,
    ratio: (seq<real>, seq<real>) -> real
  )
    ensures var r := SaveWithEmbeddingMatching(d, threshold, store, now, hashOf, embed, search, ratio);
      r.Ok? && r.value.saved.action == Updated ==>
        && Get(d, "name").Str? && Get(d, "name").s != ""
        && embed(Get(d, "name").s).Ok?
        && var hits := search(d["category"], embed(Get(d, "name").s).value);
        && hits.Ok? && |hits.value| > 0 && Score(hits.value[0]) >= threshold
        && HitKey(hits.value[0]).Some?
        && HitKey(hits.value[0]).value in store.table
        && KeyOf(store.table[HitKey(hits.value[0]).value]) == Some(r.value.key)
  {
    var r := SaveWithEmbeddingMatching(d, threshold, store, now, hashOf, embed, search, ratio);
    if r.Ok? && r.value.saved.action == Updated {
      assert "category" in d && "original_text" in d && Truthy(Get(d, "name"));
      var named := SaveNamed(d, threshold, store, now, hashOf, embed, search, ratio);
      assert r == named;
      var e := EmbedName(Get(d, "name"), embed);
      assert e.Ok?;
      var hits := search(d["category"], e.value);
      assert hits.Ok?;
      var similar := FindSimilarItem(hits.value, threshold, store.table);
      assert similar.Ok?;
      assert named == UpdateMatched(store, similar.value.value, d, e.value, now, ratio);
    }
  }

  /** The converse: in a keyed table, a named item whose best search hit
      reaches the threshold and names a stored item updates that item, as
      long as the update can be written and the item's stored embedding can
      be read back. */
  lemma UpdateWhenFirstHitMatches(
    d: Record, threshold: real, store: Store, now: string, hashOf: Value -> int,
    embed: string -> Result<seq<real>>,
    search: (Value, seq<real>) -> Result<seq<Hit>>,
    ratio: (seq<real>, seq<real>) -> real,
    name: string, k: Key
  )
    requires Keyed(store.table)
    requires "category" in d && "original_text" in d
    requires Get(d, "name") == Str(name) && name != ""
    requires embed(name).Ok? && search(d["category"], embed(name).value).Ok?
    requires var hits := search(d["category"], embed(name).value).value;
      |hits| > 0 && Score(hits[0]) >= threshold && HitKey(hits[0]) == Some(k)
    requires k in store.table
    requires Storable(UpdateChanges(d, d["original_text"], now))
    requires StoredEmbedding(store.table[k]).Ok?
    ensures var r := SaveWithEmbeddingMatching(d, threshold, store, now, hashOf, embed, search, ratio);
      && r.Ok? && r.value.saved.action == Updated && r.value.key == k
      && r.value.store.index == store.index
  {
    assert KeyOf(store.table[k]) == Some(k);
    assert "PK" in store.table[k];
    assert store.table[k] != map[];
    var hits := search(d["category"], embed(name).value).value;
    assert FindSimilarItem(hits, threshold, store.table) == Ok(Some(store.table[k]));
  }

  /** The search honours its category filter: every hit is the entry of
      some indexed vector filed under the searched category. */
  ghost predicate ScopedSearch(search: (Value, seq<real>) -> Result<seq<Hit>>, index: Index) {
    forall c, v :: search(c, v).Ok? ==> forall h :: h in search(c, v).value ==> HitFrom(h, index, c)
  }

  ghost predicate HitFrom(h: Hit, index: Index, category: Value) {
    && h.metadata.Some?
    && Get(h.metadata.value, "category") == category
    && exists id :: id in index && index[id].metadata == h.metadata.value
  }

  /** In a keyed table with a consistent index and a search that honours its
      filter, a save only ever writes into the partition of the message's
      own category, and keeps the table keyed and the index consistent. */
  lemma SaveStaysInCategory(
    d: Record, threshold: real, store: Store, now: string, hashOf: Value -> int,
    embed: string -> Result<seq<real>>,
    search: (Value, seq<real>) -> Result<seq<Hit>>,
    ratio: (seq<real>, seq<real>) -> real
  )
    requires Keyed(store.table) && IndexConsistent(store.index)
    requires ScopedSearch(search, store.index)
    ensures var r := SaveWithEmbeddingMatching(d, threshold, store, now, hashOf, embed, search, ratio);
      r.Ok? ==>
        && r.value.key.0 == CategoryPk(d["category"])
        && Keyed(r.value.store.table)
        && IndexConsistent(r.value.store.index)
  {
    var r := SaveWithEmbeddingMatching(d, threshold, store, now, hashOf, embed, search, ratio);
    if r.Ok? {
      var category := d["category"];
      if r.value.saved.action == Created {
        var embedding := r.value.store.index[MakeVectorId(r.value.key.0, r.value.key.1)].vector;
        CreatePreservesInvariants(store, category, d, embedding, now, hashOf);
      } else {
        UpdateOnlyAboveThreshold(d, threshold, store, now, hashOf, embed, search, ratio);
        var hits := search(category, embed(Get(d, "name").s).value).value;
        assert hits[0] in hits;
        assert HitFrom(hits[0], store.index, category);
        var md := hits[0].metadata.value;
        var id :| id in store.index && store.index[id].metadata == md;
        assert EntryConsistent(md);
        var k := HitKey(hits[0]).value;
        assert KeyOf(store.table[k]) == Some(k);
        assert KeyOf(store.table[r.value.key]) == Some(r.value.key);
        assert k == r.value.key;
        assert Get(md, "pk") == Str(k.0);
      }
    }
  }
}

=== FILE: merge_action.dfy ===
/** The `/merge FROM_ID INTO_ID` command (actions/merge.py): find both items
    in a full scan, fold the notes of FROM into INTO, carry FROM's status
    over, and delete FROM. The notes/status merge is shared with the
    automatic deduplication. */
module MergeAction {
  import opened Wrappers
  import opened Values
  import opened Table
  import opened Http
  import opened ItemIds
  import Text

  const Processed := Response(200, "Merge command processed")

  /** The reply sent to the chat. */
  datatype Reply = Usage | NotFound(id: string) | Merged(fromId: string, intoId: string)

  /** The part of the merged notes that comes from FROM. */
  function FromNote(fromId: string, fromItem: Record): string
    requires "notes" in fromItem
  {
    "[From " + fromId + "]: " + Show(fromItem["notes"])
  }

  /** The part of the merged notes that keeps INTO's own. */
  function OriginalNote(intoItem: Record): string
    requires "notes" in intoItem
  {
    "[Original]: " + Show(intoItem["notes"])
  }

  /** The notes INTO gets: FROM's part first and INTO's part last, separated
      by a blank line, each present when its notes are truthy; with neither,
      INTO's notes (possibly absent, read as `None`) are written back. */
  function MergedNotes(fromId: string, fromItem: Record, intoItem: Record): (notes: Value)
    ensures !Truthy(Get(fromItem, "notes")) && !Truthy(Get(intoItem, "notes")) ==> notes == Get(intoItem, "notes")
    ensures Truthy(Get(fromItem, "notes")) || Truthy(Get(intoItem, "notes")) ==> notes.Str?
    ensures Truthy(Get(fromItem, "notes")) ==> Text.StartsWith(notes.s, FromNote(fromId, fromItem))
    ensures Truthy(Get(intoItem, "notes")) ==>
      var tail := OriginalNote(intoItem);
      |tail| <= |notes.s| && notes.s[|notes.s| - |tail|..] == tail
    ensures Truthy(Get(fromItem, "notes")) && Truthy(Get(intoItem, "notes")) ==>
      |notes.s| == |FromNote(fromId, fromItem)| + 2 + |OriginalNote(intoItem)|
      && notes.s[|FromNote(fromId, fromItem)|..|FromNote(fromId, fromItem)| + 2] == "\n\n"
  {
    var fromHas := Truthy(Get(fromItem, "notes"));
    var intoHas := Truthy(Get(intoItem, "notes"));
    if fromHas && intoHas then
      var a := FromNote(fromId, fromItem);
      var b := OriginalNote(intoItem);
      var s := a + "\n\n" + b;
      assert s[..|a|] == a;
      assert s[|s| - |b|..] == b;
      assert s[|a|..|a| + 2] == "\n\n";
      Str(s)
    else if fromHas then Str(FromNote(fromId, fromItem))
    else if intoHas then Str(OriginalNote(intoItem))
    else Get(intoItem, "notes")
  }

  /** `from.get("status", into.get("status", "open"))`. */
  function MergedStatus(fromItem: Record, intoItem: Record): (status: Value)
    ensures "status" in fromItem ==> status == fromItem["status"]
    ensures "status" !in fromItem && "status" in intoItem ==> status == intoItem["status"]
    ensures "status" !in fromItem && "status" !in intoItem ==> status == Str("open")
  {
    GetOr(fromItem, "status", GetOr(intoItem, "status", Str("open")))
  }

  /** The two writes of a merge, in order: set INTO's notes and status, then
      delete FROM. */
  function MergeWrites(fromId: string, fromKey: Key, fromItem: Record, intoKey: Key, intoItem: Record): seq<Write> {
    [ Update(intoKey, map["notes" := MergedNotes(fromId, fromItem, intoItem),
                          "status" := MergedStatus(fromItem, intoItem)]),
      Delete(fromKey) ]
  }

  /** A merge of two distinct stored items removes FROM, changes only the
      notes and status of INTO, and leaves every other item as it was. */
  lemma MergeEffect(t: Table, fromId: string, fromKey: Key, intoKey: Key)
    requires fromKey in t && intoKey in t && fromKey != intoKey
    ensures var t' := ApplyAll(t, MergeWrites(fromId, fromKey, t[fromKey], intoKey, t[intoKey]));
      && t'.Keys == t.Keys - {fromKey}
      && "notes" in t'[intoKey] && "status" in t'[intoKey]
      && t'[intoKey]["notes"] == MergedNotes(fromId, t[fromKey], t[intoKey])
      && t'[intoKey]["status"] == MergedStatus(t[fromKey], t[intoKey])
      && (forall a :: a != "notes" && a != "status" ==>
            (a in t'[intoKey] <==> a in t[intoKey]) && (a in t[intoKey] ==> t'[intoKey][a] == t[intoKey][a]))
      && (forall k :: k in t' && k != intoKey ==> t'[k] == t[k])
  {
    var notes := MergedNotes(fromId, t[fromKey], t[intoKey]);
    var status := MergedStatus(t[fromKey], t[intoKey]);
    MergeApplied(t, fromId, fromKey, intoKey);
    UpdatedItem(t[intoKey], notes, status);
  }

  /** The two writes amount to an update of INTO followed by removing FROM. */
  lemma MergeApplied(t: Table, fromId: string, fromKey: Key, intoKey: Key)
    requires fromKey in t && intoKey in t
    ensures ApplyAll(t, MergeWrites(fromId, fromKey, t[fromKey], intoKey, t[intoKey]))
      == t[intoKey := t[intoKey] + map["notes" := MergedNotes(fromId, t[fromKey], t[intoKey]),
                                       "status" := MergedStatus(t[fromKey], t[intoKey])]] - {fromKey}
  {
    var ws := MergeWrites(fromId, fromKey, t[fromKey], intoKey, t[intoKey]);
    var changes := map["notes" := MergedNotes(fromId, t[fromKey], t[intoKey]),
                       "status" := MergedStatus(t[fromKey], t[intoKey])];
    var t1 := t[intoKey := t[intoKey] + changes];
    assert Apply(t, ws[0]) == t1;
    assert ws[1..][0] == Delete(fromKey) && ws[1..][1..] == [];
    assert ApplyAll(t, ws) == ApplyAll(t1, ws[1..]) == t1 - {fromKey};
  }

  /** An item with its notes and status replaced keeps every other attribute. */
  lemma UpdatedItem(item: Record, notes: Value, status: Value)
    ensures var u := item + map["notes" := notes, "status" := status];
      && "notes" in u && "status" in u && u["notes"] == notes && u["status"] == status
      && forall a :: a != "notes" && a != "status" ==> (a in u <==> a in item) && (a in item ==> u[a] == item[a])
  {
  }

  /** Which item a scanned key can stand for: FROM, or (only failing that) INTO. */
  datatype Role = FromRole(fromId: string) | IntoRole(fromId: string, intoId: string)

  predicate Plays(k: Key, role: Role) {
    match role
    case FromRole(f) => HasId(k, f)
    case IntoRole(f, i) => !HasId(k, f) && HasId(k, i)
  }

  /** Index of the last key of `order` playing `role`. */
  function LastPlaying(order: seq<Key>, role: Role): (r: Option<nat>)
    ensures r.Some? ==> r.value < |order| && Plays(order[r.value], role)
    ensures r.Some? ==> forall j :: r.value < j < |order| ==> !Plays(order[j], role)
    ensures r.None? <==> forall j :: 0 <= j < |order| ==> !Plays(order[j], role)
  {
    if |order| == 0 then None
    else
      match LastPlaying(order[1..], role)
      case Some(j) => Some(j + 1)
      case None => if Plays(order[0], role) then Some(0) else None
  }

  /** The key at `LastPlaying`, if any. */
  function LastKey(order: seq<Key>, role: Role): (r: Option<Key>)
    ensures r.Some? <==> LastPlaying(order, role).Some?
  {
    match LastPlaying(order, role)
    case None => None
    case Some(i) => Some(order[i])
  }

  /** The scan loop: a key whose SK starts with FROM's id becomes FROM;
      otherwise one starting with INTO's id becomes INTO; later matches
      replace earlier ones. */
  function Locate(order: seq<Key>, fromId: string, intoId: string, found: (Option<Key>, Option<Key>))
    : (Option<Key>, Option<Key>)
    decreases |order|
  {
    if |order| == 0 then found
    else
      var k := order[0];
      var next :=
        if HasId(k, fromId) then (Some(k), found.1)
        else if HasId(k, intoId) then (found.0, Some(k))
        else found;
      Locate(order[1..], fromId, intoId, next)
  }

  /** The loop finds the last key playing each role, or keeps what it had. */
  lemma {:induction false} LocateIsLast(order: seq<Key>, fromId: string, intoId: string, found: (Option<Key>, Option<Key>))
    ensures Locate(order, fromId, intoId, found).0 ==
      (if LastKey(order, FromRole(fromId)).Some? then LastKey(order, FromRole(fromId)) else found.0)
    ensures Locate(order, fromId, intoId, found).1 ==
      (if LastKey(order, IntoRole(fromId, intoId)).Some? then LastKey(order, IntoRole(fromId, intoId)) else found.1)
    decreases |order|
  {
    if |order| > 0 {
      var k := order[0];
      var next :=
        if HasId(k, fromId) then (Some(k), found.1)
        else if HasId(k, intoId) then (found.0, Some(k))
        else found;
      LocateIsLast(order[1..], fromId, intoId, next);
      assert order[1..][0..] == order[1..];
      forall role | role == FromRole(fromId) || role == IntoRole(fromId, intoId)
        ensures LastKey(order, role) ==
          (match LastKey(order[1..], role)
           case Some(x) => Some(x)
           case None => if Plays(k, role) then Some(k) else None)
      {
        match LastPlaying(order[1..], role)
        case Some(j) => assert order[j + 1] == order[1..][j];
        case None =>
      }
    }
  }

  /** `handle`. `order` is the order of the full scan. */
  function Handle(text: string, t: Table, order: seq<Key>): (r: (Response, Reply, Table))
    requires IsScanOrder(order, t)
    ensures r.0 == Processed
    ensures |Text.SplitWhitespace(text)| != 3 ==> r.1 == Usage && r.2 == t
    ensures |Text.SplitWhitespace(text)| == 3 ==>
      var fromId := Text.SplitWhitespace(text)[1];
      var intoId := Text.SplitWhitespace(text)[2];
      var fromKey := LastKey(order, FromRole(fromId));
      var intoKey := LastKey(order, IntoRole(fromId, intoId));
      && (fromKey.None? ==> r.1 == NotFound(fromId) && r.2 == t)
      && (fromKey.Some? && intoKey.None? ==> r.1 == NotFound(intoId) && r.2 == t)
      && (fromKey.Some? && intoKey.Some? ==>
            && fromKey.value in t && intoKey.value in t && fromKey.value != intoKey.value
            && r.1 == Merged(fromId, intoId)
            && r.2 == ApplyAll(t, MergeWrites(fromId, fromKey.value, t[fromKey.value], intoKey.value, t[intoKey.value])))
    ensures r.2 != t ==> r.1.Merged?
  {
    var parts := Text.SplitWhitespace(text);
    if |parts| != 3 then (Processed, Usage, t)
    else
      var fromId := parts[1];
      var intoId := parts[2];
      LocateIsLast(order, fromId, intoId, (None, None));
      var found := Locate(order, fromId, intoId, (None, None));
      if found.0.None? then (Processed, NotFound(fromId), t)
      else if found.1.None? then (Processed, NotFound(intoId), t)
      else
        var fromKey := found.0.value;
        var intoKey := found.1.value;
        assert Plays(fromKey, FromRole(fromId)) && Plays(intoKey, IntoRole(fromId, intoId));
        (Processed, Merged(fromId, intoId),
         ApplyAll(t, MergeWrites(fromId, fromKey, t[fromKey], intoKey, t[intoKey])))
  }

  /** `/merge X X` never merges: an item matching X is taken as FROM, so
      nothing is left to be INTO. */
  lemma SameIdNeverMerges(text: string, t: Table, order: seq<Key>)
    requires IsScanOrder(order, t)
    requires |Text.SplitWhitespace(text)| == 3
    requires Text.SplitWhitespace(text)[1] == Text.SplitWhitespace(text)[2]
    ensures !Handle(text, t, order).1.Merged?
    ensures Handle(text, t, order).2 == t
  {
    var id := Text.SplitWhitespace(text)[1];
    assert LastKey(order, IntoRole(id, id)).None?;
  }
}

=== FILE: numbers.dfy ===
/** Python's `str(int)` and `int(str)` (base 10) and the round trip between them. */
module Numbers {
  import opened Wrappers
  import Text

  predicate IsDigit(c: char) {
    '0' <= c <= '9'
  }

  predicate AllDigits(s: string) {
    forall i :: 0 <= i < |s| ==> IsDigit(s[i])
  }

  function DigitChar(d: nat): (c: char)
    requires d < 10
    ensures IsDigit(c)
  {
    ('0' as int + d) as char
  }

  /** Decimal digits of `n`, most significant first, without leading zeros. */
  function NatToDigits(n: nat): (r: string)
    ensures |r| > 0 && AllDigits(r)
    decreases n
  {
    if n < 10 then [DigitChar(n)] else NatToDigits(n / 10) + [DigitChar(n % 10)]
  }

  /** The number a string of decimal digits denotes (leading zeros allowed). */
  function DigitsValue(s: string): nat
    requires AllDigits(s)
  {
    if |s| == 0 then 0 else DigitsValue(s[..|s| - 1]) * 10 + (s[|s| - 1] as int - '0' as int)
  }

  lemma {:induction false} DigitsRoundTrip(n: nat)
    ensures DigitsValue(NatToDigits(n)) == n
    decreases n
  {
    if n >= 10 {
      DigitsRoundTrip(n / 10);
      var d := NatToDigits(n);
      assert d[..|d| - 1] == NatToDigits(n / 10);
    }
  }

  /** Python's `str(i)`. */
  function IntToString(i: int): (r: string)
    ensures |r| > 0
    ensures '#' !in r && '_' !in r
  {
    if i < 0 then "-" + NatToDigits(-i) else NatToDigits(i)
  }

  /** The digit groups Python's `int()` accepts: digits, with single
      underscores allowed between two digits. */
  predicate DigitGroups(s: string) {
    && |s| > 0
    && IsDigit(s[0]) && IsDigit(s[|s| - 1])
    && (forall i :: 0 <= i < |s| ==> IsDigit(s[i]) || s[i] == '_')
    && (forall i :: 0 <= i < |s| - 1 && s[i] == '_' ==> s[i + 1] != '_')
  }

  lemma {:induction false} RemoveKeepsDigits(s: string)
    requires forall i :: 0 <= i < |s| ==> IsDigit(s[i]) || s[i] == '_'
    ensures AllDigits(Text.Remove(s, '_'))
  {
    if |s| > 0 {
      RemoveKeepsDigits(s[1..]);
    }
  }

  lemma {:induction false} RemoveAbsent(s: string, c: char)
    requires c !in s
    ensures Text.Remove(s, c) == s
  {
    if |s| > 0 {
      RemoveAbsent(s[1..], c);
    }
  }

  function ParseDigitGroups(s: string): (r: Option<nat>)
    ensures r.Some? <==> DigitGroups(s)
  {
    if DigitGroups(s) then
      RemoveKeepsDigits(s);
      Some(DigitsValue(Text.Remove(s, '_')))
    else None
  }

  /** Python's `int(s)`: surrounding white space is ignored, one optional
      sign, then digit groups; anything else raises `ValueError` (None).
      Non-ASCII decimal digits, which Python also accepts, are not modelled. */
  function ParseInt(s: string): (r: Option<int>)
    ensures r.Some? ==> |Text.Strip(s)| > 0
  {
    ParseSigned(Text.Strip(s))
  }

  /** `int()` of an already stripped text: one optional sign, then digit groups. */
  function ParseSigned(t: string): (r: Option<int>)
    ensures r.Some? ==> |t| > 0
    ensures |t| > 0 && IsDigit(t[0]) ==> r == (match ParseDigitGroups(t) case None => None case Some(n) => Some(n as int))
    ensures |t| > 0 && t[0] == '-' ==>
      r == (match ParseDigitGroups(t[1..]) case None => None case Some(n) => Some(-(n as int)))
  {
    if |t| > 0 && (t[0] == '-' || t[0] == '+') then
      match ParseDigitGroups(t[1..])
      case None => None
      case Some(n) => Some(if t[0] == '-' then -(n as int) else n as int)
    else
      match ParseDigitGroups(t)
      case None => None
      case Some(n) => Some(n)
  }

  lemma DigitsParse(n: nat)
    ensures ParseDigitGroups(NatToDigits(n)) == Some(n)
  {
    var d := NatToDigits(n);
    assert DigitGroups(d);
    RemoveAbsent(d, '_');
    DigitsRoundTrip(n);
  }

  /** `int(str(i)) == i`. */
  lemma ParseIntRoundTrip(i: int)
    ensures ParseInt(IntToString(i)) == Some(i)
  {
    var s := IntToString(i);
    if i < 0 {
      var d := NatToDigits(-i);
      assert s == "-" + d;
      assert s[1..] == d;
      Text.StripNoop(s);
      DigitsParse(-i);
    } else {
      assert s == NatToDigits(i);
      Text.StripNoop(s);
      DigitsParse(i);
    }
  }
}

=== FILE: order.dfy ===
/** Code-point lexicographic order on strings. It is both Python's string
    comparison and DynamoDB's sort-key order (UTF-8 byte order ranks code
    points the same way). */
module Order {

  /** `a <= b` in Python and in a DynamoDB key condition. */
  predicate Le(a: string, b: string)
    decreases |a|
  {
    |a| == 0 || (|b| > 0 && (a[0] < b[0] || (a[0] == b[0] && Le(a[1..], b[1..]))))
  }

  lemma {:induction false} LeRefl(a: string)
    ensures Le(a, a)
    decreases |a|
  {
    if |a| > 0 {
      LeRefl(a[1..]);
    }
  }

  lemma {:induction false} LeTotal(a: string, b: string)
    ensures Le(a, b) || Le(b, a)
    decreases |a|
  {
    if |a| > 0 && |b| > 0 && a[0] == b[0] {
      LeTotal(a[1..], b[1..]);
    }
  }

  lemma {:induction false} LeAntisymmetric(a: string, b: string)
    requires Le(a, b) && Le(b, a)
    ensures a == b
    decreases |a|
  {
    if |a| > 0 {
      LeAntisymmetric(a[1..], b[1..]);
      assert a == [a[0]] + a[1..];
      assert b == [b[0]] + b[1..];
    }
  }

  lemma {:induction false} LeTransitive(a: string, b: string, c: string)
    requires Le(a, b) && Le(b, c)
    ensures Le(a, c)
    decreases |a|
  {
    if |a| > 0 && a[0] == b[0] && b[0] == c[0] {
      LeTransitive(a[1..], b[1..], c[1..]);
    }
  }

  predicate Sorted(s: seq<string>) {
    forall i, j :: 0 <= i < j < |s| ==> Le(s[i], s[j])
  }

  predicate IsLeast(m: string, s: set<string>) {
    m in s && forall y :: y in s ==> Le(m, y)
  }

  /** Every finite non-empty set of strings has a least element. */
  lemma {:induction false} LeastExists(s: set<string>)
    requires s != {}
    ensures exists m :: IsLeast(m, s)
    decreases |s|
  {
    var x :| x in s;
    if s == {x} {
      LeRefl(x);
      assert IsLeast(x, s);
    } else {
      LeastExists(s - {x});
      var m :| IsLeast(m, s - {x});
      LeTotal(x, m);
      if Le(x, m) {
        LeRefl(x);
        forall y | y in s ensures Le(x, y) {
          if y != x {
            LeTransitive(x, m, y);
          }
        }
        assert IsLeast(x, s);
      } else {
        assert IsLeast(m, s);
      }
    }
  }

  lemma LeastUnique(s: set<string>)
    ensures forall m, n :: IsLeast(m, s) && IsLeast(n, s) ==> m == n
  {
    forall m, n | IsLeast(m, s) && IsLeast(n, s) ensures m == n {
      LeAntisymmetric(m, n);
    }
  }

  lemma SortedCons(m: string, rest: seq<string>, s: set<string>)
    requires Sorted(rest) && multiset(rest) == multiset(s)
    requires forall y :: y in s ==> Le(m, y)
    ensures Sorted([m] + rest)
  {
    forall y | y in rest ensures Le(m, y) {
      assert y in multiset(rest);
    }
  }

  lemma InMultiset(r: seq<string>, s: set<string>)
    requires multiset(r) == multiset(s)
    ensures forall x :: x in r <==> x in s
  {
    forall x ensures x in r <==> x in s {
      assert x in r <==> x in multiset(r);
    }
  }

  /** The elements of `s` in ascending order, each exactly once. */
  function SortSet(s: set<string>): (r: seq<string>)
    ensures Sorted(r)
    ensures multiset(r) == multiset(s)
    ensures |r| == |s|
    ensures forall x :: x in r <==> x in s
    ensures forall i, j :: 0 <= i < j < |r| ==> r[i] != r[j]
    decreases |s|
  {
    if s == {} then []
    else
      LeastExists(s);
      LeastUnique(s);
      var m :| IsLeast(m, s);
      var rest := SortSet(s - {m});
      SortedCons(m, rest, s - {m});
      assert s == (s - {m}) + {m};
      ConsEnumerates(m, rest, s - {m});
      InMultiset([m] + rest, s);
      [m] + rest
  }

  /** An element in front of a repetition-free listing of a set without it
      lists the set with it, still without repetition. */
  lemma ConsEnumerates(m: string, rest: seq<string>, t: set<string>)
    requires m !in t && multiset(rest) == multiset(t) && |rest| == |t|
    requires forall i, j :: 0 <= i < j < |rest| ==> rest[i] != rest[j]
    ensures multiset([m] + rest) == multiset(t + {m})
    ensures |[m] + rest| == |t + {m}|
    ensures forall i, j :: 0 <= i < j < |[m] + rest| ==> ([m] + rest)[i] != ([m] + rest)[j]
  {
    assert m !in multiset(rest);
    assert m !in rest;
    assert multiset(t + {m}) == multiset(t) + multiset{m};
  }
}

=== FILE: process_action.dfy ===
/** The default action (actions/process.py): classify a message, save it
    when the classifier is confident enough, and reply. The classifier and
    the save are parameters; replies are kept structured because they embed
    percentages formatted from floats. */
module ProcessAction {
  import opened Wrappers
  import opened Values
  import opened Http

  /** Confidence (in percent) at or above which a message is saved. */
  const SaveThreshold := 60

  /** Characters of the text quoted back when a message is not saved. */
  const SnippetLength := 50

  /** The reply text: its kind, the values it formats, and the name line
      that is appended when the classification named the item. */
  datatype Reply =
    | UpdatedExisting(category: Value, similarity: Value, name: Option<Value>)
    | SavedAs(category: Value, confidence: Value, name: Option<Value>)
    | LowConfidence(confidence: Value, snippet: string)

  /** The response, the chat the one reply goes to, and the classification
      handed to the save, if any. */
  datatype Outcome = Outcome(response: Response, replyTo: string, reply: Reply, saved: Option<Record>)

  const Processed := Response(200, "Message processed successfully")

  /** Python's `v >= n` for a number `v`; anything else raises `TypeError`. */
  function AtLeast(v: Value, n: int): (r: Result<bool>)
    ensures v.Int? ==> r == Ok(v.i >= n)
    ensures v.Real? ==> r == Ok(v.r >= n as real)
    ensures r.Err? <==> !(v.Int? || v.Real? || v.Bool?)
  {
    match v
    case Int(i) => Ok(i >= n)
    case Real(x) => Ok(x >= n as real)
    case Bool(b) => Ok((if b then 1 else 0) >= n)
    case _ => Err("TypeError: '>=' not supported")
  }

  /** Python's `text[:n]`. */
  function Prefix(text: string, n: nat): (r: string)
    ensures |r| == if |text| < n then |text| else n
    ensures r == text[..|r|]
  {
    if |text| <= n then text else text[..n]
  }

  /** The name line is added exactly when `result.get("name")` is truthy. */
  function NameLine(result: Record): (name: Option<Value>)
    ensures name.Some? <==> Truthy(Get(result, "name"))
    ensures name.Some? ==> name.value == result["name"]
  {
    if Truthy(Get(result, "name")) then Some(result["name"]) else None
  }

  /** `handle`: a message whose confidence reaches 60 is saved, and the reply
      says whether an existing item was updated or a new one saved; below 60
      nothing is saved and the reply quotes the first 50 characters. */
  function Handle(
    text: string, chatId: string,
    processMessage: string -> Result<Record>,
    save: Record -> Result<Record>
  ): (r: Result<Outcome>)
    ensures r.Ok? ==> processMessage(text).Ok? && "confidence" in processMessage(text).value
    ensures r.Ok? ==> r.value.response == Processed && r.value.replyTo == chatId
    ensures r.Ok? ==>
      var result := processMessage(text).value;
      && AtLeast(result["confidence"], SaveThreshold).Ok?
      && (r.value.saved.Some? <==> AtLeast(result["confidence"], SaveThreshold).value)
      && (r.value.saved.Some? ==> r.value.saved.value == result && save(result).Ok?)
      && (r.value.reply.LowConfidence? <==> r.value.saved.None?)
    ensures r.Ok? && r.value.reply.LowConfidence? ==>
      r.value.reply.snippet == Prefix(text, SnippetLength)
      && r.value.reply.confidence == processMessage(text).value["confidence"]
    ensures r.Ok? && r.value.saved.Some? ==>
      var saveResult := save(r.value.saved.value).value;
      && "action" in saveResult
      && (r.value.reply.UpdatedExisting? <==> saveResult["action"] == Str("updated"))
      && (r.value.reply.UpdatedExisting? || r.value.reply.SavedAs?)
      && (r.value.reply.UpdatedExisting? ==>
            && "category" in saveResult && "similarity" in saveResult
            && r.value.reply == UpdatedExisting(saveResult["category"], saveResult["similarity"],
                                                NameLine(r.value.saved.value)))
      && (r.value.reply.SavedAs? ==>
            && "category" in saveResult
            && r.value.reply == SavedAs(saveResult["category"], r.value.saved.value["confidence"],
                                        NameLine(r.value.saved.value)))
  {
    var result :- processMessage(text);
    if "confidence" !in result then Err("KeyError: confidence")
    else
      var confident :- AtLeast(result["confidence"], SaveThreshold);
      if confident then
        var saveResult :- save(result);
        if "action" !in saveResult then Err("KeyError: action")
        else if saveResult["action"] == Str("updated") then
          if "category" !in saveResult || "similarity" !in saveResult then Err("KeyError")
          else
            var reply := UpdatedExisting(saveResult["category"], saveResult["similarity"], NameLine(result));
            Ok(Outcome(Processed, chatId, reply, Some(result)))
        else if "category" !in saveResult then Err("KeyError: category")
        else
          var reply := SavedAs(saveResult["category"], result["confidence"], NameLine(result));
          Ok(Outcome(Processed, chatId, reply, Some(result)))
      else
        var reply := LowConfidence(result["confidence"], Prefix(text, SnippetLength));
        Ok(Outcome(Processed, chatId, reply, None))
  }
}

=== FILE: prompts.dfy ===
/** The classification prompts of the two webhook handlers (lambda/processor.py
    and processor/app.py), and the part of Python's `str.format` they
    exercise. Both templates show the expected answer as a JSON object written
    between single braces, which `format` reads as a replacement field; the
    escaped templates double those braces, as the f-string prompt of
    debug_duplicates_auto.py does. */
module Prompts {
  import opened Wrappers

  /** `r` with `p` put in front of its text; an error passes through. */
  function Prepend(p: string, r: Result<string>): (r': Result<string>)
    ensures r'.Ok? <==> r.Ok?
    ensures r.Ok? ==> r'.value == p + r.value
    ensures r.Err? ==> r' == r
  {
    if r.Ok? then Ok(p + r.value) else r
  }

  /** Text that `format` copies through unchanged. */
  predicate BraceFree(s: string) {
    '{' !in s && '}' !in s
  }

  /** The index of the '}' that closes a replacement field whose text starts
      at `i`, counting the braces nested inside it; `None` when the template
      ends first. */
  function Close(s: string, i: nat, depth: nat): (j: Option<nat>)
    ensures j.Some? ==> i <= j.value < |s| && s[j.value] == '}'
    decreases |s| - i
  {
    if i >= |s| then None
    else if s[i] == '{' then Close(s, i + 1, depth + 1)
    else if s[i] == '}' then (if depth == 0 then Some(i) else Close(s, i + 1, depth - 1))
    else Close(s, i + 1, depth)
  }

  /** The name of a replacement field: its text up to the first ':' (the
      format spec) or '!' (the conversion). */
  function FieldName(field: string): (name: string)
    ensures |name| <= |field| && name == field[..|name|]
    ensures ':' !in name && '!' !in name
  {
    if |field| == 0 || field[0] == ':' || field[0] == '!' then ""
    else [field[0]] + FieldName(field[1..])
  }

  /** `template.format(message=message)`: literal text is copied, "{{" and
      "}}" give one brace, and a replacement field is looked up by name. The
      only keyword is `message`, so any other name raises `KeyError`; an
      unclosed field or a lone '}' raises `ValueError`. A format spec or
      conversion on the `message` field is not applied, and index or
      attribute access in a field name is not modelled (neither template
      uses them). */
  function Format(template: string, message: string): (r: Result<string>)
    decreases |template|
  {
    if |template| == 0 then Ok("")
    else if template[0] == '{' then
      if |template| > 1 && template[1] == '{' then Prepend("{", Format(template[2..], message))
      else
        match Close(template, 1, 0)
        case None => Err("ValueError: expected '}' before end of string")
        case Some(j) =>
          var name := FieldName(template[1..j]);
          if name == "message" then Prepend(message, Format(template[j + 1..], message))
          else Err("KeyError: " + name)
    else if template[0] == '}' then
      if |template| > 1 && template[1] == '}' then Prepend("}", Format(template[2..], message))
      else Err("ValueError: Single '}' encountered in format string")
    else Prepend(template[..1], Format(template[1..], message))
  }

  /** Brace-free text in front of a template is copied as it is. */
  lemma {:induction false} FormatBraceFree(a: string, b: string, m: string)
    requires BraceFree(a)
    ensures Format(a + b, m) == Prepend(a, Format(b, m))
    decreases |a|
  {
    if |a| == 0 {
      assert a + b == b;
      if Format(b, m).Ok? {
        assert a + Format(b, m).value == Format(b, m).value;
      }
    } else {
      var s := a + b;
      assert s[0] == a[0] && a[0] in a;
      assert s[1..] == a[1..] + b;
      assert s[..1] == a[..1];
      assert BraceFree(a[1..]) by {
        forall x | x in a[1..] ensures x in a { }
      }
      FormatBraceFree(a[1..], b, m);
      if Format(b, m).Ok? {
        assert a[..1] + (a[1..] + Format(b, m).value) == a + Format(b, m).value;
      }
    }
  }

  /** The scan for the closing brace passes over brace-free text. */
  lemma {:induction false} CloseBeyond(s: string, i: nat, p: nat)
    requires i <= p <= |s|
    requires forall k :: i <= k < p ==> s[k] != '{' && s[k] != '}'
    ensures Close(s, i, 0).Some? ==> Close(s, i, 0).value >= p
    decreases p - i
  {
    if i < p {
      CloseBeyond(s, i + 1, p);
    }
  }

  /** A field whose text holds no brace closes at the first '}'. */
  lemma {:induction false} ClosesAt(s: string, i: nat, p: nat)
    requires i <= p < |s| && s[p] == '}'
    requires forall k :: i <= k < p ==> s[k] != '{' && s[k] != '}'
    ensures Close(s, i, 0) == Some(p)
    decreases p - i
  {
    if i < p {
      ClosesAt(s, i + 1, p);
    }
  }

  /** The field name stops at the first ':' or '!'. */
  lemma {:induction false} FieldNameStops(f: string, p: nat)
    requires p < |f| && (f[p] == ':' || f[p] == '!')
    requires forall k :: 0 <= k < p ==> f[k] != ':' && f[k] != '!'
    ensures FieldName(f) == f[..p]
    decreases p
  {
    if p > 0 {
      FieldNameStops(f[1..], p - 1);
      assert [f[0]] + f[1..][..p - 1] == f[..p];
    }
  }

  /** A field without ':' or '!' is all name. */
  lemma {:induction false} FieldNameWhole(f: string)
    requires ':' !in f && '!' !in f
    ensures FieldName(f) == f
    decreases |f|
  {
    if |f| > 0 {
      assert f[0] in f;
      assert forall x :: x in f[1..] ==> x in f;
      FieldNameWhole(f[1..]);
      assert [f[0]] + f[1..] == f;
    }
  }

  /** A template with the answer's JSON object written between single braces,
      followed by the message field. */
  function Template(intro: string, schema: string, lead: string, trail: string): string {
    intro + ("{" + (schema + ("}" + (lead + ("{message}" + trail)))))
  }

  /** The same template with the braces of the JSON object doubled. */
  function Escaped(intro: string, schema: string, lead: string, trail: string): string {
    intro + ("{{" + (schema + ("}}" + (lead + ("{message}" + trail)))))
  }

  /** The prompt the escaped template gives: the JSON object with its single
      braces, and the message in place of the field. */
  function Prompt(intro: string, schema: string, lead: string, trail: string, message: string): string {
    intro + ("{" + (schema + ("}" + (lead + (message + trail)))))
  }

  /** A character that ends a field name or a field. */
  predicate Stop(c: char) {
    c == '{' || c == '}' || c == ':' || c == '!'
  }

  /** A brace-free field body closes at the brace right after it. */
  lemma BracedCloses(body: string, tail: string)
    requires BraceFree(body)
    ensures Close("{" + (body + ("}" + tail)), 1, 0) == Some(|body| + 1)
  {
    var x := "{" + (body + ("}" + tail));
    forall k | 1 <= k < |body| + 1 ensures x[k] != '{' && x[k] != '}' {
      assert x[k] == body[k - 1];
      assert body[k - 1] in body;
    }
    ClosesAt(x, 1, |body| + 1);
  }

  /** As written, the JSON object is read as a replacement field named by the
      object's text up to its first ':'. That name is not `message`, so
      formatting raises `KeyError` for every message. */
  lemma AsWrittenFails(intro: string, field: string, rest: string, lead: string, trail: string, m: string)
    requires BraceFree(intro) && BraceFree(rest)
    requires forall k :: 0 <= k < |field| ==> !Stop(field[k])
    requires |rest| > 0 && rest[0] == ':' && field != "message"
    ensures Format(Template(intro, field + rest, lead, trail), m) == Err("KeyError: " + field)
  {
    var schema := field + rest;
    var tail := lead + ("{message}" + trail);
    var x := "{" + (schema + ("}" + tail));
    assert Template(intro, schema, lead, trail) == intro + x;
    FormatBraceFree(intro, x, m);
    assert BraceFree(field) by {
      forall k | 0 <= k < |field| ensures field[k] != '{' && field[k] != '}' {
        assert !Stop(field[k]);
      }
    }
    AppendFree(field, rest);
    BracedCloses(schema, tail);
    assert x[1..|schema| + 1] == schema;
    FieldNameStops(schema, |field|);
    assert schema[..|field|] == field;
  }

  /** The message field formats to the message, and brace-free text after it
      is copied. */
  lemma MessageField(trail: string, m: string)
    requires BraceFree(trail)
    ensures Format("{message}" + trail, m) == Ok(m + trail)
  {
    var u := "{message}" + trail;
    MessageCloses(trail);
    MessageStep(u, 8, m);
    assert u[9..] == trail + "";
    FormatBraceFree(trail, "", m);
  }

  /** The field `{message}` closes at its '}' and is named `message`. */
  lemma MessageCloses(trail: string)
    ensures Close("{message}" + trail, 1, 0) == Some(8)
    ensures FieldName(("{message}" + trail)[1..8]) == "message"
  {
    var u := "{message}" + trail;
    ClosesAt(u, 1, 8);
    assert u[1..8] == "message";
    FieldNameWhole("message");
  }

  /** A template opening with a field named `message` formats to the message
      followed by the rest of the template. */
  lemma MessageStep(template: string, j: nat, m: string)
    requires |template| > 1 && template[0] == '{' && template[1] != '{'
    requires Close(template, 1, 0) == Some(j) && FieldName(template[1..j]) == "message"
    ensures Format(template, m) == Prepend(m, Format(template[j + 1..], m))
  {
  }

  /** A doubled brace formats to one. */
  lemma Doubled(c: char, z: string, m: string)
    requires c == '{' || c == '}'
    ensures Format([c, c] + z, m) == Prepend([c], Format(z, m))
  {
    assert ([c, c] + z)[2..] == z;
  }

  /** With the braces doubled, formatting succeeds and puts the message in
      place of its field. */
  lemma EscapedFormats(intro: string, schema: string, lead: string, trail: string, m: string)
    requires BraceFree(intro) && BraceFree(schema) && BraceFree(lead) && BraceFree(trail)
    ensures Format(Escaped(intro, schema, lead, trail), m) == Ok(Prompt(intro, schema, lead, trail, m))
  {
    var u := "{message}" + trail;
    var v := lead + u;
    var w := "}}" + v;
    var z := schema + w;
    var y := "{{" + z;
    assert Escaped(intro, schema, lead, trail) == intro + y;
    MessageField(trail, m);
    var r := m + trail;
    FormatBraceFree(lead, u, m);
    r := lead + r;
    assert Format(v, m) == Ok(r);
    Doubled('}', v, m);
    r := "}" + r;
    assert Format(w, m) == Ok(r);
    FormatBraceFree(schema, w, m);
    r := schema + r;
    assert Format(z, m) == Ok(r);
    Doubled('{', z, m);
    r := "{" + r;
    assert Format(y, m) == Ok(r);
    FormatBraceFree(intro, y, m);
    assert intro + r == Prompt(intro, schema, lead, trail, m);
  }

  /** Pieces of text joined in order. */
  function Concat(ps: seq<string>): string {
    if |ps| == 0 then "" else ps[0] + Concat(ps[1..])
  }

  /** Text joined from brace-free pieces is brace-free. */
  lemma {:induction false} ConcatFree(ps: seq<string>)
    requires forall i :: 0 <= i < |ps| ==> BraceFree(ps[i])
    ensures BraceFree(Concat(ps))
    decreases |ps|
  {
    if |ps| > 0 {
      assert BraceFree(ps[0]);
      ConcatFree(ps[1..]);
      assert forall i :: 0 <= i < |ps[1..]| ==> BraceFree(ps[1..][i]);
    }
  }

  /** The prompt texts below are the source's, cut into short pieces so that
      each piece can be checked for braces on its own. */
  const LegacyIntroPieces: seq<string> := [
    "Classify the ", "following message ", "into one of these ", "categories: ",
    "People, Projects, ", "Ideas, Admin.\n\n", "Extract the ", "following fields ",
    "if present:\n- ", "name: A short ", "title/name for ", "this item\n- ",
    "status: Current ", "status (e.g., ", "\"open\", ", "\"in-progress\", ", "\"completed\", ",
    "\"waiting\")\n- ", "next_action: Next ", "specific action ", "to take\n- notes: ",
    "Additional ", "details or ", "context\n\nReturn ", "ONLY a JSON ", "object with this ",
    "structure:\n"
  ]
  const AppIntroRolesPieces: seq<string> := [
    "\nYou are a ", "classification AI ", "for a personal ", "second brain ",
    "system. Analyze ", "the following ", "message and ", "classify it into ", "one of these ",
    "categories:\n- ", "People: ", "Information about ", "people, ", "relationships, ",
    "contacts\n- ", "Projects: Work ", "projects, ", "personal ", "projects, tasks ",
    "with goals\n- ", "Ideas: ", "Brainstorming, ", "creative ", "thoughts, ",
    "concepts\n- Admin: ", "Administrative ", "tasks, ", "scheduling, ", "logistics\n\n"
  ]
  const AppIntroFieldsPieces: seq<string> := [
    "Extract the ", "following fields ", "if present:\n- ", "name: A brief ",
    "title/name for ", "this item\n- ", "status: Current ", "state (e.g., ", "open, ",
    "in_progress, ", "completed, ", "waiting)\n- ", "next_action: Next ", "step to take\n- ",
    "notes: Additional ", "details or ", "context\n\nReturn ", "ONLY a JSON ",
    "object with this ", "structure:\n"
  ]
  const LegacySchemaRestPieces: seq<string> := [
    ": \"People|", "Projects|Ideas|", "Admin\",\n    ", "\"name\": \"string ",
    "or null\",\n    ", "\"status\": \"string ", "or null\", \n    ", "\"next_action\": ",
    "\"string or null\",\n", "    \"notes\": ", "\"string or null\",\n",
    "    \"confidence\": ", "0-100\n"
  ]
  const AppSchemaRestPieces: seq<string> := [
    ": \"People|", "Projects|Ideas|", "Admin\",\n    ", "\"name\": \"Brief ", "title\",\n    ",
    "\"status\": ", "\"status\",\n    ", "\"next_action\": ", "\"next action\",\n   ",
    " \"notes\": ", "\"additional ", "notes\",\n    ", "\"confidence\": ", "0-100\n"
  ]

  /** The first field name both templates present to `format`: the JSON
      object's text up to its first ':'. */
  const SchemaField := "\n    \"category\""

  /** lambda/processor.py's `CLASSIFICATION_PROMPT`, in its four parts. */
  const LegacyIntro := Concat(LegacyIntroPieces)
  const LegacySchema := SchemaField + Concat(LegacySchemaRestPieces)
  const LegacyLead := "\n\nMessage: "
  const LegacyTrail := ""

  /** processor/app.py's `AI_CLASSIFICATION_PROMPT`, in its four parts. */
  const AppIntro := Concat(AppIntroRolesPieces) + Concat(AppIntroFieldsPieces)
  const AppSchema := SchemaField + Concat(AppSchemaRestPieces)
  const AppLead := "\n\nMessage to classify: "
  const AppTrail := "\n"

  /** Brace-free texts joined are brace-free. */
  lemma AppendFree(a: string, b: string)
    requires BraceFree(a) && BraceFree(b)
    ensures BraceFree(a + b)
  {
    assert forall x :: x in a + b ==> x in a || x in b;
  }

  lemma LegacyIntroFree0() ensures forall i :: 0 <= i < 6 ==> BraceFree(LegacyIntroPieces[i]) {}
  lemma LegacyIntroFree1() ensures forall i :: 6 <= i < 12 ==> BraceFree(LegacyIntroPieces[i]) {}
  lemma LegacyIntroFree2() ensures forall i :: 12 <= i < 18 ==> BraceFree(LegacyIntroPieces[i]) {}
  lemma LegacyIntroFree3() ensures forall i :: 18 <= i < 24 ==> BraceFree(LegacyIntroPieces[i]) {}
  lemma LegacyIntroFree4() ensures forall i :: 24 <= i < 27 ==> BraceFree(LegacyIntroPieces[i]) {}

  lemma LegacyIntroFree()
    ensures BraceFree(Concat(LegacyIntroPieces))
  {
    LegacyIntroFree0(); LegacyIntroFree1(); LegacyIntroFree2(); LegacyIntroFree3(); LegacyIntroFree4();
    ConcatFree(LegacyIntroPieces);
  }

  lemma AppIntroRolesFree0() ensures forall i :: 0 <= i < 6 ==> BraceFree(AppIntroRolesPieces[i]) {}
  lemma AppIntroRolesFree1() ensures forall i :: 6 <= i < 12 ==> BraceFree(AppIntroRolesPieces[i]) {}
  lemma AppIntroRolesFree2() ensures forall i :: 12 <= i < 18 ==> BraceFree(AppIntroRolesPieces[i]) {}
  lemma AppIntroRolesFree3() ensures forall i :: 18 <= i < 24 ==> BraceFree(AppIntroRolesPieces[i]) {}
  lemma AppIntroRolesFree4() ensures forall i :: 24 <= i < 29 ==> BraceFree(AppIntroRolesPieces[i]) {}

  lemma AppIntroRolesFree()
    ensures BraceFree(Concat(AppIntroRolesPieces))
  {
    AppIntroRolesFree0(); AppIntroRolesFree1(); AppIntroRolesFree2(); AppIntroRolesFree3(); AppIntroRolesFree4();
    ConcatFree(AppIntroRolesPieces);
  }

  lemma AppIntroFieldsFree0() ensures forall i :: 0 <= i < 6 ==> BraceFree(AppIntroFieldsPieces[i]) {}
  lemma AppIntroFieldsFree1() ensures forall i :: 6 <= i < 12 ==> BraceFree(AppIntroFieldsPieces[i]) {}
  lemma AppIntroFieldsFree2() ensures forall i :: 12 <= i < 18 ==> BraceFree(AppIntroFieldsPieces[i]) {}
  lemma AppIntroFieldsFree3() ensures forall i :: 18 <= i < 20 ==> BraceFree(AppIntroFieldsPieces[i]) {}

  lemma AppIntroFieldsFree()
    ensures BraceFree(Concat(AppIntroFieldsPieces))
  {
    AppIntroFieldsFree0(); AppIntroFieldsFree1(); AppIntroFieldsFree2(); AppIntroFieldsFree3();
    ConcatFree(AppIntroFieldsPieces);
  }

  lemma LegacySchemaRestFree0() ensures forall i :: 0 <= i < 6 ==> BraceFree(LegacySchemaRestPieces[i]) {}
  lemma LegacySchemaRestFree1() ensures forall i :: 6 <= i < 12 ==> BraceFree(LegacySchemaRestPieces[i]) {}
  lemma LegacySchemaRestFree2() ensures forall i :: 12 <= i < 13 ==> BraceFree(LegacySchemaRestPieces[i]) {}

  lemma LegacySchemaRestFree()
    ensures BraceFree(Concat(LegacySchemaRestPieces))
  {
    LegacySchemaRestFree0(); LegacySchemaRestFree1(); LegacySchemaRestFree2();
    ConcatFree(LegacySchemaRestPieces);
  }

  lemma AppSchemaRestFree0() ensures forall i :: 0 <= i < 6 ==> BraceFree(AppSchemaRestPieces[i]) {}
  lemma AppSchemaRestFree1() ensures forall i :: 6 <= i < 12 ==> BraceFree(AppSchemaRestPieces[i]) {}
  lemma AppSchemaRestFree2() ensures forall i :: 12 <= i < 14 ==> BraceFree(AppSchemaRestPieces[i]) {}

  lemma AppSchemaRestFree()
    ensures BraceFree(Concat(AppSchemaRestPieces))
  {
    AppSchemaRestFree0(); AppSchemaRestFree1(); AppSchemaRestFree2();
    ConcatFree(AppSchemaRestPieces);
  }

  /** The first field name holds no character that ends a name. */
  lemma SchemaFieldPlain()
    ensures forall k :: 0 <= k < |SchemaField| ==> !Stop(SchemaField[k])
    ensures BraceFree(SchemaField)
  {
  }

  /** The rest of a schema after its first field name starts with ':'. */
  lemma RestStartsWithColon(ps: seq<string>)
    requires |ps| > 0 && |ps[0]| > 0 && ps[0][0] == ':'
    ensures |Concat(ps)| > 0 && Concat(ps)[0] == ':'
  {
  }

  /** The short parts of both prompts hold no brace. */
  lemma LeadsPlain()
    ensures BraceFree(LegacyLead) && BraceFree(LegacyTrail) && BraceFree(AppLead) && BraceFree(AppTrail)
  {
  }

  lemma LegacyIntroPlain()
    ensures BraceFree(LegacyIntro)
  {
    LegacyIntroFree();
  }

  lemma LegacySchemaPlain()
    ensures BraceFree(LegacySchema)
  {
    LegacySchemaRestFree();
    SchemaFieldPlain();
    AppendFree(SchemaField, Concat(LegacySchemaRestPieces));
  }

  lemma AppIntroPlain()
    ensures BraceFree(AppIntro)
  {
    AppIntroRolesFree();
    AppIntroFieldsFree();
    AppendFree(Concat(AppIntroRolesPieces), Concat(AppIntroFieldsPieces));
  }

  lemma AppSchemaPlain()
    ensures BraceFree(AppSchema)
  {
    AppSchemaRestFree();
    SchemaFieldPlain();
    AppendFree(SchemaField, Concat(AppSchemaRestPieces));
  }

  /** Every part of lambda/processor.py's prompt is brace-free, so its template
      with the JSON object's braces doubled formats (`EscapedFormats`). */
  lemma LegacyPartsPlain()
    ensures BraceFree(LegacyIntro) && BraceFree(LegacySchema) && BraceFree(LegacyLead) && BraceFree(LegacyTrail)
  {
    LegacyIntroPlain();
    LegacySchemaPlain();
    LeadsPlain();
  }

  /** Every part of processor/app.py's prompt is brace-free. */
  lemma AppPartsPlain()
    ensures BraceFree(AppIntro) && BraceFree(AppSchema) && BraceFree(AppLead) && BraceFree(AppTrail)
  {
    AppIntroPlain();
    AppSchemaPlain();
    LeadsPlain();
  }

  /** What the failure of the lambda/processor.py template rests on: brace-free text up to
      the JSON object, whose text continues with ':' after its first field. */
  lemma LegacyFailFacts()
    ensures BraceFree(LegacyIntro) && BraceFree(Concat(LegacySchemaRestPieces))
    ensures |Concat(LegacySchemaRestPieces)| > 0 && Concat(LegacySchemaRestPieces)[0] == ':'
  {
    LegacySchemaRestStarts();
    LegacyIntroPlain();
    LegacySchemaRestFree();
  }

  lemma LegacySchemaRestStarts()
    ensures |Concat(LegacySchemaRestPieces)| > 0 && Concat(LegacySchemaRestPieces)[0] == ':'
  {
    RestStartsWithColon(LegacySchemaRestPieces);
  }

  /** What the failure of the processor/app.py template rests on: brace-free text up to
      the JSON object, whose text continues with ':' after its first field. */
  lemma AppFailFacts()
    ensures BraceFree(AppIntro) && BraceFree(Concat(AppSchemaRestPieces))
    ensures |Concat(AppSchemaRestPieces)| > 0 && Concat(AppSchemaRestPieces)[0] == ':'
  {
    AppSchemaRestStarts();
    AppIntroPlain();
    AppSchemaRestFree();
  }

  lemma AppSchemaRestStarts()
    ensures |Concat(AppSchemaRestPieces)| > 0 && Concat(AppSchemaRestPieces)[0] == ':'
  {
    RestStartsWithColon(AppSchemaRestPieces);
  }

  /** A template whose JSON object starts with the category field fails
      with `KeyError` naming that field. */
  lemma CategoryFieldFails(intro: string, rest: string, lead: string, trail: string, m: string)
    requires BraceFree(intro) && BraceFree(rest) && |rest| > 0 && rest[0] == ':'
    ensures Format(Template(intro, SchemaField + rest, lead, trail), m) == Err("KeyError: " + SchemaField)
  {
    SchemaFieldPlain();
    AsWrittenFails(intro, SchemaField, rest, lead, trail, m);
  }

  /** Formatting lambda/processor.py's prompt raises `KeyError` for every
      message. */
  lemma LegacyPromptFails(m: string)
    ensures Format(Template(LegacyIntro, LegacySchema, LegacyLead, LegacyTrail), m) == Err("KeyError: " + SchemaField)
  {
    LegacyFailFacts();
    CategoryFieldFails(LegacyIntro, Concat(LegacySchemaRestPieces), LegacyLead, LegacyTrail, m);
  }

  /** Formatting processor/app.py's prompt raises `KeyError` for every
      message. */
  lemma AppPromptFails(m: string)
    ensures Format(Template(AppIntro, AppSchema, AppLead, AppTrail), m) == Err("KeyError: " + SchemaField)
  {
    AppFailFacts();
    CategoryFieldFails(AppIntro, Concat(AppSchemaRestPieces), AppLead, AppTrail, m);
  }

  /** The templates as the source writes them. */
  const LegacyTemplate := Template(LegacyIntro, LegacySchema, LegacyLead, LegacyTrail)
  const AppTemplate := Template(AppIntro, AppSchema, AppLead, AppTrail)

  /** A provider call that first formats `template` with the message: a
      formatting error is raised inside the provider's `try` and caught
      there, so the call gives no answer. The provider itself is a
      parameter; what it sends is not modelled beyond this. */
  function Prompted<T>(call: string -> Option<T>, template: string): string -> Option<T> {
    m => if Format(template, m).Ok? then call(m) else None
  }

  /** The same for a provider whose failures are exceptions (`Err`). */
  function PromptedResult<T>(call: string -> Result<T>, template: string): string -> Result<T> {
    m => if Format(template, m).Ok? then call(m) else Err(Format(template, m).error)
  }

  /** Behind lambda/processor.py's template as written, a provider never
      answers. */
  lemma LegacyPromptedSilent<T>(call: string -> Option<T>, m: string)
    ensures Prompted(call, LegacyTemplate)(m).None?
  {
    LegacyPromptFails(m);
  }

  /** Behind processor/app.py's template as written, a provider always raises
      the `KeyError`. */
  lemma AppPromptedRaises<T>(call: string -> Result<T>, m: string)
    ensures PromptedResult(call, AppTemplate)(m) == Err("KeyError: " + SchemaField)
  {
    AppPromptFails(m);
  }

  /** Behind processor/app.py's template as written, a provider never
      answers. */
  lemma AppPromptedFails<T>(call: string -> Result<T>, m: string)
    ensures PromptedResult(call, AppTemplate)(m).Err?
  {
    AppPromptFails(m);
  }

  /** Behind a template whose JSON braces are doubled, the provider is called
      as if no formatting happened: the model's providers stand for this
      corrected call. */
  lemma EscapedPromptedIsCall<T>(call: string -> Option<T>, intro: string, schema: string, lead: string, trail: string, m: string)
    requires BraceFree(intro) && BraceFree(schema) && BraceFree(lead) && BraceFree(trail)
    ensures Prompted(call, Escaped(intro, schema, lead, trail))(m) == call(m)
  {
    EscapedFormats(intro, schema, lead, trail, m);
  }

  /** The same for a provider whose failures are exceptions. */
  lemma EscapedPromptedResultIsCall<T>(call: string -> Result<T>, intro: string, schema: string, lead: string, trail: string, m: string)
    requires BraceFree(intro) && BraceFree(schema) && BraceFree(lead) && BraceFree(trail)
    ensures PromptedResult(call, Escaped(intro, schema, lead, trail))(m) == call(m)
  {
    EscapedFormats(intro, schema, lead, trail, m);
  }
}

=== FILE: recent.dfy ===
/** The read both maintenance commands start with: for each of the four
    categories in turn, a key-condition query on its partition for the
    items whose SK is at or after a start date. */
module Recent {
  import opened Table
  import Order

  const Categories: seq<string> := ["People", "Projects", "Ideas", "Admin"]

  /** `f"CATEGORY#{category}"`. */
  function Pk(category: string): string {
    "CATEGORY#" + category
  }

  /** The partitions the queries of `categories` cover. */
  function Partitions(categories: seq<string>): set<string> {
    set c | c in categories :: Pk(c)
  }

  /** `SK >= start_date`. */
  function AtOrAfter(startDate: string): string -> bool {
    sk => Order.Le(startDate, sk)
  }

  /** One query's keys, in sort-key order. */
  function PartitionKeys(t: Table, category: string, startDate: string): (keys: seq<Key>)
    ensures forall k :: k in keys <==> k in t && k.0 == Pk(category) && Order.Le(startDate, k.1)
    ensures forall i, j :: 0 <= i < j < |keys| ==> keys[i] != keys[j]
  {
    var pk := Pk(category);
    var sks := QueryKeys(t, pk, AtOrAfter(startDate));
    var keys := seq(|sks|, i requires 0 <= i < |sks| => (pk, sks[i]));
    PairedKeys(t, pk, startDate, sks, keys);
    keys
  }

  /** The keys made of a query's sort keys are those of the partition
      from the start date on. */
  lemma PairedKeys(t: Table, pk: string, startDate: string, sks: seq<string>, keys: seq<Key>)
    requires forall sk :: sk in sks <==> (pk, sk) in t && AtOrAfter(startDate)(sk)
    requires forall i, j :: 0 <= i < j < |sks| ==> sks[i] != sks[j]
    requires |keys| == |sks| && forall i :: 0 <= i < |sks| ==> keys[i] == (pk, sks[i])
    ensures forall k :: k in keys <==> k in t && k.0 == pk && Order.Le(startDate, k.1)
    ensures forall i, j :: 0 <= i < j < |keys| ==> keys[i] != keys[j]
  {
    forall k ensures k in keys <==> k in t && k.0 == pk && Order.Le(startDate, k.1) {
      if k in keys {
        var i :| 0 <= i < |keys| && keys[i] == k;
        assert sks[i] in sks;
      }
      if k in t && k.0 == pk && Order.Le(startDate, k.1) {
        assert AtOrAfter(startDate)(k.1);
        assert k.1 in sks;
        var i :| 0 <= i < |sks| && sks[i] == k.1;
        assert keys[i] == k;
      }
    }
  }

  /** The queries of `categories`, one after the other. */
  function KeysSince(t: Table, categories: seq<string>, startDate: string): (keys: seq<Key>)
    requires forall i, j :: 0 <= i < j < |categories| ==> categories[i] != categories[j]
    ensures forall k :: k in keys <==> k in t && k.0 in Partitions(categories) && Order.Le(startDate, k.1)
    ensures forall i, j :: 0 <= i < j < |keys| ==> keys[i] != keys[j]
  {
    if |categories| == 0 then []
    else
      var first := PartitionKeys(t, categories[0], startDate);
      var rest := KeysSince(t, categories[1..], startDate);
      PartitionsCons(categories);
      OtherPartitions(categories, rest);
      Concat(Pk(categories[0]), first, rest);
      first + rest
  }

  lemma PartitionsCons(categories: seq<string>)
    requires |categories| > 0
    ensures Partitions(categories) == {Pk(categories[0])} + Partitions(categories[1..])
  {
    assert categories == [categories[0]] + categories[1..];
  }

  /** The later categories' keys lie outside the first category's partition. */
  lemma OtherPartitions(categories: seq<string>, rest: seq<Key>)
    requires |categories| > 0
    requires forall i, j :: 0 <= i < j < |categories| ==> categories[i] != categories[j]
    requires forall k :: k in rest ==> k.0 in Partitions(categories[1..])
    ensures forall k :: k in rest ==> k.0 != Pk(categories[0])
  {
    forall k | k in rest ensures k.0 != Pk(categories[0]) {
      var c :| c in categories[1..] && k.0 == Pk(c);
      PkInjective(c, categories[0]);
      var i :| 0 <= i < |categories[1..]| && categories[1..][i] == c;
      assert categories[i + 1] == c;
    }
  }

  /** Two duplicate-free key lists over disjoint partitions concatenate
      without duplicates. */
  lemma Concat(pk: string, first: seq<Key>, rest: seq<Key>)
    requires forall i, j :: 0 <= i < j < |first| ==> first[i] != first[j]
    requires forall i, j :: 0 <= i < j < |rest| ==> rest[i] != rest[j]
    requires forall k :: k in first ==> k.0 == pk
    requires forall k :: k in rest ==> k.0 != pk
    ensures forall i, j :: 0 <= i < j < |first + rest| ==> (first + rest)[i] != (first + rest)[j]
  {
    var keys := first + rest;
    forall i, j | 0 <= i < j < |keys| ensures keys[i] != keys[j] {
      if j < |first| {
      } else if i >= |first| {
        assert keys[i] == rest[i - |first|] && keys[j] == rest[j - |first|];
      } else {
        assert keys[j] == rest[j - |first|];
        assert keys[j] in rest;
      }
    }
  }

  /** Different categories have different partitions. */
  lemma PkInjective(a: string, b: string)
    ensures Pk(a) == Pk(b) ==> a == b
  {
    if Pk(a) == Pk(b) {
      assert a == Pk(a)[9..] && b == Pk(b)[9..];
    }
  }

  /** The keys of the recent items of the four categories, in the order the
      source reads them. */
  function Since(t: Table, startDate: string): (keys: seq<Key>)
    ensures forall k :: k in keys <==> k in t && k.0 in Partitions(Categories) && Order.Le(startDate, k.1)
    ensures forall i, j :: 0 <= i < j < |keys| ==> keys[i] != keys[j]
  {
    KeysSince(t, Categories, startDate)
  }
}

=== FILE: routing.dfy ===
/** The Telegram webhook entry point (lambdas/processor.py): the secret
    check, the body decoding and the routing of a message text to a command
    by ordered prefix match. */
module Routing {
  import opened Wrappers
  import opened Values
  import opened Http
  import Text

  /** The actions `COMMAND_DISPATCH` can select. */
  datatype Command =
    | Digest | OpenItems | ClosedItems | DebugCount | DebugBackfill
    | DebugDuplicatesAuto | DebugDuplicates | Merge | Delete | Process

  /** `COMMAND_DISPATCH`, in order; the entry without a prefix comes last. */
  const Dispatch: seq<(Option<string>, Command)> := [
    (Some("/digest"), Digest),
    (Some("/open"), OpenItems),
    (Some("/closed"), ClosedItems),
    (Some("/debug count"), DebugCount),
    (Some("/debug backfill"), DebugBackfill),
    (Some("/debug duplicates-auto"), DebugDuplicatesAuto),
    (Some("/debug duplicates"), DebugDuplicates),
    (Some("/merge"), Merge),
    (Some("/delete"), Delete),
    (None, Process)
  ]

  predicate Selects(entry: (Option<string>, Command), text: string) {
    entry.0.None? || Text.StartsWith(text, entry.0.value)
  }

  /** Index of the first entry of `entries` that selects `text`. */
  function FirstSelecting(entries: seq<(Option<string>, Command)>, text: string): (r: Option<nat>)
    ensures r.Some? ==> r.value < |entries| && Selects(entries[r.value], text)
    ensures r.Some? ==> forall j :: 0 <= j < r.value ==> !Selects(entries[j], text)
    ensures r.None? <==> forall j :: 0 <= j < |entries| ==> !Selects(entries[j], text)
  {
    if |entries| == 0 then None
    else if Selects(entries[0], text) then Some(0)
    else
      match FirstSelecting(entries[1..], text)
      case None => None
      case Some(i) => Some(i + 1)
  }

  /** The command the dispatch loop stops at: there always is one, because
      the last entry has no prefix. */
  function Route(text: string): (c: Command)
    ensures exists i ::
              && 0 <= i < |Dispatch| && Dispatch[i].1 == c && Selects(Dispatch[i], text)
              && forall j :: 0 <= j < i ==> !Selects(Dispatch[j], text)
  {
    DispatchTotal(text);
    var i := FirstSelecting(Dispatch, text).value;
    Dispatch[i].1
  }

  /** Every text is dispatched somewhere. */
  lemma DispatchTotal(text: string)
    ensures FirstSelecting(Dispatch, text).Some?
  {
    assert Selects(Dispatch[|Dispatch| - 1], text);
  }

  /** A plain message, one that starts with none of the command prefixes,
      goes to the process action, and only such a message does. */
  lemma PlainTextIsProcessed(text: string)
    ensures Route(text) == Process <==>
      forall j :: 0 <= j < |Dispatch| - 1 ==> !Text.StartsWith(text, Dispatch[j].0.value)
  {
    DispatchTotal(text);
    var i := FirstSelecting(Dispatch, text).value;
    DispatchShape();
    assert Route(text) == Dispatch[i].1;
    if forall j :: 0 <= j < |Dispatch| - 1 ==> !Text.StartsWith(text, Dispatch[j].0.value) {
      assert forall j :: 0 <= j < |Dispatch| - 1 ==> !Selects(Dispatch[j], text);
    }
  }

  /** Only the last entry selects the process action, and it alone has no prefix. */
  lemma DispatchShape()
    ensures forall i :: 0 <= i < |Dispatch| ==> (Dispatch[i].1 == Process <==> i == |Dispatch| - 1)
    ensures forall i :: 0 <= i < |Dispatch| ==> (Dispatch[i].0.None? <==> i == |Dispatch| - 1)
  {
  }

  /** "/debug duplicates-auto" is listed before "/debug duplicates", so the
      longer command wins although both prefixes match. */
  lemma DuplicatesAutoWins(text: string)
    requires Text.StartsWith(text, "/debug duplicates-auto")
    ensures Text.StartsWith(text, "/debug duplicates")
    ensures Route(text) == DebugDuplicatesAuto
  {
    var auto := "/debug duplicates-auto";
    assert text[..|auto|] == auto;
    assert text[..17] == auto[..17];
    assert !Text.StartsWith(text, "/digest") by { assert text[1] == 'd' && text[2] == 'e'; }
    assert !Text.StartsWith(text, "/open") by { assert text[1] == 'd'; }
    assert !Text.StartsWith(text, "/closed") by { assert text[1] == 'd'; }
    assert !Text.StartsWith(text, "/debug count") by { assert text[7] == 'd'; }
    assert !Text.StartsWith(text, "/debug backfill") by { assert text[7] == 'd'; }
    DispatchTotal(text);
    var i := FirstSelecting(Dispatch, text).value;
    assert Selects(Dispatch[5], text);
    assert i == 5;
  }

  /** The webhook body after JSON decoding: `Err` when it is not JSON or not
      an object; the message's own fields and its "chat" object, when present. */
  datatype Message = Message(fields: Record, chat: Option<Record>)

  datatype Request = Request(headers: Record, body: Result<Option<Message>>)

  const SecretHeader := "x-telegram-bot-api-secret-token"

  /** The secret check: a configured (non-empty) secret must equal the
      header; without one every request passes. */
  predicate Authorized(expected: Option<string>, headers: Record) {
    expected.None? || expected.value == "" || Get(headers, SecretHeader) == Str(expected.value)
  }

  /** `message.get("text", "")`, with a missing message read as `{}`. */
  function MessageText(body: Option<Message>): Value {
    match body
    case None => Str("")
    case Some(m) => GetOr(m.fields, "text", Str(""))
  }

  /** `str(message.get("chat", {}).get("id", ""))`. */
  function ChatId(body: Option<Message>): string {
    match body
    case None => ""
    case Some(m) => Show(GetOr(m.chat.GetOr(map[]), "id", Str("")))
  }

  const Forbidden := Response(403, "Forbidden")
  const NoText := Response(200, "No text to process")
  const InternalError := Response(500, "{\"error\": \"Internal server error\"}")

  /** `handler` with the selected action run by `run`, whose failure (any
      exception) becomes a 500 like every other failure inside the `try`.
      `expected` is `get_env("TELEGRAM_SECRET_TOKEN", required=False)`. */
  function Handle(
    expected: Option<string>, req: Request,
    run: (Command, string, string) -> Result<Response>
  ): (resp: Response)
    ensures !Authorized(expected, req.headers) ==> resp == Forbidden
    ensures Authorized(expected, req.headers) && req.body.Ok? && !Truthy(MessageText(req.body.value)) ==>
      resp == NoText
    ensures Authorized(expected, req.headers) && req.body.Err? ==> resp == InternalError
    ensures (Authorized(expected, req.headers) && req.body.Ok? && Truthy(MessageText(req.body.value))
             && !MessageText(req.body.value).Str?) ==> resp == InternalError
    ensures (Authorized(expected, req.headers) && req.body.Ok? && MessageText(req.body.value).Str?
             && MessageText(req.body.value).s != "")
            ==> var text := MessageText(req.body.value).s;
                var out := run(Route(text), text, ChatId(req.body.value));
                resp == (if out.Ok? then out.value else InternalError)
  {
    if !Authorized(expected, req.headers) then Forbidden
    else if req.body.Err? then InternalError
    else
      var text := MessageText(req.body.value);
      if !Truthy(text) then NoText
      else if !text.Str? then InternalError
      else
        var out := run(Route(text.s), text.s, ChatId(req.body.value));
        if out.Ok? then out.value else InternalError
  }

  /** `handler` as written: the dispatch list holds the action modules
      themselves, and calling a module raises `TypeError`, which the `try`
      turns into a 500. */
  function HandleAsWritten(expected: Option<string>, req: Request): (resp: Response)
    ensures Authorized(expected, req.headers) && req.body.Ok? && Truthy(MessageText(req.body.value)) ==>
      resp == InternalError
  {
    if !Authorized(expected, req.headers) then Forbidden
    else if req.body.Err? then InternalError
    else
      var text := MessageText(req.body.value);
      if !Truthy(text) then NoText
      else InternalError
  }

  /** A well-formed "/open" request with the right secret fails as written,
      while the corrected handler answers with the action's response. */
  lemma DispatchFinding(run: (Command, string, string) -> Result<Response>)
    requires run(OpenItems, "/open", "42") == Ok(Response(200, "Open items sent"))
    ensures var req := Request(map[SecretHeader := Str("s3cret")],
                               Ok(Some(Message(map["text" := Str("/open")], Some(map["id" := Int(42)])))));
      && HandleAsWritten(Some("s3cret"), req) == InternalError
      && Handle(Some("s3cret"), req, run) == Response(200, "Open items sent")
  {
    var req := Request(map[SecretHeader := Str("s3cret")],
                       Ok(Some(Message(map["text" := Str("/open")], Some(map["id" := Int(42)])))));
    OpenRoutes();
    OpenChat();
  }

  lemma OpenRoutes()
    ensures Route("/open") == OpenItems
  {
    assert !Text.StartsWith("/open", "/digest");
    assert Text.StartsWith("/open", "/open");
    assert FirstSelecting(Dispatch, "/open") == Some(1);
  }

  lemma OpenChat()
    ensures ChatId(Some(Message(map["text" := Str("/open")], Some(map["id" := Int(42)])))) == "42"
  {
    assert Show(Int(42)) == "42";
  }
}

=== FILE: similarity.dfy ===
/** Embedding vectors and the zero guards of cosine similarity
    (embedding_matcher.py). The floating-point quotient itself is not
    modelled: it is the `ratio` parameter. */
module Similarity {
  import opened Wrappers

  /** Dimension of the embedding stored for a nameless item. */
  const Dimension: nat := 1536

  function Zeros(n: nat): (v: seq<real>)
    ensures |v| == n && IsZero(v)
  {
    seq(n, i => 0.0)
  }

  predicate IsZero(v: seq<real>) {
    forall i :: 0 <= i < |v| ==> v[i] == 0.0
  }

  /** `cosine_similarity(a, b)`: 0.0 when either vector is empty or either
      norm is zero, otherwise the quotient `ratio(a, b)`. With exact
      arithmetic a Euclidean norm is zero exactly when every component is,
      which is the guard written here. */
  function Cosine(a: seq<real>, b: seq<real>, ratio: (seq<real>, seq<real>) -> real): (r: real)
    ensures r != ratio(a, b) ==> r == 0.0
    ensures r == ratio(a, b) || |a| == 0 || |b| == 0 || IsZero(a) || IsZero(b)
    ensures |a| == 0 || |b| == 0 || IsZero(a) || IsZero(b) ==> r == 0.0
  {
    if |a| == 0 || |b| == 0 then 0.0
    else if IsZero(a) || IsZero(b) then 0.0
    else ratio(a, b)
  }

  /** Two nameless items (zero vectors) never score above zero against each other. */
  lemma ZeroVectorsNeverSimilar(ratio: (seq<real>, seq<real>) -> real)
    ensures Cosine(Zeros(Dimension), Zeros(Dimension), ratio) == 0.0
  {
  }

  /** `embed_text(text)`: the empty text is the zero vector of dimension
      1536 and calls no provider. Otherwise `region` is the result of
      `get_env("BEDROCK_REGION", required=True)`; a region selects Bedrock
      first, and a Bedrock failure (or no region) falls back to OpenAI, whose
      failure propagates. */
  function EmbedText(
    text: string,
    region: Result<Option<string>>,
    bedrock: (string, string) -> Result<seq<real>>,
    openai: string -> Result<seq<real>>
  ): (r: Result<seq<real>>)
    ensures text == "" ==> r == Ok(Zeros(Dimension))
    ensures text != "" && region.Err? ==> r.Err?
    ensures text != "" && region.Ok? && region.value.Some? && bedrock(text, region.value.value).Ok? ==>
      r == bedrock(text, region.value.value)
    ensures text != "" && region.Ok? && (region.value.None? || bedrock(text, region.value.value).Err?) ==>
      r == openai(text)
  {
    if text == "" then Ok(Zeros(Dimension))
    else
      match region
      case Err(e) => Err(e)
      case Ok(Some(name)) =>
        var primary := bedrock(text, name);
        if primary.Ok? then primary else openai(text)
      case Ok(None) => openai(text)
  }
}

=== FILE: status.dfy ===
/** The action-keyword to status lookup. The source defines it twice with the
    same table (embedding_matcher.py and task_linker/linker.py); the model
    defines it once and both matchers use it. */
module Status {
  import Text

  const Open := "open"
  const InProgress := "in_progress"
  const Completed := "completed"

  /** `start`/`started` mean in progress, `done`/`complete` mean completed,
      ignoring case; every other action, including "", leaves the item open. */
  function DeriveStatus(action: string): (status: string)
    ensures status == InProgress <==> Text.Lower(action) == "start" || Text.Lower(action) == "started"
    ensures status == Completed <==> Text.Lower(action) == "done" || Text.Lower(action) == "complete"
    ensures status == Open <==> !(Text.Lower(action) in {"start", "started", "done", "complete"})
  {
    var key := Text.Lower(action);
    if key == "start" || key == "started" then InProgress
    else if key == "done" || key == "complete" then Completed
    else Open
  }

  /** The lookup ignores case: upper-case spellings map like lower-case ones. */
  lemma DeriveStatusIgnoresCase(a: string, b: string)
    requires |a| == |b|
    requires forall i :: 0 <= i < |a| ==> Text.LowerChar(a[i]) == Text.LowerChar(b[i])
    ensures DeriveStatus(a) == DeriveStatus(b)
  {
    assert Text.Lower(a) == Text.Lower(b);
  }
}

=== FILE: table.dfy ===
/** The DynamoDB item table as a map from (PK, SK) to items, the writes the
    source issues against it, and the key-condition query it reads with. */
module Table {
  import opened Values
  import opened Wrappers
  import Order

  type Key = (string, string)

  type Table = map<Key, Record>

  /** The attributes DynamoDB stores for the key itself. */
  function KeyAttrs(k: Key): Record {
    map["PK" := Str(k.0), "SK" := Str(k.1)]
  }

  /** The key an item carries in its "PK" and "SK" attributes, if both are strings. */
  function KeyOf(item: Record): (r: Option<Key>)
    ensures r.Some? ==> "PK" in item && "SK" in item
  {
    if "PK" in item && item["PK"].Str? && "SK" in item && item["SK"].Str?
    then Some((item["PK"].s, item["SK"].s))
    else None
  }

  /** Every stored item carries its own key in its "PK"/"SK" attributes. */
  predicate Keyed(t: Table) {
    forall k :: k in t ==> KeyOf(t[k]) == Some(k)
  }

  datatype Write =
    | Put(key: Key, item: Record)          // put_item: replaces the whole item
    | Update(key: Key, changes: Record)    // update_item SET: an upsert of the listed attributes
    | Delete(key: Key)                     // delete_item: a no-op when the key is absent

  /** An item the boto3 resource layer can serialise for `put_item` or
      `update_item`: it rejects a Python float anywhere in the item, as
      numbers must be `int` or `Decimal`. */
  predicate Storable(item: Record) {
    forall a :: a in item ==> !item[a].Real?
  }

  /** What boto3 raises for an item that is not `Storable`. */
  const FloatError := "TypeError: Float types are not supported. Use Decimal types instead."

  function Apply(t: Table, w: Write): (t': Table)
    ensures w.Delete? ==> t' == t - {w.key}
    ensures !w.Delete? ==> t'.Keys == t.Keys + {w.key}
    ensures forall k :: k in t && k != w.key ==> k in t' && t'[k] == t[k]
    ensures w.Update? && w.key in t ==>
      forall a :: a in t'[w.key] <==> a in t[w.key] || a in w.changes
  {
    match w
    case Put(k, item) => t[k := item]
    case Update(k, changes) => t[k := (if k in t then t[k] else KeyAttrs(k)) + changes]
    case Delete(k) => t - {k}
  }

  /** The writes of `ws`, applied in order. */
  function ApplyAll(t: Table, ws: seq<Write>): Table
    decreases |ws|
  {
    if |ws| == 0 then t else ApplyAll(Apply(t, ws[0]), ws[1..])
  }

  lemma ApplyAllAppend(t: Table, ws: seq<Write>, vs: seq<Write>)
    ensures ApplyAll(t, ws + vs) == ApplyAll(ApplyAll(t, ws), vs)
    decreases |ws|
  {
    if |ws| > 0 {
      assert (ws + vs)[1..] == ws[1..] + vs;
      ApplyAllAppend(Apply(t, ws[0]), ws[1..], vs);
    } else {
      assert ws + vs == vs;
    }
  }

  /** The sort keys a key-condition query on partition `pk` returns, in
      DynamoDB's ascending sort-key order: exactly the SKs of that partition
      that `accept` admits, each once. */
  function QueryKeys(t: Table, pk: string, accept: string -> bool): (sks: seq<string>)
    ensures Order.Sorted(sks)
    ensures forall sk :: sk in sks <==> (pk, sk) in t && accept(sk)
    ensures forall i, j :: 0 <= i < j < |sks| ==> sks[i] != sks[j]
  {
    var chosen := set k | k in t && k.0 == pk && accept(k.1) :: k.1;
    Order.SortSet(chosen)
  }

  /** The items a key-condition query on partition `pk` returns, in sort-key order. */
  function Query(t: Table, pk: string, accept: string -> bool): (items: seq<Record>)
    ensures |items| == |QueryKeys(t, pk, accept)|
    ensures forall i :: 0 <= i < |items| ==>
      (pk, QueryKeys(t, pk, accept)[i]) in t && items[i] == t[(pk, QueryKeys(t, pk, accept)[i])]
  {
    var sks := QueryKeys(t, pk, accept);
    seq(|sks|, i requires 0 <= i < |sks| => t[(pk, sks[i])])
  }

  /** `order` lists every key of `t` exactly once: the order of a full scan. */
  predicate IsScanOrder(order: seq<Key>, t: Table) {
    && (forall i :: 0 <= i < |order| ==> order[i] in t)
    && (forall k :: k in t ==> k in order)
    && (forall i, j :: 0 <= i < j < |order| ==> order[i] != order[j])
  }

  /** The items a full scan returns when it visits the keys in `order`. */
  function Scan(t: Table, order: seq<Key>): (items: seq<Record>)
    requires IsScanOrder(order, t)
    ensures |items| == |order|
    ensures forall i :: 0 <= i < |order| ==> items[i] == t[order[i]]
  {
    seq(|order|, i requires 0 <= i < |order| => t[order[i]])
  }
}

=== FILE: tally.dfy ===
/** Counting by attribute value the way the debug commands do it: a Python
    dict from value to count, whose entries keep first-insertion order,
    written as an association list. */
module Tally {
  import opened Wrappers
  import opened Values
  import Order
  import Numbers

  type Counts = seq<(Value, nat)>

  /** No value has two entries. */
  predicate DistinctKeys<V>(c: seq<(Value, V)>) {
    forall i, j :: 0 <= i < j < |c| ==> c[i].0 != c[j].0
  }

  predicate HasKey<V>(c: seq<(Value, V)>, k: Value) {
    exists i :: 0 <= i < |c| && c[i].0 == k
  }

  /** The count for `k`; 0 when it has no entry. */
  function Lookup(c: Counts, k: Value): nat {
    if |c| == 0 then 0
    else if c[0].0 == k then c[0].1
    else Lookup(c[1..], k)
  }

  /** The sum of the weights of the entries. */
  function SumBy<V>(c: seq<(Value, V)>, w: V -> nat): nat {
    if |c| == 0 then 0 else w(c[0].1) + SumBy(c[1..], w)
  }

  function AsCount(n: nat): nat { n }

  /** The sum of all counts. */
  function Total(c: Counts): nat {
    SumBy(c, AsCount)
  }

  lemma {:induction false} SumByAppend<V>(a: seq<(Value, V)>, b: seq<(Value, V)>, w: V -> nat)
    ensures SumBy(a + b, w) == SumBy(a, w) + SumBy(b, w)
    decreases |a|
  {
    if |a| > 0 {
      assert (a + b)[1..] == a[1..] + b;
      SumByAppend(a[1..], b, w);
    } else {
      assert a + b == b;
    }
  }

  /** Reordering entries does not change their sum: two lists without
      duplicates holding the same entries have the same sum. */
  lemma {:induction false} SumBySameEntries<V(!new)>(a: seq<(Value, V)>, b: seq<(Value, V)>, w: V -> nat)
    requires DistinctKeys(a) && DistinctKeys(b)
    requires forall x :: x in a <==> x in b
    ensures SumBy(a, w) == SumBy(b, w)
    decreases |a|
  {
    if |a| == 0 {
      NoEntriesEmpty(b);
    } else {
      var e := a[0];
      assert e in b;
      var j :| 0 <= j < |b| && b[j] == e;
      var b' := b[..j] + b[j + 1..];
      assert b == b[..j] + [e] + b[j + 1..];
      SumByAppend(b[..j] + [e], b[j + 1..], w);
      SumByAppend(b[..j], [e], w);
      SumByAppend(b[..j], b[j + 1..], w);
      DistinctTail(a);
      DropDistinct(b, j);
      forall x ensures x in a[1..] <==> x in b' {
        assert x in a <==> x == e || x in a[1..];
        DropEntry(b, j, x);
        if x in a[1..] {
          var i :| 0 <= i < |a[1..]| && a[1..][i] == x;
          assert a[i + 1] == x;
          assert x.0 != e.0;
        }
      }
      SumBySameEntries(a[1..], b', w);
    }
  }

  /** A list with no entries is empty. */
  lemma NoEntriesEmpty<V>(b: seq<(Value, V)>)
    ensures (forall x :: x !in b) ==> |b| == 0
  {
    if |b| > 0 {
      assert b[0] in b;
    }
  }

  /** Dropping entry `j` keeps a list free of duplicates. */
  lemma DropDistinct<V>(b: seq<(Value, V)>, j: nat)
    requires j < |b| && DistinctKeys(b)
    ensures DistinctKeys(b[..j] + b[j + 1..])
  {
    var b' := b[..j] + b[j + 1..];
    forall p, q | 0 <= p < q < |b'| ensures b'[p].0 != b'[q].0 {
      var p0 := if p < j then p else p + 1;
      var q0 := if q < j then q else q + 1;
      assert b'[p] == b[p0] && b'[q] == b[q0];
    }
  }

  /** After dropping entry `j`, the entries left are the others. */
  lemma DropEntry<V>(b: seq<(Value, V)>, j: nat, x: (Value, V))
    requires j < |b| && DistinctKeys(b)
    ensures x in b[..j] + b[j + 1..] <==> x in b && x != b[j]
  {
    var b' := b[..j] + b[j + 1..];
    if x in b' {
      var p :| 0 <= p < |b'| && b'[p] == x;
      var p0 := if p < j then p else p + 1;
      assert b'[p] == b[p0];
      assert b[p0].0 != b[j].0;
    }
    if x in b && x != b[j] {
      var p0 :| 0 <= p0 < |b| && b[p0] == x;
      if p0 < j { assert b'[p0] == x; } else { assert b'[p0 - 1] == x; }
    }
  }

  /** Membership in a non-empty list: the head's value or one in the tail. */
  lemma HasKeyTail<V>(c: seq<(Value, V)>)
    requires |c| > 0
    ensures forall x :: HasKey(c, x) <==> x == c[0].0 || HasKey(c[1..], x)
  {
    forall x ensures HasKey(c, x) <==> x == c[0].0 || HasKey(c[1..], x) {
      if HasKey(c, x) && x != c[0].0 {
        var i :| 0 <= i < |c| && c[i].0 == x;
        assert c[1..][i - 1] == c[i];
      }
      if HasKey(c[1..], x) {
        var i :| 0 <= i < |c[1..]| && c[1..][i].0 == x;
        assert c[i + 1] == c[1..][i];
      }
    }
  }

  /** A list without duplicates: its tail lacks the head's value. */
  lemma DistinctTail<V>(c: seq<(Value, V)>)
    requires |c| > 0 && DistinctKeys(c)
    ensures DistinctKeys(c[1..]) && !HasKey(c[1..], c[0].0)
  {
    forall i | 0 <= i < |c[1..]| ensures c[1..][i].0 != c[0].0 {
      assert c[1..][i] == c[i + 1];
    }
  }

  /** Consing a new value onto a list without duplicates. */
  lemma DistinctCons<V>(e: (Value, V), c: seq<(Value, V)>)
    requires DistinctKeys(c) && !HasKey(c, e.0)
    ensures DistinctKeys([e] + c)
  {
    var r := [e] + c;
    forall i, j | 0 <= i < j < |r| ensures r[i].0 != r[j].0 {
      if i == 0 {
        assert r[j] == c[j - 1];
      } else {
        assert r[i] == c[i - 1] && r[j] == c[j - 1];
      }
    }
  }

  /** `d[k] = d.get(k, 0) + 1`: the count of `k` goes up by one (a new
      value is appended with count 1), and no other count changes. */
  function Bump(c: Counts, k: Value): (r: Counts)
    requires DistinctKeys(c)
    ensures DistinctKeys(r)
    ensures Lookup(r, k) == Lookup(c, k) + 1
    ensures forall x :: x != k ==> Lookup(r, x) == Lookup(c, x)
    ensures Total(r) == Total(c) + 1
    ensures forall x :: HasKey(r, x) <==> HasKey(c, x) || x == k
  {
    if |c| == 0 then
      assert forall x :: HasKey([(k, 1)], x) <==> x == k by {
        HasKeyTail([(k, 1)]);
      }
      [(k, 1)]
    else
      DistinctTail(c);
      HasKeyTail(c);
      if c[0].0 == k then
        NotKeyLookup(c[1..], k);
        var r := [(k, c[0].1 + 1)] + c[1..];
        assert r[1..] == c[1..];
        HasKeyTail(r);
        DistinctCons((k, c[0].1 + 1), c[1..]);
        r
      else
        var rest := Bump(c[1..], k);
        var r := [c[0]] + rest;
        assert r[1..] == rest;
        HasKeyTail(r);
        DistinctCons(c[0], rest);
        r
  }

  /** A value without an entry counts 0. */
  lemma {:induction false} NotKeyLookup(c: Counts, k: Value)
    requires !HasKey(c, k)
    ensures Lookup(c, k) == 0
  {
    if |c| > 0 {
      HasKeyTail(c);
      NotKeyLookup(c[1..], k);
    }
  }

  /** The counting loop over `xs`, in order. Each value is counted as many
      times as it occurs, and the counts add up to the number of values. */
  function CountBy(xs: seq<Value>): (c: Counts)
    ensures DistinctKeys(c)
    ensures Total(c) == |xs|
    ensures forall k :: Lookup(c, k) == multiset(xs)[k]
    ensures forall k :: HasKey(c, k) <==> k in xs
    decreases |xs|
  {
    if |xs| == 0 then []
    else
      var init := xs[..|xs| - 1];
      var last := xs[|xs| - 1];
      assert xs == init + [last];
      assert multiset(xs) == multiset(init) + multiset{last};
      Bump(CountBy(init), last)
  }

  /** Every key is a string, and the keys ascend. */
  predicate KeysAscending<V>(c: seq<(Value, V)>) {
    forall i, j :: 0 <= i < j < |c| ==> c[i].0.Str? && c[j].0.Str? && Order.Le(c[i].0.s, c[j].0.s)
  }

  /** `sorted(d.items())`: entries ordered by their value. Strings compare
      among themselves; several entries with a value that is not a string
      are reported as Python's `TypeError` (numbers would in fact compare
      among themselves). */
  function SortByKey<V(!new)>(c: seq<(Value, V)>): (r: Result<seq<(Value, V)>>)
    requires DistinctKeys(c)
    ensures |c| <= 1 ==> r == Ok(c)
    ensures r.Err? <==> |c| > 1 && exists i :: 0 <= i < |c| && !c[i].0.Str?
    ensures r.Ok? ==> DistinctKeys(r.value)
    ensures r.Ok? ==> forall x :: x in r.value <==> x in c
    ensures r.Ok? && |c| > 1 ==> KeysAscending(r.value)
  {
    if |c| <= 1 then Ok(c)
    else if exists i :: 0 <= i < |c| && !c[i].0.Str? then Err("TypeError: '<' not supported")
    else
      assert forall i :: 0 <= i < |c| ==> c[i].0.Str?;
      Ok(SortedEntries(c))
  }

  /** The entries of `c`, all keyed by strings, in ascending key order. */
  function SortedEntries<V(!new)>(c: seq<(Value, V)>): (r: seq<(Value, V)>)
    requires DistinctKeys(c)
    requires forall i :: 0 <= i < |c| ==> c[i].0.Str?
    ensures DistinctKeys(r)
    ensures forall x :: x in r <==> x in c
    ensures KeysAscending(r)
  {
    var names := set i | 0 <= i < |c| :: c[i].0.s;
    var sorted := Order.SortSet(names);
    SortedHasKeys(c, names, sorted);
    var r := seq(|sorted|, j requires 0 <= j < |sorted| => EntryFor(c, Str(sorted[j])).value);
    KeyedBy(c, sorted, r);
    SortedCovers(c, names, sorted, r);
    r
  }

  /** Each name of the sorted set is the key of some entry. */
  lemma SortedHasKeys<V>(c: seq<(Value, V)>, names: set<string>, sorted: seq<string>)
    requires forall i :: 0 <= i < |c| ==> c[i].0.Str?
    requires names == set i | 0 <= i < |c| :: c[i].0.s
    requires forall x :: x in sorted <==> x in names
    ensures forall j :: 0 <= j < |sorted| ==> HasKey(c, Str(sorted[j]))
  {
    forall j | 0 <= j < |sorted| ensures HasKey(c, Str(sorted[j])) {
      assert sorted[j] in names;
      var i :| 0 <= i < |c| && c[i].0.s == sorted[j];
      assert c[i].0 == Str(sorted[j]);
    }
  }

  /** Entries keyed by distinct names in ascending order have distinct,
      ascending keys. */
  lemma KeyedBy<V>(c: seq<(Value, V)>, sorted: seq<string>, r: seq<(Value, V)>)
    requires forall j :: 0 <= j < |sorted| ==> HasKey(c, Str(sorted[j]))
    requires Order.Sorted(sorted)
    requires forall i, j :: 0 <= i < j < |sorted| ==> sorted[i] != sorted[j]
    requires |r| == |sorted|
    requires forall j :: 0 <= j < |r| ==> r[j] == EntryFor(c, Str(sorted[j])).value
    ensures DistinctKeys(r) && KeysAscending(r)
  {
    forall j | 0 <= j < |r| ensures r[j].0 == Str(sorted[j]) {
    }
  }

  lemma SortedCovers<V(!new)>(c: seq<(Value, V)>, names: set<string>, sorted: seq<string>, r: seq<(Value, V)>)
    requires DistinctKeys(c)
    requires forall i :: 0 <= i < |c| ==> c[i].0.Str?
    requires names == set i | 0 <= i < |c| :: c[i].0.s
    requires forall x :: x in sorted <==> x in names
    requires forall j :: 0 <= j < |sorted| ==> HasKey(c, Str(sorted[j]))
    requires |r| == |sorted|
    requires forall j :: 0 <= j < |r| ==> r[j] == EntryFor(c, Str(sorted[j])).value
    ensures forall x :: x in r <==> x in c
  {
    forall x | x in c ensures x in r {
      var i :| 0 <= i < |c| && c[i] == x;
      assert x.0.s in names;
      var j :| 0 <= j < |sorted| && sorted[j] == x.0.s;
      var e := EntryFor(c, Str(sorted[j])).value;
      var i2 :| 0 <= i2 < |c| && c[i2] == e;
      assert c[i2].0 == c[i].0;
      assert i2 == i;
      assert r[j] == x;
    }
  }

  /** The entry of `c` for `k`, if there is one. */
  function EntryFor<V>(c: seq<(Value, V)>, k: Value): (e: Option<(Value, V)>)
    ensures e.Some? <==> HasKey(c, k)
    ensures e.Some? ==> e.value in c && e.value.0 == k
  {
    if |c| == 0 then None
    else if c[0].0 == k then Some(c[0])
    else
      HasKeyTail(c);
      EntryFor(c[1..], k)
  }

  /** In a list without duplicates, the count looked up for an entry's
      value is that entry's count. */
  lemma {:induction false} LookupEntry(c: Counts, e: (Value, nat))
    requires DistinctKeys(c) && e in c
    ensures Lookup(c, e.0) == e.1
  {
    DistinctTail(c);
    if c[0] != e {
      assert c[0].0 != e.0;
      assert e in c[1..];
      LookupEntry(c[1..], e);
    }
  }

  /** Two lists holding the same entries have the same values. */
  lemma SameEntriesSameKeys<V>(a: seq<(Value, V)>, b: seq<(Value, V)>)
    requires forall x :: x in a <==> x in b
    ensures forall k :: HasKey(a, k) <==> HasKey(b, k)
  {
    forall k ensures HasKey(a, k) <==> HasKey(b, k) {
      if HasKey(a, k) {
        var i :| 0 <= i < |a| && a[i].0 == k;
        assert a[i] in b;
        var j :| 0 <= j < |b| && b[j] == a[i];
      }
      if HasKey(b, k) {
        var j :| 0 <= j < |b| && b[j].0 == k;
        assert b[j] in a;
        var i :| 0 <= i < |a| && a[i] == b[j];
      }
    }
  }

  /** Two lists without duplicates holding the same entries count alike:
      sorting a tally keeps every count. */
  lemma SameEntriesSameCounts(a: Counts, b: Counts)
    requires DistinctKeys(a) && DistinctKeys(b)
    requires forall x :: x in a <==> x in b
    ensures forall k :: Lookup(a, k) == Lookup(b, k)
    ensures forall k :: HasKey(a, k) <==> HasKey(b, k)
  {
    SameEntriesSameKeys(a, b);
    forall k ensures Lookup(a, k) == Lookup(b, k) {
      if HasKey(a, k) {
        var i :| 0 <= i < |a| && a[i].0 == k;
        LookupEntry(a, a[i]);
        LookupEntry(b, a[i]);
      } else {
        NotKeyLookup(a, k);
        NotKeyLookup(b, k);
      }
    }
  }

  /** A status as the debug reports label it. */
  function StatusLabel(status: Value): (shown: string)
    ensures status == Str("none") ==> shown == "no status"
    ensures status != Str("none") ==> shown == Show(status)
  {
    if status == Str("none") then "no status" else Show(status)
  }

  /** The values of the entries, in order. */
  function Keys<V>(c: seq<(Value, V)>): (ks: seq<Value>)
    ensures |ks| == |c|
    ensures forall i :: 0 <= i < |c| ==> ks[i] == c[i].0
  {
    if |c| == 0 then [] else [c[0].0] + Keys(c[1..])
  }

  /** The distinct values of `xs`, in the order they first occur. */
  function FirstSeen(xs: seq<Value>): (fs: seq<Value>)
    ensures forall x :: x in fs <==> x in xs
    ensures forall i, j :: 0 <= i < j < |fs| ==> fs[i] != fs[j]
    decreases |xs|
  {
    if |xs| == 0 then []
    else
      var init := xs[..|xs| - 1];
      var last := xs[|xs| - 1];
      assert xs == init + [last];
      if last in init then FirstSeen(init) else FirstSeen(init) + [last]
  }

  /** Counting a value already counted keeps the order of the entries;
      counting a new one appends it. */
  lemma {:induction false} BumpKeys(c: Counts, k: Value)
    requires DistinctKeys(c)
    ensures Keys(Bump(c, k)) == if HasKey(c, k) then Keys(c) else Keys(c) + [k]
    decreases |c|
  {
    if |c| > 0 {
      DistinctTail(c);
      HasKeyTail(c);
      var r := Bump(c, k);
      if c[0].0 == k {
        assert r[1..] == c[1..];
      } else {
        BumpKeys(c[1..], k);
        assert r[1..] == Bump(c[1..], k);
      }
    }
  }

  /** The loop counts one more value: `CountBy` of a sequence extended by
      `x` bumps `x`. */
  lemma CountBySnoc(xs: seq<Value>, x: Value)
    ensures CountBy(xs + [x]) == Bump(CountBy(xs), x)
  {
    assert (xs + [x])[..|xs|] == xs;
  }

  /** The counting loop lists the values in the order they first occur. */
  lemma {:induction false} CountByOrder(xs: seq<Value>)
    ensures Keys(CountBy(xs)) == FirstSeen(xs)
    decreases |xs|
  {
    if |xs| > 0 {
      var init := xs[..|xs| - 1];
      var last := xs[|xs| - 1];
      assert xs == init + [last];
      CountByOrder(init);
      CountBySnoc(init, last);
      BumpKeys(CountBy(init), last);
    }
  }

  /** The report line for one status and its count. */
  function StatusLine(status: Value, count: nat): string {
    "   • " + StatusLabel(status) + ": " + Numbers.IntToString(count)
  }

  /** The report lines of a tally, one per entry, in its order. */
  function StatusLines(c: Counts): (ls: seq<string>)
    ensures |ls| == |c|
    ensures forall i :: 0 <= i < |c| ==> ls[i] == StatusLine(c[i].0, c[i].1)
  {
    seq(|c|, i requires 0 <= i < |c| => StatusLine(c[i].0, c[i].1))
  }

  /** Reference lines computed from the values alone: one per distinct
      value, in the order first seen, with the number of its occurrences. */
  function FirstSeenLines(xs: seq<Value>): seq<string> {
    var fs := FirstSeen(xs);
    seq(|fs|, i requires 0 <= i < |fs| => StatusLine(fs[i], multiset(xs)[fs[i]]))
  }

  /** The lines of the counting loop's tally are the reference lines: the
      statuses in the order first seen, each with its number of occurrences. */
  lemma CountedLines(xs: seq<Value>)
    ensures StatusLines(CountBy(xs)) == FirstSeenLines(xs)
  {
    var c := CountBy(xs);
    CountByOrder(xs);
    forall i | 0 <= i < |c| ensures c[i].1 == multiset(xs)[c[i].0] {
      LookupEntry(c, c[i]);
    }
  }

  /** The lines of any tally without duplicates whose counts are those of
      `xs` and whose values are those of `xs`: each value of `xs` has its
      line with its count, and every line is such a line. */
  lemma TallyLines(xs: seq<Value>, c: Counts)
    requires DistinctKeys(c)
    requires forall k :: Lookup(c, k) == multiset(xs)[k]
    requires forall k :: HasKey(c, k) <==> k in xs
    ensures forall x :: x in xs ==> StatusLine(x, multiset(xs)[x]) in StatusLines(c)
    ensures forall i :: 0 <= i < |c| ==> c[i].0 in xs && StatusLines(c)[i] == StatusLine(c[i].0, multiset(xs)[c[i].0])
  {
    var ls := StatusLines(c);
    forall i | 0 <= i < |c| ensures c[i].0 in xs && ls[i] == StatusLine(c[i].0, multiset(xs)[c[i].0]) {
      assert HasKey(c, c[i].0);
      LookupEntry(c, c[i]);
    }
    forall x | x in xs ensures StatusLine(x, multiset(xs)[x]) in ls {
      assert HasKey(c, x);
      var i :| 0 <= i < |c| && c[i].0 == x;
      assert ls[i] == StatusLine(x, multiset(xs)[x]);
    }
  }
}

=== FILE: task_store.dfy ===
/** The task linker's store (task_linker/task_store.py): tasks live in the
    user's partition `USER#<user>` under sort keys `TASK#<task id>`. */
module TaskStore {
  import opened Wrappers
  import opened Values
  import opened Table
  import Text
  import Order
  import Status

  const UserPrefix := "USER#"
  const TaskPrefix := "TASK#"

  /** `make_task_keys`. */
  function MakeTaskKeys(userId: string, taskId: string): (k: Key)
    ensures Text.StartsWith(k.0, UserPrefix) && Text.StartsWith(k.1, TaskPrefix)
    ensures k.0[|UserPrefix|..] == userId && k.1[|TaskPrefix|..] == taskId
  {
    (UserPrefix + userId, TaskPrefix + taskId)
  }

  /** Distinct (user, task) pairs get distinct keys. */
  lemma MakeTaskKeysInjective(u1: string, t1: string, u2: string, t2: string)
    requires MakeTaskKeys(u1, t1) == MakeTaskKeys(u2, t2)
    ensures u1 == u2 && t1 == t2
  {
    assert u1 == MakeTaskKeys(u1, t1).0[|UserPrefix|..];
    assert t1 == MakeTaskKeys(u1, t1).1[|TaskPrefix|..];
  }

  /** The filter `Attr("status").ne("completed")`. An item without a status
      counts as not completed. */
  predicate NotCompleted(item: Record) {
    Get(item, "status") != Str(Status.Completed)
  }

  predicate IsOpenTask(t: Table, pk: string, sk: string) {
    Text.StartsWith(sk, TaskPrefix) && (pk, sk) in t && NotCompleted(t[(pk, sk)])
  }

  /** The sort keys of the user's open tasks, in the order the query returns them. */
  function OpenTaskKeys(t: Table, userId: string): (sks: seq<string>)
    ensures Order.Sorted(sks)
    ensures forall sk :: sk in sks <==> IsOpenTask(t, UserPrefix + userId, sk)
    ensures forall i, j :: 0 <= i < j < |sks| ==> sks[i] != sks[j]
  {
    var pk := UserPrefix + userId;
    QueryKeys(t, pk, sk => IsOpenTask(t, pk, sk))
  }

  /** `list_open_tasks`: every task item of the user's partition whose status
      is not "completed", once each, in sort-key order. */
  function ListOpenTasks(t: Table, userId: string): (tasks: seq<Record>)
    ensures |tasks| == |OpenTaskKeys(t, userId)|
    ensures forall i :: 0 <= i < |tasks| ==>
      var k := (UserPrefix + userId, OpenTaskKeys(t, userId)[i]);
      k in t && tasks[i] == t[k] && NotCompleted(tasks[i])
  {
    var pk := UserPrefix + userId;
    Query(t, pk, sk => IsOpenTask(t, pk, sk))
  }

  /** A completed task is never listed; every other task of the user is. */
  lemma ListOpenTasksExactly(t: Table, userId: string, taskId: string)
    requires MakeTaskKeys(userId, taskId) in t
    ensures var k := MakeTaskKeys(userId, taskId);
      k.1 in OpenTaskKeys(t, userId) <==> NotCompleted(t[k])
  {
    var k := MakeTaskKeys(userId, taskId);
    assert Text.StartsWith(k.1, TaskPrefix);
  }

  /** `update_task_status`: sets the status of that one task and nothing else;
      like DynamoDB's update, it creates the item when it is absent. */
  function UpdateTaskStatus(t: Table, userId: string, taskId: string, newStatus: string): (t': Table)
    ensures var k := MakeTaskKeys(userId, taskId);
      && t'.Keys == t.Keys + {k}
      && Get(t'[k], "status") == Str(newStatus)
      && (k in t ==> t'[k].Keys == t[k].Keys + {"status"})
      && (k in t ==> forall a :: a in t[k] && a != "status" ==> t'[k][a] == t[k][a])
      && (forall other :: other in t && other != k ==> t'[other] == t[other])
  {
    Apply(t, Update(MakeTaskKeys(userId, taskId), map["status" := Str(newStatus)]))
  }

  /** The item `create_task` writes. */
  function TaskItem(userId: string, taskId: string, name: string, status: string, embedding: seq<real>, now: string)
    : (item: Record)
    ensures KeyOf(item) == Some(MakeTaskKeys(userId, taskId))
  {
    var k := MakeTaskKeys(userId, taskId);
    map[
      "PK" := Str(k.0),
      "SK" := Str(k.1),
      "taskId" := Str(taskId),
      "entityType" := Str("Task"),
      "name" := Str(name),
      "status" := Str(status),
      "embedding" := Vec(embedding),
      "createdAt" := Str(now)
    ]
  }

  /** `create_task`: stores one new task under the fresh id `taskId` (the
      source draws it from uuid4) and returns that id. */
  function CreateTask(t: Table, userId: string, name: string, status: string, embedding: seq<real>, taskId: string, now: string)
    : (r: (Table, string))
    ensures r.1 == taskId
    ensures var k := MakeTaskKeys(userId, taskId);
      && r.0.Keys == t.Keys + {k}
      && r.0[k] == TaskItem(userId, taskId, name, status, embedding, now)
      && (forall other :: other in t && other != k ==> r.0[other] == t[other])
    ensures MakeTaskKeys(userId, taskId) !in t ==> |r.0| == |t| + 1
  {
    var k := MakeTaskKeys(userId, taskId);
    (Apply(t, Put(k, TaskItem(userId, taskId, name, status, embedding, now))), taskId)
  }

  /** A new task is listed among its user's open tasks unless it was created completed. */
  lemma CreatedTaskListed(t: Table, userId: string, name: string, status: string, embedding: seq<real>, taskId: string, now: string)
    ensures var t' := CreateTask(t, userId, name, status, embedding, taskId, now).0;
      TaskPrefix + taskId in OpenTaskKeys(t', userId) <==> status != Status.Completed
  {
    var t' := CreateTask(t, userId, name, status, embedding, taskId, now).0;
    var k := MakeTaskKeys(userId, taskId);
    assert Get(t'[k], "status") == Str(status);
  }
}

=== FILE: text.dfy ===
/** The Python `str` operations the source relies on, over `string`
    (a sequence of Unicode scalar values). */
module Text {
  import opened Wrappers

  /** Python's `str.isspace` for a single character. */
  predicate IsSpace(c: char) {
    || c == ' '
    || ('\t' <= c <= '\r')
    || ('\U{1c}' <= c <= '\U{1f}')
    || c == '\U{85}' || c == '\U{a0}' || c == '\U{1680}'
    || ('\U{2000}' <= c <= '\U{200a}')
    || c == '\U{2028}' || c == '\U{2029}' || c == '\U{202f}' || c == '\U{205f}' || c == '\U{3000}'
  }

  /** The line boundaries of Python's `str.splitlines`; a "\r\n" pair counts once. */
  predicate IsLineBreak(c: char) {
    || ('\n' <= c <= '\r')
    || ('\U{1c}' <= c <= '\U{1e}')
    || c == '\U{85}' || c == '\U{2028}' || c == '\U{2029}'
  }

  predicate StartsWith(s: string, prefix: string) {
    |prefix| <= |s| && s[..|prefix|] == prefix
  }

  /** Python's `sub in s`. */
  predicate Contains(s: string, sub: string)
    decreases |s|
  {
    StartsWith(s, sub) || (|s| > 0 && Contains(s[1..], sub))
  }

  /** `sub` occurs in `s` where it starts at `i`. */
  lemma {:induction false} ContainsAt(s: string, sub: string, i: nat)
    requires i <= |s| && StartsWith(s[i..], sub)
    ensures Contains(s, sub)
    decreases i
  {
    if i > 0 {
      assert s[1..][i - 1..] == s[i..];
      ContainsAt(s[1..], sub, i - 1);
    }
  }

  /** Length of the longest prefix of `s` none of whose characters satisfies `stop`. */
  function Span(s: string, stop: char -> bool): (n: nat)
    ensures n <= |s|
    ensures forall i :: 0 <= i < n ==> !stop(s[i])
    ensures n < |s| ==> stop(s[n])
  {
    if |s| == 0 || stop(s[0]) then 0 else 1 + Span(s[1..], stop)
  }

  /** Python's `str.lstrip()`. */
  function StripLeft(s: string): (r: string)
    ensures |r| <= |s| && r == s[|s| - |r|..]
    ensures forall i :: 0 <= i < |s| - |r| ==> IsSpace(s[i])
    ensures |r| > 0 ==> !IsSpace(r[0])
  {
    s[Span(s, c => !IsSpace(c))..]
  }

  /** Python's `str.rstrip()`. */
  function StripRight(s: string): (r: string)
    ensures |r| <= |s| && r == s[..|r|]
    ensures forall i :: |r| <= i < |s| ==> IsSpace(s[i])
    ensures |r| > 0 ==> !IsSpace(r[|r| - 1])
    decreases |s|
  {
    if |s| > 0 && IsSpace(s[|s| - 1]) then StripRight(s[..|s| - 1]) else s
  }

  /** Python's `str.strip()`: the longest infix that neither starts nor ends
      with white space, reached by removing only white space. */
  function Strip(s: string): (r: string)
    ensures |r| <= |s|
    ensures |r| > 0 ==> !IsSpace(r[0]) && !IsSpace(r[|r| - 1])
    ensures (forall i :: 0 <= i < |s| ==> IsSpace(s[i])) <==> r == []
  {
    var l := StripLeft(s);
    var r := StripRight(l);
    assert r == s[|s| - |l|..|s| - |l| + |r|];
    StripEmptyOnlyIfSpace(s, l, r);
    r
  }

  lemma StripEmptyOnlyIfSpace(s: string, l: string, r: string)
    requires l == StripLeft(s) && r == StripRight(l)
    ensures r == [] ==> forall i :: 0 <= i < |s| ==> IsSpace(s[i])
  {
    if r == [] {
      forall i | 0 <= i < |s| ensures IsSpace(s[i]) {
      }
    }
  }

  /** Stripping a string that neither starts nor ends with white space changes nothing. */
  lemma StripNoop(s: string)
    requires |s| > 0 && !IsSpace(s[0]) && !IsSpace(s[|s| - 1])
    ensures Strip(s) == s
  {
    assert StripLeft(s) == s;
  }

  /** Index of the first occurrence of `c`, Python's `str.find` when it is not -1. */
  function IndexOf(s: string, c: char): (r: Option<nat>)
    ensures r.Some? ==> r.value < |s| && s[r.value] == c && c !in s[..r.value]
    ensures r.None? <==> c !in s
  {
    var n := Span(s, x => x == c);
    if n == |s| then None else Some(n)
  }

  /** Python's `s.split(c, 1)` when it yields two parts. */
  function SplitFirst(s: string, c: char): (r: Option<(string, string)>)
    ensures r.None? <==> c !in s
    ensures r.Some? ==> s == r.value.0 + [c] + r.value.1 && c !in r.value.0
  {
    match IndexOf(s, c)
    case None => None
    case Some(i) =>
      assert s == s[..i] + [c] + s[i + 1..];
      Some((s[..i], s[i + 1..]))
  }

  /** Splitting `x + [c] + y` at its first `c` gives back `x` and `y` when `x` has no `c`. */
  lemma SplitFirstOf(x: string, y: string, c: char)
    requires c !in x
    ensures SplitFirst(x + [c] + y, c) == Some((x, y))
  {
    var s := x + [c] + y;
    assert s[|x|] == c;
    assert forall i :: 0 <= i < |x| ==> s[i] == x[i];
    var n := IndexOf(s, c).value;
    assert n == |x|;
    assert s[..n] == x && s[n + 1..] == y;
  }

  /** Python's `s.split(c)[0]`: the text before the first `c`, or all of `s`. */
  function BeforeFirst(s: string, c: char): (r: string)
    ensures StartsWith(s, r) && c !in r
    ensures |r| < |s| <==> c in s
  {
    match SplitFirst(s, c)
    case None => s
    case Some((before, _)) => before
  }

  function LowerChar(c: char): char {
    if 'A' <= c <= 'Z' then (c as int + 32) as char else c
  }

  function UpperChar(c: char): char {
    if 'a' <= c <= 'z' then (c as int - 32) as char else c
  }

  predicate IsAsciiLetter(c: char) {
    ('a' <= c <= 'z') || ('A' <= c <= 'Z')
  }

  /** Python's `str.lower()` on ASCII letters. For the comparisons the model
      makes against lower-case ASCII keywords this is exact: the only
      characters Python lowers to ASCII are U+212A (to "k") and U+0130 (to
      "i" followed by U+0307). */
  function Lower(s: string): (r: string)
    ensures |r| == |s|
  {
    seq(|s|, i requires 0 <= i < |s| => LowerChar(s[i]))
  }

  /** Python's `str.title()` on ASCII text: a letter is upper-cased when the
      character before it is not a letter, lower-cased otherwise. */
  function Title(s: string): (r: string)
    ensures |r| == |s|
  {
    TitleAfter(s, false)
  }

  function TitleAfter(s: string, afterLetter: bool): (r: string)
    ensures |r| == |s|
  {
    if |s| == 0 then []
    else
      var c := s[0];
      [if !IsAsciiLetter(c) then c else if afterLetter then LowerChar(c) else UpperChar(c)]
      + TitleAfter(s[1..], IsAsciiLetter(c))
  }

  /** Python's `sep.join(parts)`. */
  function Join(parts: seq<string>, sep: string): string {
    if |parts| == 0 then ""
    else if |parts| == 1 then parts[0]
    else parts[0] + sep + Join(parts[1..], sep)
  }

  /** A joined text starts with its first part. */
  lemma JoinStartsWith(parts: seq<string>, sep: string)
    requires |parts| > 0
    ensures |parts[0]| <= |Join(parts, sep)|
    ensures Join(parts, sep)[..|parts[0]|] == parts[0]
  {
  }

  /** Python's `str.split()` with no separator: the maximal runs of
      non-white-space characters, in order. */
  function SplitWhitespace(s: string): (r: seq<string>)
    ensures forall i :: 0 <= i < |r| ==> IsWord(r[i])
    decreases |s|
  {
    var t := StripLeft(s);
    if |t| == 0 then []
    else
      var n := Span(t, IsSpace);
      WordRun(t);
      var rest := SplitWhitespace(t[n..]);
      WordsCons(t[..n], rest);
      [t[..n]] + rest
  }

  lemma WordsCons(w: string, rest: seq<string>)
    requires IsWord(w) && forall i :: 0 <= i < |rest| ==> IsWord(rest[i])
    ensures forall i :: 0 <= i < |rest| + 1 ==> IsWord(([w] + rest)[i])
  {
    forall i | 0 <= i < |rest| + 1 ensures IsWord(([w] + rest)[i]) {
      if i > 0 { assert ([w] + rest)[i] == rest[i - 1]; }
    }
  }

  /** The run before the first white space of a text that starts with none. */
  lemma WordRun(t: string)
    requires |t| > 0 && !IsSpace(t[0])
    ensures var n := Span(t, IsSpace); 0 < n && IsWord(t[..n])
  {
    var n := Span(t, IsSpace);
    forall j | 0 <= j < n ensures !IsSpace(t[..n][j]) {
      assert t[..n][j] == t[j];
    }
  }

  /** A non-empty run of non-white-space characters. */
  predicate IsWord(w: string) {
    |w| > 0 && forall j :: 0 <= j < |w| ==> !IsSpace(w[j])
  }

  /** Python's `str.splitlines()`: a final line break does not open an empty line. */
  function SplitLines(s: string): (r: seq<string>)
    ensures forall i :: 0 <= i < |r| ==> NoLineBreak(r[i])
    ensures |s| == 0 <==> |r| == 0
    decreases |s|
  {
    if |s| == 0 then []
    else
      var n := Span(s, IsLineBreak);
      if n == |s| then [s]
      else
        assert NoLineBreak(s[..n]);
        var next := if s[n] == '\r' && n + 1 < |s| && s[n + 1] == '\n' then n + 2 else n + 1;
        [s[..n]] + SplitLines(s[next..])
  }

  predicate NoLineBreak(line: string) {
    forall j :: 0 <= j < |line| ==> !IsLineBreak(line[j])
  }

  /** A line ended by "\n" is split off as it is. */
  lemma SplitLinesCons(line: string, rest: string)
    requires NoLineBreak(line)
    ensures SplitLines(line + "\n" + rest) == [line] + SplitLines(rest)
  {
    var s := line + "\n" + rest;
    assert s[..|line|] == line;
    assert Span(s, IsLineBreak) == |line| by {
      assert forall i :: 0 <= i < |line| ==> s[i] == line[i];
      assert s[|line|] == '\n';
    }
    assert s[|line| + 1..] == rest;
  }

  /** `s` with every occurrence of `c` removed (`s.replace(c, "")`). */
  function Remove(s: string, c: char): (r: string)
    ensures c !in r
    ensures |r| <= |s|
  {
    if |s| == 0 then []
    else (if s[0] == c then [] else [s[0]]) + Remove(s[1..], c)
  }

  /** Python's `s.replace(from, to)` for single characters. */
  function ReplaceChar(s: string, from: char, to: char): (r: string)
    ensures |r| == |s|
    ensures forall i :: 0 <= i < |s| ==> r[i] == (if s[i] == from then to else s[i])
  {
    seq(|s|, i requires 0 <= i < |s| => if s[i] == from then to else s[i])
  }

  /** Python's slice `s[front:-back]` for positive `back`. */
  function DropEnds(s: string, front: nat, back: nat): (r: string)
    requires back > 0
    ensures front + back < |s| ==> r == s[front..|s| - back]
    ensures front + back >= |s| ==> r == ""
  {
    if front + back < |s| then s[front..|s| - back] else ""
  }
}

=== FILE: values.dfy ===
/** Dictionary-shaped data as the source handles it: DynamoDB items, the
    classifier's JSON object, index metadata. A key that is absent is
    distinguished from a key whose value is `None` (`Null`), exactly as
    Python's `dict.get` distinguishes them. */
module Values {
  import Numbers

  datatype Value =
    | Str(s: string)
    | Int(i: int)
    | Real(r: real)
    | Bool(b: bool)
    | Null
    | Vec(xs: seq<real>)

  type Record = map<string, Value>

  /** What Python raises when a list is hashed: used as a dict key, looked
      up in a dict or passed to `hash`. */
  const Unhashable := "TypeError: unhashable type: 'list'"

  /** Python's `d.get(k, default)`. */
  function GetOr(d: Record, k: string, default: Value): (v: Value)
    ensures k in d ==> v == d[k]
    ensures k !in d ==> v == default
  {
    if k in d then d[k] else default
  }

  /** A value Python can slice (`v[:100]`): a string or a list. A number,
      a bool or `None` raises `TypeError` there. */
  predicate Sliceable(v: Value) {
    v.Str? || v.Vec?
  }

  /** What Python raises when a value that is not `Sliceable` is sliced. */
  const NotSubscriptable := "TypeError: object is not subscriptable"

  /** Python's `d.get(k)`: `None` both when `k` is absent and when it maps to `None`. */
  function Get(d: Record, k: string): Value {
    GetOr(d, k, Null)
  }

  /** Python's truth value of an attribute. */
  predicate Truthy(v: Value) {
    match v
    case Str(s) => s != ""
    case Int(i) => i != 0
    case Real(r) => r != 0.0
    case Bool(b) => b
    case Null => false
    case Vec(xs) => |xs| > 0
  }

  /** Python's `str(v)` as an f-string renders it. Only integral floats of
      magnitude below 10^16 are rendered the way Python does (from 10^16 on
      Python switches to exponent form); other floats and vectors get a
      fixed placeholder. */
  function Show(v: Value): string {
    match v
    case Str(s) => s
    case Int(i) => Numbers.IntToString(i)
    case Real(r) =>
      if r == r.Floor as real && -1e16 < r < 1e16 then Numbers.IntToString(r.Floor) + ".0" else "<float>"
    case Bool(b) => if b then "True" else "False"
    case Null => "None"
    case Vec(_) => "<vector>"
  }

  /** Python's `type(v).__name__`. */
  function TypeName(v: Value): string {
    match v
    case Str(_) => "str"
    case Int(_) => "int"
    case Real(_) => "float"
    case Bool(_) => "bool"
    case Null => "NoneType"
    case Vec(_) => "list"
  }

  /** The string held by `v`, if it is one. */
  function AsString(v: Value): string {
    if v.Str? then v.s else ""
  }
}

=== FILE: webhook_app.dfy ===
/** The stand-alone webhook (processor/app.py): optional webhook
    verification, message-shape branching, AI classification with a
    fallback, a 60% gate and the stored item's shape. The HMAC comparison,
    the AI providers, JSON decoding and the clock are parameters. */
module WebhookApp {
  import opened Wrappers
  import opened Values
  import opened Table
  import opened Http
  import Text
  import Matcher
  import ProcessAction
  import Prompts

  const JsonFence := "```json"

  /** The fence handling of `classify_with_ai` on the stripped answer: drop
      the first 7 and the last 3 characters of a fenced answer. Unlike the
      older handler it does not strip again. */
  function Unfence(content: string): (r: string)
    ensures !Text.StartsWith(content, JsonFence) ==> r == content
    ensures Text.StartsWith(content, JsonFence) ==> r == Text.DropEnds(content, 7, 3)
  {
    if Text.StartsWith(content, JsonFence) then Text.DropEnds(content, 7, 3) else content
  }

  /** "```json" + payload + "```" gives back exactly the payload. */
  lemma UnfenceRoundTrip(payload: string)
    ensures Unfence(JsonFence + payload + "```") == payload
  {
    var s := JsonFence + payload + "```";
    assert s[..|JsonFence|] == JsonFence;
    assert s[7..|s| - 3] == payload;
  }

  /** `verify_webhook`: without a configured secret every request passes;
      otherwise the HMAC comparison decides (`hmacMatches`). */
  function VerifyWebhook(secret: Option<string>, hmacMatches: bool): (ok: bool)
    ensures secret.None? || secret.value == "" ==> ok
    ensures secret.Some? && secret.value != "" ==> ok == hmacMatches
  {
    if secret.None? || secret.value == "" then true else hmacMatches
  }

  /** `classify_with_ai`: Claude when its key is set and its SDK imports,
      then OpenAI likewise; a failed attempt (an exception, including a
      malformed answer) falls through, and with no answer the result is `None`. */
  function ClassifyWithAi(
    text: string,
    claudeEnabled: bool, claude: string -> Result<Record>,
    openaiEnabled: bool, openai: string -> Result<Record>
  ): (r: Option<Record>)
    ensures claudeEnabled && claude(text).Ok? ==> r == Some(claude(text).value)
    ensures !(claudeEnabled && claude(text).Ok?) && openaiEnabled && openai(text).Ok? ==> r == Some(openai(text).value)
    ensures r.None? <==> !(claudeEnabled && claude(text).Ok?) && !(openaiEnabled && openai(text).Ok?)
  {
    if claudeEnabled && claude(text).Ok? then Some(claude(text).value)
    else if openaiEnabled && openai(text).Ok? then Some(openai(text).value)
    else None
  }

  /** `classify_with_ai` as written: each attempt formats
      `AI_CLASSIFICATION_PROMPT` inside its `try`. `ClassifyWithAi` is the
      same code with the prompt's JSON braces doubled, where the providers
      see the message. */
  function ClassifyWithAiAsWritten(
    text: string,
    claudeEnabled: bool, claude: string -> Result<Record>,
    openaiEnabled: bool, openai: string -> Result<Record>
  ): Option<Record>
  {
    ClassifyWithAi(text, claudeEnabled, Prompts.PromptedResult(claude, Prompts.AppTemplate),
                   openaiEnabled, Prompts.PromptedResult(openai, Prompts.AppTemplate))
  }

  /** When every attempt raises, nothing is classified. */
  lemma FailingProvidersNeverClassify(
    text: string,
    claudeEnabled: bool, claude: string -> Result<Record>,
    openaiEnabled: bool, openai: string -> Result<Record>
  )
    requires claude(text).Err? && openai(text).Err?
    ensures ClassifyWithAi(text, claudeEnabled, claude, openaiEnabled, openai).None?
  {
  }

  /** As written, formatting raises `KeyError` for every message
      (`Prompts.AppPromptFails`); each attempt catches and logs it, so no
      message is ever classified. */
  lemma AsWrittenNeverClassifies(
    text: string,
    claudeEnabled: bool, claude: string -> Result<Record>,
    openaiEnabled: bool, openai: string -> Result<Record>
  )
    ensures ClassifyWithAiAsWritten(text, claudeEnabled, claude, openaiEnabled, openai).None?
  {
    var c := Prompts.PromptedResult(claude, Prompts.AppTemplate);
    var o := Prompts.PromptedResult(openai, Prompts.AppTemplate);
    Prompts.AppPromptedFails(claude, text);
    Prompts.AppPromptedFails(openai, text);
    FailingProvidersNeverClassify(text, claudeEnabled, c, openaiEnabled, o);
  }

  /** The timestamp with '-', ':' and '.' removed, the second half of the SK. */
  function Compact(timestamp: string): (r: string)
    ensures '-' !in r && ':' !in r && '.' !in r
  {
    var a := Text.Remove(timestamp, '-');
    var b := Text.Remove(a, ':');
    assert forall i :: 0 <= i < |b| ==> b[i] in a by {
      RemoveKeeps(a, ':');
    }
    var c := Text.Remove(b, '.');
    RemoveKeeps(b, '.');
    c
  }

  lemma {:induction false} RemoveKeeps(s: string, c: char)
    ensures forall x :: x in Text.Remove(s, c) ==> x in s
  {
    if |s| > 0 {
      RemoveKeeps(s[1..], c);
      assert Text.Remove(s, c) == (if s[0] == c then [] else [s[0]]) + Text.Remove(s[1..], c);
    }
  }

  /** The item `store_brain_item` puts. */
  function BrainItem(classification: Record, originalMessage: string, chatId: string, timestamp: string): Record
    requires "category" in classification
  {
    map[
      "PK" := Str(Matcher.CategoryPk(classification["category"])),
      "SK" := Str(timestamp + "#" + Compact(timestamp)),
      "category" := classification["category"],
      "name" := GetOr(classification, "name", Str("Untitled")),
      "status" := GetOr(classification, "status", Str("open")),
      "next_action" := GetOr(classification, "next_action", Str("")),
      "notes" := GetOr(classification, "notes", Str("")),
      "original_text" := Str(originalMessage),
      "confidence" := GetOr(classification, "confidence", Int(0)),
      "chat_id" := Str(chatId),
      "created_at" := Str(timestamp),
      "updated_at" := Str(timestamp)
    ]
  }

  /** `store_brain_item`: a classification without a category, or one that
      leaves a float in the item (which `put_item` cannot serialise), is
      caught and reported as `False`, with nothing written. */
  function StoreBrainItem(t: Table, classification: Record, originalMessage: string, chatId: string, timestamp: string)
    : (r: (bool, Table))
    ensures r.0 <==> "category" in classification
                     && Storable(BrainItem(classification, originalMessage, chatId, timestamp))
    ensures !r.0 ==> r.1 == t
    ensures r.0 ==>
      var k := (Matcher.CategoryPk(classification["category"]), timestamp + "#" + Compact(timestamp));
      && r.1 == t[k := BrainItem(classification, originalMessage, chatId, timestamp)]
      && r.1.Keys == t.Keys + {k}
  {
    if "category" in classification then
      var item := BrainItem(classification, originalMessage, chatId, timestamp);
      if Storable(item) then
        var k := (Matcher.CategoryPk(classification["category"]), timestamp + "#" + Compact(timestamp));
        (true, t[k := item])
      else (false, t)
    else (false, t)
  }

  /** The classification fields the stored item copies. */
  const ClassificationFields := {"category", "name", "status", "next_action", "notes", "confidence"}

  /** The stored item can be serialised exactly when none of the fields it
      copies from the classification is a float. */
  lemma BrainItemStorable(classification: Record, originalMessage: string, chatId: string, timestamp: string)
    requires "category" in classification
    ensures Storable(BrainItem(classification, originalMessage, chatId, timestamp))
        <==> forall a :: a in ClassificationFields && a in classification ==> !classification[a].Real?
  {
    var item := BrainItem(classification, originalMessage, chatId, timestamp);
    if forall a :: a in ClassificationFields && a in classification ==> !classification[a].Real? {
      forall a | a in item ensures !item[a].Real? {
        if a in ClassificationFields && a in classification {
          assert !classification[a].Real?;
        }
      }
    } else {
      var a :| a in ClassificationFields && a in classification && classification[a].Real?;
      assert item[a] == classification[a];
    }
  }

  /** A confidence given as a float, such as 85.5, makes the store fail. */
  lemma FloatConfidenceNotStored(t: Table, classification: Record, originalMessage: string, chatId: string, timestamp: string)
    requires "category" in classification && "confidence" in classification
    requires classification["confidence"] == Real(85.5)
    ensures StoreBrainItem(t, classification, originalMessage, chatId, timestamp) == (false, t)
  {
    BrainItemStorable(classification, originalMessage, chatId, timestamp);
  }

  /** The stored item is created and updated at the same instant, its SK splits
      at the first '#' into that instant and its compact form (for a
      timestamp without '#'), and absent fields take their defaults. */
  lemma BrainItemShape(classification: Record, originalMessage: string, chatId: string, timestamp: string)
    requires "category" in classification
    requires '#' !in timestamp
    ensures var item := BrainItem(classification, originalMessage, chatId, timestamp);
      && item["created_at"] == item["updated_at"] == Str(timestamp)
      && Text.SplitFirst(item["SK"].s, '#') == Some((timestamp, Compact(timestamp)))
      && ("name" !in classification ==> item["name"] == Str("Untitled"))
      && ("status" !in classification ==> item["status"] == Str("open"))
      && ("next_action" !in classification ==> item["next_action"] == Str(""))
      && ("notes" !in classification ==> item["notes"] == Str(""))
  {
    BrainItemStamps(classification, originalMessage, chatId, timestamp);
    BrainItemDefaults(classification, originalMessage, chatId, timestamp);
  }

  lemma BrainItemStamps(classification: Record, originalMessage: string, chatId: string, timestamp: string)
    requires "category" in classification
    requires '#' !in timestamp
    ensures var item := BrainItem(classification, originalMessage, chatId, timestamp);
      && item["created_at"] == item["updated_at"] == Str(timestamp)
      && Text.SplitFirst(item["SK"].s, '#') == Some((timestamp, Compact(timestamp)))
  {
    Text.SplitFirstOf(timestamp, Compact(timestamp), '#');
  }

  lemma BrainItemDefaults(classification: Record, originalMessage: string, chatId: string, timestamp: string)
    requires "category" in classification
    ensures var item := BrainItem(classification, originalMessage, chatId, timestamp);
      && ("name" !in classification ==> item["name"] == Str("Untitled"))
      && ("status" !in classification ==> item["status"] == Str("open"))
      && ("next_action" !in classification ==> item["next_action"] == Str(""))
      && ("notes" !in classification ==> item["notes"] == Str(""))
  {
  }

  /** The decoded update: its "message" object and that message's "chat" object. */
  datatype AppMessage = AppMessage(fields: Record, chat: Option<Record>)

  /** `event["body"]` when present, and what the handler needs of the event. */
  datatype AppEvent = AppEvent(body: Option<string>, hmacMatches: bool)

  const VoicePlaceholder := "Voice message - transcription not implemented yet"

  /** The reply sent to the chat. */
  datatype Reply =
    | ClassifyFailed
    | LowConfidenceReply(confidence: Value)
    | StoredReply(category: Value, name: Value, status: Value, next: Option<Value>)
    | StoreFailed

  const Forbidden := Response(403, "Forbidden")
  const InvalidJson := Response(400, "Invalid JSON")
  const NoMessage := Response(200, "No message to process")
  const EmptyMessage := Response(200, "Empty message")
  const Unsupported := Response(200, "Unsupported message type")
  const ClassificationFailed := Response(500, "Classification failed")
  const LowConfidence := Response(200, "Low confidence")
  const Success := Response(200, "Success")
  const StorageFailed := Response(500, "Storage failed")
  const InternalError := Response(500, "Internal server error")

  /** The text a message carries: its stripped "text" (a non-string raises),
      the placeholder for a voice message, or `None` for any other message. */
  function MessageText(m: AppMessage): (r: Result<Option<string>>)
    ensures "text" in m.fields && m.fields["text"].Str? ==> r == Ok(Some(Text.Strip(m.fields["text"].s)))
    ensures "text" !in m.fields && "voice" in m.fields ==> r == Ok(Some(VoicePlaceholder))
    ensures "text" !in m.fields && "voice" !in m.fields ==> r == Ok(None)
    ensures r.Err? <==> "text" in m.fields && !m.fields["text"].Str?
  {
    if "text" in m.fields then
      if m.fields["text"].Str? then Ok(Some(Text.Strip(m.fields["text"].s)))
      else Err("AttributeError: text has no strip")
    else if "voice" in m.fields then Ok(Some(VoicePlaceholder))
    else Ok(None)
  }

  /** The reply after a successful save. */
  function StoredReplyOf(c: Record): Reply
    requires "category" in c
  {
    var next := Get(c, "next_action");
    StoredReply(c["category"], GetOr(c, "name", Str("Untitled")), GetOr(c, "status", Str("open")),
                if Truthy(next) then Some(next) else None)
  }

  /** The message the handler goes on to read: the request passed
      verification, its body decoded to an update with a message, and the
      message's chat has an id (otherwise `message["chat"]["id"]` raises). */
  function Incoming(secret: Option<string>, event: AppEvent, decode: string -> Option<Option<AppMessage>>)
    : (m: Option<AppMessage>)
    ensures m.Some? ==> VerifyWebhook(secret, event.hmacMatches) && event.body.Some?
                        && decode(event.body.value) == Some(m)
    ensures m.Some? ==> m.value.chat.Some? && "id" in m.value.chat.value
  {
    if VerifyWebhook(secret, event.hmacMatches) && event.body.Some?
       && decode(event.body.value).Some? && decode(event.body.value).value.Some?
    then
      var m := decode(event.body.value).value.value;
      if m.chat.Some? && "id" in m.chat.value then Some(m) else None
    else None
  }

  /** `lambda_handler`. `decode` is `json.loads` of the body (`None` for a
      `JSONDecodeError`) yielding the optional message; `classify` is
      `classify_with_ai`. */
  function LambdaHandler(
    secret: Option<string>, event: AppEvent, t: Table,
    decode: string -> Option<Option<AppMessage>>,
    classify: string -> Option<Record>,
    timestamp: string
  ): (r: (Response, Table, seq<(string, Reply)>))
    ensures (secret.None? || secret.value == "") ==> r.0 != Forbidden
    ensures r.0 == Forbidden ==> r.1 == t && r.2 == []
    ensures r.0 == InvalidJson <==> VerifyWebhook(secret, event.hmacMatches) && event.body.Some? && decode(event.body.value).None?
    ensures r.1 != t ==> r.0 == Success
    ensures r.0 == Success ==> |r.2| == 1 && r.2[0].1.StoredReply?
    ensures (VerifyWebhook(secret, event.hmacMatches) && event.body.Some?
             && decode(event.body.value) == Some(None)) ==> r == (NoMessage, t, [])
    ensures r.0 in {EmptyMessage, Unsupported, NoMessage, LowConfidence} ==> r.1 == t
    ensures r.0 == ClassificationFailed ==> |r.2| == 1 && r.2[0].1 == ClassifyFailed && r.1 == t
    ensures r.0.statusCode in {200, 400, 403, 500}
    ensures var m := Incoming(secret, event, decode);
      r.0 == EmptyMessage <==> m.Some? && MessageText(m.value) == Ok(Some(""))
    ensures var m := Incoming(secret, event, decode);
      r.0 == Unsupported <==> m.Some? && MessageText(m.value) == Ok(None)
    ensures var m := Incoming(secret, event, decode);
      m.Some? && MessageText(m.value).Ok? && MessageText(m.value).value.Some? && MessageText(m.value).value.value != "" ==>
        var text := MessageText(m.value).value.value;
        r == Classified(t, Show(m.value.chat.value["id"]), text, classify(text), timestamp)
  {
    if !VerifyWebhook(secret, event.hmacMatches) then (Forbidden, t, [])
    else if event.body.None? then (InternalError, t, [])
    else
      match decode(event.body.value)
      case None => (InvalidJson, t, [])
      case Some(None) => (NoMessage, t, [])
      case Some(Some(m)) =>
        if m.chat.None? || "id" !in m.chat.value then (InternalError, t, [])
        else
          var chatId := Show(m.chat.value["id"]);
          match MessageText(m)
          case Err(_) => (InternalError, t, [])
          case Ok(None) => (Unsupported, t, [])
          case Ok(Some(text)) =>
            if text == "" then (EmptyMessage, t, [])
            else Classified(t, chatId, text, classify(text), timestamp)
  }

  /** A message whose text classifies with enough confidence, a category and
      no float field is stored under its category, and the chat gets the
      stored reply. */
  lemma LambdaHandlerStores(
    secret: Option<string>, event: AppEvent, t: Table,
    decode: string -> Option<Option<AppMessage>>,
    classify: string -> Option<Record>,
    timestamp: string, m: AppMessage, text: string, c: Record
  )
    requires Incoming(secret, event, decode) == Some(m)
    requires MessageText(m) == Ok(Some(text)) && text != ""
    requires classify(text) == Some(c) && |c| > 0 && "category" in c
    requires ProcessAction.AtLeast(GetOr(c, "confidence", Int(0)), 60) == Ok(true)
    requires forall a :: a in ClassificationFields && a in c ==> !c[a].Real?
    ensures var r := LambdaHandler(secret, event, t, decode, classify, timestamp);
      var chatId := Show(m.chat.value["id"]);
      && r.0 == Success
      && r.1 == t[(Matcher.CategoryPk(c["category"]), timestamp + "#" + Compact(timestamp))
                  := BrainItem(c, text, chatId, timestamp)]
      && r.2 == [(chatId, StoredReplyOf(c))]
  {
    var chatId := Show(m.chat.value["id"]);
    BrainItemStorable(c, text, chatId, timestamp);
  }

  /** `lambda_handler` as written, classifying through
      `ClassifyWithAiAsWritten`. */
  function LambdaHandlerAsWritten(
    secret: Option<string>, event: AppEvent, t: Table,
    decode: string -> Option<Option<AppMessage>>,
    claudeEnabled: bool, claude: string -> Result<Record>,
    openaiEnabled: bool, openai: string -> Result<Record>,
    timestamp: string
  ): (Response, Table, seq<(string, Reply)>)
  {
    LambdaHandler(secret, event, t, decode,
                  s => ClassifyWithAiAsWritten(s, claudeEnabled, claude, openaiEnabled, openai), timestamp)
  }

  /** With a classifier that never answers, nothing is stored and no message
      succeeds. */
  lemma UnclassifiedStoresNothing(
    secret: Option<string>, event: AppEvent, t: Table,
    decode: string -> Option<Option<AppMessage>>,
    classify: string -> Option<Record>, timestamp: string
  )
    requires forall s :: classify(s).None?
    ensures var r := LambdaHandler(secret, event, t, decode, classify, timestamp);
      r.1 == t && r.0 != Success
  {
  }

  /** As written, the handler never stores an item: every message that gets
      as far as classification ends in "Classification failed". */
  lemma AsWrittenNeverStores(
    secret: Option<string>, event: AppEvent, t: Table,
    decode: string -> Option<Option<AppMessage>>,
    claudeEnabled: bool, claude: string -> Result<Record>,
    openaiEnabled: bool, openai: string -> Result<Record>,
    timestamp: string
  )
    ensures var r := LambdaHandlerAsWritten(secret, event, t, decode, claudeEnabled, claude, openaiEnabled, openai, timestamp);
      r.1 == t && r.0 != Success
  {
    var classify := s => ClassifyWithAiAsWritten(s, claudeEnabled, claude, openaiEnabled, openai);
    forall s ensures classify(s).None? {
      AsWrittenNeverClassifies(s, claudeEnabled, claude, openaiEnabled, openai);
    }
    UnclassifiedStoresNothing(secret, event, t, decode, classify, timestamp);
  }

  /** What follows a successful read of the message text. */
  function Classified(t: Table, chatId: string, text: string, classification: Option<Record>, timestamp: string)
    : (r: (Response, Table, seq<(string, Reply)>))
    ensures classification.None? || |classification.value| == 0 ==> r == (ClassificationFailed, t, [(chatId, ClassifyFailed)])
    ensures r.0 in {ClassificationFailed, LowConfidence, Success, StorageFailed, InternalError}
    ensures r.0 == LowConfidence <==>
      (classification.Some? && |classification.value| > 0
       && ProcessAction.AtLeast(GetOr(classification.value, "confidence", Int(0)), 60) == Ok(false))
    ensures r.0 == LowConfidence ==> r.1 == t && |r.2| == 1 && r.2[0].1.LowConfidenceReply?
    ensures r.0 == Success <==>
      (classification.Some? && |classification.value| > 0
       && ProcessAction.AtLeast(GetOr(classification.value, "confidence", Int(0)), 60) == Ok(true)
       && StoreBrainItem(t, classification.value, text, chatId, timestamp).0)
    ensures r.0 == StorageFailed <==>
      (classification.Some? && |classification.value| > 0
       && ProcessAction.AtLeast(GetOr(classification.value, "confidence", Int(0)), 60) == Ok(true)
       && !StoreBrainItem(t, classification.value, text, chatId, timestamp).0)
    ensures r.0 == Success ==>
      && r.1 == StoreBrainItem(t, classification.value, text, chatId, timestamp).1
      && r.2 == [(chatId, StoredReplyOf(classification.value))]
    ensures r.0 != Success ==> r.1 == t
  {
    if classification.None? || |classification.value| == 0 then (ClassificationFailed, t, [(chatId, ClassifyFailed)])
    else
      var c := classification.value;
      var confidence := GetOr(c, "confidence", Int(0));
      match ProcessAction.AtLeast(confidence, 60)
      case Err(_) => (InternalError, t, [])
      case Ok(false) => (LowConfidence, t, [(chatId, LowConfidenceReply(confidence))])
      case Ok(true) =>
        var stored := StoreBrainItem(t, c, text, chatId, timestamp);
        if stored.0 then (Success, stored.1, [(chatId, StoredReplyOf(c))])
        else (StorageFailed, t, [(chatId, StoreFailed)])
  }
}

=== FILE: wrappers.dfy ===
/** Failure-carrying datatypes shared by every module of the model.
    `Result` stands for a Python call that either returns or raises; the
    error text names the exception the source would raise. */
module Wrappers {

  datatype Option<+T> = None | Some(value: T) {

    /** The encapsulated value, or `default` when there is none. */
    function GetOr(default: T): T {
      match this
      case Some(v) => v
      case None => default
    }
  }

  datatype Result<+T> = Ok(value: T) | Err(error: string) {

    predicate IsFailure() {
      Err?
    }

    function PropagateFailure<U>(): Result<U>
      requires Err?
    {
      Err(error)
    }

    function Extract(): T
      requires Ok?
    {
      value
    }
  }
}
